=== FILE: README.md ===
# tle-fetcher core in Dafny

A model of the acquisition and validation engine of tle-fetcher. The tool
downloads two-line element sets (TLEs) of Earth satellites from several
public sources, checks them, and keeps them in caches and a catalogue
database. The model covers two things:

- the parsers, in their Python and Rust variants;
- the fetch paths around them: the legacy command line, the `FetchService`
  with its cache and repository, and the catalogue discovery pipeline.

Every operation is a pure function. The network, the clock, random draws,
the file system and SQLite are replaced by parameters or by immutable
values. The parsed record is an immutable datatype, so it cannot change
after parsing, just as the frozen dataclass of the source.

Modules, one per source file or concern:

- `Basics`: `Option` and `Result`.
- `Text`: Python `strip`, `splitlines`, `split` and `isdigit`, and Rust
  `trim`, `lines` and `is_whitespace`, each over code points.
- `TleTypes`: the parsed record and the parse errors.
- `TleText` (`tle_fetcher/tle.py`): the NORAD mod-10 checksum, the catalog
  field, the line-pair search and the first parser.
- `Epoch`: the two-digit year and fractional day of line 1, as whole
  microseconds since 0001-01-01, with the day read as an exact decimal.
- `PythonImpl` (`tle_fetcher/core/python_impl.py`) and `RustCore`
  (`core-rs/tle_core/src/lib.rs`): the two back ends of `tle_fetcher.core`.
  The model proves where they agree and where they part.
- `CoreLegacy` (`tle_fetcher/core.py`): the shared parser and the download
  retry loop. The retry loop of `tle_fetcher/cli.py` (lines 41-59) is the
  same loop and shares this model.
- `LegacyFallback` and `LegacyCli` (`tle_fetcher/cli.py`): the
  source-fallback loop with verification, the identifier prompt, the source
  order, the output-path template and the exit code.
- `PyFormat`: the keyword-only part of `str.format`.
- `CliCommon` and `CliFetch` (`tle_fetcher/cli/`): identifier files, merging
  and the `fetch` sub-command.
- `FetchCache` (`fetch/cache.py`): the TTL cache.
- `FetchSources` (`fetch/sources.py`): the HTTP clients, with rate limiting,
  requests, the source registry and the source order.
- `FetchService` (`fetch/service.py`): cache, then repository, then stale
  record when offline, then network, with an optional random re-check.
- `Json` and `UrlEncode`: JSON payloads as the parsers receive them, and
  the `quote_plus`/`urlencode` the CelesTrak feed uses.
- `CatalogSources` and `CatalogFeeds` (`ingest/catalog_sources.py`): the
  response cache, the text-feed scan, and the CelesTrak and Ivan Stanojević
  feeds.
- `Pipeline` (`ingest/pipeline.py`): a discovery run that fetches a feed,
  keeps the entries newer than the cursor, stores the new ones and logs the
  run.
- `Config` (`config.py`) and `LogRedact` (`logging.py`): boolean environment
  words, secret masking, the Notion flag, and redaction of log extras.

Some behaviour of the code that the model keeps and that is easy to miss:

- `FetchService.fetch_many` (`fetch/service.py:60-70`) calls `fetch_one`
  for each identifier in turn. An exception for one identifier therefore
  ends the whole batch.
- `_fetch_from_network` (`fetch/service.py:172-182`) tries the clients in
  order and stops at the first one whose payload parses. Before returning,
  it writes that record to the cache and the repository (lines 179-181).
  This happens in both re-check branches of `fetch_one` (lines 91-106 and
  119-133), whether the network record matches the stored one or not.
- The parsers of `tle_fetcher/tle.py` (lines 98-104) and
  `tle_fetcher/core.py` (lines 139-145) raise the identifier-mismatch error
  inside a `try` that catches it. So they never refuse a payload whose
  catalog field differs from the requested identifier. The parsers of the
  core package do refuse it (`tle_fetcher/core/python_impl.py:78-81`,
  `core-rs/tle_core/src/lib.rs:101-107`).

## Model

| member | source | states |
|---|---|---|
| TleTypes.ShownLines | tle_fetcher/core/types.py:19-22 | the title is written only when asked for and non-empty; the last two lines are always line 1 and line 2 |
| TleTypes.AsTextLines | tle_fetcher/core/types.py:19-22 | splitting the written text at line breaks gives back exactly the shown lines (round trip of `as_text`) |
| TleTypes.AsText | tle_fetcher/core/types.py:19-22 | the text ends in a line break, and without a title or when the title is not asked for it is exactly the two lines, each followed by a line break |
| TleText.Checksum | tle_fetcher/tle.py:33-50 | the one-pass loop over the line (trailing whitespace dropped) computes exactly the checksum rule: digits count their value, a minus counts one, the total mod 10 must equal the final digit |
| TleText.CheckDigitCompletes | tle_fetcher/tle.py:44-50 | appending the check digit of any body yields a line that passes the checksum |
| TleText.CheckDigitChangeDetected | tle_fetcher/tle.py:44-50 | replacing the check digit of a line that passes the checksum with any other digit makes it fail |
| TleText.DigitChangeDetected | tle_fetcher/tle.py:44-50 | changing any one digit before the check digit of a valid line always makes it fail the checksum |
| TleText.Catnum | tle_fetcher/tle.py:53-54 | the catalog field has at most five characters; the Python field is `line[2:7]` when that slice holds no whitespace, and so is the Rust field (bytes 2..7 of the UTF-8 line) when the first seven columns are also ASCII |
| TleText.FindPair | tle_fetcher/tle.py:72-77 | none is found iff no position holds a "1 " line followed by a "2 " line; otherwise the first such position, with the preceding line as title only when it is not itself an element line |
| TleText.FirstDefect | tle_fetcher/tle.py:91-96 | no defect iff the lines are well formed; the defect reported is the first of prefix, checksum and catalog-number checks in that order |
| TleText.JsonPair | tle_fetcher/tle.py:79-89 | the JSON fallback succeeds iff the decoded value is an object with both `line1` and `line2`, and then returns their `str()` texts and the `name` member |
| TleText.ParseTleText | tle_fetcher/tle.py:57-106 | an empty cleaned payload fails with the empty-payload error; every accepted record has well-formed lines and keeps the requested identifier and source; the identifier check never rejects |
| TleText.AsTextJoined | tle_fetcher/tle.py:25-30 | the `"\n".join(...) + "\n"` text equals the record text of the shared record class |
| TleText.FindPairOfShown | tle_fetcher/tle.py:72-77 | the pair search over the lines `as_text` writes finds exactly the record's lines and (with the title line) its name |
| TleText.ParseAsText | tle_fetcher/tle.py:57-106 | parsing what `as_text` wrote returns the record, without its name when the title line was omitted |
| TleText.ParseFound | tle_fetcher/tle.py:72-106 | a located, well-formed pair is returned unchanged as the record |
| TleText.TextPairWins | tle_fetcher/tle.py:79-89 | the JSON view is consulted only when the text holds no line pair |
| Epoch.PivotYear | tle_fetcher/tle.py:115 | two-digit years map into 1957..2056 and keep their last two digits |
| Epoch.PivotOfYear | tle_fetcher/tle.py:115 | every year of the window is recovered from its last two digits |
| Epoch.ParseDayOfPrinted | tle_fetcher/tle.py:113 | a day printed as zero-padded whole and fraction parts reads back as the same day |
| Epoch.PyEpoch | tle_fetcher/tle.py:109-121 | the Python readers fail with a bad-year error iff the stripped year slice is not digits, fail with an out-of-range day iff the year is digits and the day either spells infinity or puts the instant past 9999-12-31T23:59:59.999999 (where `datetime` overflows), succeed only on lines longer than 20 characters, and never answer past that instant |
| Epoch.RustEpoch | core-rs/tle_core/src/lib.rs:133-171 | the Rust reader refuses exactly the lines shorter than 32 characters and only otherwise succeeds; on a full line with a digit year it reports an out-of-range day exactly when the trimmed day spells infinity or its instant passes 9999-12-31T23:59:59.999999, where the `__add__` at lines 163-169 overflows; it never answers past that instant |
| Epoch.RustAgreesWithPython | core-rs/tle_core/src/lib.rs:133-171 | on full-length lines with a digit year, no U+001C..U+001F in the day field and a day that does not spell NaN, the Rust and Python readers give the same instant or the same error |
| Epoch.NanDayReadersDisagree | core-rs/tle_core/src/lib.rs:140-170 | a day field spelling NaN is a bad day for Python, while Rust saturates it to day 0 and answers the last day of the previous year |
| Epoch.PyEpochOfFields | tle_fetcher/core/python_impl.py:87-96 | the instant of a line with known fields is the pivoted year plus the parsed day, unless that passes year 9999, when the day is out of range |
| Epoch.MaxInstantIsLast | tle_fetcher/tle.py:118-120 | the largest instant the readers answer is 9999-12-31T23:59:59.999999, the microsecond before 10000-01-01 |
| Epoch.SmallDayInRange | tle_fetcher/tle.py:116-120 | with any two-digit year, a day field below 2,800,001 whole days stays within year 9999 |
| Epoch.LargeDayOverflows | core-rs/tle_core/src/lib.rs:163-169 | with any two-digit year, a day field of 3,000,000 whole days or more passes year 9999 |
| Epoch.OverflowRefused | core-rs/tle_core/src/lib.rs:163-169 | a full line whose day passes year 9999 is refused as out of range by both the Rust and the Python readers |
| Epoch.ShortLineReadersDisagree | core-rs/tle_core/src/lib.rs:134-136 | a line cut after the day field is refused by the Rust reader, and read by the Python readers unless the day passes year 9999 |
| Epoch.SpaceStationExample | tle_fetcher/core/python_impl.py:87-96 | day 157.20856222 of 2024 is 2024-06-05 05:00:19.775808 UTC |
| Epoch.TestLineWithinTolerance | tests/core/test_epoch.py:18-45 | every line the epoch test generates, its fraction rounded half to even as `round` does, reads back within 900 microseconds (in fact 432) of the intended instant |
| Epoch.TestDayClose | tests/core/test_epoch.py:18-26 | the generated day field, rounded half to even, is within 432 microseconds of the intended instant, carry into the next day included |
| Epoch.TestLineFields | tests/core/test_epoch.py:18-26 | the generated line's epoch is the instant of the generated day field |
| Epoch.RoundHalfEven | tests/core/test_epoch.py:20 | `round` of a quotient is a nearest integer, and on a tie the even one |
| Epoch.TestDayTieEven | tests/core/test_epoch.py:20-25 | 432 microseconds, exactly half an eight-digit step, is written as fraction `00000000`, and 1296 as `00000002` |
| Epoch.EightDigitFraction | tle_fetcher/core/python_impl.py:93-96 | an eight-digit day fraction is an exact multiple of 864 microseconds |
| PythonImpl.EnsureSource | tle_fetcher/core/python_impl.py:34-35 | the source name is never empty and a non-empty name is kept |
| PythonImpl.EnsureSourceIdempotent | tle_fetcher/core/python_impl.py:34-35 | filling in the source name twice is filling it in once |
| PythonImpl.ResolvedId | tle_fetcher/core/python_impl.py:83 | a requested identifier wins; otherwise the stripped catalog field |
| PythonImpl.Validate | tle_fetcher/core/python_impl.py:66-84 | empty line, prefix, checksum, catalog and identity checks in source order; success iff all pass, with the resolved identifier and filled-in source |
| PythonImpl.Parse | tle_fetcher/core/python_impl.py:38-84 | accepted records have well-formed lines, a non-empty source, the resolved identifier and no identity clash; every error is one of the six named ones |
| PythonImpl.AgreesWithTleModule | tle_fetcher/core/python_impl.py:38-84 | on a non-empty payload this parser returns what `tle_fetcher/tle.py` returns, except an identity mismatch, or an empty JSON line the other refuses for its prefix |
| PythonImpl.IdentityOnlyNarrows | tle_fetcher/core/python_impl.py:78-83 | asked for an identifier, the parser gives an identity mismatch or what it gives without one, with the requested identifier in place of the catalog field |
| PythonImpl.LeadingZerosMatch | tle_fetcher/core/python_impl.py:78-81 | the catalog field `00005` answers a request for `5` |
| PythonImpl.AlphaFiveSkipped | tle_fetcher/core/python_impl.py:78-81 | an Alpha-5 catalog field is never compared with the requested identifier |
| PythonImpl.ParseAsTextUnder | tle_fetcher/core/python_impl.py:38-84 | text written by `as_text` parses back to the record under any non-clashing requested identifier |
| PythonImpl.ParseAsText | tests/core/test_parse.py:41-52 | a record parses back from its own text with its own identifier and source |
| PythonImpl.ReparseFromText | tests/core/test_parse.py:50-52 | a record parsed from a line pair reads back from its own text with the same lines, title and identifier under any source name |
| RustCore.ParseI64 | core-rs/tle_core/src/lib.rs:104 | the `i64` parse succeeds iff the digit string is non-empty and within range, with its decimal value |
| RustCore.CatDigits | core-rs/tle_core/src/lib.rs:102 | the filtered catalog field holds no Rust whitespace |
| RustCore.JsonName | core-rs/tle_core/src/lib.rs:72-76 | an absent or null name gives none; a string its text; anything else the empty title |
| RustCore.JsonPair | core-rs/tle_core/src/lib.rs:64-83 | the JSON fallback succeeds iff the value is an object with `line1` and `line2`, each read as a string or else empty |
| RustCore.ResolvedId | core-rs/tle_core/src/lib.rs:112-116 | a requested identifier wins; otherwise the trimmed catalog field |
| RustCore.Validate | core-rs/tle_core/src/lib.rs:85-124 | the checks in source order; success iff all pass, with resolved identifier and filled-in source |
| RustCore.Parse | core-rs/tle_core/src/lib.rs:41-125 | accepted records have well-formed lines, a non-empty source, the resolved identifier and no identity clash |
| RustCore.IdentityHolds | core-rs/tle_core/src/lib.rs:101-110 | within `i64`, a record accepted under a requested number carries that number in its catalog field |
| RustCore.OversizedIdNotCompared | core-rs/tle_core/src/lib.rs:104 | a requested number beyond `i64` is never compared, where the Python core compares it |
| RustCore.ParseAsTextUnder | core-rs/tle_core/src/lib.rs:41-125 | text written by `as_text` parses back to the record under any non-clashing requested identifier; with no identifier requested, the record is filed under the trimmed byte-sliced catalog field |
| RustCore.FlavorsAgreeOnLines | core-rs/tle_core/src/lib.rs:6-30 | on clean lines that are ASCII in their first seven columns, with no U+001C..U+001F in the catalog field, the Rust checks accept exactly what the Python checks accept, with the same catalog field |
| RustCore.CatalogBytesPartFlavors | core-rs/tle_core/src/lib.rs:28-30 | when a three-byte character ends the first five bytes of the field, two lines differing only after it pass the Rust checks with equal catalog fields, while Python reports differing catalog numbers |
| RustCore.StraddleEmptiesCatnum | core-rs/tle_core/src/lib.rs:28-30 | a multi-byte character that crosses byte 7 makes the Rust slice fail and the catalog field empty, while Python keeps `line[2:7]` |
| RustCore.EuroLinesPassChecksums | core-rs/tle_core/src/lib.rs:6-26 | two short lines carrying a euro sign at column 5 pass the checksums of both flavours, so they reach the catalog comparison |
| RustCore.AgreesWithPythonOnWritten | core-rs/tle_core/src/lib.rs:41-125 | on text written by `as_text` the Rust and Python parsers return the same record |
| CoreLegacy.Checked | tle_fetcher/core.py:132-147 | the validation succeeds iff the lines are well formed, returning the record with the requested identifier; the identifier check never rejects |
| CoreLegacy.ParseTleText | tle_fetcher/core.py:107-147 | empty payload iff no cleaned line; accepted lines are well formed; a non-string JSON member fails with the attribute error |
| CoreLegacy.AgreesWithTleModule | tle_fetcher/core.py:121-130 | apart from the non-string JSON member, this parser and the one of `tle_fetcher/tle.py` give the same result |
| CoreLegacy.AgreesOnStringMembers | tle_fetcher/core.py:107-147 | with string members or a line pair in the text, the two parsers agree exactly |
| CoreLegacy.HttpGet | tle_fetcher/core.py:46-79 | at most `retries + 1` attempts; sleep k is `backoff * 2^k` plus the jitter; every attempt before the last failed; success returns the last reply, failure the last error |
| LegacyFallback.KnownOnly | tle_fetcher/core.py:291-294 | only names `SOURCE_FUNCS` knows are tried, in order |
| LegacyFallback.Verify | tle_fetcher/cli.py:212-224 | the verification loop asks only known other sources, in order, stops at `1 + verify_with` records, and every gathered record answered a call |
| LegacyFallback.TrySources | tle_fetcher/cli.py:205-226 | the calls made extend those made before, and a successful pass gathers at most `1 + verify_with` records |
| LegacyFallback.NoneAnswered | tle_fetcher/core.py:309-314 | when no source answers, every known source was asked once and its failure recorded |
| LegacyFallback.FirstWins | tle_fetcher/core.py:291-308 | when some source answers, every earlier call failed, the calls follow the known names in order, and afterwards only other known sources are asked, none without verification |
| LegacyFallback.Latest | tle_fetcher/core.py:316 | `max` by epoch returns the first record with the greatest epoch, or fails at the first unreadable epoch |
| LegacyFallback.LatestUnique | tle_fetcher/core.py:316 | the first maximum and the first unreadable record are unique and exclusive, so `max` is determined |
| LegacyFallback.FetchWithFallback | tle_fetcher/core.py:274-318 | a cached record is returned untouched; a record is written iff the fetch succeeds with gathered records, and the result is one of them |
| LegacyFallback.FetchAllFailed | tle_fetcher/core.py:312-314 | with nothing gathered the fetch fails with the message of the recorded failures |
| LegacyFallback.MessageLists | tle_fetcher/core.py:313-314 | the message names every source asked once, in order of first asking, or reads `no sources attempted` |
| LegacyFallback.FetchFirstWins | tle_fetcher/cli.py:205-226 | the first answering source wins and at most `1 + verify_with` records are gathered |
| LegacyFallback.FetchPicksLatest | tle_fetcher/cli.py:232-234 | the record returned and written is the first gathered one with the latest epoch |
| LegacyCli.RequestedIds | tle_fetcher/cli.py:340-345 | a missing identifiers file stops the run; without a file the command-line identifiers are used as given |
| LegacyCli.RequestedIdsMerge | tle_fetcher/cli.py:345 | command-line and file identifiers are merged keeping first occurrences, in order |
| LegacyCli.FirstAnswer | tle_fetcher/cli.py:350-358 | the prompt stops at the first quit word or number and at no earlier answer |
| LegacyCli.Prompt | tle_fetcher/cli.py:347-358 | the prompt is exhausted iff no answer is decisive; it quits on a quit word and otherwise returns a stripped all-digit identifier |
| LegacyCli.QuitIsNotNumber | tle_fetcher/cli.py:352-356 | no quit word is a number, so the two ways of ending the prompt do not overlap |
| LegacyCli.SourceOrder | tle_fetcher/cli.py:360-362 | the order is never empty; every name is non-empty and lower case; an empty list falls back to the four-source default |
| LegacyCli.SourceOrderOfList | tle_fetcher/cli.py:360 | writing a list of clean lower-case names with commas and reading it back gives the list |
| LegacyCli.SourceOrderOfOne | tle_fetcher/cli.py:360 | a single comma-free name without surrounding whitespace is read as its lower-cased self |
| LegacyCli.KelvinSourceName | tle_fetcher/cli.py:360 | `CELESTRA\u212a`, spelled with the Kelvin sign, is read as `celestrak` |
| LegacyCli.OutputName | tle_fetcher/cli.py:317 | the safe name has no `/` and no space, the same length, and changes only those two characters |
| LegacyCli.OutputNameIdempotent | tle_fetcher/cli.py:317 | a name already made safe stays as it is |
| LegacyCli.FormatOutputPath | tle_fetcher/cli.py:312-320 | `-` stays `-`; an unreadable epoch or a bad template gives the pattern back; a present epoch text stands for `str()` of the `datetime` |
| LegacyCli.EpochText | tle_fetcher/cli.py:316 | the epoch text is absent exactly when the core package's `epoch` (Rust when built, else Python) raises, and is otherwise the shown instant |
| LegacyCli.OutputPathOf | tle_fetcher/cli.py:312-320 | a record whose line 1 the back end cannot read gets the pattern back; a readable one fills the template with its shown epoch |
| LegacyCli.ShortLinePathsDiffer | tle_fetcher/core/_rust.py:18-37 | a line 1 shorter than 32 characters keeps the pattern under the Rust back end and fills it under the Python one |
| LegacyCli.FormatOutputPathOfTemplate | tle_fetcher/cli.py:318 | a template written from pieces is filled with the identifier, safe name and epoch |
| LegacyCli.PlainPattern | tle_fetcher/cli.py:318 | a pattern without braces names a fixed path |
| LegacyCli.RunCli | tle_fetcher/cli.py:339-399 | a missing file exits 2; input runs out iff there are no identifiers and no decisive answer; a quit exits 0; otherwise every requested (or chosen) identifier is attempted and the code is 0 iff all went through, else 2 |
| PyFormat.ParseUnparse | tle_fetcher/cli.py:318 | every template with brace-free field names reads back as written |
| PyFormat.Format | tle_fetcher/cli.py:318 | formatting fails on a bad template, and otherwise succeeds iff every field names a supplied value |
| PyFormat.FormatOfTemplate | tle_fetcher/cli.py:318 | formatting a template written from its pieces fills each field with its value |
| PyFormat.PlainFormat | tle_fetcher/cli.py:318 | a text without braces formats to itself, whatever the values |
| CliCommon.StripComment | tle_fetcher/cli/common.py:68 | the kept part of a line holds no `#`, and is clean when non-empty |
| CliCommon.IdLinesOfTerminated | tle_fetcher/cli/common.py:67-71 | identifiers written one per line come back from the file in order |
| CliCommon.CommentIgnored | tle_fetcher/cli/common.py:68 | a trailing comment is ignored |
| CliCommon.LoadIdsFromFile | tle_fetcher/cli/common.py:58-71 | no path gives no identifiers; a missing file is an error; otherwise the identifiers of the file's lines |
| CliCommon.MergeIds | tle_fetcher/cli/common.py:74-85 | the loop computes the stripped, non-blank values with repeats removed, first occurrences kept in order |
| CliCommon.MergeFromIsDedup | tle_fetcher/cli/common.py:79-84 | merging value by value is stripping, dropping blanks and then dropping repeats |
| CliCommon.MergeProperties | tle_fetcher/cli/common.py:74-85 | the merge has no repeats, holds exactly the non-blank stripped values, and keeps their first-occurrence order |
| CliCommon.DedupPrefix | tle_fetcher/cli/common.py:79 | the explicit identifiers' merge is a prefix of the full merge |
| CliFetch.LoadIds | tle_fetcher/cli/fetch.py:20-28 | a missing file is an error; otherwise every identifier is a word without `#` |
| CliFetch.LoadIdsOfTerminated | tle_fetcher/cli/fetch.py:20-28 | identifiers written one per line come back in order |
| CliFetch.NormalizeIds | tle_fetcher/cli/fetch.py:31-38 | every identifier is non-empty and holds no comma |
| CliFetch.NormalizeIdsAppend | tle_fetcher/cli/fetch.py:31-38 | normalising a list is normalising its parts one after another |
| CliFetch.NormalizeIdsOfJoined | tle_fetcher/cli/fetch.py:31-38 | a comma-joined list of identifiers reads back as the list, repeats included |
| CliFetch.KeepsRepeats | tle_fetcher/cli/fetch.py:31-38 | repeats are kept: `25544,25544` gives two identifiers |
| CliFetch.DetermineOffline | tle_fetcher/cli/fetch.py:64-67 | the flag forces offline; without the variable the flag decides |
| CliFetch.OfflineIgnoresCase | tle_fetcher/cli/fetch.py:67 | the variable is read without regard to case |
| CliFetch.OfflineWords | tle_fetcher/cli/fetch.py:67 | `TRUE` and `Yes` switch offline on; `0`, `no` and the empty text do not |
| CliFetch.ResolveStateDir | tle_fetcher/cli/fetch.py:55-61 | the flag wins, then a non-empty variable, then the home cache directory |
| CliFetch.RunIds | tle_fetcher/cli/fetch.py:75-82 | `--all` with a missing file stops the run; otherwise the file's identifiers then the normalised `--ids` |
| CliFetch.Run | tle_fetcher/cli/fetch.py:74-118 | a missing file or no identifiers exits 2 with nothing attempted; otherwise every identifier is attempted in order and the code is 1 iff some lookup failed |
| FetchCache.Age | fetch/cache.py:22-24 | the age added to the fetch time is the current time |
| FetchCache.IsStale | fetch/cache.py:26-30 | with no time-to-live nothing is stale; otherwise an entry is stale exactly when its age exceeds the time-to-live |
| FetchCache.StaleBoundary | fetch/cache.py:26-30 | an entry exactly as old as the time-to-live is fresh; one microsecond later it is stale |
| FetchCache.StaleMonotone | fetch/cache.py:26-30 | once stale an entry stays stale as time passes, and a shorter time-to-live makes it stale no later |
| FetchCache.Get | fetch/cache.py:40-49 | absent identifiers give nothing; with no time-to-live or with stale allowed the entry is returned; otherwise nothing iff the entry is stale |
| FetchCache.Set | fetch/cache.py:51-52 | the entry is filed under its record's identifier and every other entry is kept |
| FetchCache.Delete | fetch/cache.py:54-55 | only the identifier is removed; deleting an absent one changes nothing |
| FetchCache.Clear | fetch/cache.py:57-58 | after clearing, no identifier gives anything |
| FetchCache.GetAfterSet | fetch/cache.py:40-52 | what was set is what is got, unless it has gone stale |
| FetchCache.GetOtherAfterSet | fetch/cache.py:40-52 | setting one identifier does not change what another gives |
| FetchCache.LastWriteWins | fetch/cache.py:51-52 | the last write for an identifier wins |
| FetchCache.GetAfterDelete | fetch/cache.py:40-55 | a deleted identifier is gone and the others are untouched |
| FetchSources.EnforceRateLimit | fetch/sources.py:44-53 | no limit leaves the last-request time alone; a request within the limit sleeps a positive delay and records the clock read after the sleep; a later one records the current reading |
| FetchSources.RequestsSpaced | fetch/sources.py:44-53 | when the clock advances through every sleep, consecutive requests of a rate-limited client are at least the limit apart |
| FetchSources.AttributionOf | fetch/sources.py:39 | the attribution header carries the configured attribution, or the client name when that is absent or empty |
| FetchSources.Headers | fetch/sources.py:38-41 | the headers are exactly user agent, attribution and the extra headers; the extra headers override either default |
| FetchSources.BuildRequest | fetch/sources.py:36-42 | a request exists exactly when the URL template can be filled with `id`, and it carries the filled URL and the client's headers |
| FetchSources.Fetch | fetch/sources.py:62-74 | rate limiting always runs first; the payload is the opener's; a URL error and any other failure become a `SourceError` with the client name and the matching text |
| FetchSources.FetchFailuresNamed | fetch/sources.py:68-73 | every fetch failure of a client whose template fills is a `SourceError` that starts with the client name |
| FetchSources.ClientOf | fetch/sources.py:132-140 | a built client keeps the definition's name, starts with no prior request and uses the default user agent |
| FetchSources.KnownOnly | fetch/sources.py:129-131 | exactly the names of the order that are available sources, in order |
| FetchSources.BuildClients | fetch/sources.py:116-142 | one client per distinct known name, in the order of first mention |
| FetchSources.ClientNamesAreKnownFirst | fetch/sources.py:123-131 | the two orders of filtering agree for every starting set of seen names |
| FetchSources.DedupAfterIgnoresAbsent | fetch/sources.py:126-128 | recording a name the order never mentions as seen changes nothing |
| FetchSources.ClientsDistinctKnown | fetch/sources.py:116-121 | client names are distinct and exactly the known names of the order, ordered by first mention |
| FetchSources.ParseSourceOrder | fetch/sources.py:145-149 | empty text gives the default (or nothing); otherwise no part kept is blank |
| FetchSources.ParseSourceOrderOfJoined | fetch/sources.py:145-149 | a comma-joined list of stripped, comma-free names parses back to itself |
| FetchSources.BlankOrderIsEmpty | fetch/sources.py:146-149 | a text of blanks and commas gives no sources rather than the default |
| FetchService.RepositoryGet | fetch/service.py:110 | an entry is found exactly when there is a repository holding the identifier, and it is the stored one |
| FetchService.WriteThrough | fetch/service.py:178-181 | a new entry goes into the cache and, when there is a repository, into it too; no repository is created |
| FetchService.ShouldVerify | fetch/service.py:167-170 | a non-positive percentage never verifies; otherwise the draw is compared with the percentage, read as a fraction when it is at most 1 |
| FetchService.Threshold | fetch/service.py:170 | a percentage between 0 and 100 becomes a fraction between 0 and 1 |
| FetchService.VerifyMonotone | fetch/service.py:167-170 | a larger percentage on the same scale, or a smaller draw, verifies whenever the original did |
| FetchService.PercentScales | fetch/service.py:170 | 50 and 0.5 verify alike; 100 and 1 always verify; 1.5 means 1.5 per cent |
| FetchService.TryClient | fetch/service.py:175-186 | a record from a client belongs to the requested identifier, carries the client's name and has validated lines; a source error keeps its text |
| FetchService.TryClientMessages | fetch/service.py:183-186 | a payload that fails to parse yields one of the parser's messages; a record is labelled with the client that served it |
| FetchService.ParseMessagesDistinct | tle_fetcher/tle.py:67-96 | the five failures the parser reports before the identifier check each have their own non-empty message |
| FetchService.AttemptsValid | fetch/service.py:175-178 | every record any client attempt yields is valid for the requested identifier |
| FetchService.FirstServing | fetch/service.py:174-182 | the index of the first client that yields a record, with no earlier client yielding one |
| FetchService.Put | fetch/service.py:184-186 | recording the error of a client not yet listed appends it at the end of the insertion-ordered errors |
| FetchService.Network | fetch/service.py:172-190 | the network succeeds exactly when some client serves, and then returns the first serving client's record stamped with the clock and its name |
| FetchService.LaterClientsIgnored | fetch/service.py:174-182 | clients after the first serving one are never consulted |
| FetchService.AllFailedErrors | fetch/service.py:183-189 | when every client fails and names are distinct, the errors list each client once, in order, with its own text |
| FetchService.FailureMessage | fetch/service.py:189-190 | with no errors collected the message ends in `no sources` |
| FetchService.ErrorParts | fetch/service.py:189 | each error becomes `name: message`, in order |
| FetchService.Recheck | fetch/service.py:90-106 | a failed re-download changes nothing; a successful one is written through and marks the answer verified, replacing the record with a warning only when its lines differ |
| FetchService.Freshest | fetch/service.py:138-141 | the freshest stale candidate is one of the two, is at least as recent as each, and is absent only when both are |
| FetchService.FromCache | fetch/service.py:84-108 | a fresh cache hit always answers and keeps the stores good |
| FetchService.FromRepository | fetch/service.py:111-135 | a fresh repository entry always answers and keeps the stores good |
| FetchService.FromStale | fetch/service.py:137-165 | with nothing fresh, good stores stay good and any answer is valid for the identifier |
| FetchService.FetchOne | fetch/service.py:72-165 | a failed lookup writes nothing; the offline error arises only offline; a stale answer arises only offline and writes nothing; a fresh cache entry always gives a non-stale answer |
| FetchService.FetchOneKeepsGood | fetch/service.py:72-165 | every lookup keeps each stored entry valid and under its own identifier, and answers a valid record for the identifier asked |
| FetchService.GoodAfterWrite | fetch/service.py:178-181 | writing a valid entry for its identifier keeps both stores good |
| FetchService.FreshCacheHit | fetch/service.py:83-89 | a fresh cache hit without a re-check answers from the cache, labelled `cache`, and changes nothing |
| FetchService.CacheRecheck | fetch/service.py:90-107 | a re-checked cache hit: a failed download changes nothing; a successful one is written through and verified, and differing lines replace the answer with a warning |
| FetchService.RepositoryPromoted | fetch/service.py:110-117 | a stale or missing cache entry with a fresh repository entry copies it into the cache and answers it |
| FetchService.OfflineAnswer | fetch/service.py:137-153 | offline with nothing fresh: the most recently fetched stored record marked stale, or the offline error exactly when nothing is stored; nothing is written |
| FetchService.OnlineAnswer | fetch/service.py:155-165 | online with nothing fresh: the first serving client's record is written through and answered, with the replaced-stale warning exactly when something was stored; otherwise the error with all collected failures |
| FetchService.Lookup | fetch/service.py:72-165 | a lookup driven by source replies keeps good stores good and answers valid records |
| FetchService.FetchMany | fetch/service.py:53-70 | a successful run answers once per identifier |
| FetchService.FetchManyKeepsGood | fetch/service.py:53-70 | over a whole list the stores stay good: every cached and stored entry is filed under its own identifier and holds well-formed lines |
| FetchService.FetchManyAnswersValid | fetch/service.py:53-70 | when the whole list succeeds, the i-th answer is a valid record for the i-th identifier |
| FetchService.FetchManyAnswerHolds | fetch/service.py:53-70 | for any store invariant each call keeps and any property each call's answer has, the i-th answer of the list has it for the i-th identifier |
| FetchService.FetchManyOneByOne | fetch/service.py:61-69 | the i-th answer is the lookup of the i-th identifier on the stores the earlier lookups left |
| FetchService.FetchManyAppend | fetch/service.py:53-70 | looking up a list is looking up its two halves in turn, stopping at the first error |
| CatalogSources.CacheKeyInjective | ingest/catalog_sources.py:52-54 | distinct feeds or distinct requested dates never share a cache key, given feed names without a bar and dates whose text is never `none` |
| CatalogSources.CacheKey | ingest/catalog_sources.py:52-54 | the key starts with the feed name followed by a bar |
| CatalogSources.Store | ingest/catalog_sources.py:56-74 | the body stored loads back; the key is added and every other key keeps its body |
| CatalogSources.IdentityIgnoresTitleAndEpoch | ingest/catalog_sources.py:31-32 | the identity ignores title and epoch and changes with the feed, the catalog number or either line |
| CatalogSources.Load | ingest/catalog_sources.py:76-82 | a stored body is returned exactly when its key is present |
| CatalogSources.LoadAfterStore | ingest/catalog_sources.py:56-82 | a stored body loads back, and storing again under the same key replaces it |
| CatalogSources.LoadOtherAfterStore | ingest/catalog_sources.py:56-82 | storing for one feed and date leaves every other feed and date's load unchanged |
| CatalogSources.PairsFrom | ingest/catalog_sources.py:124-134 | the reference view holds a block for exactly the positions where a `1 ` line is directly followed by a `2 ` line, with its title |
| CatalogSources.KeepFirst | ingest/catalog_sources.py:135-139 | only blocks whose line pair has not been seen are kept |
| CatalogSources.KeepFirstFingerprints | ingest/catalog_sources.py:135-139 | the kept line pairs are the original line pairs with repeats removed |
| CatalogSources.KeepFirstIsFirst | ingest/catalog_sources.py:135-139 | each kept block is the first block carrying its line pair |
| CatalogSources.ScanKeepsFirst | ingest/catalog_sources.py:122-139 | the scan equals the reference view with every repeated line pair dropped after its first block |
| CatalogSources.BlocksFrom | ingest/catalog_sources.py:124-139 | a scan from any position yields no line pair already seen and no line pair twice |
| CatalogSources.Blocks | ingest/catalog_sources.py:122-139 | the scan yields no line pair twice |
| CatalogSources.BlocksSpec | ingest/catalog_sources.py:122-139 | the scan yields no line pair twice, only pairs present in the lines with their titles, every pair present, each at its first occurrence |
| CatalogSources.Filled | ingest/catalog_sources.py:146 | the parts kept by `filter(None, ...)` are all non-empty |
| CatalogSources.FilledOfNonEmpty | ingest/catalog_sources.py:146 | filtering parts that are all non-empty keeps them all |
| CatalogSources.EntryOf | ingest/catalog_sources.py:144-156 | a scanned block yields an entry exactly when its lines pass the checks and its epoch reads; the entry carries the block's catalog field, title, lines and epoch; otherwise the first failed check is reported |
| CatalogSources.ReadBack | ingest/catalog_sources.py:146 | the text joined from a scanned block parses back to exactly the block's title and lines |
| CatalogSources.BlocksScanned | ingest/catalog_sources.py:122-139 | over cleaned lines every block the scan yields is clean, prefixed and has a title that is not an element line |
| CatalogSources.FeedEntries | ingest/catalog_sources.py:142-157 | cleaned lines yield entries exactly when every block is valid, and then one entry per block in order |
| CatalogSources.EntriesFromLines | ingest/catalog_sources.py:142-157 | a success has one entry per scanned block, each of the feed with well-formed lines; failure happens exactly when some block fails |
| CatalogSources.ScanWritten | ingest/catalog_sources.py:122-139 | scanning a feed written block after block yields the blocks from the given one on |
| CatalogSources.ScanStep | ingest/catalog_sources.py:124-139 | one step of the scan over a written feed yields the next block and moves past it with its line pair seen |
| CatalogSources.SeenBefore | ingest/catalog_sources.py:135-138 | with distinct line pairs each block's pair is new when reached and is then added to those seen |
| CatalogSources.WrittenClean | ingest/catalog_sources.py:176 | a feed written from scanned blocks consists of clean lines |
| CatalogSources.FeedRoundTrip | ingest/catalog_sources.py:142-157 | a feed written from distinct valid blocks parses to one entry per block, in order, with its title, lines, catalog number and epoch |
| CatalogFeeds.RegistryNames | ingest/catalog_sources.py:237-240 | every registered feed sits under its own name |
| CatalogFeeds.Url | ingest/catalog_sources.py:185-186 | Ivan's URL is fixed whatever the date |
| CatalogFeeds.CelesTrakUrl | ingest/catalog_sources.py:168-173 | CelesTrak's query reads back as exactly the `GROUP` and `FORMAT` parameters, whatever the group holds |
| CatalogFeeds.Iterated | ingest/catalog_sources.py:196-200 | iterating fails exactly for null, booleans and numbers; a list gives its items |
| CatalogFeeds.RecordOf | ingest/catalog_sources.py:201-206 | an item is kept exactly when it is an object whose `line1` and `line2` are strings, and the record carries those strings |
| CatalogFeeds.RecordName | ingest/catalog_sources.py:207 | the title is present exactly when `name` is a string member |
| CatalogFeeds.DumpedRecordParse | ingest/catalog_sources.py:211-215 | the dumped record parses to exactly the record's lines under its title |
| CatalogFeeds.RecordObjectMembers | ingest/catalog_sources.py:213 | the dumped object's members look up to the record's lines and title |
| CatalogFeeds.RecordEpoch | ingest/catalog_sources.py:216-223 | an ISO stamp that reads, with `Z` taken as `+00:00`, is the epoch; otherwise the epoch comes from line 1 |
| CatalogFeeds.IvanEntry | ingest/catalog_sources.py:208-233 | a record becomes an entry exactly when its lines pass the checks and its epoch reads; the entry carries its identifier, title, lines and epoch; a bad record reports its first failed check |
| CatalogFeeds.IvanItemsAreRecords | ingest/catalog_sources.py:200-234 | the loop skips exactly the items that are not records and fails at the first bad record |
| CatalogFeeds.TextEntriesValid | ingest/catalog_sources.py:175-177 | every entry of a parsed text feed carries the feed's name and valid lines |
| CatalogFeeds.IvanItemsValid | ingest/catalog_sources.py:200-234 | every entry of a parsed item list is labelled `ivan` and has valid lines |
| CatalogFeeds.Parse | ingest/catalog_sources.py:175-234 | every entry either feed parses carries the feed's name and valid lines |
| CatalogFeeds.ParseIvan | ingest/catalog_sources.py:188-234 | every entry carries the name `ivan` and valid lines; a JSON value that cannot be iterated gives that error |
| CatalogFeeds.IvanRoundTrip | ingest/catalog_sources.py:188-234 | an API document listing valid satellites parses to one entry per satellite, in order |
| CatalogFeeds.ListedEntries | ingest/catalog_sources.py:200-233 | each listed satellite's record becomes its own entry |
| CatalogFeeds.ListedDocumentItems | ingest/catalog_sources.py:196-200 | a document with a `member` list is parsed through that list |
| CatalogFeeds.ListedRecords | ingest/catalog_sources.py:201-206 | every listed item is kept as the record of its satellite |
| CatalogFeeds.ListedShape | ingest/catalog_sources.py:207-216 | a listed satellite's record carries its identifier and title and no timestamp text |
| CatalogFeeds.ListedItemEntry | ingest/catalog_sources.py:208-233 | a valid listed satellite becomes the entry with its identifier, title, lines and line-1 epoch |
| CatalogFeeds.Fetch | ingest/catalog_sources.py:98-119 | offline replays the stored body or fails with the no-cached-response message, never writing; online downloads, parses, then stores the body; failures leave the cache alone; the used-cache flag is exactly offline |
| CatalogFeeds.FetchFeed | ingest/catalog_sources.py:98-119 | every entry a registered feed yields carries the feed's name and valid lines |
| CatalogFeeds.OnlineIgnoresCache | ingest/catalog_sources.py:114-119 | online, neither the requested date nor the cache affects the entries |
| CatalogFeeds.OfflineReplaysOnline | ingest/catalog_sources.py:106-119 | after a successful download, an offline fetch for the same date returns the same entries from the cache and changes nothing |
| CatalogFeeds.FeedReplaysOnline | ingest/catalog_sources.py:106-119 | a registered feed offline replays what it last downloaded for that date, with any downloader |
| Pipeline.RowOf | ingest/pipeline.py:159-175 | a stored row carries exactly the entry's primary key |
| Pipeline.Start | ingest/pipeline.py:103-117 | a new run row records the source, boundary and offline flag, with no cache use, no entries, no cursor and no error |
| Pipeline.Finish | ingest/pipeline.py:119-143 | sealing a run records the cursor, cache flag and count and keeps what the row was opened with |
| Pipeline.Fail | ingest/pipeline.py:145-154 | sealing a failed run records only the error, so its cursor stays empty |
| Pipeline.LatestCursor | ingest/pipeline.py:77-85 | no cursor exactly when no run of the source has one; otherwise the cursor of the last such run |
| Pipeline.LatestCursorAppend | ingest/pipeline.py:77-85 | logging a run of the source with a cursor makes it the latest; any other run leaves the latest alone |
| Pipeline.EffectiveSince | ingest/pipeline.py:192-194 | a given boundary is always used; without one, a source never run has none, and any boundary found is the cursor of a run of the source |
| Pipeline.MaxEpoch | ingest/pipeline.py:87-95 | no maximum exactly when the source has no rows; otherwise an epoch of one of its rows that no other row of it exceeds |
| Pipeline.MaxEpochGrows | ingest/pipeline.py:87-95 | adding rows never lowers the maximum |
| Pipeline.MaxEpochOthers | ingest/pipeline.py:87-95 | rows of other sources leave the maximum unchanged |
| Pipeline.Normalise | ingest/pipeline.py:97-101 | a normalised stamp is naive and denotes the same instant; a naive one is unchanged |
| Pipeline.Filter | ingest/pipeline.py:207-225 | every kept entry is naive and strictly after the boundary; without a boundary nothing is dropped |
| Pipeline.FilterKeeps | ingest/pipeline.py:212-225 | the kept entries are exactly the normalised fetched entries after the boundary |
| Pipeline.FilterAll | ingest/pipeline.py:207-225 | without a boundary every entry is kept, normalised, in order |
| Pipeline.FilterLater | ingest/pipeline.py:215 | a later boundary keeps a subset of what an earlier one keeps |
| Pipeline.StoreEntries | ingest/pipeline.py:156-178 | the table grows by exactly the inserted entries' rows; inserted entries are fetched entries that were not stored, without repeats; afterwards every fetched identity is stored |
| Pipeline.StoreIsDedup | ingest/pipeline.py:159-177 | the inserted identities are the fetched identities with those already stored and repeats removed, in order |
| Pipeline.StoreStored | ingest/pipeline.py:160-177 | storing entries that are all present inserts nothing and changes nothing |
| Pipeline.StoreTwice | ingest/pipeline.py:156-178 | storing the same batch a second time inserts nothing |
| Pipeline.StoreKeepsKeys | ingest/pipeline.py:55 | the primary key stays unique after storing |
| Pipeline.AppendFresh | ingest/pipeline.py:55 | appending distinct entries none of which is present keeps the key unique |
| Pipeline.Settle | ingest/pipeline.py:207-246 | exactly one run row is added; a failed fetch stores nothing and logs the error with no cursor; a successful one stores the inserted rows and logs the table's latest epoch as cursor |
| Pipeline.Run | ingest/pipeline.py:181-246 | an unknown source changes nothing; otherwise one run row is logged; a failed run stores nothing and keeps the cache; a successful one returns new, distinct entries of the source after the boundary and logs the latest epoch |
| Pipeline.RunIsSettle | ingest/pipeline.py:189-206 | a known source's run is its feed's fetch at the effective boundary, then settled |
| Pipeline.SettleStores | ingest/pipeline.py:207-227 | a successful fetch stores the filtered entries and returns those inserted |
| Pipeline.RunKeepsInv | ingest/pipeline.py:181-246 | every run keeps the primary key unique and each source's latest cursor equal to its latest stored epoch |
| Pipeline.FailedRunKeepsInv | ingest/pipeline.py:243-246 | a failed run keeps the invariant |
| Pipeline.StoredRunKeepsInv | ingest/pipeline.py:226-234 | a successful run keeps the invariant |
| Pipeline.Later | ingest/pipeline.py:192-194 | the boundary of a later run is no earlier than that of an earlier run |
| Pipeline.RerunAddsNothing | ingest/pipeline.py:181-246 | repeating a successful online run with the same downloader succeeds and stores nothing new |
| Pipeline.OfflineReplaysQuietRun | ingest/pipeline.py:181-246 | after an online run that found nothing new, an offline run replays the stored response and stores nothing |
| Pipeline.FreshInv | ingest/pipeline.py:44-74 | an empty database satisfies the invariant |
| Pipeline.OnlineTwiceThenOffline | ingest/pipeline.py:181-246 | online, online again, then offline: the second and third runs succeed and add nothing, and only the third uses the cache |
| Json.Get | tle_fetcher/tle.py:82-85 | a member is found exactly when some field has the key, and it is the value of the last such field |
| Json.PyStr | tle_fetcher/tle.py:84-85 | `str()` of a JSON string is the string itself; a container's text starts with a bracket |
| Json.PyStrOfNonString | tle_fetcher/tle.py:84-91 | `str()` of a non-string member never starts like an element line |
| Json.AsStrOrEmpty | core-rs/tle_core/src/lib.rs:70-74 | a string gives itself and anything else the empty string |
| Json.EscapeChar | ingest/catalog_sources.py:213 | the short escapes, printable ASCII kept, other characters as `\uXXXX`, above U+FFFF as a surrogate pair, all in printable ASCII |
| Json.SurrogatesCombine | ingest/catalog_sources.py:213 | the surrogate pair of a character recombines to that character |
| Json.Dumps | ingest/catalog_sources.py:213 | the dumped text is non-empty printable ASCII, and an object's text is braced |
| Json.DumpsClean | ingest/catalog_sources.py:213 | a dumped object is one clean line |
| Json.UnescapeEscapeAll | ingest/catalog_sources.py:213 | every escaped text reads back as itself |
| Json.QuoteRoundTrip | ingest/catalog_sources.py:213 | a dumped string literal reads back as the original string |
| UrlEncode.Utf8 | ingest/catalog_sources.py:173 | each character encodes to 1-4 bytes, one exactly for ASCII, which is kept as it is |
| UrlEncode.ByteSlice | core-rs/tle_core/src/lib.rs:28 | a byte slice `line[lo..hi]` either fails or yields at most `hi - lo` characters |
| UrlEncode.ByteSliceBytes | core-rs/tle_core/src/lib.rs:28 | a byte slice that succeeds encodes to exactly bytes `lo..hi` of the UTF-8 text |
| UrlEncode.AsciiByteSlice | core-rs/tle_core/src/lib.rs:28 | over an ASCII prefix the byte slice is the character slice |
| UrlEncode.QuoteChar | ingest/catalog_sources.py:173 | a quoted character uses only unreserved characters, `+` and `%`; unreserved ones are kept |
| UrlEncode.QuotePlus | ingest/catalog_sources.py:173 | quoting writes only unreserved characters, `+` and `%` |
| UrlEncode.QuotePlusUnreserved | ingest/catalog_sources.py:173 | text of unreserved characters is written unchanged |
| UrlEncode.UnquoteQuotePlus | ingest/catalog_sources.py:173 | unquoting a quoted text gives exactly its UTF-8 bytes |
| UrlEncode.UrlEncodeIsJoin | ingest/catalog_sources.py:173 | the query is the quoted `key=value` pieces joined with `&`, in order |
| UrlEncode.UrlEncode | ingest/catalog_sources.py:173 | the query is empty exactly when there are no parameters, and otherwise starts with the first quoted key and `=` |
| UrlEncode.ParseUrlEncode | ingest/catalog_sources.py:173 | every key and value reads back from the query, in order, as its UTF-8 bytes |
| UrlEncode.ParseUrlEncodeTwo | ingest/catalog_sources.py:169-173 | a two-parameter query reads back as its two pairs |
| UrlEncode.QuotedSeparators | ingest/catalog_sources.py:173 | a quoted text holds no `&` or `=`, and reads back as its bytes |
| Config.ToBool | tle_fetcher/config.py:59-67 | the result differs from the default only for a present value, and a `True` or `False` not given by default requires the stripped lower-cased word to be in the matching set |
| Config.ToBoolRecognised | tle_fetcher/config.py:55-67 | a recognised word decides regardless of the default |
| Config.ToBoolIgnoresCase | tle_fetcher/config.py:62 | the words are read without regard to ASCII case |
| Config.ToBoolIgnoresPadding | tle_fetcher/config.py:62 | surrounding whitespace is ignored |
| Config.StripLower | tle_fetcher/config.py:62 | stripping and lower-casing commute |
| Config.ToBoolTrueWords | tle_fetcher/config.py:55 | each of `1`, `true`, `yes`, `on` reads as true, whatever the default |
| Config.ToBoolFalseWords | tle_fetcher/config.py:56 | each of `0`, `false`, `no`, `off` reads as false, whatever the default |
| Config.RedactSecret | tle_fetcher/config.py:70-78 | a missing or empty secret is `<redacted>`; otherwise each shown character is a star or a character of the secret within the kept prefix; a short secret keeps its length; a long one is the prefix plus four stars |
| Config.RedactHidesRest | tle_fetcher/config.py:75-78 | two long secrets with the same kept prefix, or two short ones of the same length, are masked alike |
| Config.RedactSecretExamples | tests/connectors/test_notion_flag.py:56-58 | `secret-value` shows `secr****`; an empty secret is `<redacted>` |
| Config.LoadConfig | tle_fetcher/config.py:93-94 | the credentials are the variables as given |
| Config.NotionSettings.IsConfigured | tle_fetcher/config.py:34-35 | configured only with both credentials present; an empty credential means not configured |
| Config.AppConfig.NotionEnabled | tle_fetcher/config.py:50-52 | syncing is off when the flag is off, and on only with both credentials present |
| Config.DisabledWithoutCredentials | tle_fetcher/config.py:50-52 | without both credentials Notion syncing is off whatever the flag |
| Config.FlagDefaultsToCredentials | tle_fetcher/config.py:98-100 | with no readable flag, syncing is on exactly when both credentials are set |
| Config.FlagOverrides | tle_fetcher/config.py:98-103 | a readable flag decides syncing, which is then enabled only with both credentials |
| LogRedact.Redact | tle_fetcher/logging.py:117-127 | mappings and sequences keep their kind and length; a leaf under a sensitive key is the marker; bytes are never left undecoded |
| LogRedact.ShouldRedactIgnoresCase | tle_fetcher/logging.py:113 | key matching ignores case as `str.lower` folds it, the Kelvin sign included |
| LogRedact.KelvinKeySensitive | tle_fetcher/logging.py:110-114 | a key spelled with the Kelvin sign, `TO\u212aEN`, is sensitive and its value is masked |
| LogRedact.ShouldRedact | tle_fetcher/logging.py:110-114 | a key whose lower-cased form is a sensitive word is redacted; a missing key or one shorter than the shortest word never is |
| LogRedact.ShouldRedactWiderKey | tle_fetcher/logging.py:114 | a key containing a sensitive key is itself sensitive |
| LogRedact.SensitiveExamples | tests/test_logging.py:28-43 | `api_key`, `token` and `Authorization` are sensitive |
| LogRedact.NoKeyNoRedaction | tle_fetcher/logging.py:110-112 | an absent or empty key never redacts |
| LogRedact.RedactKeepsShape | tle_fetcher/logging.py:117-122 | redaction keeps every key and every sequence length at every depth |
| LogRedact.RedactIsClean | tle_fetcher/logging.py:117-127 | every leaf whose nearest enclosing key is sensitive becomes the marker, and no bytes remain |
| LogRedact.RedactKeepsVisible | tle_fetcher/logging.py:117-127 | text and scalars under non-sensitive keys reach the log unchanged |
| LogRedact.RedactIdempotent | tle_fetcher/logging.py:117-127 | redacting twice is redacting once |
| LogRedact.RedactPair | tests/test_logging.py:28-43 | beside a sensitive key, a non-sensitive key keeps its text |
| Text.TrimFlavorsAgree | core-rs/tle_core/src/lib.rs:42-47 | Rust's `trim` and Python's `strip` agree on every text without the separator controls U+001C to U+001F, which only Python strips |
| Text.CleanLinesOfTerminated | tle_fetcher/tle.py:65 | cleaning newline-terminated clean lines gives them back |
| Text.SplitOnJoin | fetch/sources.py:148 | splitting a join of separator-free parts at the separator gives back the parts |
| Text.RustCleanLinesOfTerminated | core-rs/tle_core/src/lib.rs:42-47 | Rust's line cleaning of newline-terminated clean lines gives them back |
| Text.LinesOfTerminated | tle_fetcher/tle.py:65 | `splitlines` of lines without breaks, each newline-terminated, gives them back, empty ones included |
| TleText.JsonName | tle_fetcher/tle.py:83 | the JSON title is absent exactly when the member is missing or null; a string member is the title itself |
| RustCore.ChecksumFlavorsAgree | core-rs/tle_core/src/lib.rs:6-26 | on a clean line the Rust checksum and the Python one give the same verdict |
| RustCore.CatnumFlavorsAgree | core-rs/tle_core/src/lib.rs:28-30 | on lines whose first seven columns are ASCII, the Rust and Python catalog fields agree unless the field holds one of the separator controls U+001C to U+001F |
| RustCore.ParseLocated | core-rs/tle_core/src/lib.rs:41-60 | when the line scan finds a pair, the parse is the validation of that pair |
| PythonImpl.ParseLocated | tle_fetcher/core/python_impl.py:38-51 | when the line scan finds a pair, the parse is the validation of that pair |
| CoreLegacy.JsonFallback | tle_fetcher/core.py:121-130 | with no line pair in the text and string `line1`/`line2` members, the parse is the line checks of those members under the JSON title |

## Left out

- Network I/O is not modelled: the `urllib` exchange inside `http_get`, the
  per-source download functions of `tle_fetcher/core.py` and
  `tle_fetcher/cli.py` (credential lookups and URL quoting included),
  `SourceClient._default_opener`, and the Notion connector. A source is an
  injected function that returns a body or an error text.
- SQLite and file persistence are not modelled: `db/`, the SQL text of
  `ingest/pipeline.py`, `FileRepository`, `read_cache`/`write_cache` (whose
  timestamp is the file's modification time), `save_tle` and
  `tle_fetcher/cli/report.py`. The database, the repository and the file
  cache are values: a row sequence with a run log, a map, and the cached
  record.
- Orbit propagation, frame rotation and the `sgp4` placeholder are left
  out. They are floating-point code around an external library.
- Epoch: the source reads the day field with `float()` (Python) or `f64`
  (Rust) and multiplies by 86400.0. The model reads the field as an exact
  decimal and rounds once to the microsecond. The source tests themselves
  allow 900 microseconds.
- Epoch.PyEpoch: only digit spellings and the spellings of infinity and
  NaN are read. `int()` and `float()` also accept a sign, underscores,
  exponents and non-ASCII digits; those fields give an error here. An
  infinite day is out of range and a NaN day is a bad day, as
  `timedelta` refuses both. A day whose instant passes year 9999 is out of
  range, as `OverflowError` is; where the exact decimal reading and the
  `float` reading round to different sides of that last microsecond, the
  two may disagree, as for any other instant.
- Epoch.RustEpoch: lengths and slices count characters, not UTF-8 bytes. A
  line with non-ASCII characters before column 32 can make the Rust code
  panic on a character boundary; the model does not reproduce that. Signs
  and exponents, which `i32` and `f64` parsing accept, are errors here. An
  infinite day, or one whose instant passes year 9999, is out of range; a
  NaN day is read as day 0 because the `as i64` casts saturate NaN to 0.
- Epoch.RustAgreesWithPython: does not cover a day field that spells NaN.
  There the readers disagree, as `Epoch.NanDayReadersDisagree` proves.
- Epoch: instants carry no time zone. `tle_epoch` of `tle_fetcher/tle.py`
  drops the zone and returns a naive datetime (line 121). `tle_epoch` of
  `tle_fetcher/core.py` (line 158) and the core package readers return
  UTC-aware ones.
- JSON decoding: `json.loads` and `serde_json::from_str` are not modelled.
  A payload carries the decoder's result next to its text. JSON numbers are
  integers; floats are left out because no parser reads them as numbers.
- Json.PyStr: `str()` of a list or object keeps only its opening bracket.
  That is the only part a TLE-line check inspects.
- TleText.JsonName: a non-string JSON `name` is kept by the source as the
  decoded value (a number stays a number). The record's name is text here,
  so the model keeps its `str()` text.
- `datetime.fromisoformat`, `isoformat()`, the clock and the random draws
  (`random.random`, `random.uniform`) are parameters. `time.sleep` is
  represented by the list of requested delays. `started_at`,
  `finished_at` and `first_seen` time stamps are not modelled.
- CoreLegacy.HttpGet: delays are whole milliseconds and the jitter is an
  injected whole number. The source sleeps a float number of seconds.
- Argument parsing, printing and dispatch are left out:
  `tle_fetcher/cli/__init__.py`, `__main__.py`, the `db` and `discover`
  sub-commands, `tle_fetcher.py`, the back-end switch of
  `tle_fetcher/core/_rust.py` and the pyo3 glue of `lib.rs`. Each parser
  and CLI function is modelled as a pure function of its arguments.
- Logging plumbing is left out: the JSON formatter, handlers,
  `contextvars` and level resolution. Only `_should_redact` and `_redact`
  are modelled.
- LogRedact.Redact: a set is walked in a given order, whereas Python
  iterates it in hash order. Non-string mapping keys are taken as their
  `str()` text. The UTF-8 decoding of bytes is an injected function.
- LogRedact.RedactPair: the test's non-sensitive key is a hypothesis. No
  lemma proves that a particular key is not sensitive.
- Config.LoadConfig: the state and data paths are not modelled, and
  neither is the float `TLE_FETCHER_NOTION_TIMEOUT`. In the source a
  malformed timeout makes `float()` raise `ValueError`; the model does not
  fail there.
- LegacyCli.FormatOutputPath and PyFormat.Format: only plain `{name}`
  fields and doubled braces are modelled. A field with a format spec, a
  conversion, an attribute or an index is treated as a bad template, and
  the pattern is used as given. Python would format such a field.
- LegacyCli.EpochText: how `str()` renders a `datetime` is not modelled.
  It is the injected `show`, applied to the instant the reader returns.
- Text.Lower: lowers the ASCII letters and maps the Kelvin sign U+212A to
  `k`. Other non-ASCII capitals keep their case. `str.lower` maps them to
  non-ASCII letters, except U+0130, which becomes `i` followed by U+0307.
  No sensitive word or source name ends in `i` or holds U+0307, so whether
  a key or name matches is the same either way. The lowered text of an
  unknown source name can differ.
- LogRedact.ShouldRedact: the contract names exact matches of a sensitive
  word. Matching a word inside a longer key, as `in` does, is stated only by
  the body.
- RustCore.CatnumFlavorsAgree: covers lines whose first seven columns are
  ASCII. Rust slices the catalog field by bytes and Python by characters,
  so they can differ otherwise; `RustCore.CatalogBytesPartFlavors` and
  `RustCore.StraddleEmptiesCatnum` show how.
- RustCore.FlavorsAgreeOnLines: covers the same ASCII lines, for the same
  reason.
- Text: `str.isdigit` and `int()` are read as ASCII digits only.
  Characters are Unicode code points; surrogates and normalisation are not
  considered.
- `tle_fetcher/core.py` and the package `tle_fetcher/core/` share a name.
  Each file is modelled as written, and the import clash is not resolved.
- The Rust test `checksum_matches_python` (the checksum of the 69-character
  International Space Station line 1) is not restated. Evaluating the digit
  total of a literal that long is beyond the verifier's resource budget.
  `TleText.CheckDigitCompletes` and `TleText.CheckDigitChangeDetected` cover the
  rule for every line, and `RustCore.ChecksumFlavorsAgree` shows that the
  Rust and Python checks agree.
- The Rust test `parse_basic_payload` is not restated. The agreement
  lemmas of `RustCore` with `PythonImpl` and `TleText` cover the parser it
  exercises.

=== FILE: basics.dfy ===
/** Failure-carrying wrappers shared by every module of the model: `Option`
    for Python's `None`-or-value and `Result` for a value-or-exception. */
module Basics {

  datatype Option<+T> = None | Some(value: T) {
    predicate IsFailure() { None? }

    function PropagateFailure<U>(): Option<U>
      requires None?
    {
      None
    }

    function Extract(): T
      requires Some?
    {
      value
    }

    function GetOr(default: T): T {
      if Some? then value else default
    }
  }

  datatype Result<+T, +E> = Ok(value: T) | Err(error: E) {
    predicate IsFailure() { Err? }

    function PropagateFailure<U>(): Result<U, E>
      requires Err?
    {
      Err(error)
    }

    function Extract(): T
      requires Ok?
    {
      value
    }
  }

  /** Index of the first occurrence of `x` in `xs` (|xs| when absent). */
  function IndexOf<T(==)>(xs: seq<T>, x: T): (k: nat)
    ensures k <= |xs|
    ensures k < |xs| <==> x in xs
    ensures k < |xs| ==> xs[k] == x
    ensures forall i :: 0 <= i < k ==> xs[i] != x
  {
    if xs == [] then 0
    else if xs[0] == x then 0
    else 1 + IndexOf(xs[1..], x)
  }

  predicate NoDuplicates<T(==)>(xs: seq<T>) {
    forall i, j :: 0 <= i < j < |xs| ==> xs[i] != xs[j]
  }

  /** `xs` without repeated elements: the first occurrence of each survives, in
      the order of first occurrences. */
  function Dedup<T(==,!new)>(xs: seq<T>): (r: seq<T>)
    ensures forall x :: x in r <==> x in xs
    ensures NoDuplicates(r)
    ensures forall i, j :: 0 <= i < j < |r| ==> IndexOf(xs, r[i]) < IndexOf(xs, r[j])
  {
    DedupAfter(xs, {})
  }

  /** Elements of `xs` not in `seen`, each kept at its first occurrence (the
      `seen` set of a Python loop that skips values already emitted). */
  function DedupAfter<T(==,!new)>(xs: seq<T>, seen: set<T>): (r: seq<T>)
    ensures forall x :: x in r <==> x in xs && x !in seen
    ensures NoDuplicates(r)
    ensures forall i, j :: 0 <= i < j < |r| ==> IndexOf(xs, r[i]) < IndexOf(xs, r[j])
    decreases |xs|
  {
    if xs == [] then []
    else if xs[0] in seen then DedupAfter(xs[1..], seen)
    else [xs[0]] + DedupAfter(xs[1..], seen + {xs[0]})
  }

  /** `f` applied to every element, stopping at the first failure (a loop
      whose body may raise). */
  function MapResults<A, B, E>(xs: seq<A>, f: A -> Result<B, E>): (r: Result<seq<B>, E>)
    ensures r.Ok? <==> forall k :: 0 <= k < |xs| ==> f(xs[k]).Ok?
    ensures r.Ok? ==> |r.value| == |xs| && forall k :: 0 <= k < |xs| ==> f(xs[k]) == Ok(r.value[k])
    ensures r.Err? ==> FirstErr(xs, f) < |xs| && f(xs[FirstErr(xs, f)]) == Err(r.error)
  {
    if xs == [] then Ok([])
    else
      match f(xs[0])
      case Err(e) => Err(e)
      case Ok(y) =>
        match MapResults(xs[1..], f)
        case Err(e) => Err(e)
        case Ok(ys) => Ok([y] + ys)
  }

  /** Index of the first element `f` fails on, or the length. */
  function FirstErr<A, B, E>(xs: seq<A>, f: A -> Result<B, E>): (k: nat)
    ensures k <= |xs|
    ensures k < |xs| ==> f(xs[k]).Err?
    ensures forall j :: 0 <= j < k ==> f(xs[j]).Ok?
  {
    if xs == [] || f(xs[0]).Err? then 0 else 1 + FirstErr(xs[1..], f)
  }

  /** The elements `sel` picks out, in order (a loop that `continue`s past
      the others). */
  function Selected<A, B>(xs: seq<A>, sel: A -> Option<B>): (r: seq<B>)
    ensures |r| <= |xs|
    ensures forall k :: 0 <= k < |r| ==> exists i :: 0 <= i < |xs| && sel(xs[i]) == Some(r[k])
    ensures forall i :: 0 <= i < |xs| && sel(xs[i]).Some? ==> sel(xs[i]).value in r
  {
    if xs == [] then []
    else
      var rest := Selected(xs[1..], sel);
      assert forall i :: 1 <= i < |xs| ==> xs[i] == xs[1..][i - 1];
      (if sel(xs[0]).Some? then [sel(xs[0]).value] else []) + rest
  }

  /** When `sel` keeps every element, the selection is the kept values, in
      order. */
  lemma {:induction false} SelectedAll<A, B>(xs: seq<A>, sel: A -> Option<B>, ys: seq<B>)
    requires |xs| == |ys| && forall k :: 0 <= k < |xs| ==> sel(xs[k]) == Some(ys[k])
    ensures Selected(xs, sel) == ys
  {
    if xs != [] {
      SelectedAll(xs[1..], sel, ys[1..]);
      assert ys == [ys[0]] + ys[1..];
    }
  }

  /** A loop that skips the elements `sel` rejects and applies `f`, which may
      fail, to the others. */
  function SelectMap<A, B, C, E>(xs: seq<A>, sel: A -> Option<B>, f: B -> Result<C, E>): Result<seq<C>, E> {
    if xs == [] then Ok([])
    else
      match sel(xs[0])
      case None => SelectMap(xs[1..], sel, f)
      case Some(b) =>
        match f(b)
        case Err(e) => Err(e)
        case Ok(c) =>
          match SelectMap(xs[1..], sel, f)
          case Err(e) => Err(e)
          case Ok(cs) => Ok([c] + cs)
  }

  /** Skipping and mapping in one pass is mapping the selected elements. */
  lemma {:induction false} SelectMapIsMap<A, B, C, E>(xs: seq<A>, sel: A -> Option<B>, f: B -> Result<C, E>)
    ensures SelectMap(xs, sel, f) == MapResults(Selected(xs, sel), f)
  {
    if xs != [] {
      SelectMapIsMap(xs[1..], sel, f);
      var rest := Selected(xs[1..], sel);
      if sel(xs[0]).Some? {
        var b := sel(xs[0]).value;
        var ys := [b] + rest;
        assert Selected(xs, sel) == ys;
        assert ys[0] == b && ys[1..] == rest;
      } else {
        assert Selected(xs, sel) == rest;
      }
    }
  }
}

=== FILE: catalog_feeds.dfy ===
/** The two feed classes of `ingest/catalog_sources.py`, CelesTrak and Ivan
    Stanojević's API, their registry `SOURCES`, and `CatalogSource.fetch`,
    which downloads a feed or replays the stored response. The downloader
    and `datetime.fromisoformat` are parameters. */
module CatalogFeeds {
  import opened Basics
  import opened Text
  import opened Json
  import opened TleTypes
  import TleText
  import CoreLegacy
  import Epoch
  import UrlEncode
  import opened CatalogSources

  // --------------------------------------------------------------- feeds

  /** A catalogue feed: CelesTrak with the group it asks for, or Ivan
      Stanojević's API. */
  datatype Feed = CelesTrak(group: string) | Ivan

  /** The feed's `name`, under which it is registered, its responses are
      stored and its entries are labelled. */
  function Name(f: Feed): string {
    if f.CelesTrak? then "celestrak" else "ivan"
  }

  function Attribution(f: Feed): string {
    if f.CelesTrak? then "Data courtesy of CelesTrak (https://celestrak.org)."
    else "Data courtesy of Ivan Stanojević (https://tle.ivanstanojevic.me)."
  }

  /** `SOURCES`: CelesTrak's default group is `active`. */
  const Registry: map<string, Feed> := map["celestrak" := CelesTrak("active"), "ivan" := Ivan]

  /** Every registered feed sits under its own name, so the registry key, the
      response-cache key and the entries' `source` agree. */
  lemma RegistryNames(key: string)
    requires key in Registry
    ensures Name(Registry[key]) == key
  {
  }

  const CelesTrakBase: string := "https://celestrak.org/NORAD/elements/gp.php?"
  const IvanUrl: string := "https://tle.ivanstanojevic.me/api/tle"

  /** `build_url(since)`: neither feed supports `since`, so it takes no part. */
  function Url(f: Feed): (u: string)
    ensures f.Ivan? ==> u == IvanUrl
  {
    match f
    case CelesTrak(group) => CelesTrakBase + UrlEncode.UrlEncode([("GROUP", group), ("FORMAT", "tle")])
    case Ivan => IvanUrl
  }

  /** CelesTrak's query reads back as exactly two parameters, `GROUP` with
      the group and `FORMAT` with `tle`: the group is quoted, so whatever it
      holds cannot break out of its parameter. */
  lemma CelesTrakUrl(group: string)
    ensures exists q :: (Url(CelesTrak(group)) == CelesTrakBase + q
      && UrlEncode.ParseQuery(q) == [(UrlEncode.Utf8Of("GROUP"), UrlEncode.Utf8Of(group)),
                                     (UrlEncode.Utf8Of("FORMAT"), UrlEncode.Utf8Of("tle"))])
  {
    var q := UrlEncode.UrlEncode([("GROUP", group), ("FORMAT", "tle")]);
    UrlEncode.ParseUrlEncodeTwo("GROUP", group, "FORMAT", "tle");
    assert Url(CelesTrak(group)) == CelesTrakBase + q;
  }

  // ------------------------------------------------------------ CelesTrak

  /** `CelesTrakSource.parse`: cleaned lines, scanned for blocks. */
  function ParseText(body: string, source: string): Result<seq<CatalogEntry>, CatalogError> {
    EntriesFromLines(CleanLines(body), source)
  }

  // ----------------------------------------------------------------- Ivan

  /** What `for item in iterable` walks over: a list's items; a dict's keys
      and a string's characters, all of them strings that the loop skips (so
      none is kept here); iterating a number, a boolean or null raises
      `TypeError`. */
  function Iterated(data: Json): (r: Result<seq<Json>, CatalogError>)
    ensures r.Err? <==> data.JNull? || data.JBool? || data.JNum?
    ensures data.JArr? ==> r == Ok(data.items)
  {
    match data
    case JArr(items) => Ok(items)
    case JObj(_) => Ok([])
    case JStr(_) => Ok([])
    case _ => Err(NotIterable)
  }

  /** The value iterated: the `member` list of a wrapping object, else the
      document itself. */
  function Listing(data: Json): Json {
    if data.JObj? && HasKey(data.fields, "member") then Get(data.fields, "member").value else data
  }

  /** An item the loop keeps: an object whose `line1` and `line2` are strings. */
  datatype Record = Record(fields: seq<(string, Json)>, line1: string, line2: string)

  function RecordOf(item: Json): (r: Option<Record>)
    ensures r.Some? <==> item.JObj? && Member(item, "line1").Some? && Member(item, "line1").value.JStr?
                         && Member(item, "line2").Some? && Member(item, "line2").value.JStr?
    ensures r.Some? ==>
      r.value.fields == item.fields && Member(item, "line1") == Some(JStr(r.value.line1))
      && Member(item, "line2") == Some(JStr(r.value.line2))
  {
    match item
    case JObj(fields) =>
      (match (Get(fields, "line1"), Get(fields, "line2"))
       case (Some(JStr(l1)), Some(JStr(l2))) => Some(Record(fields, l1, l2))
       case _ => None)
    case _ => None
  }

  /** `item.get("name")` when it is a string. */
  function RecordName(r: Record): (n: Option<string>)
    ensures n.Some? <==> Get(r.fields, "name").Some? && Get(r.fields, "name").value.JStr?
  {
    match Get(r.fields, "name")
    case Some(JStr(s)) => Some(s)
    case _ => None
  }

  /** `item.get(key)` when it is truthy. */
  function TruthyMember(fields: seq<(string, Json)>, key: string): Option<Json> {
    match Get(fields, key)
    case Some(v) => if Truthy(v) then Some(v) else None
    case None => None
  }

  /** The identifier: `satelliteId`, else `satellite_id`, else empty, turned
      into text with `str()` when it is not a string. */
  function RecordId(r: Record): string
  {
    var v :=
      if TruthyMember(r.fields, "satelliteId").Some? then TruthyMember(r.fields, "satelliteId").value
      else if TruthyMember(r.fields, "satellite_id").Some? then TruthyMember(r.fields, "satellite_id").value
      else JStr("");
    PyStr(v)
  }

  /** The object `json.dumps` is given: `{"name": ..., "line1": ..., "line2": ...}`
      with `null` for a missing title. */
  function RecordObject(name: Option<string>, line1: string, line2: string): Json {
    JObj([("name", if name.Some? then JStr(name.value) else JNull), ("line1", JStr(line1)), ("line2", JStr(line2))])
  }

  /** The payload `parse_tle_text` receives: the dumped text, which the JSON
      decoder reads back as the object (`json.loads(json.dumps(x)) == x`;
      `Json.QuoteRoundTrip` proves it for every string the object holds). */
  function RecordPayload(name: Option<string>, line1: string, line2: string): Payload {
    var obj := RecordObject(name, line1, line2);
    Payload(Dumps(obj), Some(obj))
  }

  /** The dumped record is one line with no element-line pair in it, so the
      parser falls back to the JSON members and checks exactly the record's
      lines under its title. */
  lemma DumpedRecordParse(norad: string, name: Option<string>, line1: string, line2: string, source: string)
    ensures CoreLegacy.ParseTleText(norad, RecordPayload(name, line1, line2), source)
         == CoreLegacy.Checked(norad, TleText.Pair(name, line1, line2), source)
  {
    var payload := RecordPayload(name, line1, line2);
    DumpsClean(RecordObject(name, line1, line2));
    assert forall i: nat :: !TleText.PairAt([payload.text], i);
    RecordObjectMembers(name, line1, line2);
    CoreLegacy.JsonFallback(norad, payload, source, line1, line2);
  }

  lemma RecordObjectMembers(name: Option<string>, line1: string, line2: string)
    ensures var fields := RecordObject(name, line1, line2).fields;
      && Get(fields, "line1") == Some(JStr(line1)) && Get(fields, "line2") == Some(JStr(line2))
      && TleText.JsonName(Get(fields, "name")) == name
  {
    var fields := RecordObject(name, line1, line2).fields;
    GetLast(fields[..2], "line2", JStr(line2));
    GetBefore(fields[..2], ("line2", JStr(line2)), "line1");
    GetBefore(fields[..2], ("line2", JStr(line2)), "name");
    assert fields[..2] == fields[..1] + [("line1", JStr(line1))];
    GetLast(fields[..1], "line1", JStr(line1));
    GetBefore(fields[..1], ("line1", JStr(line1)), "name");
    assert fields[..1] == [] + [fields[0]];
    GetLast([], "name", fields[0].1);
  }

  /** The ISO text `timestamp` or `epoch` supplies: `timestamp` when truthy,
      else `epoch`, if that value is a string. */
  function StampText(r: Record): Option<string> {
    var v := if TruthyMember(r.fields, "timestamp").Some? then TruthyMember(r.fields, "timestamp") else Get(r.fields, "epoch");
    if v.Some? && v.value.JStr? then Some(v.value.s) else None
  }

  /** The entry's epoch: the ISO text with a `Z` suffix read as `+00:00`
      when `fromisoformat` accepts it, otherwise the element set's own epoch. */
  function RecordEpoch(r: Record, line1: string, iso: string -> Option<Stamp>): (e: Result<Stamp, CatalogError>)
    ensures StampText(r).Some? && iso(ReplaceWith(StampText(r).value, 'Z', "+00:00")).Some? ==>
      e == Ok(iso(ReplaceWith(StampText(r).value, 'Z', "+00:00")).value)
    ensures StampText(r).None? || iso(ReplaceWith(StampText(r).value, 'Z', "+00:00")).None? ==>
      e == ElementEpoch(line1)
  {
    match StampText(r)
    case Some(text) =>
      (match iso(ReplaceWith(text, 'Z', "+00:00"))
       case Some(t) => Ok(t)
       case None => ElementEpoch(line1))
    case None => ElementEpoch(line1)
  }

  /** One kept item: its record dumped and parsed under its identifier, then
      its epoch read. */
  function IvanEntry(r: Record, iso: string -> Option<Stamp>): (e: Result<CatalogEntry, CatalogError>)
    ensures e.Ok? <==> TleText.WellFormedLines(Python, r.line1, r.line2) && RecordEpoch(r, r.line1, iso).Ok?
    ensures e.Ok? ==> e.value == CatalogEntry("ivan", RecordId(r), RecordName(r), r.line1, r.line2, RecordEpoch(r, r.line1, iso).value)
    ensures !TleText.WellFormedLines(Python, r.line1, r.line2) ==>
      e == Err(Rejected(TleText.FirstDefect(Python, r.line1, r.line2).value))
  {
    var norad := RecordId(r);
    var name := RecordName(r);
    DumpedRecordParse(norad, name, r.line1, r.line2, "ivan");
    match CoreLegacy.ParseTleText(norad, RecordPayload(name, r.line1, r.line2), "ivan")
    case Err(e) => Err(Rejected(e))
    case Ok(t) =>
      match RecordEpoch(r, t.line1, iso)
      case Err(e) => Err(e)
      case Ok(at) => Ok(CatalogEntry("ivan", if t.noradId != [] then t.noradId else Strip(norad), t.name, t.line1, t.line2, at))
  }

  /** The loop of `IvanSource.parse` over the iterated items. */
  function IvanItems(items: seq<Json>, iso: string -> Option<Stamp>): Result<seq<CatalogEntry>, CatalogError> {
    SelectMap(items, RecordOf, r => IvanEntry(r, iso))
  }

  /** The kept items' records, in order. */
  function Records(items: seq<Json>): seq<Record> {
    Selected(items, RecordOf)
  }

  /** The loop skips exactly the items that are not records and stops at the
      first record that fails: it is the records, each made an entry. */
  lemma IvanItemsAreRecords(items: seq<Json>, iso: string -> Option<Stamp>)
    ensures IvanItems(items, iso) == MapResults(Records(items), r => IvanEntry(r, iso))
  {
    SelectMapIsMap(items, RecordOf, r => IvanEntry(r, iso));
  }

  /** `IvanSource.parse`: a body that is not JSON is scanned as text; a JSON
      body's items become entries. */
  function ParseIvan(body: Payload, iso: string -> Option<Stamp>): (r: Result<seq<CatalogEntry>, CatalogError>)
    ensures r.Ok? ==> ValidEntries(r.value, "ivan")
    ensures body.json.Some? && Iterated(Listing(body.json.value)).Err? ==> r == Err(Iterated(Listing(body.json.value)).error)
  {
    TextEntriesValid(body.text, "ivan");
    match body.json
    case None => ParseText(body.text, "ivan")
    case Some(data) =>
      match Iterated(Listing(data))
      case Err(e) => Err(e)
      case Ok(items) => IvanItemsValid(items, iso); IvanItems(items, iso)
  }

  /** Entries labelled `source` whose lines pass the checks. */
  predicate ValidEntries(es: seq<CatalogEntry>, source: string) {
    forall k :: 0 <= k < |es| ==> es[k].source == source && TleText.WellFormedLines(Python, es[k].line1, es[k].line2)
  }

  lemma TextEntriesValid(body: string, source: string)
    ensures ParseText(body, source).Ok? ==> ValidEntries(ParseText(body, source).value, source)
  {
  }

  lemma IvanItemsValid(items: seq<Json>, iso: string -> Option<Stamp>)
    ensures IvanItems(items, iso).Ok? ==> ValidEntries(IvanItems(items, iso).value, "ivan")
  {
    IvanItemsAreRecords(items, iso);
  }

  /** `source.parse(payload)`. */
  function Parse(f: Feed, body: Payload, iso: string -> Option<Stamp>): (r: Result<seq<CatalogEntry>, CatalogError>)
    ensures r.Ok? ==> ValidEntries(r.value, Name(f))
  {
    TextEntriesValid(body.text, Name(f));
    match f
    case CelesTrak(_) => ParseText(body.text, "celestrak")
    case Ivan => ParseIvan(body, iso)
  }

  // ---------------------------------------------------- Ivan round trip

  /** A satellite as the API lists it: identifier, title and lines, with no
      `timestamp`. */
  datatype Listed = Listed(id: string, name: string, line1: string, line2: string)

  function ListedItem(s: Listed): Json {
    JObj([("satelliteId", JStr(s.id)), ("name", JStr(s.name)), ("line1", JStr(s.line1)), ("line2", JStr(s.line2))])
  }

  /** The API's document: a `member` list of satellites. */
  function ListedDocument(ss: seq<Listed>): Json {
    JObj([("member", JArr(ListedItems(ss)))])
  }

  function ListedItems(ss: seq<Listed>): (items: seq<Json>)
    ensures |items| == |ss| && forall k :: 0 <= k < |ss| ==> items[k] == ListedItem(ss[k])
  {
    seq(|ss|, k requires 0 <= k < |ss| => ListedItem(ss[k]))
  }

  /** The entry a listed satellite with valid lines becomes. */
  function ListedEntry(s: Listed): CatalogEntry
    requires Epoch.PyEpoch(s.line1).Ok?
  {
    CatalogEntry("ivan", s.id, Some(s.name), s.line1, s.line2, Stamp(Epoch.PyEpoch(s.line1).value, Some(0)))
  }

  /** A document listing satellites with non-empty identifiers and valid
      lines yields one entry per satellite, in order, with its identifier,
      title, lines and the epoch of its line 1. */
  lemma IvanRoundTrip(ss: seq<Listed>, text: string, iso: string -> Option<Stamp>)
    requires forall k :: 0 <= k < |ss| ==>
      ss[k].id != [] && TleText.WellFormedLines(Python, ss[k].line1, ss[k].line2) && Epoch.PyEpoch(ss[k].line1).Ok?
    ensures var r := Parse(Ivan, Payload(text, Some(ListedDocument(ss))), iso);
      && r.Ok? && |r.value| == |ss|
      && forall k :: 0 <= k < |ss| ==> r.value[k] == ListedEntry(ss[k])
  {
    ListedDocumentItems(ss, text, iso);
    ListedEntries(ss, iso);
  }

  /** Each listed satellite's record becomes its entry. */
  lemma ListedEntries(ss: seq<Listed>, iso: string -> Option<Stamp>)
    requires forall k :: 0 <= k < |ss| ==>
      ss[k].id != [] && TleText.WellFormedLines(Python, ss[k].line1, ss[k].line2) && Epoch.PyEpoch(ss[k].line1).Ok?
    ensures var r := MapResults(Records(ListedItems(ss)), r => IvanEntry(r, iso));
      && r.Ok? && |r.value| == |ss|
      && forall k :: 0 <= k < |ss| ==> r.value[k] == ListedEntry(ss[k])
  {
    var items := ListedItems(ss);
    ListedRecords(ss, items);
    var rs := Records(items);
    forall k | 0 <= k < |ss|
      ensures IvanEntry(rs[k], iso) == Ok(ListedEntry(ss[k]))
    {
      ListedItemEntry(ss[k], iso);
    }
  }

  /** The document's items are its `member` list, each made an entry. */
  lemma ListedDocumentItems(ss: seq<Listed>, text: string, iso: string -> Option<Stamp>)
    ensures Parse(Ivan, Payload(text, Some(ListedDocument(ss))), iso)
         == MapResults(Records(ListedItems(ss)), r => IvanEntry(r, iso))
  {
    var doc, items := ListedDocument(ss), ListedItems(ss);
    var body := Payload(text, Some(doc));
    GetLast([], "member", JArr(items));
    assert doc.fields == [] + [("member", JArr(items))];
    assert Listing(doc) == JArr(items);
    assert Iterated(Listing(doc)) == Ok(items);
    assert ParseIvan(body, iso) == IvanItems(items, iso);
    assert Parse(Ivan, body, iso) == ParseIvan(body, iso);
    IvanItemsAreRecords(items, iso);
  }

  /** Every listed item is a record, the one of its satellite. */
  lemma ListedRecords(ss: seq<Listed>, items: seq<Json>)
    requires |items| == |ss| && forall k :: 0 <= k < |ss| ==> items[k] == ListedItem(ss[k])
    ensures |Records(items)| == |ss|
    ensures forall k :: 0 <= k < |ss| ==> Records(items)[k] == ListedRecord(ss[k])
  {
    var rs := seq(|ss|, k requires 0 <= k < |ss| => ListedRecord(ss[k]));
    forall k | 0 <= k < |ss| ensures RecordOf(items[k]) == Some(rs[k]) {
      ListedItemRecord(ss[k]);
    }
    SelectedAll(items, RecordOf, rs);
  }

  function ListedRecord(s: Listed): Record {
    Record(ListedItem(s).fields, s.line1, s.line2)
  }

  /** What the listed item's members look up to. */
  lemma ListedFields(s: Listed)
    ensures var fs := ListedItem(s).fields;
      && Get(fs, "line2") == Some(JStr(s.line2)) && Get(fs, "line1") == Some(JStr(s.line1))
      && Get(fs, "name") == Some(JStr(s.name)) && Get(fs, "satelliteId") == Some(JStr(s.id))
      && Get(fs, "timestamp").None? && Get(fs, "epoch").None?
  {
    var id, nm, l1, l2 := ("satelliteId", JStr(s.id)), ("name", JStr(s.name)), ("line1", JStr(s.line1)), ("line2", JStr(s.line2));
    var f1 := [] + [id];
    var f2 := f1 + [nm];
    var f3 := f2 + [l1];
    assert ListedItem(s).fields == f3 + [l2];
    GetLast(f3, "line2", JStr(s.line2));
    GetBefore(f3, l2, "line1");
    GetBefore(f3, l2, "name");
    GetBefore(f3, l2, "satelliteId");
    GetLast(f2, "line1", JStr(s.line1));
    GetBefore(f2, l1, "name");
    GetBefore(f2, l1, "satelliteId");
    GetLast(f1, "name", JStr(s.name));
    GetBefore(f1, nm, "satelliteId");
    GetLast([], "satelliteId", JStr(s.id));
    ListedAbsent(s, "timestamp");
    ListedAbsent(s, "epoch");
  }

  lemma ListedAbsent(s: Listed, key: string)
    requires key != "satelliteId" && key != "name" && key != "line1" && key != "line2"
    ensures Get(ListedItem(s).fields, key).None?
  {
    var fs := ListedItem(s).fields;
    assert fs == fs[..3] + [fs[3]];
    GetBefore(fs[..3], fs[3], key);
    assert fs[..3] == fs[..2] + [fs[2]];
    GetBefore(fs[..2], fs[2], key);
    assert fs[..2] == fs[..1] + [fs[1]];
    GetBefore(fs[..1], fs[1], key);
    assert fs[..1] == [] + [fs[0]];
    GetBefore([], fs[0], key);
  }

  lemma ListedItemRecord(s: Listed)
    ensures RecordOf(ListedItem(s)) == Some(ListedRecord(s))
  {
    ListedFields(s);
  }

  /** A listed satellite's record carries its identifier and title and no
      timestamp text. */
  lemma ListedShape(s: Listed)
    requires s.id != []
    ensures RecordId(ListedRecord(s)) == s.id && RecordName(ListedRecord(s)) == Some(s.name)
    ensures StampText(ListedRecord(s)).None?
  {
    ListedFields(s);
  }

  lemma ListedItemEntry(s: Listed, iso: string -> Option<Stamp>)
    requires s.id != [] && TleText.WellFormedLines(Python, s.line1, s.line2) && Epoch.PyEpoch(s.line1).Ok?
    ensures IvanEntry(ListedRecord(s), iso) == Ok(ListedEntry(s))
  {
    ListedShape(s);
  }

  // ---------------------------------------------------------------- fetch

  /** What `fetch` returns: the entries and whether they came from the
      stored response. */
  datatype Fetched = Fetched(entries: seq<CatalogEntry>, usedCache: bool)

  /** `CatalogSource.fetch(since, offline=..., cache=..., loader=...)` of a
      feed called `name` at `url` whose `parse` is given. The `since`
      argument is its `isoformat()` text (it only keys the cache); the
      loader's bytes arrive already decoded. Returns the outcome and the
      response cache afterwards. */
  function Fetch(name: string, url: string, parse: Payload -> Result<seq<CatalogEntry>, CatalogError>,
                 since: Option<string>, offline: bool, cache: ResponseCache, loader: string -> Result<Payload, string>)
    : (r: (Result<Fetched, CatalogError>, ResponseCache))
    ensures offline ==> r.1 == cache
    ensures offline && Load(cache, name, since).None? ==>
      r.0 == Err(NoCachedResponse(name + ": no cached response available for offline mode"))
    ensures offline && Load(cache, name, since).Some? ==> (r.0.Ok? <==> parse(Load(cache, name, since).value).Ok?)
    ensures offline && r.0.Ok? ==> parse(Load(cache, name, since).value) == Ok(r.0.value.entries)
    ensures r.0.Ok? ==> (r.0.value.usedCache <==> offline)
    ensures !offline ==> (r.0.Ok? <==> loader(url).Ok? && parse(loader(url).value).Ok?)
    ensures !offline && r.0.Ok? ==> parse(loader(url).value) == Ok(r.0.value.entries)
    ensures !offline && r.0.Ok? ==> r.1 == Store(cache, name, since, loader(url).value)
    ensures r.0.Err? ==> r.1 == cache
  {
    if offline then
      match Load(cache, name, since)
      case None => (Err(NoCachedResponse(name + ": no cached response available for offline mode")), cache)
      case Some(body) =>
        match parse(body)
        case Err(e) => (Err(e), cache)
        case Ok(es) => (Ok(Fetched(es, true)), cache)
    else
      match loader(url)
      case Err(msg) => (Err(LoadFailed(msg)), cache)
      case Ok(body) =>
        match parse(body)
        case Err(e) => (Err(e), cache)
        case Ok(es) => (Ok(Fetched(es, false)), Store(cache, name, since, body))
  }

  /** `fetch` of a registered feed: its name, its URL and its parser. Every
      entry it returns is labelled with the feed's name and carries valid
      lines. */
  function FetchFeed(f: Feed, since: Option<string>, offline: bool, cache: ResponseCache,
                     loader: string -> Result<Payload, string>, iso: string -> Option<Stamp>)
    : (r: (Result<Fetched, CatalogError>, ResponseCache))
    ensures r.0.Ok? ==> ValidEntries(r.0.value.entries, Name(f))
  {
    Fetch(Name(f), Url(f), b => Parse(f, b, iso), since, offline, cache, loader)
  }

  /** Online, what a feed yields depends on neither the requested date nor
      the cache: the URL ignores `since` and the cache is only written. */
  lemma OnlineIgnoresCache(f: Feed, since1: Option<string>, since2: Option<string>, cache1: ResponseCache,
                           cache2: ResponseCache, loader: string -> Result<Payload, string>, iso: string -> Option<Stamp>)
    ensures FetchFeed(f, since1, false, cache1, loader, iso).0 == FetchFeed(f, since2, false, cache2, loader, iso).0
  {
  }

  /** After a successful download, an offline fetch for the same `since`
      replays it: the same entries, now marked as coming from the cache, and
      no further change to the cache. */
  lemma OfflineReplaysOnline(name: string, url: string, parse: Payload -> Result<seq<CatalogEntry>, CatalogError>,
                             since: Option<string>, cache: ResponseCache, loader: string -> Result<Payload, string>)
    requires Fetch(name, url, parse, since, false, cache, loader).0.Ok?
    ensures var (online, cache') := Fetch(name, url, parse, since, false, cache, loader);
      Fetch(name, url, parse, since, true, cache', loader) == (Ok(Fetched(online.value.entries, true)), cache')
  {
    var body := loader(url).value;
    LoadAfterStore(cache, name, since, body, body);
  }

  /** The same for a registered feed: offline, with any downloader, the
      feed replays what it last downloaded for that date. */
  lemma FeedReplaysOnline(f: Feed, since: Option<string>, cache: ResponseCache,
                          loader: string -> Result<Payload, string>, other: string -> Result<Payload, string>,
                          iso: string -> Option<Stamp>)
    requires FetchFeed(f, since, false, cache, loader, iso).0.Ok?
    ensures var (online, cache') := FetchFeed(f, since, false, cache, loader, iso);
      FetchFeed(f, since, true, cache', other, iso) == (Ok(Fetched(online.value.entries, true)), cache')
  {
    var body := loader(Url(f)).value;
    LoadAfterStore(cache, Name(f), since, body, body);
  }
}

=== FILE: catalog_sources.dfy ===
/** The catalogue feeds of `ingest/catalog_sources.py`: the response cache
    that lets a discovery run work offline, the scan that turns a text feed
    into element sets, and the CelesTrak and Ivan Stanojević feeds. The
    downloader and `datetime.fromisoformat` are parameters; a body is a
    `Json.Payload`, its text together with what `json.loads` makes of it. */
module CatalogSources {
  import opened Basics
  import opened Text
  import opened Json
  import opened TleTypes
  import TleText
  import CoreLegacy
  import Epoch
  import UrlEncode

  // ------------------------------------------------------------- entries

  /** A datetime: its wall-clock reading in microseconds and, for an aware
      value, its offset from UTC in microseconds. */
  datatype Stamp = Stamp(wall: int, offset: Option<int>)

  /** The UTC instant of a datetime, a naive one read as UTC already (the
      pipeline's `_normalise`). */
  function Utc(s: Stamp): int {
    s.wall - s.offset.GetOr(0)
  }

  /** `CatalogEntry`: one element set found in a feed. */
  datatype CatalogEntry = CatalogEntry(source: string, noradId: string, name: Option<string>,
                                       line1: string, line2: string, epoch: Stamp)

  /** `CatalogEntry.identity()`, the key the pipeline stores entries under. */
  function IdentityOf(e: CatalogEntry): (string, string, string, string) {
    (e.source, e.noradId, e.line1, e.line2)
  }

  /** The title and the epoch are not part of an entry's identity; the feed,
      the identifier and each element line are. */
  lemma IdentityIgnoresTitleAndEpoch(e: CatalogEntry, name: Option<string>, epoch: Stamp, other: string)
    ensures IdentityOf(e.(name := name, epoch := epoch)) == IdentityOf(e)
    ensures other != e.source ==> IdentityOf(e.(source := other)) != IdentityOf(e)
    ensures other != e.noradId ==> IdentityOf(e.(noradId := other)) != IdentityOf(e)
    ensures other != e.line1 ==> IdentityOf(e.(line1 := other)) != IdentityOf(e)
    ensures other != e.line2 ==> IdentityOf(e.(line2 := other)) != IdentityOf(e)
  {
  }

  /** Why a feed yields nothing: the `ValueError` of `parse_tle_text` or of
      `tle_epoch`, the `TypeError` of iterating a JSON number, boolean or
      null, the `RuntimeError` of an offline run without a stored body, and
      a failing download. */
  datatype CatalogError =
    | Rejected(parse: ParseError)
    | BadEpoch(epoch: Epoch.EpochError)
    | NotIterable
    | NoCachedResponse(message: string)
    | LoadFailed(message: string)

  // ------------------------------------------------------ response cache

  /** `CatalogResponseCache`: the body last stored under each cache key. The
      `fetched_at` and `requested_since` columns are written but never read
      back. */
  type ResponseCache = map<string, Payload>

  /** `_cache_key(source, since)`, with `since` given as its `isoformat()`
      text. */
  function CacheKey(source: string, since: Option<string>): (r: string)
    ensures |source| < |r| && r[..|source|] == source && r[|source|] == '|'
  {
    source + "|" + since.GetOr("none")
  }

  /** Different sources or different requested dates never share a key, as
      long as source names hold no `|` and no date is written `none` (an
      `isoformat()` text starts with a digit). */
  lemma CacheKeyInjective(s1: string, t1: Option<string>, s2: string, t2: Option<string>)
    requires '|' !in s1 && '|' !in s2
    requires t1 != Some("none") && t2 != Some("none")
    requires CacheKey(s1, t1) == CacheKey(s2, t2)
    ensures s1 == s2 && t1 == t2
  {
    KeyParts(s1, t1);
    KeyParts(s2, t2);
  }

  lemma KeyParts(s: string, t: Option<string>)
    requires '|' !in s
    ensures var k := CacheKey(s, t);
            IndexOfChar(k, '|') == |s| && k[..|s|] == s && k[|s| + 1..] == t.GetOr("none")
  {
    var k := CacheKey(s, t);
    assert forall i :: 0 <= i < |s| ==> k[i] == s[i];
    assert k[|s|] == '|';
    assert k[..|s|] == s;
    assert k[|s| + 1..] == t.GetOr("none");
  }

  /** `CatalogResponseCache.store`: insert, or overwrite the body under the
      same key. */
  function Store(c: ResponseCache, source: string, since: Option<string>, body: Payload): (r: ResponseCache)
    ensures Load(r, source, since) == Some(body)
    ensures r.Keys == c.Keys + {CacheKey(source, since)}
    ensures forall k :: k in c && k != CacheKey(source, since) ==> r[k] == c[k]
  {
    c[CacheKey(source, since) := body]
  }

  /** `CatalogResponseCache.load`: the stored body, `None` when there is none. */
  function Load(c: ResponseCache, source: string, since: Option<string>): (r: Option<Payload>)
    ensures r.Some? <==> CacheKey(source, since) in c
  {
    var k := CacheKey(source, since);
    if k in c then Some(c[k]) else None
  }

  /** A stored body is loaded back, and storing again under the same key
      replaces it. */
  lemma LoadAfterStore(c: ResponseCache, source: string, since: Option<string>, body: Payload, later: Payload)
    ensures Load(Store(c, source, since, body), source, since) == Some(body)
    ensures Store(Store(c, source, since, body), source, since, later) == Store(c, source, since, later)
  {
  }

  /** Storing a body for one source and date leaves what every other source
      and date loads unchanged. */
  lemma LoadOtherAfterStore(c: ResponseCache, source: string, since: Option<string>, body: Payload,
                            other: string, otherSince: Option<string>)
    requires '|' !in source && '|' !in other
    requires since != Some("none") && otherSince != Some("none")
    requires source != other || since != otherSince
    ensures Load(Store(c, source, since, body), other, otherSince) == Load(c, other, otherSince)
  {
    if CacheKey(source, since) == CacheKey(other, otherSince) {
      CacheKeyInjective(source, since, other, otherSince);
    }
  }

  // -------------------------------------------------------- the block scan

  /** What `_iter_tle_blocks` yields: the optional title and both lines. */
  datatype Block = Block(name: Option<string>, line1: string, line2: string)

  /** The pair of element lines by which the scan recognises a repeat. */
  function Fingerprint(b: Block): (string, string) {
    (b.line1, b.line2)
  }

  function Fingerprints(bs: seq<Block>): (r: seq<(string, string)>)
    ensures |r| == |bs|
    ensures forall k :: 0 <= k < |bs| ==> r[k] == Fingerprint(bs[k])
  {
    if bs == [] then [] else [Fingerprint(bs[0])] + Fingerprints(bs[1..])
  }

  /** The block whose line 1 is at position `i`. */
  function BlockAt(lines: seq<string>, i: nat): Block
    requires TleText.PairAt(lines, i)
  {
    Block(TleText.NameBefore(lines, i), lines[i], lines[i + 1])
  }

  /** The reference view: every position from `idx` on that holds a "1 "
      line directly followed by a "2 " line, as a block, repeats included. */
  function PairsFrom(lines: seq<string>, idx: nat): (r: seq<Block>)
    ensures forall b :: b in r ==> exists i: nat :: idx <= i && TleText.PairAt(lines, i) && b == BlockAt(lines, i)
    ensures forall i: nat :: idx <= i && TleText.PairAt(lines, i) ==> BlockAt(lines, i) in r
    decreases |lines| - idx
  {
    if idx >= |lines| then []
    else if TleText.PairAt(lines, idx) then [BlockAt(lines, idx)] + PairsFrom(lines, idx + 1)
    else PairsFrom(lines, idx + 1)
  }

  /** Blocks whose fingerprint is not in `seen`, each fingerprint kept at its
      first block only. */
  function KeepFirst(bs: seq<Block>, seen: set<(string, string)>): (r: seq<Block>)
    ensures forall b :: b in r ==> b in bs && Fingerprint(b) !in seen
  {
    if bs == [] then []
    else
      var fp := Fingerprint(bs[0]);
      if fp in seen then KeepFirst(bs[1..], seen) else [bs[0]] + KeepFirst(bs[1..], seen + {fp})
  }

  /** The fingerprints kept are those of `bs` deduplicated. */
  lemma {:induction false} KeepFirstFingerprints(bs: seq<Block>, seen: set<(string, string)>)
    ensures Fingerprints(KeepFirst(bs, seen)) == DedupAfter(Fingerprints(bs), seen)
  {
    if bs != [] {
      var fp := Fingerprint(bs[0]);
      assert Fingerprints(bs)[1..] == Fingerprints(bs[1..]);
      if fp in seen {
        KeepFirstFingerprints(bs[1..], seen);
      } else {
        KeepFirstFingerprints(bs[1..], seen + {fp});
        var rest := KeepFirst(bs[1..], seen + {fp});
        assert Fingerprints([bs[0]] + rest) == [fp] + Fingerprints(rest);
      }
    }
  }

  /** Each kept block is the first block of `bs` with its fingerprint. */
  lemma KeepFirstIsFirst(bs: seq<Block>, seen: set<(string, string)>)
    ensures forall k :: 0 <= k < |KeepFirst(bs, seen)| ==>
      var b := KeepFirst(bs, seen)[k];
      Fingerprint(b) in Fingerprints(bs) && b == bs[IndexOf(Fingerprints(bs), Fingerprint(b))]
  {
    forall k | 0 <= k < |KeepFirst(bs, seen)|
      ensures var b := KeepFirst(bs, seen)[k];
        Fingerprint(b) in Fingerprints(bs) && b == bs[IndexOf(Fingerprints(bs), Fingerprint(b))]
    {
      KeepFirstAt(bs, seen, k);
    }
  }

  lemma {:induction false} KeepFirstAt(bs: seq<Block>, seen: set<(string, string)>, k: nat)
    requires k < |KeepFirst(bs, seen)|
    ensures var b := KeepFirst(bs, seen)[k];
      Fingerprint(b) in Fingerprints(bs) && b == bs[IndexOf(Fingerprints(bs), Fingerprint(b))]
    decreases |bs|
  {
    var fp := Fingerprint(bs[0]);
    var seen' := if fp in seen then seen else seen + {fp};
    var rest := KeepFirst(bs[1..], seen');
    var fps := Fingerprints(bs);
    assert fps[0] == fp && fps[1..] == Fingerprints(bs[1..]);
    var kept := KeepFirst(bs, seen);
    if fp !in seen && k == 0 {
      assert kept[0] == bs[0];
    } else {
      var j := if fp in seen then k else k - 1;
      assert kept[k] == rest[j];
      KeepFirstAt(bs[1..], seen', j);
      var x := Fingerprint(rest[j]);
      assert rest[j] in rest;
      assert x != fp;
      assert IndexOf(fps, x) == 1 + IndexOf(fps[1..], x);
    }
  }

  /** `_iter_tle_blocks` from position `idx` on, with the fingerprints
      already yielded in `seen`. */
  function BlocksFrom(lines: seq<string>, idx: nat, seen: set<(string, string)>): (r: seq<Block>)
    ensures forall k :: 0 <= k < |r| ==> Fingerprint(r[k]) !in seen
    ensures forall j, k :: 0 <= j < k < |r| ==> Fingerprint(r[j]) != Fingerprint(r[k])
    decreases |lines| - idx
  {
    if idx >= |lines| then []
    else if TleText.PairAt(lines, idx) && Fingerprint(BlockAt(lines, idx)) !in seen then
      [BlockAt(lines, idx)] + BlocksFrom(lines, idx + 1, seen + {Fingerprint(BlockAt(lines, idx))})
    else BlocksFrom(lines, idx + 1, seen)
  }

  /** `_iter_tle_blocks(lines)`. */
  function Blocks(lines: seq<string>): (r: seq<Block>)
    ensures forall j, k :: 0 <= j < k < |r| ==> Fingerprint(r[j]) != Fingerprint(r[k])
  {
    BlocksFrom(lines, 0, {})
  }

  /** The scan is the reference view with every repeated pair of element
      lines dropped after its first block. */
  lemma {:induction false} ScanKeepsFirst(lines: seq<string>, idx: nat, seen: set<(string, string)>)
    ensures BlocksFrom(lines, idx, seen) == KeepFirst(PairsFrom(lines, idx), seen)
    decreases |lines| - idx
  {
    if idx < |lines| {
      var rest := PairsFrom(lines, idx + 1);
      if TleText.PairAt(lines, idx) {
        var b := BlockAt(lines, idx);
        assert ([b] + rest)[1..] == rest;
        ScanKeepsFirst(lines, idx + 1, seen + {Fingerprint(b)});
        ScanKeepsFirst(lines, idx + 1, seen);
      } else {
        ScanKeepsFirst(lines, idx + 1, seen);
      }
    }
  }

  /** What the scan yields: no pair of element lines twice, every block one
      found in the lines with its title, every pair found in the lines
      represented, and each represented by its first occurrence. */
  lemma BlocksSpec(lines: seq<string>)
    ensures NoDuplicates(Fingerprints(Blocks(lines)))
    ensures forall b :: b in Blocks(lines) ==> exists i: nat :: TleText.PairAt(lines, i) && b == BlockAt(lines, i)
    ensures forall i: nat :: TleText.PairAt(lines, i) ==> Fingerprint(BlockAt(lines, i)) in Fingerprints(Blocks(lines))
    ensures forall k :: 0 <= k < |Blocks(lines)| ==>
      var b, all := Blocks(lines)[k], PairsFrom(lines, 0);
      Fingerprint(b) in Fingerprints(all) && b == all[IndexOf(Fingerprints(all), Fingerprint(b))]
  {
    ScanKeepsFirst(lines, 0, {});
    var all := PairsFrom(lines, 0);
    KeepFirstFingerprints(all, {});
    KeepFirstIsFirst(all, {});
    forall i: nat | TleText.PairAt(lines, i)
      ensures Fingerprint(BlockAt(lines, i)) in Fingerprints(Blocks(lines))
    {
      var k :| 0 <= k < |all| && all[k] == BlockAt(lines, i);
      assert Fingerprints(all)[k] == Fingerprint(BlockAt(lines, i));
    }
  }

  // -------------------------------------------------------------- entries

  /** A block as the scan of cleaned lines produces it: clean lines with
      their prefixes, and a clean title that does not look like an element
      line. */
  predicate Scanned(b: Block) {
    Clean(b.line1) && Clean(b.line2) && StartsWith(b.line1, "1 ") && StartsWith(b.line2, "2 ")
    && (b.name.Some? ==> Clean(b.name.value) && !TleText.LooksLikeLine(b.name.value))
  }

  /** The non-empty texts among `parts` (`filter(None, parts)`). */
  function Filled(parts: seq<string>): (r: seq<string>)
    ensures forall k :: 0 <= k < |r| ==> r[k] != []
  {
    if parts == [] then []
    else if parts[0] == [] then Filled(parts[1..])
    else [parts[0]] + Filled(parts[1..])
  }

  lemma {:induction false} FilledOfNonEmpty(parts: seq<string>)
    requires forall k :: 0 <= k < |parts| ==> parts[k] != []
    ensures Filled(parts) == parts
  {
    if parts != [] {
      FilledOfNonEmpty(parts[1..]);
      assert parts == [parts[0]] + parts[1..];
    }
  }

  /** The text `_entries_from_lines` hands to the parser for a block: title
      and lines joined by newlines. */
  function BlockText(b: Block): string {
    Join(Filled((if b.name.Some? then [b.name.value] else []) + [b.line1, b.line2]), "\n")
  }

  /** `line1[2:7].strip()`: the catalog number as the feed writes it. */
  function CatalogField(line1: string): string {
    Strip(Slice(line1, 2, 7))
  }

  /** The epoch `tle_epoch` reads, an aware UTC datetime. */
  function ElementEpoch(line1: string): Result<Stamp, CatalogError> {
    match Epoch.PyEpoch(line1)
    case Err(e) => Err(BadEpoch(e))
    case Ok(t) => Ok(Stamp(t, Some(0)))
  }

  /** One pass of the loop in `_entries_from_lines`: parse the block's text
      with `parse_tle_text` of `tle_fetcher/core.py` under the catalog number
      of its line 1, then read the epoch; either raising ends the feed. */
  function EntryOf(b: Block, source: string): (r: Result<CatalogEntry, CatalogError>)
    ensures r.Ok? ==> TleText.WellFormedLines(Python, r.value.line1, r.value.line2) && r.value.source == source
    ensures Scanned(b) ==>
      (r.Ok? <==> TleText.WellFormedLines(Python, b.line1, b.line2) && Epoch.PyEpoch(b.line1).Ok?)
    ensures Scanned(b) && r.Ok? ==>
      r.value == CatalogEntry(source, CatalogField(b.line1), b.name, b.line1, b.line2, Stamp(Epoch.PyEpoch(b.line1).value, Some(0)))
    ensures Scanned(b) && !TleText.WellFormedLines(Python, b.line1, b.line2) ==>
      r == Err(Rejected(TleText.FirstDefect(Python, b.line1, b.line2).value))
  {
    var norad := CatalogField(b.line1);
    var parsed := CoreLegacy.ParseTleText(norad, PlainPayload(BlockText(b)), source);
    assert Scanned(b) ==> parsed == CoreLegacy.Checked(norad, TleText.Pair(b.name, b.line1, b.line2), source) by {
      if Scanned(b) {
        ReadBack(b, norad, source);
      }
    }
    match parsed
    case Err(e) => Err(Rejected(e))
    case Ok(t) =>
      match ElementEpoch(t.line1)
      case Err(e) => Err(e)
      case Ok(at) => Ok(CatalogEntry(source, if t.noradId != [] then t.noradId else norad, t.name, t.line1, t.line2, at))
  }

  /** The parser reads a scanned block back as it is: its text is the block's
      lines, the pair search finds them with the title. */
  lemma ReadBack(b: Block, norad: string, source: string)
    requires Scanned(b)
    ensures CoreLegacy.ParseTleText(norad, PlainPayload(BlockText(b)), source)
         == CoreLegacy.Checked(norad, TleText.Pair(b.name, b.line1, b.line2), source)
  {
    var t := Tle(norad, b.name, b.line1, b.line2, source);
    var shown := ShownLines(t, true);
    var parts := (if b.name.Some? then [b.name.value] else []) + [b.line1, b.line2];
    assert parts == shown;
    FilledOfNonEmpty(shown);
    CleanLinesOfJoin(shown);
    TleText.FindPairOfShown(t, true);
  }

  /** `_entries_from_lines(lines, source)`: every block becomes an entry,
      and the first that fails to parse fails the whole feed. */
  function EntriesFromLines(lines: seq<string>, source: string): (r: Result<seq<CatalogEntry>, CatalogError>)
    ensures r.Ok? ==> |r.value| == |Blocks(lines)|
    ensures r.Ok? ==> forall k :: 0 <= k < |r.value| ==>
      r.value[k].source == source && TleText.WellFormedLines(Python, r.value[k].line1, r.value[k].line2)
    ensures r.Err? <==> exists k :: 0 <= k < |Blocks(lines)| && EntryOf(Blocks(lines)[k], source).Err?
  {
    EntriesOfBlocks(Blocks(lines), source);
    MapResults(Blocks(lines), b => EntryOf(b, source))
  }

  lemma EntriesOfBlocks(bs: seq<Block>, source: string)
    ensures var r := MapResults(bs, b => EntryOf(b, source));
      && (r.Ok? ==> |r.value| == |bs| && forall k :: 0 <= k < |r.value| ==>
            r.value[k].source == source && TleText.WellFormedLines(Python, r.value[k].line1, r.value[k].line2))
      && (r.Err? <==> exists k :: 0 <= k < |bs| && EntryOf(bs[k], source).Err?)
  {
    var f := b => EntryOf(b, source);
    var r := MapResults(bs, f);
    assert forall k :: 0 <= k < |bs| ==> f(bs[k]) == EntryOf(bs[k], source);
    if r.Ok? {
      forall k | 0 <= k < |r.value|
        ensures r.value[k].source == source && TleText.WellFormedLines(Python, r.value[k].line1, r.value[k].line2)
      {
        assert EntryOf(bs[k], source) == Ok(r.value[k]);
      }
    } else {
      assert EntryOf(bs[FirstErr(bs, f)], source).Err?;
    }
  }

  /** Over cleaned lines every block the scan yields is a scanned block. */
  lemma BlocksScanned(lines: seq<string>)
    requires forall i :: 0 <= i < |lines| ==> Clean(lines[i])
    ensures forall k :: 0 <= k < |Blocks(lines)| ==> Scanned(Blocks(lines)[k])
  {
    BlocksSpec(lines);
    forall k | 0 <= k < |Blocks(lines)| ensures Scanned(Blocks(lines)[k]) {
      var b := Blocks(lines)[k];
      assert b in Blocks(lines);
      var i: nat :| TleText.PairAt(lines, i) && b == BlockAt(lines, i);
    }
  }

  /** The entry a well-formed scanned block becomes. */
  function EntryFor(b: Block, source: string): CatalogEntry
    requires Epoch.PyEpoch(b.line1).Ok?
  {
    CatalogEntry(source, CatalogField(b.line1), b.name, b.line1, b.line2, Stamp(Epoch.PyEpoch(b.line1).value, Some(0)))
  }

  /** A feed of cleaned lines yields entries exactly when every block it
      holds has well-formed lines and a readable epoch, and then one entry
      per block, in order, carrying the block's title and lines, the catalog
      number of its line 1 and its epoch. */
  lemma FeedEntries(lines: seq<string>, source: string)
    requires forall i :: 0 <= i < |lines| ==> Clean(lines[i])
    ensures var bs, r := Blocks(lines), EntriesFromLines(lines, source);
      && (r.Ok? <==> forall k :: 0 <= k < |bs| ==>
            TleText.WellFormedLines(Python, bs[k].line1, bs[k].line2) && Epoch.PyEpoch(bs[k].line1).Ok?)
      && (r.Ok? ==> |r.value| == |bs| && forall k :: 0 <= k < |bs| ==> r.value[k] == EntryFor(bs[k], source))
  {
    BlocksScanned(lines);
  }

  // ---------------------------------------------------------- round trip

  /** The lines a block is written as: title when present, then both lines. */
  function BlockLines(b: Block): seq<string> {
    (if b.name.Some? then [b.name.value] else []) + [b.line1, b.line2]
  }

  /** A feed written block after block. */
  function Written(bs: seq<Block>): seq<string>
    decreases |bs|
  {
    if bs == [] then [] else Written(bs[..|bs| - 1]) + BlockLines(bs[|bs| - 1])
  }

  /** The set of fingerprints of `bs`. */
  function FingerprintSet(bs: seq<Block>): set<(string, string)> {
    set k | 0 <= k < |bs| :: Fingerprint(bs[k])
  }

  /** A block that can be written as lines and scanned back: its prefixes, and
      a title that does not look like an element line. */
  predicate Laid(b: Block) {
    StartsWith(b.line1, "1 ") && StartsWith(b.line2, "2 ") && (b.name.Some? ==> !TleText.LooksLikeLine(b.name.value))
  }

  /** The feed written from the first `n` blocks begins the whole feed. */
  lemma {:induction false} WrittenPrefix(bs: seq<Block>, n: nat)
    requires n <= |bs|
    ensures |Written(bs[..n])| <= |Written(bs)|
    ensures Written(bs)[..|Written(bs[..n])|] == Written(bs[..n])
    decreases |bs|
  {
    if n == |bs| {
      assert bs[..n] == bs;
    } else {
      var init := bs[..|bs| - 1];
      WrittenPrefix(init, n);
      assert init[..n] == bs[..n];
      assert Written(bs) == Written(init) + BlockLines(bs[|bs| - 1]);
    }
  }

  /** Where block `j` sits in the written feed. */
  lemma {:induction false} WrittenAt(bs: seq<Block>, j: nat)
    requires j < |bs|
    ensures var lines, p, l := Written(bs), |Written(bs[..j])|, BlockLines(bs[j]);
      && p + |l| == |Written(bs[..j + 1])| <= |lines|
      && lines[p..p + |l|] == l
      && (j > 0 ==> p > 0 && lines[p - 1] == bs[j - 1].line2)
  {
    var lines, before, l := Written(bs), Written(bs[..j]), BlockLines(bs[j]);
    var upto := Written(bs[..j + 1]);
    assert bs[..j + 1][..j] == bs[..j];
    assert upto == before + l;
    WrittenPrefix(bs, j + 1);
    assert lines[..|upto|] == upto;
    assert lines[|before|..|before| + |l|] == upto[|before|..] == l;
    if j > 0 {
      assert bs[..j][..j - 1] == bs[..j - 1];
      assert before == Written(bs[..j - 1]) + BlockLines(bs[j - 1]);
      assert before[|before| - 1] == bs[j - 1].line2;
      assert lines[|before| - 1] == upto[|before| - 1];
    }
  }

  lemma NotBoth(s: string)
    requires StartsWith(s, "2 ")
    ensures !StartsWith(s, "1 ")
  {
    StartsWithFirst(s, "2 ");
    StartsWithFirst(s, "1 ");
  }

  /** The scan of a written feed, from the start of block `j` on, yields the
      blocks from `j` on. */
  lemma {:induction false} ScanWritten(bs: seq<Block>, j: nat)
    requires forall k :: 0 <= k < |bs| ==> Laid(bs[k])
    requires NoDuplicates(Fingerprints(bs))
    requires j <= |bs|
    ensures BlocksFrom(Written(bs), |Written(bs[..j])|, FingerprintSet(bs[..j])) == bs[j..]
    decreases |bs| - j
  {
    var lines := Written(bs);
    if j == |bs| {
      assert bs[..j] == bs;
      assert BlocksFrom(lines, |lines|, FingerprintSet(bs)) == [];
    } else {
      ScanStep(bs, j);
      ScanWritten(bs, j + 1);
      var rest := BlocksFrom(lines, |Written(bs[..j + 1])|, FingerprintSet(bs[..j + 1]));
      assert rest == bs[j + 1..];
      assert bs[j..] == [bs[j]] + rest;
    }
  }

  /** The lines of a feed written from scanned blocks are all clean. */
  lemma {:induction false} WrittenClean(bs: seq<Block>)
    requires forall k :: 0 <= k < |bs| ==> Scanned(bs[k])
    ensures forall i :: 0 <= i < |Written(bs)| ==> Clean(Written(bs)[i])
    decreases |bs|
  {
    if bs != [] {
      var init, b := bs[..|bs| - 1], bs[|bs| - 1];
      assert forall k :: 0 <= k < |init| ==> init[k] == bs[k];
      WrittenClean(init);
      assert Scanned(b);
      var l := BlockLines(b);
      assert forall i :: 0 <= i < |l| ==> Clean(l[i]);
    }
  }

  /** A feed written line by line from distinct, valid blocks (the format
      CelesTrak serves) is read back block for block: one entry per block,
      in order, with the block's title, lines, catalog number and epoch. */
  lemma FeedRoundTrip(bs: seq<Block>, source: string)
    requires forall k :: 0 <= k < |bs| ==>
      Scanned(bs[k]) && TleText.WellFormedLines(Python, bs[k].line1, bs[k].line2) && Epoch.PyEpoch(bs[k].line1).Ok?
    requires NoDuplicates(Fingerprints(bs))
    ensures var r := EntriesFromLines(CleanLines(Terminated(Written(bs))), source);
      && r.Ok? && |r.value| == |bs|
      && forall k :: 0 <= k < |bs| ==> r.value[k] == EntryFor(bs[k], source)
  {
    var lines := Written(bs);
    WrittenClean(bs);
    CleanLinesOfTerminated(lines);
    assert forall k :: 0 <= k < |bs| ==> Laid(bs[k]);
    ScanWritten(bs, 0);
    assert bs[..0] == [] && FingerprintSet([]) == {};
    assert Blocks(lines) == bs;
    FeedEntries(lines, source);
  }

  /** One block of the written feed: the scan yields it and carries on at
      the next block with its fingerprint seen. */
  lemma ScanStep(bs: seq<Block>, j: nat)
    requires forall k :: 0 <= k < |bs| ==> Laid(bs[k])
    requires NoDuplicates(Fingerprints(bs))
    requires j < |bs|
    ensures BlocksFrom(Written(bs), |Written(bs[..j])|, FingerprintSet(bs[..j]))
         == [bs[j]] + BlocksFrom(Written(bs), |Written(bs[..j + 1])|, FingerprintSet(bs[..j + 1]))
  {
    var lines, p, b := Written(bs), |Written(bs[..j])|, bs[j];
    WrittenAt(bs, j);
    var seen := FingerprintSet(bs[..j]);
    SeenBefore(bs, j);
    assert Laid(b);
    NotBoth(b.line2);
    if b.name.Some? {
      assert p + 3 == |Written(bs[..j + 1])|;
      ScanNamed(lines, p, b, seen);
    } else {
      assert p + 2 == |Written(bs[..j + 1])|;
      if j > 0 {
        assert Laid(bs[j - 1]);
        SecondLineLooksLikeLine(bs[j - 1]);
      }
      ScanBare(lines, p, b, seen);
    }
  }

  /** Block `j`'s fingerprint is new, and the scan adds it to those seen. */
  lemma {:induction false} SeenBefore(bs: seq<Block>, j: nat)
    requires NoDuplicates(Fingerprints(bs))
    requires j < |bs|
    ensures Fingerprint(bs[j]) !in FingerprintSet(bs[..j])
    ensures FingerprintSet(bs[..j + 1]) == FingerprintSet(bs[..j]) + {Fingerprint(bs[j])}
  {
    forall k | 0 <= k < j ensures Fingerprint(bs[..j][k]) != Fingerprint(bs[j]) {
      assert Fingerprints(bs)[k] != Fingerprints(bs)[j];
    }
    assert forall k :: 0 <= k < j ==> bs[..j + 1][k] == bs[..j][k];
    assert bs[..j + 1][j] == bs[j];
  }

  lemma SecondLineLooksLikeLine(b: Block)
    requires Laid(b)
    ensures TleText.LooksLikeLine(b.line2)
  {
  }

  lemma ScanNamed(lines: seq<string>, p: nat, b: Block, seen: set<(string, string)>)
    requires Laid(b) && b.name.Some? && !StartsWith(b.line2, "1 ")
    requires p + 3 <= |lines| && lines[p..p + 3] == BlockLines(b)
    requires Fingerprint(b) !in seen
    ensures BlocksFrom(lines, p, seen) == [b] + BlocksFrom(lines, p + 3, seen + {Fingerprint(b)})
  {
    var seen' := seen + {Fingerprint(b)};
    assert lines[p] == b.name.value && lines[p + 1] == b.line1 && lines[p + 2] == b.line2;
    assert !TleText.PairAt(lines, p);
    assert BlocksFrom(lines, p, seen) == BlocksFrom(lines, p + 1, seen);
    assert TleText.PairAt(lines, p + 1) && BlockAt(lines, p + 1) == b;
    assert BlocksFrom(lines, p + 1, seen) == [b] + BlocksFrom(lines, p + 2, seen');
    assert !TleText.PairAt(lines, p + 2);
    assert BlocksFrom(lines, p + 2, seen') == BlocksFrom(lines, p + 3, seen');
  }

  lemma ScanBare(lines: seq<string>, p: nat, b: Block, seen: set<(string, string)>)
    requires Laid(b) && b.name.None? && !StartsWith(b.line2, "1 ")
    requires p + 2 <= |lines| && lines[p..p + 2] == BlockLines(b)
    requires Fingerprint(b) !in seen
    requires p == 0 || TleText.LooksLikeLine(lines[p - 1])
    ensures BlocksFrom(lines, p, seen) == [b] + BlocksFrom(lines, p + 2, seen + {Fingerprint(b)})
  {
    var seen' := seen + {Fingerprint(b)};
    assert lines[p] == b.line1 && lines[p + 1] == b.line2;
    assert TleText.NameBefore(lines, p) == None;
    assert TleText.PairAt(lines, p) && BlockAt(lines, p) == b;
    assert BlocksFrom(lines, p, seen) == [b] + BlocksFrom(lines, p + 1, seen');
    assert !TleText.PairAt(lines, p + 1);
    assert BlocksFrom(lines, p + 1, seen') == BlocksFrom(lines, p + 2, seen');
  }
}

=== FILE: cli_common.dfy ===
/** The identifier-list helpers of `tle_fetcher/cli/common.py`: reading an
    identifiers file (one identifier per line, `#` starts a comment) and
    merging identifiers given on the command line with those loaded. The
    line rule is also the one of `_load_ids_from_file` in
    `tle_fetcher/cli.py` and of `_load_ids` in `tle_fetcher/cli/fetch.py`. */
module CliCommon {
  import opened Basics
  import opened Text

  // ------------------------------------------------------------ id files

  /** `raw.split("#", 1)[0].strip()`. */
  function StripComment(raw: string): (r: string)
    ensures '#' !in r
    ensures NoBreak(raw) && r != [] ==> Clean(r)
  {
    var before := Before(raw, '#');
    var r := Strip(before);
    StripIsInfix(before);
    r
  }

  /** What `strip` leaves is a contiguous piece of its input. */
  lemma StripIsInfix(s: string)
    ensures exists i, j :: 0 <= i <= j <= |s| && Strip(s) == s[i..j]
  {
    var e := TrimEnd(Python, s);
    SuffixOfPrefix(s, e, TrimStart(Python, e));
  }

  /** A suffix of a prefix is a contiguous piece. */
  lemma SuffixOfPrefix(s: string, e: string, r: string)
    requires e <= s && |r| <= |e| && r == e[|e| - |r|..]
    ensures exists i, j :: 0 <= i <= j <= |s| && r == s[i..j]
  {
    assert r == s[|e| - |r|..|e|];
  }

  /** The identifiers of a file's text: every line without its comment,
      stripped, blanks dropped, in file order. */
  function IdLines(text: string): (r: seq<string>)
    ensures forall k :: 0 <= k < |r| ==> Clean(r[k]) && '#' !in r[k]
  {
    KeptLines(Lines(text))
  }

  function KeptLines(lines: seq<string>): (r: seq<string>)
    requires forall k :: 0 <= k < |lines| ==> NoBreak(lines[k])
    ensures forall k :: 0 <= k < |r| ==> Clean(r[k]) && '#' !in r[k]
    ensures |r| <= |lines|
  {
    if lines == [] then []
    else
      var line := StripComment(lines[0]);
      (if line != [] then [line] else []) + KeptLines(lines[1..])
  }

  /** Identifiers written one per line come back from the file in order. */
  lemma IdLinesOfTerminated(ids: seq<string>)
    requires forall k :: 0 <= k < |ids| ==> Clean(ids[k]) && '#' !in ids[k]
    ensures IdLines(Terminated(ids)) == ids
  {
    LinesOfTerminated(ids);
    KeptLinesOfClean(ids);
  }

  lemma {:induction false} KeptLinesOfClean(ids: seq<string>)
    requires forall k :: 0 <= k < |ids| ==> Clean(ids[k]) && '#' !in ids[k]
    requires forall k :: 0 <= k < |ids| ==> NoBreak(ids[k])
    ensures KeptLines(ids) == ids
  {
    if ids != [] {
      assert Before(ids[0], '#') == ids[0];
      CleanIsStripped(ids[0]);
      KeptLinesOfClean(ids[1..]);
    }
  }

  /** A trailing comment is ignored. */
  lemma CommentIgnored(id: string, comment: string)
    requires Clean(id) && '#' !in id && NoBreak(comment)
    ensures IdLines(id + " #" + comment + "\n") == [id]
  {
    var line := id + " #" + comment;
    assert NoBreak(line) by {
      assert forall k :: 0 <= k < |line| ==> line[k] in id || line[k] in " #" || line[k] in comment;
    }
    LinesOfTerminated([line]);
    assert Terminated([line]) == line + "\n";
    assert Before(line, '#') == id + " " by {
      assert line[|id| + 1] == '#';
      assert forall k :: 0 <= k < |id| ==> line[k] == id[k];
      assert forall k :: 0 <= k < |id| ==> line[k] != '#';
    }
    StripTrailingSpace(id);
    assert KeptLines([line]) == [id];
  }

  lemma StripTrailingSpace(id: string)
    requires Clean(id)
    ensures Strip(id + " ") == id
  {
    assert (id + " ")[..|id|] == id;
    assert TrimEnd(Python, id + " ") == TrimEnd(Python, id);
    CleanIsStripped(id);
  }

  /** Where the file is: not given (an empty path), missing, or holding text. */
  datatype IdsFile = NotGiven | Missing | Present(text: string)

  /** `load_ids_from_file(path)`: `[]` without a path, `FileNotFoundError` for a
      missing file, else the identifiers of its text. */
  function LoadIdsFromFile(file: IdsFile): (r: Option<seq<string>>)
    ensures r.None? <==> file.Missing?
    ensures file.NotGiven? ==> r == Some([])
    ensures file.Present? ==> r == Some(IdLines(file.text))
  {
    match file
    case NotGiven => Some([])
    case Missing => None
    case Present(text) => Some(IdLines(text))
  }

  // ------------------------------------------------------------- merging

  /** `merge_ids(explicit, loaded)`: each value stripped, blanks and repeats
      dropped, first occurrences kept in order, explicit identifiers first. */
  method MergeIds(explicit: seq<string>, loaded: seq<string>) returns (result: seq<string>)
    ensures result == Dedup(StripNonBlank(Python, explicit + loaded))
  {
    result := MergeValues(explicit + loaded);
    MergeFromIsDedup(explicit + loaded, {});
  }

  /** The loop of `merge_ids` over the concatenated values. */
  method MergeValues(values: seq<string>) returns (result: seq<string>)
    ensures result == MergeFrom(values, {})
  {
    var seen: set<string> := {};
    result := [];
    var i := 0;
    while i < |values|
      invariant 0 <= i <= |values|
      invariant result + MergeFrom(values[i..], seen) == MergeFrom(values, {})
    {
      var candidate := Strip(values[i]);
      assert values[i..][1..] == values[i + 1..];
      if candidate != [] && candidate !in seen {
        assert result + MergeFrom(values[i..], seen) == (result + [candidate]) + MergeFrom(values[i + 1..], seen + {candidate});
        seen := seen + {candidate};
        result := result + [candidate];
      }
      i := i + 1;
    }
    assert values[i..] == [];
  }

  /** The merge of `values` after the identifiers in `seen`, value by value. */
  function MergeFrom(values: seq<string>, seen: set<string>): seq<string>
  {
    if values == [] then []
    else
      var c := Strip(values[0]);
      if c != [] && c !in seen then [c] + MergeFrom(values[1..], seen + {c})
      else MergeFrom(values[1..], seen)
  }

  /** Merging value by value is stripping, dropping blanks and then dropping
      repeats. */
  lemma {:induction false} MergeFromIsDedup(values: seq<string>, seen: set<string>)
    ensures MergeFrom(values, seen) == DedupAfter(StripNonBlank(Python, values), seen)
  {
    if values != [] {
      MergeStep(values, seen);
      var c := Strip(values[0]);
      if c != [] && c !in seen {
        MergeFromIsDedup(values[1..], seen + {c});
      } else {
        MergeFromIsDedup(values[1..], seen);
      }
    }
  }

  /** The elements of a sequence, as a set. */
  function Members(xs: seq<string>): (r: set<string>)
    ensures forall x :: x in r <==> x in xs
  {
    if xs == [] then {} else Members(xs[..|xs| - 1]) + {xs[|xs| - 1]}
  }

  lemma MergeStep(values: seq<string>, seen: set<string>)
    requires values != []
    ensures var c := Strip(values[0]);
            DedupAfter(StripNonBlank(Python, values), seen)
              == if c != [] && c !in seen then [c] + DedupAfter(StripNonBlank(Python, values[1..]), seen + {c})
                 else DedupAfter(StripNonBlank(Python, values[1..]), seen)
  {
    var c := Strip(values[0]);
    var rest := StripNonBlank(Python, values[1..]);
    var all := StripNonBlank(Python, values);
    if c == [] {
      assert all == rest;
    } else {
      assert all == [c] + rest;
      assert all[0] == c && all[1..] == rest;
    }
  }

  /** The merge has no repeats, keeps every non-blank stripped value, and
      nothing else; what comes first among the values comes first in it. */
  lemma MergeProperties(explicit: seq<string>, loaded: seq<string>)
    ensures var r := Dedup(StripNonBlank(Python, explicit + loaded));
            && NoDuplicates(r)
            && (forall v :: v in r <==> v in StripNonBlank(Python, explicit + loaded))
            && (forall k :: 0 <= k < |r| ==> r[k] != [])
            && |Dedup(StripNonBlank(Python, explicit))| <= |r|
            && r[..|Dedup(StripNonBlank(Python, explicit))|] == Dedup(StripNonBlank(Python, explicit))
  {
    var all := StripNonBlank(Python, explicit + loaded);
    var r := Dedup(all);
    forall k | 0 <= k < |r| ensures r[k] != [] {
      assert r[k] in all;
    }
    StripNonBlankAppend(explicit, loaded);
    DedupPrefix(StripNonBlank(Python, explicit), StripNonBlank(Python, loaded));
  }

  lemma {:induction false} StripNonBlankAppend(a: seq<string>, b: seq<string>)
    ensures StripNonBlank(Python, a + b) == StripNonBlank(Python, a) + StripNonBlank(Python, b)
  {
    if a == [] {
      assert a + b == b;
    } else {
      assert (a + b)[0] == a[0] && (a + b)[1..] == a[1..] + b;
      StripNonBlankAppend(a[1..], b);
      var t := Trim(Python, a[0]);
      if t != [] {
        ConcatAssociates([t], StripNonBlank(Python, a[1..]), StripNonBlank(Python, b));
      }
    }
  }

  lemma ConcatAssociates<T>(x: seq<T>, y: seq<T>, z: seq<T>)
    ensures x + (y + z) == (x + y) + z
  {
  }

  /** Deduplicating a concatenation starts with the deduplicated first part. */
  lemma DedupPrefix(a: seq<string>, b: seq<string>)
    ensures |Dedup(a)| <= |Dedup(a + b)| && Dedup(a + b)[..|Dedup(a)|] == Dedup(a)
  {
    DedupAfterPrefix(a, b, {});
  }

  lemma {:induction false} DedupAfterPrefix(a: seq<string>, b: seq<string>, seen: set<string>)
    ensures |DedupAfter(a, seen)| <= |DedupAfter(a + b, seen)|
    ensures DedupAfter(a + b, seen)[..|DedupAfter(a, seen)|] == DedupAfter(a, seen)
    decreases |a|
  {
    if a == [] {
      assert a + b == b;
    } else {
      assert (a + b)[1..] == a[1..] + b;
      assert (a + b)[0] == a[0];
      if a[0] in seen {
        DedupAfterPrefix(a[1..], b, seen);
      } else {
        DedupAfterPrefix(a[1..], b, seen + {a[0]});
      }
    }
  }
}

=== FILE: cli_fetch.dfy ===
/** The `fetch` sub-command of `tle_fetcher/cli/fetch.py`: identifiers from
    an identifiers file and from `--ids` values, the offline switch, the
    state directory, and the exit code of a run. The lookups themselves
    (`FetchService.fetch_one`) are injected as a success-or-failure per
    identifier. */
module CliFetch {
  import opened Basics
  import opened Text
  import CliCommon

  const DefaultSourceOrder: seq<string> := ["celestrak", "ivan", "spacetrack", "n2yo"]
  const DefaultCacheTtl: int := 7200

  // ----------------------------------------------------------- identifiers

  /** The whitespace-separated words of every line, in order. */
  function WordsOf(lines: seq<string>): (r: seq<string>)
    ensures forall k :: 0 <= k < |r| ==> Word(r[k])
  {
    if lines == [] then []
    else
      SplitWhitespaceWords(lines[0]);
      SplitWhitespace(lines[0]) + WordsOf(lines[1..])
  }

  /** `_load_ids(path)`: every line without its comment, stripped, blank ones
      dropped, then split on whitespace; `None` when the file does not exist
      (`FileNotFoundError`). */
  function LoadIds(file: Option<string>): (r: Option<seq<string>>)
    ensures r.None? <==> file.None?
    ensures r.Some? ==> forall k :: 0 <= k < |r.value| ==> Word(r.value[k]) && '#' !in r.value[k]
  {
    match file
    case None => None
    case Some(text) =>
      var lines := CliCommon.IdLines(text);
      var ids := WordsOf(lines);
      assert forall k :: 0 <= k < |ids| ==> '#' !in ids[k] by {
        WordsOfKeepsOut(lines, '#');
      }
      Some(ids)
  }

  lemma {:induction false} WordsOfKeepsOut(lines: seq<string>, c: char)
    requires forall k :: 0 <= k < |lines| ==> c !in lines[k]
    ensures forall k :: 0 <= k < |WordsOf(lines)| ==> c !in WordsOf(lines)[k]
  {
    if lines != [] {
      SplitWhitespaceKeepsOut(lines[0], c);
      WordsOfKeepsOut(lines[1..], c);
    }
  }

  /** The words of a text are pieces of it. */
  lemma {:induction false} SplitWhitespaceKeepsOut(s: string, c: char)
    requires c !in s
    ensures forall k :: 0 <= k < |SplitWhitespace(s)| ==> c !in SplitWhitespace(s)[k]
    decreases |s|
  {
    if s != [] {
      if IsSpace(Python, s[0]) {
        SplitWhitespaceKeepsOut(s[1..], c);
      } else {
        var k := SpaceIndex(s);
        assert c !in s[..k] && c !in s[k..];
        SplitWhitespaceKeepsOut(s[k..], c);
        KeepsOutAppend([s[..k]], SplitWhitespace(s[k..]), c);
      }
    }
  }

  lemma KeepsOutAppend(a: seq<string>, b: seq<string>, c: char)
    requires forall k :: 0 <= k < |a| ==> c !in a[k]
    requires forall k :: 0 <= k < |b| ==> c !in b[k]
    ensures forall k :: 0 <= k < |a + b| ==> c !in (a + b)[k]
  {
  }

  /** A single word is split into itself. */
  lemma SplitWhitespaceOfWord(w: string)
    requires Word(w)
    ensures SplitWhitespace(w) == [w]
  {
    assert SpaceIndex(w) == |w|;
    assert w[..|w|] == w && w[|w|..] == [];
    assert SplitWhitespace([]) == [];
  }

  /** Identifiers written one per line come back from the file in order. */
  lemma LoadIdsOfTerminated(ids: seq<string>)
    requires forall k :: 0 <= k < |ids| ==> Word(ids[k]) && '#' !in ids[k]
    ensures LoadIds(Some(Terminated(ids))) == Some(ids)
  {
    forall k | 0 <= k < |ids| ensures Clean(ids[k]) {
      WordIsClean(ids[k]);
    }
    CliCommon.IdLinesOfTerminated(ids);
    WordsOfWords(ids);
  }

  lemma WordIsClean(w: string)
    requires Word(w)
    ensures Clean(w)
  {
    forall i | 0 <= i < |w| ensures !IsLineBreak(w[i]) {
      if IsLineBreak(w[i]) { LineBreakIsSpace(w[i]); }
    }
  }

  lemma {:induction false} WordsOfWords(ws: seq<string>)
    requires forall k :: 0 <= k < |ws| ==> Word(ws[k])
    ensures WordsOf(ws) == ws
  {
    if ws != [] {
      SplitWhitespaceOfWord(ws[0]);
      WordsOfWords(ws[1..]);
      assert ws == [ws[0]] + ws[1..];
    }
  }

  /** `_normalize_ids(values)`: every value split on commas, each part
      stripped, blank parts dropped; order and repeats are kept. */
  function NormalizeIds(values: seq<string>): (r: seq<string>)
    ensures forall k :: 0 <= k < |r| ==> r[k] != [] && ',' !in r[k]
  {
    if values == [] then []
    else
      var parts := SplitOn(values[0], ',');
      StripNonBlankKeepsOut(parts, ',');
      StripNonBlank(Python, parts) + NormalizeIds(values[1..])
  }

  /** Stripping keeps out a character no piece had. */
  lemma {:induction false} StripNonBlankKeepsOut(pieces: seq<string>, c: char)
    requires forall k :: 0 <= k < |pieces| ==> c !in pieces[k]
    ensures forall k :: 0 <= k < |StripNonBlank(Python, pieces)| ==> c !in StripNonBlank(Python, pieces)[k]
  {
    if pieces != [] {
      CliCommon.StripIsInfix(pieces[0]);
      StripNonBlankKeepsOut(pieces[1..], c);
    }
  }

  /** Normalising a list is normalising its parts one after the other. */
  lemma {:induction false} NormalizeIdsAppend(a: seq<string>, b: seq<string>)
    ensures NormalizeIds(a + b) == NormalizeIds(a) + NormalizeIds(b)
  {
    if a == [] {
      assert a + b == b;
    } else {
      assert (a + b)[0] == a[0] && (a + b)[1..] == a[1..] + b;
      NormalizeIdsAppend(a[1..], b);
      CliCommon.ConcatAssociates(StripNonBlank(Python, SplitOn(a[0], ',')), NormalizeIds(a[1..]), NormalizeIds(b));
    }
  }

  /** A comma-separated list of identifiers reads back as the list, repeats
      included. */
  lemma NormalizeIdsOfJoined(ids: seq<string>)
    requires ids != []
    requires forall k :: 0 <= k < |ids| ==> Clean(ids[k]) && ',' !in ids[k]
    ensures NormalizeIds([Join(ids, ",")]) == ids
  {
    StripNonBlankOfSplitJoin(ids, ',');
    NormalizeIdsOfOne(Join(ids, ","));
  }

  lemma NormalizeIdsOfOne(v: string)
    ensures NormalizeIds([v]) == StripNonBlank(Python, SplitOn(v, ','))
  {
    assert [v][1..] == [];
  }

  /** Repeats are not removed. */
  lemma KeepsRepeats()
    ensures NormalizeIds(["25544,25544"]) == ["25544", "25544"]
  {
    var ids := ["25544", "25544"];
    assert Join(ids, ",") == "25544,25544";
    NormalizeIdsOfJoined(ids);
  }

  // --------------------------------------------------------- environment

  /** `_determine_offline`: the flag, or `TLE_FETCHER_OFFLINE` (absent is
      the empty text) lower-cased among `1`, `true`, `yes`. */
  function DetermineOffline(flag: bool, env: Option<string>): (r: bool)
    ensures flag ==> r
    ensures env.None? ==> r == flag
  {
    flag || Lower(env.GetOr([])) in {"1", "true", "yes"}
  }

  /** The variable is read without regard to case. */
  lemma OfflineIgnoresCase(s: string)
    ensures DetermineOffline(false, Some(s)) == DetermineOffline(false, Some(Lower(s)))
  {
    LowerIdempotent(s);
  }

  /** Examples: `TRUE` and `Yes` switch offline mode on; `0`, `no` and the
      empty text do not. */
  lemma OfflineWords()
    ensures DetermineOffline(false, Some("TRUE")) && DetermineOffline(false, Some("Yes"))
    ensures !DetermineOffline(false, Some("0")) && !DetermineOffline(false, Some("no")) && !DetermineOffline(false, Some(""))
  {
    assert Lower("TRUE") == "true";
    assert Lower("Yes") == "yes";
    assert Lower("0") == "0";
    assert Lower("no") == "no";
  }

  /** `_resolve_state_dir`: `--state-dir` when given, else a non-empty
      `TLE_FETCHER_STATE_DIR`, else `.cache/tle-fetcher` under the home
      directory. Paths are texts joined with `/`. */
  function ResolveStateDir(flag: Option<string>, env: Option<string>, home: string): (r: string)
    ensures flag.Some? ==> r == flag.value
    ensures flag.None? && env.Some? && env.value != [] ==> r == env.value
    ensures flag.None? && (env.None? || env.value == []) ==> r == home + "/.cache/tle-fetcher"
  {
    if flag.Some? then flag.value
    else if env.Some? && env.value != [] then env.value
    else home + "/.cache/tle-fetcher"
  }

  // ------------------------------------------------------------------ run

  /** The identifiers a run works on: the file's (with `--all`) then the
      normalised `--ids` values; `None` when `--all` names a missing file. */
  function RunIds(all: bool, file: Option<string>, values: seq<string>): (r: Option<seq<string>>)
    ensures r.None? <==> all && file.None?
    ensures !all ==> r == Some(NormalizeIds(values))
    ensures all && file.Some? ==> r == Some(LoadIds(file).value + NormalizeIds(values))
  {
    if all then
      match LoadIds(file)
      case None => None
      case Some(ids) => Some(ids + NormalizeIds(values))
    else Some(NormalizeIds(values))
  }

  /** How `run` ends: its exit code, the identifiers it looked up, and the
      cache lifetime it used. */
  datatype FetchRun = FetchRun(code: int, attempted: seq<string>, ttl: int)

  /** `run(args)`. `fetched(id, ttl, offline)` says whether the lookup of
      `id` went through without an exception. */
  method Run(all: bool, file: Option<string>, values: seq<string>, cacheTtl: int, offlineFlag: bool,
             offlineEnv: Option<string>, fetched: (string, int, bool) -> bool)
    returns (r: FetchRun)
    ensures all && file.None? ==> r.code == 2 && r.attempted == []
    ensures RunIds(all, file, values) == Some([]) ==> r.code == 2 && r.attempted == []
    ensures (RunIds(all, file, values).Some? && RunIds(all, file, values).value != []) ==>
      && r.attempted == RunIds(all, file, values).value
      && r.ttl >= 0 && (cacheTtl >= 0 ==> r.ttl == cacheTtl)
      && (r.code == 0 || r.code == 1)
      && (r.code == 0 <==> forall k :: 0 <= k < |r.attempted| ==>
            fetched(r.attempted[k], r.ttl, DetermineOffline(offlineFlag, offlineEnv)))
  {
    var requested := RunIds(all, file, values);
    if requested.None? || requested.value == [] {
      return FetchRun(2, [], 0);
    }
    var ids := requested.value;
    var ttl := if cacheTtl > 0 then cacheTtl else 0;
    var code := FetchAll(ids, ttl, DetermineOffline(offlineFlag, offlineEnv), fetched);
    r := FetchRun(code, ids, ttl);
  }

  /** The lookup loop of `run`: every identifier is looked up, a failure
      sets the exit code to 1 and the loop carries on. */
  method FetchAll(ids: seq<string>, ttl: int, offline: bool, fetched: (string, int, bool) -> bool) returns (code: int)
    ensures code == 0 || code == 1
    ensures code == 0 <==> forall k :: 0 <= k < |ids| ==> fetched(ids[k], ttl, offline)
  {
    code := 0;
    var i := 0;
    while i < |ids|
      invariant 0 <= i <= |ids|
      invariant code == 0 || code == 1
      invariant code == 0 <==> forall k :: 0 <= k < i ==> fetched(ids[k], ttl, offline)
    {
      if !fetched(ids[i], ttl, offline) {
        code := 1;
      }
      i := i + 1;
    }
  }
}

=== FILE: config.dfy ===
/** The configuration loader: environment words read as booleans, secrets
    masked for logs, and the Notion feature flag, which defaults to "on"
    exactly when both Notion credentials are present. Paths and the
    connector's float timeout carry no logic and are not modelled. */
module Config {
  import opened Basics
  import opened Text

  // ------------------------------------------------------------ boolean words

  const TrueWords: set<string> := {"1", "true", "yes", "on"}
  const FalseWords: set<string> := {"0", "false", "no", "off"}

  /** `_to_bool`: an absent variable or an unrecognised word gives the
      default; otherwise the word, stripped and lower-cased, decides. */
  function ToBool(value: Option<string>, default: Option<bool>): (r: Option<bool>)
    ensures r != default ==> value.Some? && r.Some?
    ensures r == Some(true) && default != Some(true) ==> Lower(Strip(value.value)) in TrueWords
    ensures r == Some(false) && default != Some(false) ==> Lower(Strip(value.value)) in FalseWords
  {
    if value.None? then default
    else
      var word := Lower(Strip(value.value));
      if word in TrueWords then Some(true)
      else if word in FalseWords then Some(false)
      else default
  }

  /** No word is both true and false, so the order of the two tests does
      not matter: a recognised word always decides, whatever the default. */
  lemma ToBoolRecognised(s: string, d1: Option<bool>, d2: Option<bool>)
    requires Lower(Strip(s)) in TrueWords + FalseWords
    ensures ToBool(Some(s), d1) == ToBool(Some(s), d2) == Some(Lower(Strip(s)) in TrueWords)
  {
  }

  /** Lower-casing and stripping commute: upper-case ASCII letters are not
      whitespace and lower-casing makes none. */
  lemma LowerKeepsSpace(c: char)
    ensures IsSpace(Python, LowerChar(c)) == IsSpace(Python, c)
  {
  }

  lemma {:induction false} TrimEndLower(s: string)
    ensures TrimEnd(Python, Lower(s)) == Lower(TrimEnd(Python, s))
    decreases |s|
  {
    if s != [] {
      var l := Lower(s);
      assert l[|s| - 1] == LowerChar(s[|s| - 1]);
      LowerKeepsSpace(s[|s| - 1]);
      if IsSpace(Python, s[|s| - 1]) {
        assert l[..|s| - 1] == Lower(s[..|s| - 1]);
        TrimEndLower(s[..|s| - 1]);
        assert TrimEnd(Python, l) == TrimEnd(Python, l[..|s| - 1]);
        assert TrimEnd(Python, s) == TrimEnd(Python, s[..|s| - 1]);
      } else {
        assert TrimEnd(Python, l) == l;
        assert TrimEnd(Python, s) == s;
      }
    }
  }

  lemma {:induction false} TrimStartLower(s: string)
    ensures TrimStart(Python, Lower(s)) == Lower(TrimStart(Python, s))
    decreases |s|
  {
    if s != [] {
      var l := Lower(s);
      assert l[0] == LowerChar(s[0]);
      LowerKeepsSpace(s[0]);
      if IsSpace(Python, s[0]) {
        assert l[1..] == Lower(s[1..]);
        TrimStartLower(s[1..]);
        assert TrimStart(Python, l) == TrimStart(Python, l[1..]);
        assert TrimStart(Python, s) == TrimStart(Python, s[1..]);
      } else {
        assert TrimStart(Python, l) == l;
        assert TrimStart(Python, s) == s;
      }
    }
  }

  lemma StripLower(s: string)
    ensures Strip(Lower(s)) == Lower(Strip(s))
  {
    TrimEndLower(s);
    TrimStartLower(TrimEnd(Python, s));
  }

  /** The words are read without regard to ASCII case: `TRUE`, `Yes` and
      `Off` mean what their lower-case forms mean. */
  lemma ToBoolIgnoresCase(s: string, d: Option<bool>)
    ensures ToBool(Some(s), d) == ToBool(Some(Lower(s)), d)
  {
    StripLower(s);
    LowerIdempotent(Strip(s));
  }

  /** Surrounding whitespace is ignored. */
  lemma ToBoolIgnoresPadding(s: string, d: Option<bool>)
    ensures ToBool(Some(s), d) == ToBool(Some(Strip(s)), d)
  {
    TrimIdempotent(Python, s);
  }

  /** Every word of either set reads back as its own meaning. */
  lemma ToBoolTrueWords(w: string, d: Option<bool>)
    requires w in TrueWords
    ensures ToBool(Some(w), d) == Some(true)
  {
    PlainWord(w);
    assert Lower(Strip(w)) in TrueWords;
  }

  lemma ToBoolFalseWords(w: string, d: Option<bool>)
    requires w in FalseWords
    ensures ToBool(Some(w), d) == Some(false)
  {
    PlainWord(w);
    assert w !in TrueWords;
  }

  /** A word of lower-case letters and digits is its own stripped,
      lower-cased form. */
  lemma PlainWord(w: string)
    requires forall k :: 0 <= k < |w| ==> 'a' <= w[k] <= 'z' || '0' <= w[k] <= '9'
    ensures Lower(Strip(w)) == w
  {
    TrimOfSolid(Python, w);
    assert forall k :: 0 <= k < |w| ==> LowerChar(w[k]) == w[k];
  }

  // ---------------------------------------------------------------- secrets

  /** `redact_secret`: an absent or empty secret is `<redacted>`; a secret
      no longer than `keep` (negative counts as 0) is all stars; a longer
      one shows its first `keep` characters and then four stars. */
  function RedactSecret(value: Option<string>, keep: int): (r: string)
    ensures value.None? || value.value == [] ==> r == "<redacted>"
    ensures value.Some? && value.value != [] ==>
      (forall i :: 0 <= i < |r| ==> r[i] == '*' || (i < keep && i < |value.value| && r[i] == value.value[i]))
    ensures value.Some? && value.value != [] && |value.value| <= keep ==> |r| == |value.value|
    ensures value.Some? && value.value != [] && |value.value| > keep ==> |r| == Max(keep, 0) + 4
  {
    if value.None? || value.value == [] then "<redacted>"
    else
      var v := value.value;
      var k := Max(keep, 0);
      if |v| <= k then Stars(|v|) else v[..k] + Stars(4)
  }

  function Max(a: int, b: int): int { if a < b then b else a }

  function Stars(n: nat): (r: string)
    ensures |r| == n && forall i :: 0 <= i < n ==> r[i] == '*'
  {
    seq(n, _ => '*')
  }

  /** What follows the first `keep` characters of a long secret never
      reaches the log: two secrets that share that prefix are masked alike,
      and a short secret reveals only its length. */
  lemma RedactHidesRest(v1: string, v2: string, keep: int)
    requires v1 != [] && v2 != []
    requires (|v1| > keep && |v2| > keep && v1[..Max(keep, 0)] == v2[..Max(keep, 0)])
      || (|v1| <= keep && |v2| == |v1|)
    ensures RedactSecret(Some(v1), keep) == RedactSecret(Some(v2), keep)
  {
  }

  /** The example the connector tests use. */
  lemma RedactSecretExamples()
    ensures RedactSecret(Some("secret-value"), 4) == "secr****"
    ensures RedactSecret(Some(""), 4) == "<redacted>"
    ensures RedactSecret(Some("abc"), 4) == "***"
  {
    assert "secret-value"[..4] == "secr";
    assert Stars(4) == "****";
    assert Stars(3) == "***";
  }

  // ----------------------------------------------------------------- loading

  const TokenKey := "TLE_FETCHER_NOTION_TOKEN"
  const DatabaseKey := "TLE_FETCHER_NOTION_DATABASE_ID"
  const NotionFlagKey := "TLE_FETCHER_FEATURE_NOTION_SYNC"

  /** Python truthiness of an optional text. */
  predicate Present(s: Option<string>) { s.Some? && s.value != [] }

  datatype NotionSettings = NotionSettings(apiToken: Option<string>, databaseId: Option<string>)
  {
    /** `is_configured`: both the token and the database id are non-empty. */
    function IsConfigured(): (r: bool)
      ensures r ==> apiToken.Some? && databaseId.Some?
      ensures apiToken == Some([]) || databaseId == Some([]) ==> !r
    {
      Present(apiToken) && Present(databaseId)
    }
  }

  datatype AppConfig = AppConfig(notionSync: bool, notion: NotionSettings)
  {
    /** `notion_enabled`: the flag is on and the credentials are there. */
    function NotionEnabled(): (r: bool)
      ensures !notionSync ==> !r
      ensures r ==> notion.apiToken.Some? && notion.databaseId.Some?
    {
      notionSync && notion.IsConfigured()
    }
  }

  function Lookup(env: map<string, string>, key: string): Option<string> {
    if key in env then Some(env[key]) else None
  }

  /** `load_config` without the paths and the timeout: the credentials as
      given, and the flag from its variable when that reads as a boolean,
      otherwise from whether both credentials are present. */
  function LoadConfig(env: map<string, string>): (c: AppConfig)
    ensures c.notion.apiToken == Lookup(env, TokenKey)
    ensures c.notion.databaseId == Lookup(env, DatabaseKey)
  {
    var token := Lookup(env, TokenKey);
    var dbId := Lookup(env, DatabaseKey);
    var flag := ToBool(Lookup(env, NotionFlagKey), None);
    AppConfig(if flag.Some? then flag.value else Present(token) && Present(dbId), NotionSettings(token, dbId))
  }

  /** Without credentials the connector is off, whatever the flag says. */
  lemma DisabledWithoutCredentials(env: map<string, string>)
    requires !Present(Lookup(env, TokenKey)) || !Present(Lookup(env, DatabaseKey))
    ensures !LoadConfig(env).NotionEnabled()
  {
  }

  /** With the flag variable absent or unreadable, syncing is on exactly
      when both credentials are set. */
  lemma FlagDefaultsToCredentials(env: map<string, string>)
    requires ToBool(Lookup(env, NotionFlagKey), None).None?
    ensures LoadConfig(env).notionSync == LoadConfig(env).notion.IsConfigured()
    ensures LoadConfig(env).NotionEnabled() <==> Present(Lookup(env, TokenKey)) && Present(Lookup(env, DatabaseKey))
  {
  }

  /** A readable flag overrides the default: a false word turns syncing
      off, a true word turns it on as far as the credentials allow. */
  lemma FlagOverrides(env: map<string, string>)
    requires NotionFlagKey in env && Lower(Strip(env[NotionFlagKey])) in TrueWords + FalseWords
    ensures LoadConfig(env).notionSync == (Lower(Strip(env[NotionFlagKey])) in TrueWords)
    ensures LoadConfig(env).NotionEnabled() <==>
      Lower(Strip(env[NotionFlagKey])) in TrueWords && LoadConfig(env).notion.IsConfigured()
  {
  }
}

=== FILE: core_legacy.dfy ===
/** The parser and the download retry loop of `tle_fetcher/core.py`, the
    module the legacy command line and the ingest pipeline share. Its
    checksum, catalog field and epoch reader are the Python ones of
    `TleText` and `Epoch`; what differs from `tle_fetcher/tle.py` is the JSON
    fallback, which takes the `line1`/`line2` members as they are instead of
    converting them with `str()`. */
module CoreLegacy {
  import opened Basics
  import opened Text
  import opened Json
  import opened TleTypes
  import TleText

  // ---------------------------------------------------------------- parsing

  /** The line checks, the same as those of `tle_fetcher/tle.py`; the requested
      identifier is again copied unchecked because its comparison raises
      inside a `try` that swallows the error. */
  function Checked(noradId: string, p: TleText.Pair, source: string): (r: Result<Tle, ParseError>)
    ensures r.Ok? <==> TleText.WellFormedLines(Python, p.line1, p.line2)
    ensures r.Ok? ==> r.value == Tle(noradId, p.name, p.line1, p.line2, source)
  {
    match TleText.FirstDefect(Python, p.line1, p.line2)
    case Some(e) => Err(e)
    case None => Ok(Tle(noradId, p.name, p.line1, p.line2, source))
  }

  /** A JSON object that has both element-line members. */
  predicate HasLineMembers(json: Option<Json>) {
    json.Some? && json.value.JObj? && HasKey(json.value.fields, "line1") && HasKey(json.value.fields, "line2")
  }

  /** The member `key` of a decoded object known to have it. */
  function MemberOf(json: Option<Json>, key: string): Json
    requires json.Some? && json.value.JObj? && HasKey(json.value.fields, key)
  {
    Get(json.value.fields, key).value
  }

  /** The fallback reaches a string method on a member that is not a string:
      line 1 is not a string, or line 1 passes its prefix test and line 2 is
      not a string (the `and` stops early when line 1 fails). */
  predicate RaisesOnMember(json: Option<Json>)
    requires HasLineMembers(json)
  {
    var v1, v2 := MemberOf(json, "line1"), MemberOf(json, "line2");
    !v1.JStr? || (StartsWith(v1.s, "1 ") && !v2.JStr?)
  }

  /** `parse_tle_text(norad_id, text, source)` of `tle_fetcher/core.py`. */
  function ParseTleText(noradId: string, payload: Payload, source: string): (r: Result<Tle, ParseError>)
    ensures r == Err(EmptyPayload) <==> CleanLines(payload.text) == []
    ensures r.Ok? ==> TleText.WellFormedLines(Python, r.value.line1, r.value.line2)
    ensures r.Ok? ==> r.value.noradId == noradId && r.value.source == source
    ensures r == Err(NotAString) <==>
      CleanLines(payload.text) != [] && TleText.FindPair(CleanLines(payload.text)).None? &&
      HasLineMembers(payload.json) && RaisesOnMember(payload.json)
  {
    var lines := CleanLines(payload.text);
    if lines == [] then Err(EmptyPayload)
    else
      match TleText.FindPair(lines)
      case Some(p) => Checked(noradId, p, source)
      case None =>
        if !HasLineMembers(payload.json) then Err(NoLinePair)
        else JsonBranch(noradId, payload.json, source)
  }

  /** The fallback on a decoded object with both line members: the members
      are used as they are, so a non-string one raises as soon as a string
      method is called on it. */
  function JsonBranch(noradId: string, json: Option<Json>, source: string): (r: Result<Tle, ParseError>)
    requires HasLineMembers(json)
    ensures r != Err(EmptyPayload)
    ensures r == Err(NotAString) <==> RaisesOnMember(json)
    ensures r.Ok? ==> TleText.WellFormedLines(Python, r.value.line1, r.value.line2)
    ensures r.Ok? ==> r.value.noradId == noradId && r.value.source == source
  {
    var v1, v2 := MemberOf(json, "line1"), MemberOf(json, "line2");
    if !v1.JStr? then Err(NotAString)
    else if !StartsWith(v1.s, "1 ") then Err(BadPrefix)
    else if !v2.JStr? then Err(NotAString)
    else Checked(noradId, TleText.Pair(TleText.JsonName(Get(json.value.fields, "name")), v1.s, v2.s), source)
  }

  /** With no line pair in the text and string `line1`/`line2` members, the
      parse is the line checks of those members under the JSON title (a
      member without the "1 " prefix fails them the same way). */
  lemma JsonFallback(noradId: string, payload: Payload, source: string, line1: string, line2: string)
    requires CleanLines(payload.text) != [] && TleText.FindPair(CleanLines(payload.text)).None?
    requires payload.json.Some? && payload.json.value.JObj?
    requires Get(payload.json.value.fields, "line1") == Some(JStr(line1))
    requires Get(payload.json.value.fields, "line2") == Some(JStr(line2))
    ensures ParseTleText(noradId, payload, source)
         == Checked(noradId, TleText.Pair(TleText.JsonName(Get(payload.json.value.fields, "name")), line1, line2), source)
  {
    assert HasLineMembers(payload.json);
    assert MemberOf(payload.json, "line1") == JStr(line1);
    assert MemberOf(payload.json, "line2") == JStr(line2);
  }

  /** Apart from the `AttributeError` on a non-string member, this parser and
      the one of `tle_fetcher/tle.py` give the same result on every payload. */
  lemma AgreesWithTleModule(noradId: string, payload: Payload, source: string)
    ensures ParseTleText(noradId, payload, source) == Err(NotAString)
         || ParseTleText(noradId, payload, source) == TleText.ParseTleText(noradId, payload, source)
  {
    var lines := CleanLines(payload.text);
    var r := ParseTleText(noradId, payload, source);
    var t := TleText.ParseTleText(noradId, payload, source);
    if lines == [] {
      assert r == Err(EmptyPayload) == t;
    } else if TleText.FindPair(lines).Some? {
      var p := TleText.FindPair(lines).value;
      assert TleText.LocatePair(lines, payload.json) == Ok(p);
      assert r == Checked(noradId, p, source);
    } else if !HasLineMembers(payload.json) {
      assert r == Err(NoLinePair);
      assert TleText.JsonPair(payload.json) == Err(NoLinePair);
    } else if !RaisesOnMember(payload.json) {
      assert r == JsonBranch(noradId, payload.json, source);
      JsonBranchChecked(noradId, payload.json, source);
      assert TleText.LocatePair(lines, payload.json) == TleText.JsonPair(payload.json);
    }
  }

  /** Where no member raises, the fallback checks the same pair the
      `tle.py` parser builds from the JSON members. */
  lemma JsonBranchChecked(noradId: string, json: Option<Json>, source: string)
    requires HasLineMembers(json) && !RaisesOnMember(json)
    ensures JsonBranch(noradId, json, source) == Checked(noradId, TleText.JsonPair(json).value, source)
  {
    var v1, v2 := MemberOf(json, "line1"), MemberOf(json, "line2");
    if !StartsWith(v1.s, "1 ") {
      assert TleText.FirstDefect(Python, PyStr(v1), PyStr(v2)) == Some(BadPrefix);
    }
  }

  /** With string members, or a line pair in the text, the two parsers agree exactly. */
  lemma AgreesOnStringMembers(noradId: string, payload: Payload, source: string)
    requires HasLineMembers(payload.json) ==> MemberOf(payload.json, "line1").JStr? && MemberOf(payload.json, "line2").JStr?
    ensures ParseTleText(noradId, payload, source) == TleText.ParseTleText(noradId, payload, source)
  {
    AgreesWithTleModule(noradId, payload, source);
  }

  // ------------------------------------------------------------ downloading

  function Pow2(k: nat): (p: nat)
    ensures p >= 1
  {
    if k == 0 then 1 else 2 * Pow2(k - 1)
  }

  /** The pause after failed attempt `k`. */
  function Delay(backoff: nat, jitter: nat -> nat, k: nat): nat {
    backoff * Pow2(k) + jitter(k)
  }

  /** Why `http_get` gave up: it never tried (a negative retry count), or the
      last attempt failed with this error. */
  datatype HttpFailure = NoAttempt | LastError(message: string)

  /** The retry loop of `http_get`: attempt `k` gets `reply(k)`; after a failed
      attempt that is not the last it sleeps `backoff * 2^k + jitter(k)`
      (milliseconds here; the jitter is the injected `random.uniform` draw). */
  method HttpGet(retries: int, backoff: nat, jitter: nat -> nat, reply: nat -> Result<string, string>)
    returns (r: Result<string, HttpFailure>, attempts: nat, sleeps: seq<nat>)
    ensures retries < 0 ==> r == Err(NoAttempt) && attempts == 0 && sleeps == []
    ensures retries >= 0 ==> 1 <= attempts <= retries + 1 && |sleeps| == attempts - 1
    ensures forall k :: 0 <= k < |sleeps| ==> sleeps[k] == backoff * Pow2(k) + jitter(k)
    ensures forall k :: 0 <= k < attempts - 1 ==> reply(k).Err?
    ensures r.Ok? ==> attempts >= 1 && reply(attempts - 1) == Ok(r.value)
    ensures r.Err? && retries >= 0 ==>
      attempts == retries + 1 && reply(retries).Err? && r.error == LastError(reply(retries).error)
  {
    var attempt: nat := 0;
    attempts, sleeps := 0, [];
    while attempt <= retries
      invariant attempts == attempt && |sleeps| == attempt
      invariant retries >= 0 ==> attempt <= retries
      invariant retries < 0 ==> attempt == 0
      invariant forall k :: 0 <= k < attempt ==> reply(k).Err?
      invariant forall k :: 0 <= k < |sleeps| ==> sleeps[k] == Delay(backoff, jitter, k)
      decreases retries + 1 - attempt
    {
      attempts := attempt + 1;
      match reply(attempt) {
        case Ok(body) =>
          r := Ok(body);
          return;
        case Err(e) =>
          if attempt == retries {
            r := Err(LastError(e));
            return;
          }
          sleeps := sleeps + [Delay(backoff, jitter, attempt)];
          attempt := attempt + 1;
      }
    }
    r := Err(NoAttempt);
  }
}

=== FILE: epoch.dfy ===
/** The epoch of an element set: columns 19-20 of line 1 hold a two-digit
    year and columns 21-32 the day of that year with a decimal fraction.
    `tle_epoch` (`tle_fetcher/tle.py`, `tle_fetcher/core.py`), `epoch`
    (`tle_fetcher/core/python_impl.py`) and the Rust `epoch` all compute the
    same instant; the Rust one also insists on a full-length line and does not
    strip the year field.

    Instants are whole microseconds since 0001-01-01T00:00 UTC on the
    proleptic Gregorian calendar (Python `datetime` resolution). The day
    field is read as an exact decimal rather than a binary float. */
module Epoch {
  import opened Basics
  import opened Text

  const MicrosPerSecond: int := 1_000_000
  const MicrosPerDay: int := 86_400_000_000

  // --------------------------------------------------------------- calendar

  predicate IsLeapYear(y: int) {
    y % 4 == 0 && (y % 100 != 0 || y % 400 == 0)
  }

  /** Days from 0001-01-01 to January 1 of year `y`. */
  function DaysBeforeYear(y: int): (d: int)
    requires y >= 1
    ensures d >= 0
  {
    var p := y - 1;
    365 * p + p / 4 - p / 100 + p / 400
  }

  function DaysInMonth(y: int, m: int): (n: int)
    requires 1 <= m <= 12
    ensures 28 <= n <= 31
  {
    if m == 2 then (if IsLeapYear(y) then 29 else 28)
    else if m == 4 || m == 6 || m == 9 || m == 11 then 30
    else 31
  }

  /** Days of the year before the first of month `m`. */
  function DaysBeforeMonth(y: int, m: int): (d: int)
    requires 1 <= m <= 12
    ensures 0 <= d <= 31 * (m - 1)
    decreases m
  {
    if m == 1 then 0 else DaysBeforeMonth(y, m - 1) + DaysInMonth(y, m - 1)
  }

  /** The instant of a calendar date and time of day. */
  function CivilInstant(y: int, m: int, d: int, hh: int, mm: int, ss: int, us: int): int
    requires y >= 1 && 1 <= m <= 12
  {
    (DaysBeforeYear(y) + DaysBeforeMonth(y, m) + d - 1) * MicrosPerDay
      + ((hh * 60 + mm) * 60 + ss) * MicrosPerSecond + us
  }

  /** 9999-12-31T23:59:59.999999, the last instant a `datetime` holds
      (`MaxInstantIsLast`). */
  const MaxInstant: int := DaysBeforeYear(10000) * MicrosPerDay - 1

  lemma MaxInstantIsLast()
    ensures MaxInstant == CivilInstant(9999, 12, 31, 23, 59, 59, 999_999)
    ensures MaxInstant + 1 == CivilInstant(10000, 1, 1, 0, 0, 0, 0)
  {
    assert DaysBeforeMonth(9999, 12) == 334;
  }

  // ------------------------------------------------------------- the fields

  /** Two-digit years below 57 are in the 2000s, the rest in the 1900s. */
  function PivotYear(yy: nat): (y: int)
    requires yy < 100
    ensures 1957 <= y <= 2056
    ensures y % 100 == yy
  {
    if yy < 57 then 2000 + yy else 1900 + yy
  }

  /** The pivot recovers every year of its window from the last two digits. */
  lemma PivotOfYear(year: int)
    requires 1957 <= year <= 2056
    ensures PivotYear(year % 100) == year
  {
  }

  /** A day of the year with its decimal fraction: `whole + fracNum / 10^fracLen`. */
  datatype DayOfYear = DayOfYear(whole: nat, fracNum: nat, fracLen: nat)

  /** A decimal number as `float()` reads the day field once blanks are
      stripped: digits with an optional point, or a point followed by digits. */
  function ParseDay(s: string): (r: Option<DayOfYear>)
    ensures r.Some? ==> r.value.fracNum < Pow10(r.value.fracLen) && r.value.fracLen < |s|
  {
    var k := IndexOfChar(s, '.');
    var wholeDigits := s[..k];
    var fracDigits := if k < |s| then s[k + 1..] else [];
    if !AllDigits(wholeDigits) || !AllDigits(fracDigits) || (wholeDigits == [] && fracDigits == []) then None
    else
      DecimalValueBound(fracDigits);
      Some(DayOfYear(DecimalValue(wholeDigits), DecimalValue(fracDigits), |fracDigits|))
  }

  /** Printing a day as `{whole:0Nd}.{frac:0Md}` and reading it back gives it back. */
  lemma ParseDayOfPrinted(whole: nat, wholeWidth: nat, fracNum: nat, fracLen: nat)
    requires 1 <= fracLen && fracNum < Pow10(fracLen)
    ensures ParseDay(Padded(whole, wholeWidth) + "." + Padded(fracNum, fracLen)) == Some(DayOfYear(whole, fracNum, fracLen))
  {
    var w := Padded(whole, wholeWidth);
    var f := Padded(fracNum, fracLen);
    var s := w + "." + f;
    IndexOfCharAfterDigits(w, '.', f);
    assert s[..|w|] == w;
    assert s[|w| + 1..] == f;
  }

  /** `n / d` rounded to the nearest integer, halves upward. */
  function RoundDiv(n: nat, d: nat): (q: nat)
    requires d > 0
    ensures 2 * n <= 2 * q * d + d && 2 * q * d <= 2 * n + d
  {
    (2 * n + d) / (2 * d)
  }

  /** `n / d` rounded to the nearest integer, a half to the even neighbour,
      as Python's `round` does. */
  function RoundHalfEven(n: nat, d: nat): (q: nat)
    requires d > 0
    ensures 2 * n <= 2 * (q * d) + d && 2 * (q * d) <= 2 * n + d
    ensures 2 * n == 2 * (q * d) + d || 2 * n + d == 2 * (q * d) ==> q % 2 == 0
  {
    var q0, r := n / d, n % d;
    DivModParts(n, d);
    var q := if 2 * r < d || (2 * r == d && q0 % 2 == 0) then q0 else q0 + 1;
    HalfEvenNearest(n, d, q0, r, q);
    q
  }

  lemma HalfEvenNearest(n: nat, d: nat, q0: nat, r: nat, q: nat)
    requires d > 0 && n == q0 * d + r && r < d && (q0 + 1) * d == q0 * d + d
    requires q == if 2 * r < d || (2 * r == d && q0 % 2 == 0) then q0 else q0 + 1
    ensures 2 * n <= 2 * (q * d) + d && 2 * (q * d) <= 2 * n + d
    ensures 2 * n == 2 * (q * d) + d || 2 * n + d == 2 * (q * d) ==> q % 2 == 0
  {
    var m := q0 * d;
    if q == q0 {
      assert q * d == m;
    } else {
      assert q * d == m + d;
    }
  }

  lemma DivModParts(n: nat, d: nat)
    requires d > 0
    ensures n == (n / d) * d + n % d && 0 <= n % d < d
    ensures (n / d + 1) * d == (n / d) * d + d
  {
  }

  lemma RoundDivAtMost(n: nat, d: nat, k: nat)
    requires d > 0 && n <= k * d
    ensures RoundDiv(n, d) <= k
  {
    var a, b := 2 * n + d, 2 * d;
    var q := a / b;
    assert q * b <= a;
    assert a < (k + 1) * b;
    if q > k {
      MulMonotone(k + 1, q, b);
    }
  }

  lemma MulMonotone(x: int, y: int, c: nat)
    requires x <= y
    ensures x * c <= y * c
  {
  }

  /** The fraction of the day in microseconds. */
  function FracMicros(day: DayOfYear): (us: nat)
    requires day.fracNum < Pow10(day.fracLen)
    ensures us <= MicrosPerDay
  {
    assert day.fracNum * MicrosPerDay <= MicrosPerDay * Pow10(day.fracLen);
    RoundDivAtMost(day.fracNum * MicrosPerDay, Pow10(day.fracLen), MicrosPerDay);
    RoundDiv(day.fracNum * MicrosPerDay, Pow10(day.fracLen))
  }

  /** The instant `day` of year `year` designates: January 1 plus `whole - 1`
      days plus the fraction. */
  function DayInstant(year: int, day: DayOfYear): int
    requires year >= 1 && day.fracNum < Pow10(day.fracLen)
  {
    (DaysBeforeYear(year) + day.whole - 1) * MicrosPerDay + FracMicros(day)
  }

  // ----------------------------------------------------------------- parsers

  /** `BadDay` is a day field no float parser takes; `DayOutOfRange` a day
      both languages parse and then cannot turn into a `datetime`: an
      infinite one (`int(inf)` raises `OverflowError`; the Rust reader hands
      `timedelta` a day count beyond its range), or a finite one whose
      instant passes `MaxInstant`, where adding the `timedelta` raises
      `OverflowError`. */
  datatype EpochError = LineTooShort | BadYear | BadDay | DayOutOfRange

  /** A day field without its sign, which both float parsers allow. */
  function Unsigned(s: string): (r: string)
    ensures |r| <= |s|
  {
    if s != [] && (s[0] == '+' || s[0] == '-') then s[1..] else s
  }

  /** "nan" after an optional sign, in any ASCII case: a float to Python's
      `float()` and to Rust's `parse::<f64>()`. */
  predicate NanSpelling(s: string) {
    Lower(Unsigned(s)) == "nan"
  }

  /** "inf" or "infinity" after an optional sign, in any ASCII case. */
  predicate InfSpelling(s: string) {
    Lower(Unsigned(s)) in {"inf", "infinity"}
  }

  /** A digit year field and a decimal day field whose instant lies past
      the last `datetime`. */
  predicate Overflows(yy: string, day: string) {
    IsDigits(yy) && DecimalValue(yy) < 100 && ParseDay(day).Some?
    && DayInstant(PivotYear(DecimalValue(yy)), ParseDay(day).value) > MaxInstant
  }

  /** What both readers do with a digit year field and a trimmed day field:
      pivot the year and read the day, which must be finite and land no
      later than `MaxInstant`. */
  function FromFields(yy: string, day: string): (r: Result<int, EpochError>)
    requires IsDigits(yy) && DecimalValue(yy) < 100
    ensures r == Err(DayOutOfRange) <==> InfSpelling(day) || Overflows(yy, day)
    ensures r.Ok? <==> !InfSpelling(day) && ParseDay(day).Some? && !Overflows(yy, day)
    ensures r.Ok? ==> r.value <= MaxInstant
  {
    if InfSpelling(day) then
      InfNotOverflow(yy, day);
      Err(DayOutOfRange)
    else
      match ParseDay(day)
      case None => Err(BadDay)
      case Some(d) =>
        var t := DayInstant(PivotYear(DecimalValue(yy)), d);
        if t > MaxInstant then Err(DayOutOfRange) else Ok(t)
  }

  lemma InfNotOverflow(yy: string, day: string)
    requires InfSpelling(day)
    ensures !Overflows(yy, day)
  {
    NanNotDecimal(day);
  }

  /** A whole day count of 2,800,000 or less stays within the `datetime`
      range for every year of the pivot window. */
  lemma SmallDayInRange(yy: string, day: string)
    requires IsDigits(yy) && DecimalValue(yy) < 100
    requires ParseDay(day).Some? && ParseDay(day).value.whole <= 2_800_000
    ensures !Overflows(yy, day)
  {
    var y := PivotYear(DecimalValue(yy));
    DaysBeforeYearBounds(y);
  }

  /** A whole day count of 3,000,000 or more passes year 9999 for every
      year of the pivot window. */
  lemma LargeDayOverflows(yy: string, day: string)
    requires IsDigits(yy) && DecimalValue(yy) < 100
    requires ParseDay(day).Some? && ParseDay(day).value.whole >= 3_000_000
    ensures Overflows(yy, day)
  {
    var y := PivotYear(DecimalValue(yy));
    DaysBeforeYearBounds(y);
    assert DaysBeforeYear(10000) == 3_652_059;
  }

  lemma DaysBeforeYearBounds(y: int)
    requires 1957 <= y <= 2056
    ensures 713_940 <= DaysBeforeYear(y) <= 752_130
  {
    var p := y - 1;
    assert p / 100 <= p / 4;
    assert p / 4 - p / 100 + p / 400 <= p;
  }

  /** The Python readers: `int(line1[18:20])` and `float(line1[20:32])`, both
      of which ignore surrounding blanks. Short lines are sliced, not refused.
      `int()` of a NaN day raises `ValueError`, of an infinite one
      `OverflowError`. */
  function PyEpoch(line1: string): (r: Result<int, EpochError>)
    ensures r.Ok? ==> |line1| > 20
    ensures r == Err(BadYear) <==> !IsDigits(Strip(Slice(line1, 18, 20)))
    ensures r == Err(DayOutOfRange) <==>
      (IsDigits(Strip(Slice(line1, 18, 20)))
       && (InfSpelling(Strip(Slice(line1, 20, 32))) || Overflows(Strip(Slice(line1, 18, 20)), Strip(Slice(line1, 20, 32)))))
    ensures r.Ok? ==> r.value <= MaxInstant
  {
    var yy := Strip(Slice(line1, 18, 20));
    if !IsDigits(yy) then Err(BadYear)
    else
      TwoDigitsBelowHundred(yy);
      FromFields(yy, Strip(Slice(line1, 20, 32)))
  }

  /** The Rust reader: refuses lines shorter than 32 characters, parses the
      year field as it stands and the day field after trimming. A NaN day
      passes the negative-seconds guard (every comparison with NaN is
      false) and every cast of NaN to `i64` is 0, so it reads as day 0: the
      last day of the previous year, at midnight. */
  function RustEpoch(line1: string): (r: Result<int, EpochError>)
    ensures r.Ok? ==> |line1| >= 32
    ensures r == Err(LineTooShort) <==> |line1| < 32
    ensures r == Err(DayOutOfRange) <==>
      (|line1| >= 32 && AllDigits(line1[18..20])
       && (InfSpelling(Trim(Rust, line1[20..32])) || Overflows(line1[18..20], Trim(Rust, line1[20..32]))))
    ensures r.Ok? ==> r.value <= MaxInstant
  {
    if |line1| < 32 then Err(LineTooShort)
    else
      var yy := line1[18..20];
      var day := Trim(Rust, line1[20..32]);
      if !AllDigits(yy) then Err(BadYear)
      else
        TwoDigitsBelowHundred(yy);
        if NanSpelling(day) then
          NanNotInf(day);
          NanNotDecimal(day);
          NanDayInRange(PivotYear(DecimalValue(yy)));
          Ok(DayInstant(PivotYear(DecimalValue(yy)), DayOfYear(0, 0, 0)))
        else FromFields(yy, day)
  }

  /** On full-length lines with a digit-only year field, no U+001C..U+001F
      characters in the day field and a day that is not NaN, the Rust and
      Python readers agree. */
  lemma RustAgreesWithPython(line1: string)
    requires |line1| >= 32
    requires IsDigit(line1[18]) && IsDigit(line1[19])
    requires forall k :: 20 <= k < 32 ==> !('\U{1c}' <= line1[k] <= '\U{1f}')
    requires !NanSpelling(Trim(Rust, line1[20..32]))
    ensures RustEpoch(line1) == PyEpoch(line1)
  {
    YearField(line1);
    DayField(line1);
    RustOfFields(line1, line1[18..20], Trim(Rust, line1[20..32]));
    PyOfFields(line1, line1[18..20], Trim(Rust, line1[20..32]));
  }

  /** A digit year field reads the same stripped or not. */
  lemma YearField(line1: string)
    requires |line1| >= 32
    requires IsDigit(line1[18]) && IsDigit(line1[19])
    ensures var yy := line1[18..20];
            IsDigits(yy) && DecimalValue(yy) < 100 && Strip(Slice(line1, 18, 20)) == yy
  {
    var yy := line1[18..20];
    assert Slice(line1, 18, 20) == yy;
    assert yy[0] == line1[18] && yy[1] == line1[19];
    assert IsDigits(yy);
    TrimOfSolid(Python, yy);
    TwoDigitsBelowHundred(yy);
  }

  /** Without U+001C..U+001F the day field trims alike in both languages. */
  lemma DayField(line1: string)
    requires |line1| >= 32
    requires forall k :: 20 <= k < 32 ==> !('\U{1c}' <= line1[k] <= '\U{1f}')
    ensures Strip(Slice(line1, 20, 32)) == Trim(Rust, line1[20..32])
  {
    var dayText := line1[20..32];
    assert Slice(line1, 20, 32) == dayText;
    TrimFlavorsAgree(dayText);
  }

  lemma RustOfFields(line1: string, yy: string, day: string)
    requires |line1| >= 32 && yy == line1[18..20] && day == Trim(Rust, line1[20..32])
    requires IsDigits(yy) && DecimalValue(yy) < 100 && !NanSpelling(day)
    ensures RustEpoch(line1) == FromFields(yy, day)
  {
  }

  lemma PyOfFields(line1: string, yy: string, day: string)
    requires Strip(Slice(line1, 18, 20)) == yy && Strip(Slice(line1, 20, 32)) == day
    requires IsDigits(yy) && DecimalValue(yy) < 100
    ensures PyEpoch(line1) == FromFields(yy, day)
  {
  }

  /** A day field whose instant lies past year 9999 is refused as out of
      range by both readers (`LargeDayOverflows` gives one such day). */
  lemma OverflowRefused(line1: string)
    requires |line1| >= 32
    requires IsDigit(line1[18]) && IsDigit(line1[19])
    requires forall k :: 20 <= k < 32 ==> !('\U{1c}' <= line1[k] <= '\U{1f}')
    requires Overflows(line1[18..20], Trim(Rust, line1[20..32]))
    ensures RustEpoch(line1) == Err(DayOutOfRange)
    ensures PyEpoch(line1) == Err(DayOutOfRange)
  {
    var yy, day := line1[18..20], Trim(Rust, line1[20..32]);
    assert yy[0] == line1[18] && yy[1] == line1[19];
    RustOverflowRefused(line1, yy, day);
    if NanSpelling(day) {
      NanNotDecimal(day);
    }
    RustAgreesWithPython(line1);
  }

  lemma RustOverflowRefused(line1: string, yy: string, day: string)
    requires |line1| >= 32 && yy == line1[18..20] && day == Trim(Rust, line1[20..32])
    requires AllDigits(yy) && Overflows(yy, day)
    ensures RustEpoch(line1) == Err(DayOutOfRange)
  {
  }

  /** A NaN day parts the readers: the Python ones raise, the Rust one
      returns midnight of the day before January 1 of the pivoted year. */
  lemma NanDayReadersDisagree(line1: string)
    requires |line1| >= 32
    requires IsDigit(line1[18]) && IsDigit(line1[19])
    requires forall k :: 20 <= k < 32 ==> !('\U{1c}' <= line1[k] <= '\U{1f}')
    requires NanSpelling(Trim(Rust, line1[20..32]))
    ensures PyEpoch(line1) == Err(BadDay)
    ensures RustEpoch(line1).Ok?
    ensures RustEpoch(line1).value + MicrosPerDay == CivilInstant(PivotYear(DecimalValue(line1[18..20])), 1, 1, 0, 0, 0, 0)
  {
    var yy := line1[18..20];
    assert yy[0] == line1[18] && yy[1] == line1[19];
    assert IsDigits(yy);
    TwoDigitsBelowHundred(yy);
    NanPyRefuses(line1, yy);
    NanRustDayZero(line1, yy);
    DayZeroIsEve(PivotYear(DecimalValue(yy)));
  }

  lemma NanPyRefuses(line1: string, yy: string)
    requires |line1| >= 32 && yy == line1[18..20] && IsDigits(yy)
    requires forall k :: 20 <= k < 32 ==> !('\U{1c}' <= line1[k] <= '\U{1f}')
    requires NanSpelling(Trim(Rust, line1[20..32]))
    ensures PyEpoch(line1) == Err(BadDay)
  {
    var dayText := line1[20..32];
    assert Slice(line1, 18, 20) == yy && Slice(line1, 20, 32) == dayText;
    TrimOfSolid(Python, yy);
    TrimFlavorsAgree(dayText);
    var day := Trim(Rust, dayText);
    assert Strip(dayText) == day;
    NanNotInf(day);
    NanNotDecimal(day);
  }

  lemma NanRustDayZero(line1: string, yy: string)
    requires |line1| >= 32 && yy == line1[18..20] && IsDigits(yy) && DecimalValue(yy) < 100
    requires NanSpelling(Trim(Rust, line1[20..32]))
    ensures RustEpoch(line1) == Ok(DayInstant(PivotYear(DecimalValue(yy)), DayOfYear(0, 0, 0)))
  {
  }

  /** Day 0 of a year is the day before its January 1. */
  lemma DayZeroIsEve(year: int)
    requires year >= 1
    ensures DayInstant(year, DayOfYear(0, 0, 0)) + MicrosPerDay == CivilInstant(year, 1, 1, 0, 0, 0, 0)
  {
    assert FracMicros(DayOfYear(0, 0, 0)) == 0;
  }

  lemma NanDayInRange(year: int)
    requires 1957 <= year <= 2056
    ensures DayInstant(year, DayOfYear(0, 0, 0)) <= MaxInstant
  {
    DaysBeforeYearBounds(year);
    assert FracMicros(DayOfYear(0, 0, 0)) == 0;
  }

  lemma NanNotInf(s: string)
    requires NanSpelling(s)
    ensures !InfSpelling(s)
  {
  }

  /** A NaN or infinity spelling starts with a letter once unsigned, so it
      is no decimal. */
  lemma NanNotDecimal(s: string)
    requires NanSpelling(s) || InfSpelling(s)
    ensures ParseDay(s) == None
  {
    var u := Unsigned(s);
    assert |u| >= 3 && LowerChar(u[0]) in "ni";
    var k := IndexOfChar(s, '.');
    var i := if u == s then 0 else 1;
    assert s[i] == u[0] && !IsDigit(s[i]) && s[i] != '.';
    if i < k {
      assert s[..k][i] == s[i];
      assert !AllDigits(s[..k]);
    } else {
      assert s[k + 1..][i - k - 1] == s[i];
      assert !AllDigits(s[k + 1..]);
    }
  }

  /** The Python readers on a line whose year and day fields are already known. */
  lemma PyEpochOfFields(line1: string, yy: string, dayText: string)
    requires Slice(line1, 18, 20) == yy && Slice(line1, 20, 32) == dayText
    requires IsDigits(yy) && DecimalValue(yy) < 100
    requires forall k :: 0 <= k < |yy| ==> !IsSpace(Python, yy[k])
    requires forall k :: 0 <= k < |dayText| ==> !IsSpace(Python, dayText[k])
    requires ParseDay(dayText).Some?
    ensures PyEpoch(line1) == if Overflows(yy, dayText) then Err(DayOutOfRange)
                              else Ok(DayInstant(PivotYear(DecimalValue(yy)), ParseDay(dayText).value))
  {
    TrimOfSolid(Python, yy);
    TrimOfSolid(Python, dayText);
    if InfSpelling(dayText) {
      NanNotDecimal(dayText);
    }
  }

  /** A line cut short after the day number still has an epoch for the Python
      readers, unless the day passes year 9999, while the Rust reader refuses
      it. */
  lemma ShortLineReadersDisagree(prefix: string, year: string, day: string)
    requires |prefix| == 18 && |year| == 2 && AllDigits(year)
    requires IsDigits(day) && |day| < 12
    ensures PyEpoch(prefix + year + day).Ok? <==> !Overflows(year, day)
    ensures RustEpoch(prefix + year + day) == Err(LineTooShort)
  {
    var line := prefix + year + day;
    assert line[18..20] == year && line[20..] == day;
    assert Slice(line, 20, 32) == day;
    assert IndexOfChar(day, '.') == |day|;
    assert day[..|day|] == day;
    assert ParseDay(day).Some?;
    TwoDigitsBelowHundred(year);
    PyEpochOfFields(line, year, day);
  }

  /** The International Space Station example: day 157.20856222 of 2024 is
      2024-06-05 05:00:19.775808 UTC. */
  lemma SpaceStationExample()
    ensures DayInstant(PivotYear(24), DayOfYear(157, 20856222, 8)) == CivilInstant(2024, 6, 5, 5, 0, 19, 775808)
  {
    assert DaysBeforeMonth(2024, 6) == 152;
    assert FracMicros(DayOfYear(157, 20856222, 8)) == 18019775808;
  }

  // ----------------------------------------------- the generated test lines

  /** The day the repository's epoch property test writes for a time of day:
      the fraction rounded to eight digits, a half to the even neighbour, and
      carried into the next day when it rounds up to a whole day. The test
      rounds the float `total * 10**8 / 86_400_000_000`, a correctly rounded
      `total / 864`: a half is exact in binary and every other quotient lies
      at least 1/864 from one, so rounding the float rounds the exact
      quotient. */
  function TestDay(day: nat, totalMicros: nat): (r: DayOfYear)
    requires totalMicros < MicrosPerDay
    ensures r.fracLen == 8 && r.fracNum < 100_000_000
    ensures r.whole == day || (r.whole == day + 1 && r.fracNum == 0)
  {
    var scaled := RoundHalfEven(totalMicros * 100_000_000, MicrosPerDay);
    if scaled >= 100_000_000 then DayOfYear(day + 1, scaled - 100_000_000, 8) else DayOfYear(day, scaled, 8)
  }

  /** The line the test builds: 18 leading characters, then
      `{year % 100:02d}{day:03d}.{frac:08d}`, then the rest. */
  function TestLine1(prefix: string, suffix: string, year: int, day: nat, seconds: nat, micros: nat): string
    requires 1957 <= year <= 2056 && seconds < 86_400 && micros < MicrosPerSecond
  {
    var d := TestDay(day, seconds * MicrosPerSecond + micros);
    var dayText := Padded(d.whole, 3) + "." + Padded(d.fracNum, 8);
    prefix + Padded(year % 100, 2) + dayText + suffix
  }

  /** The property the repository's epoch test checks: reading back a
      generated line lands within 900 microseconds of the intended instant
      (in fact within 432, half of the 864 microseconds an eight-digit
      fraction can resolve). */
  lemma TestLineWithinTolerance(prefix: string, suffix: string, year: int, day: nat, seconds: nat, micros: nat)
    requires |prefix| == 18
    requires 1957 <= year <= 2056 && 1 <= day <= 366 && seconds < 86_400 && micros < MicrosPerSecond
    ensures PyEpoch(TestLine1(prefix, suffix, year, day, seconds, micros)).Ok?
    ensures var got := PyEpoch(TestLine1(prefix, suffix, year, day, seconds, micros)).value;
            var expected := (DaysBeforeYear(year) + day - 1) * MicrosPerDay + seconds * MicrosPerSecond + micros;
            -432 <= got - expected <= 432
  {
    TestLineFields(prefix, suffix, year, day, seconds, micros);
    TestDayClose(year, day, seconds * MicrosPerSecond + micros);
    assert PyEpoch(TestLine1(prefix, suffix, year, day, seconds, micros)).value
        == DayInstant(year, TestDay(day, seconds * MicrosPerSecond + micros));
  }

  /** The instant of a generated day is within 432 microseconds of the
      intended one; a carry into the next day does not move it. */
  lemma TestDayClose(year: int, day: nat, total: nat)
    requires year >= 1 && total < MicrosPerDay
    ensures var got := DayInstant(year, TestDay(day, total));
            -432 <= got - ((DaysBeforeYear(year) + day - 1) * MicrosPerDay + total) <= 432
  {
    var d := TestDay(day, total);
    var y0 := DaysBeforeYear(year);
    var scaled := RoundHalfEven(total * 100_000_000, MicrosPerDay);
    RoundedFractionClose(total);
    EightDigitFraction(d);
    if scaled >= 100_000_000 {
      assert d == DayOfYear(day + 1, 0, 8) && scaled == 100_000_000;
      assert (y0 + day) * MicrosPerDay == (y0 + day - 1) * MicrosPerDay + scaled * 864;
    } else {
      assert d == DayOfYear(day, scaled, 8);
    }
  }

  /** What the Python readers make of a generated line. */
  lemma TestLineFields(prefix: string, suffix: string, year: int, day: nat, seconds: nat, micros: nat)
    requires |prefix| == 18
    requires 1957 <= year <= 2056 && 1 <= day <= 366 && seconds < 86_400 && micros < MicrosPerSecond
    ensures PyEpoch(TestLine1(prefix, suffix, year, day, seconds, micros)) == Ok(DayInstant(year, TestDay(day, seconds * MicrosPerSecond + micros)))
  {
    var d := TestDay(day, seconds * MicrosPerSecond + micros);
    var yy := Padded(year % 100, 2);
    var dayText := Padded(d.whole, 3) + "." + Padded(d.fracNum, 8);
    assert Pow10(2) == 100;
    PrintedDayText(d.whole, d.fracNum);
    FieldSlices(prefix, yy, dayText, suffix);
    ParseDayOfPrinted(d.whole, 3, d.fracNum, 8);
    PivotOfYear(year);
    assert IsDigits(yy) && DecimalValue(yy) < 100;
    SmallDayInRange(yy, dayText);
    var line := TestLine1(prefix, suffix, year, day, seconds, micros);
    assert line == prefix + yy + dayText + suffix;
    assert forall k :: 0 <= k < |yy| ==> !IsSpace(Python, yy[k]) by {
      forall k | 0 <= k < |yy| ensures !IsSpace(Python, yy[k]) { assert IsDigit(yy[k]); }
    }
    PyEpochOfFields(line, yy, dayText);
  }

  /** 432 microseconds is half of 864, so the fraction is a tie; it rounds
      to the even 0, not up to 1. */
  lemma TestDayTieEven()
    ensures TestDay(1, 432) == DayOfYear(1, 0, 8)
    ensures TestDay(1, 1296) == DayOfYear(1, 2, 8)
  {
    assert 432 * 100_000_000 == 0 * MicrosPerDay + 43_200_000_000;
    assert 1296 * 100_000_000 == 1 * MicrosPerDay + 43_200_000_000;
  }

  lemma FieldSlices(prefix: string, yy: string, dayText: string, suffix: string)
    requires |prefix| == 18 && |yy| == 2 && |dayText| == 12
    ensures var line := prefix + yy + dayText + suffix;
            Slice(line, 18, 20) == yy && Slice(line, 20, 32) == dayText
  {
    var line := prefix + yy + dayText + suffix;
    assert line[18..20] == yy;
    assert line[20..32] == dayText;
  }

  /** The printed day field is twelve characters of digits and one point. */
  lemma PrintedDayText(whole: nat, fracNum: nat)
    requires whole < 1000 && fracNum < 100_000_000
    ensures var t := Padded(whole, 3) + "." + Padded(fracNum, 8);
            |t| == 12 && forall k :: 0 <= k < |t| ==> !IsSpace(Python, t[k])
  {
    assert Pow10(3) == 1000 && Pow10(8) == 100_000_000;
    var w, f := Padded(whole, 3), Padded(fracNum, 8);
    var t := w + "." + f;
    forall k | 0 <= k < |t| ensures !IsSpace(Python, t[k]) {
      if k < 3 { assert t[k] == w[k]; } else if k > 3 { assert t[k] == f[k - 4]; }
    }
  }

  /** An eight-digit fraction is an exact multiple of 864 microseconds. */
  lemma EightDigitFraction(d: DayOfYear)
    requires d.fracLen == 8 && d.fracNum < 100_000_000
    ensures FracMicros(d) == d.fracNum * 864
  {
    assert Pow10(8) == 100_000_000;
  }

  lemma RoundedFractionClose(total: nat)
    requires total < MicrosPerDay
    ensures var scaled := RoundHalfEven(total * 100_000_000, MicrosPerDay);
            scaled <= 100_000_000 && -432 <= scaled * 864 - total <= 432
  {
  }
}

=== FILE: fetch_cache.dfy ===
/** The in-memory TTL cache of `fetch/cache.py`. Times are whole
    microseconds on one clock (the naive UTC datetimes of the source); a
    time-to-live is a duration in the same unit, `None` for no limit. */
module FetchCache {
  import opened Basics
  import opened TleTypes

  /** `CacheEntry`: a record, when it was fetched, and where from. */
  datatype CacheEntry = CacheEntry(tle: Tle, fetchedAt: int, source: string)

  /** `CacheEntry.age(now)`. */
  function Age(e: CacheEntry, now: int): (d: int)
    ensures e.fetchedAt + d == now
  {
    now - e.fetchedAt
  }

  /** `CacheEntry.is_stale(ttl, now)`: never without a time-to-live, else
      strictly older than it. */
  function IsStale(e: CacheEntry, ttl: Option<int>, now: int): (r: bool)
    ensures ttl.None? ==> !r
    ensures ttl.Some? ==> (r <==> e.fetchedAt + ttl.value < now)
  {
    ttl.Some? && Age(e, now) > ttl.value
  }

  /** An entry exactly as old as the time-to-live is still fresh; one
      microsecond later it is stale. */
  lemma StaleBoundary(e: CacheEntry, ttl: int)
    ensures !IsStale(e, Some(ttl), e.fetchedAt + ttl)
    ensures IsStale(e, Some(ttl), e.fetchedAt + ttl + 1)
  {
  }

  /** Once stale, an entry stays stale as time passes, and a shorter
      time-to-live makes it stale no later. */
  lemma StaleMonotone(e: CacheEntry, ttl: int, ttl2: int, now: int, later: int)
    requires IsStale(e, Some(ttl), now) && now <= later && ttl2 <= ttl
    ensures IsStale(e, Some(ttl2), later)
  {
  }

  /** `InMemoryCache._entries`, keyed by identifier. */
  type Cache = map<string, CacheEntry>

  /** `InMemoryCache.get(norad_id, ttl, allow_stale)` with the clock reading
      `now`: the stored entry, withheld only when it is stale and stale
      entries are not allowed. */
  function Get(c: Cache, id: string, ttl: Option<int>, allowStale: bool, now: int): (r: Option<CacheEntry>)
    ensures id !in c ==> r.None?
    ensures r.Some? ==> id in c && r.value == c[id]
    ensures id in c && (ttl.None? || allowStale) ==> r == Some(c[id])
    ensures id in c ==> (r.None? <==> IsStale(c[id], ttl, now) && !allowStale)
  {
    if id !in c then None
    else if ttl.None? then Some(c[id])
    else if IsStale(c[id], ttl, now) && !allowStale then None
    else Some(c[id])
  }

  /** `InMemoryCache.set(entry)`: keyed by the record's identifier. */
  function Set(c: Cache, e: CacheEntry): (r: Cache)
    ensures r.Keys == c.Keys + {e.tle.noradId}
    ensures r[e.tle.noradId] == e
    ensures forall id :: id in c && id != e.tle.noradId ==> r[id] == c[id]
  {
    c[e.tle.noradId := e]
  }

  /** `InMemoryCache.delete(norad_id)`: no-op for an absent identifier. */
  function Delete(c: Cache, id: string): (r: Cache)
    ensures r.Keys == c.Keys - {id}
    ensures forall k :: k in r ==> r[k] == c[k]
    ensures id !in c ==> r == c
  {
    c - {id}
  }

  /** `InMemoryCache.clear()`. */
  function Clear(c: Cache): (r: Cache)
    ensures forall id :: Get(r, id, None, false, 0).None?
  {
    map[]
  }

  /** What was set is what is got, whatever the time-to-live, unless it
      has gone stale. */
  lemma GetAfterSet(c: Cache, e: CacheEntry, ttl: Option<int>, allowStale: bool, now: int)
    ensures Get(Set(c, e), e.tle.noradId, ttl, allowStale, now)
         == if IsStale(e, ttl, now) && !allowStale then None else Some(e)
  {
  }

  /** Setting one identifier does not change what another gives. */
  lemma GetOtherAfterSet(c: Cache, e: CacheEntry, id: string, ttl: Option<int>, allowStale: bool, now: int)
    requires id != e.tle.noradId
    ensures Get(Set(c, e), id, ttl, allowStale, now) == Get(c, id, ttl, allowStale, now)
  {
  }

  /** The last write for an identifier wins. */
  lemma LastWriteWins(c: Cache, e1: CacheEntry, e2: CacheEntry)
    requires e1.tle.noradId == e2.tle.noradId
    ensures Set(Set(c, e1), e2) == Set(c, e2)
  {
  }

  /** A deleted identifier is gone; others are untouched. */
  lemma GetAfterDelete(c: Cache, id: string, other: string, ttl: Option<int>, allowStale: bool, now: int)
    ensures Get(Delete(c, id), id, ttl, allowStale, now).None?
    ensures other != id ==> Get(Delete(c, id), other, ttl, allowStale, now) == Get(c, other, ttl, allowStale, now)
  {
  }
}

=== FILE: fetch_service.dfy ===
/** `FetchService` of `fetch/service.py`: a lookup goes to the cache, then
    the repository, then (offline) the freshest stale record, then the
    network, with an optional random re-check of a fresh record against the
    network. The clock, the random draw and the sources' answers are
    injected; the repository is a store keyed like the cache. */
module FetchService {
  import opened Basics
  import opened Text
  import opened Json
  import opened TleTypes
  import TleText
  import FetchCache
  import CliCommon

  type Entry = FetchCache.CacheEntry

  /** `FetchResult`. */
  datatype FetchResult = FetchResult(tle: Tle, source: string, fetchedAt: int,
                                     stale: bool, verified: bool, warnings: seq<string>)

  /** The service's stores: the cache and, when there is one, the repository. */
  datatype Store = Store(cache: FetchCache.Cache, repository: Option<FetchCache.Cache>)

  /** `source(name, id)`: the payload source `name` hands over for `id`, or
      the text of the `SourceError` it raised. */
  type Reply = (string, string) -> Result<Payload, string>

  /** What one call reads from the outside: the clock at the start, the clock
      after a successful download, and the random draw in [0, 1). */
  datatype Env = Env(now: int, later: int, draw: real)

  const CacheReplaced: string := "Cache entry replaced after verification"
  const RepositoryReplaced: string := "Repository entry replaced after verification"
  const OfflineStale: string := "Operating offline with stale TLE"
  const ReplacedStale: string := "Replaced stale TLE with fresh network result"

  // ------------------------------------------------------------ the stores

  /** Every stored entry sits under its record's identifier and has element
      lines that pass the validator. */
  predicate GoodEntries(c: FetchCache.Cache) {
    forall k :: k in c ==> c[k].tle.noradId == k && TleText.WellFormedLines(Python, c[k].tle.line1, c[k].tle.line2)
  }

  predicate Good(s: Store) {
    GoodEntries(s.cache) && (s.repository.Some? ==> GoodEntries(s.repository.value))
  }

  /** `repository.get(norad_id)`, or nothing without a repository. */
  function RepositoryGet(s: Store, id: string): (r: Option<Entry>)
    ensures r.Some? <==> s.repository.Some? && id in s.repository.value
    ensures r.Some? ==> r.value == s.repository.value[id]
  {
    if s.repository.Some? && id in s.repository.value then Some(s.repository.value[id]) else None
  }

  /** `cache.set(entry)` and, with a repository, `repository.save(entry)`. */
  function WriteThrough(s: Store, e: Entry): (r: Store)
    ensures r.cache == FetchCache.Set(s.cache, e)
    ensures r.repository.Some? <==> s.repository.Some?
    ensures r.repository.Some? ==> r.repository.value == FetchCache.Set(s.repository.value, e)
  {
    Store(FetchCache.Set(s.cache, e), if s.repository.Some? then Some(FetchCache.Set(s.repository.value, e)) else None)
  }

  // --------------------------------------------------------- verification

  /** `_should_verify(percent)` with the draw `rng()`: never for a
      non-positive percentage; a value above one is a percentage, one or less
      a fraction. */
  function ShouldVerify(percent: real, draw: real): (r: bool)
    ensures percent <= 0.0 ==> !r
    ensures percent > 0.0 ==> (r <==> draw < Threshold(percent))
  {
    if percent <= 0.0 then false else draw < Threshold(percent)
  }

  /** The chance of a re-check: a percentage of at most a hundred, on either
      scale, is a probability. */
  function Threshold(percent: real): (r: real)
    ensures 0.0 <= percent <= 100.0 ==> 0.0 <= r <= 1.0
  {
    if percent > 1.0 then percent / 100.0 else percent
  }

  /** The chance grows with the percentage: a draw that triggers a check
      triggers it for any larger percentage on the same scale, and every
      smaller draw triggers it too. */
  lemma VerifyMonotone(p: real, q: real, d: real, e: real)
    requires ShouldVerify(p, d) && e <= d
    requires p <= q && (p > 1.0 <==> q > 1.0)
    ensures ShouldVerify(q, e)
  {
  }

  /** `50` and `0.5` mean the same; `100` and `1` both mean always. But the
      scales meet badly at one: `1` checks every time while `1.5` checks one
      time in about seventy. */
  lemma PercentScales(d: real)
    requires 0.0 <= d < 1.0
    ensures ShouldVerify(50.0, d) == ShouldVerify(0.5, d)
    ensures ShouldVerify(100.0, d) && ShouldVerify(1.0, d)
    ensures !ShouldVerify(1.5, 0.5)
  {
  }

  // -------------------------------------------------------------- network

  /** The message of each `ValueError` of `parse_tle_text` in
      `tle_fetcher/tle.py`. */
  function ParseMessage(e: ParseError): string {
    match e
    case EmptyPayload => "empty TLE payload"
    case NoLinePair => "could not locate TLE line pair in response"
    case BadPrefix => "bad TLE prefixes"
    case ChecksumFailed => "checksum failed"
    case CatalogMismatch => "catalog numbers differ between lines"
    case _ => "catalog number does not match requested NORAD ID"
  }

  /** The five failures the `tle.py` parser reports before its identifier
      check each have their own non-empty message. */
  lemma ParseMessagesDistinct(e1: ParseError, e2: ParseError)
    requires e1 != e2 && e1 in {EmptyPayload, NoLinePair, BadPrefix, ChecksumFailed, CatalogMismatch}
    ensures ParseMessage(e1) != ParseMessage(e2)
    ensures ParseMessage(e1) != [] && ParseMessage(e2) != []
  {
    MessageLength(e1);
    MessageLength(e2);
  }

  /** The messages have six different lengths. */
  lemma MessageLength(e: ParseError)
    ensures |ParseMessage(e)| == match e
      case EmptyPayload => 17 case NoLinePair => 42 case BadPrefix => 16
      case ChecksumFailed => 15 case CatalogMismatch => 36 case _ => 48
  {
    match e
    case EmptyPayload =>
    case NoLinePair =>
    case BadPrefix =>
    case ChecksumFailed =>
    case CatalogMismatch =>
    case _ =>
  }

  /** One client of the loop in `_fetch_from_network`: its payload parsed
      under its name, or the error text. */
  function TryClient(name: string, id: string, reply: Reply): (r: Result<Tle, string>)
    ensures r.Ok? ==> r.value.noradId == id && r.value.source == name
    ensures r.Ok? ==> TleText.WellFormedLines(Python, r.value.line1, r.value.line2)
    ensures reply(name, id).Err? ==> r == Err(reply(name, id).error)
  {
    match reply(name, id)
    case Err(m) => Err(m)
    case Ok(p) =>
      match TleText.ParseTleText(id, p, name)
      case Ok(t) => Ok(t)
      case Err(e) => Err(ParseMessage(e))
  }

  /** What each client's turn of the loop gives. */
  type Attempt = string -> Result<Tle, string>

  /** The attempts of a lookup of `id`. */
  function Attempts(id: string, reply: Reply): Attempt {
    name => TryClient(name, id, reply)
  }

  /** A record an attempt gives belongs to `id` and passes the validator. */
  predicate Valid(t: Tle, id: string) {
    t.noradId == id && TleText.WellFormedLines(Python, t.line1, t.line2)
  }

  ghost predicate ValidAttempts(attempt: Attempt, id: string) {
    forall name :: attempt(name).Ok? ==> Valid(attempt(name).value, id)
  }

  lemma AttemptsValid(id: string, reply: Reply)
    ensures ValidAttempts(Attempts(id, reply), id)
  {
    forall name | Attempts(id, reply)(name).Ok?
      ensures Valid(Attempts(id, reply)(name).value, id)
    {
      var r := TryClient(name, id, reply);
    }
  }

  predicate Serves(attempt: Attempt, name: string) {
    attempt(name).Ok?
  }

  /** Index of the first client that serves the record, or the number of
      clients. */
  function FirstServing(clients: seq<string>, attempt: Attempt): (k: nat)
    ensures k <= |clients|
    ensures k < |clients| ==> Serves(attempt, clients[k])
    ensures forall j :: 0 <= j < k ==> !Serves(attempt, clients[j])
  {
    if clients == [] || Serves(attempt, clients[0]) then 0 else 1 + FirstServing(clients[1..], attempt)
  }

  /** `errors[name] = message` on an insertion-ordered dict: a new name goes
      last, a known one keeps its place. */
  function Put(errors: seq<(string, string)>, name: string, message: string): (r: seq<(string, string)>)
    ensures (forall j :: 0 <= j < |errors| ==> errors[j].0 != name) ==> r == errors + [(name, message)]
  {
    if errors == [] then [(name, message)]
    else if errors[0].0 == name then [(name, message)] + errors[1..]
    else [errors[0]] + Put(errors[1..], name, message)
  }

  /** The loop of `_fetch_from_network`: the entry of the first client that
      serves the record, stamped `at`, or the errors of all of them. */
  function Network(clients: seq<string>, attempt: Attempt, at: int, errors: seq<(string, string)>)
    : (r: Result<Entry, seq<(string, string)>>)
    ensures r.Ok? <==> FirstServing(clients, attempt) < |clients|
    ensures r.Ok? ==>
      var name := clients[FirstServing(clients, attempt)];
      r.value == FetchCache.CacheEntry(attempt(name).value, at, name)
  {
    if clients == [] then Err(errors)
    else
      match attempt(clients[0])
      case Ok(t) => Ok(FetchCache.CacheEntry(t, at, clients[0]))
      case Err(m) => Network(clients[1..], attempt, at, Put(errors, clients[0], m))
  }

  /** Clients after the first that serves are never asked: answers of later
      clients do not matter. */
  lemma {:induction false} LaterClientsIgnored(clients: seq<string>, attempt: Attempt, attempt2: Attempt,
                                               at: int, errors: seq<(string, string)>)
    requires FirstServing(clients, attempt) < |clients|
    requires forall j :: 0 <= j <= FirstServing(clients, attempt) ==> attempt2(clients[j]) == attempt(clients[j])
    ensures Network(clients, attempt2, at, errors) == Network(clients, attempt, at, errors)
  {
    assert attempt2(clients[0]) == attempt(clients[0]);
    if !Serves(attempt, clients[0]) {
      var k := FirstServing(clients, attempt);
      assert FirstServing(clients[1..], attempt) == k - 1;
      assert forall j :: 0 <= j <= k - 1 ==> clients[1..][j] == clients[j + 1];
      LaterClientsIgnored(clients[1..], attempt, attempt2, at, Put(errors, clients[0], attempt(clients[0]).error));
    }
  }

  /** When no client serves and the names are distinct, the errors list
      every client once, in order, with its own error text. */
  lemma {:induction false} AllFailedErrors(clients: seq<string>, attempt: Attempt, at: int,
                                           errors: seq<(string, string)>)
    requires FirstServing(clients, attempt) == |clients| && NoDuplicates(clients)
    requires forall j, k :: 0 <= j < |errors| && 0 <= k < |clients| ==> errors[j].0 != clients[k]
    ensures var r := Network(clients, attempt, at, errors);
            && r.Err? && |r.error| == |errors| + |clients| && r.error[..|errors|] == errors
            && forall k :: 0 <= k < |clients| ==> r.error[|errors| + k] == (clients[k], attempt(clients[k]).error)
  {
    if clients != [] {
      var m := attempt(clients[0]).error;
      var errors' := errors + [(clients[0], m)];
      assert Put(errors, clients[0], m) == errors';
      var tail := clients[1..];
      assert forall k :: 0 <= k < |tail| ==> tail[k] == clients[k + 1];
      assert NoDuplicates(tail);
      assert FirstServing(tail, attempt) == |tail|;
      assert forall j, k :: 0 <= j < |errors'| && 0 <= k < |tail| ==> errors'[j].0 != tail[k];
      AllFailedErrors(tail, attempt, at, errors');
      var r := Network(clients, attempt, at, errors);
      assert r == Network(tail, attempt, at, errors');
      forall k | 0 <= k < |clients|
        ensures r.error[|errors| + k] == (clients[k], attempt(clients[k]).error)
      {
        if k == 0 {
          assert r.error[..|errors'|] == errors';
          assert errors'[|errors|] == (clients[0], m);
        } else {
          assert r.error[|errors'| + (k - 1)] == (tail[k - 1], attempt(tail[k - 1]).error);
        }
      }
      assert r.error[..|errors|] == errors by {
        assert r.error[..|errors'|] == errors';
        assert errors'[..|errors|] == errors;
      }
    }
  }

  /** The text of the `SourceError` when every client fails. */
  function FailureMessage(id: string, errors: seq<(string, string)>): (m: string)
    ensures errors == [] ==> m == "All sources failed for " + id + ": no sources"
  {
    var joined := Join(ErrorParts(errors), " | ");
    "All sources failed for " + id + ": " + (if joined == [] then "no sources" else joined)
  }

  /** `f"{k}: {v}"` for each entry. */
  function ErrorParts(errors: seq<(string, string)>): (r: seq<string>)
    ensures |r| == |errors|
    ensures forall k :: 0 <= k < |r| ==> r[k] == errors[k].0 + ": " + errors[k].1
  {
    if errors == [] then [] else [errors[0].0 + ": " + errors[0].1] + ErrorParts(errors[1..])
  }

  // ------------------------------------------------------------ fetch_one

  /** Why `fetch_one` raises: offline without any stored record, or every
      source failing. */
  datatype ServiceError = OfflineUnavailable | AllSourcesFailed(message: string)

  /** The result of a call and the stores after it. */
  datatype Step = Step(result: Result<FetchResult, ServiceError>, store: Store)

  /** The re-check of a fresh record `known` whose result so far is `base`:
      a failed download changes nothing; a successful one is written through,
      marks the result verified, and replaces the record when its element
      lines differ. */
  function Recheck(s: Store, base: FetchResult, known: Entry, warning: string,
                   clients: seq<string>, attempt: Attempt, at: int): (r: Step)
    ensures Network(clients, attempt, at, []).Err? ==> r == Step(Ok(base), s)
    ensures Network(clients, attempt, at, []).Ok? ==>
      var e := Network(clients, attempt, at, []).value;
      && r.store == WriteThrough(s, e)
      && r.result.Ok? && r.result.value.verified
      && ((e.tle.line1, e.tle.line2) == (known.tle.line1, known.tle.line2) ==> r.result.value == base.(verified := true))
      && ((e.tle.line1, e.tle.line2) != (known.tle.line1, known.tle.line2) ==>
            r.result.value == base.(verified := true, tle := e.tle, source := e.source, fetchedAt := e.fetchedAt,
                                    warnings := base.warnings + [warning]))
  {
    match Network(clients, attempt, at, [])
    case Err(_) => Step(Ok(base), s)
    case Ok(e) =>
      var s' := WriteThrough(s, e);
      if (e.tle.line1, e.tle.line2) != (known.tle.line1, known.tle.line2) then
        Step(Ok(base.(verified := true, tle := e.tle, source := e.source, fetchedAt := e.fetchedAt,
                      warnings := base.warnings + [warning])), s')
      else
        // the entry is set again: the same stores
        Step(Ok(base.(verified := true)), s')
  }

  /** The fresher of the stale candidates; the cache's on a tie (`max`
      returns the first of equal keys). */
  function Freshest(fromCache: Option<Entry>, fromRepository: Option<Entry>): (r: Option<Entry>)
    ensures r.None? <==> fromCache.None? && fromRepository.None?
    ensures r.Some? ==> r == fromCache || r == fromRepository
    ensures r.Some? && fromCache.Some? ==> r.value.fetchedAt >= fromCache.value.fetchedAt
    ensures r.Some? && fromRepository.Some? ==> r.value.fetchedAt >= fromRepository.value.fetchedAt
  {
    match (fromCache, fromRepository)
    case (None, None) => None
    case (Some(c), None) => Some(c)
    case (None, Some(p)) => Some(p)
    case (Some(c), Some(p)) => if p.fetchedAt > c.fetchedAt then Some(p) else Some(c)
  }

  /** `fetch_one(norad_id, cache_ttl, verify_percent, offline)` over the
      stores `s`, with `clients` the names of the service's sources and
      `attempt` what each gives for `norad_id`. */
  function FetchOne(s: Store, id: string, ttl: int, percent: real, offline: bool,
                    clients: seq<string>, attempt: Attempt, env: Env): (r: Step)
    ensures r.result.Err? ==> r.store == s
    ensures r.result == Err(OfflineUnavailable) ==> offline
    ensures r.result.Ok? && r.result.value.stale ==> offline && r.store == s
    ensures id in s.cache && !FetchCache.IsStale(s.cache[id], Some(ttl), env.now) ==> r.result.Ok? && !r.result.value.stale
  {
    var fromCache := FetchCache.Get(s.cache, id, Some(ttl), true, env.now);
    if fromCache.Some? && !FetchCache.IsStale(fromCache.value, Some(ttl), env.now) then
      FromCache(s, fromCache.value, percent, clients, attempt, env)
    else
      var fromRepository := RepositoryGet(s, id);
      if fromRepository.Some? && !FetchCache.IsStale(fromRepository.value, Some(ttl), env.now) then
        FromRepository(s, fromRepository.value, percent, clients, attempt, env)
      else FromStale(s, id, ttl, Freshest(fromCache, fromRepository), offline, clients, attempt, env)
  }

  /** A fresh cache entry `c`: answered as from `cache`, re-checked when the
      draw says so. */
  function FromCache(s: Store, c: Entry, percent: real, clients: seq<string>, attempt: Attempt, env: Env): (r: Step)
    ensures r.result.Ok?
    ensures Good(s) && Valid(c.tle, c.tle.noradId) && ValidAttempts(attempt, c.tle.noradId) ==>
      Good(r.store) && r.result.Ok? && Valid(r.result.value.tle, c.tle.noradId)
  {
    RecheckKeepsGood(s, FetchResult(c.tle, "cache", c.fetchedAt, false, false, []), c, CacheReplaced, clients, attempt, env.later, c.tle.noradId);
    var base := FetchResult(c.tle, "cache", c.fetchedAt, false, false, []);
    if ShouldVerify(percent, env.draw) then Recheck(s, base, c, CacheReplaced, clients, attempt, env.later)
    else Step(Ok(base), s)
  }

  /** A fresh repository entry `p`: copied into the cache and answered,
      re-checked when the draw says so. */
  function FromRepository(s: Store, p: Entry, percent: real, clients: seq<string>, attempt: Attempt, env: Env): (r: Step)
    ensures r.result.Ok?
    ensures Good(s) && Valid(p.tle, p.tle.noradId) && ValidAttempts(attempt, p.tle.noradId) ==>
      Good(r.store) && Valid(r.result.value.tle, p.tle.noradId)
  {
    var s' := s.(cache := FetchCache.Set(s.cache, p));
    GoodAfterPromote(s, p);
    RecheckKeepsGood(s', FetchResult(p.tle, p.source, p.fetchedAt, false, false, []), p, RepositoryReplaced, clients, attempt, env.later, p.tle.noradId);
    var base := FetchResult(p.tle, p.source, p.fetchedAt, false, false, []);
    if ShouldVerify(percent, env.draw) then Recheck(s', base, p, RepositoryReplaced, clients, attempt, env.later)
    else Step(Ok(base), s')
  }

  /** Nothing fresh; `freshest` is the most recent stored entry, if any. */
  function FromStale(s: Store, id: string, ttl: int, freshest: Option<Entry>, offline: bool,
                     clients: seq<string>, attempt: Attempt, env: Env): (r: Step)
    ensures Good(s) && ValidAttempts(attempt, id) && (freshest.Some? ==> Valid(freshest.value.tle, id)) ==>
      Good(r.store) && (r.result.Ok? ==> Valid(r.result.value.tle, id))
  {
    StaleKeepsGood(s, id, ttl, freshest, offline, clients, attempt, env);
    if offline then
      if freshest.Some? then
        var f := freshest.value;
        Step(Ok(FetchResult(f.tle, f.source, f.fetchedAt, true, false, [OfflineStale])), s)
      else Step(Err(OfflineUnavailable), s)
    else
      match Network(clients, attempt, env.later, [])
      case Err(errors) => Step(Err(AllSourcesFailed(FailureMessage(id, errors))), s)
      case Ok(e) =>
        var warnings := if freshest.Some? && FetchCache.IsStale(freshest.value, Some(ttl), env.now) then [ReplacedStale] else [];
        Step(Ok(FetchResult(e.tle, e.source, e.fetchedAt, false, false, warnings)), WriteThrough(s, e))
  }

  // ----------------------------------------------------- what a call keeps

  /** When every stored entry is valid and sits under its identifier, a
      lookup keeps it so and answers a valid record for the identifier
      asked. */
  lemma FetchOneKeepsGood(s: Store, id: string, ttl: int, percent: real, offline: bool,
                          clients: seq<string>, attempt: Attempt, env: Env)
    requires Good(s) && ValidAttempts(attempt, id)
    ensures var r := FetchOne(s, id, ttl, percent, offline, clients, attempt, env);
            Good(r.store) && (r.result.Ok? ==> Valid(r.result.value.tle, id))
  {
    var fromCache := FetchCache.Get(s.cache, id, Some(ttl), true, env.now);
    if fromCache.Some? && !FetchCache.IsStale(fromCache.value, Some(ttl), env.now) {
      var c := s.cache[id];
      assert c.tle.noradId == id;
      var r := FromCache(s, c, percent, clients, attempt, env);
    } else {
      var fromRepository := RepositoryGet(s, id);
      if fromRepository.Some? && !FetchCache.IsStale(fromRepository.value, Some(ttl), env.now) {
        var p := s.repository.value[id];
        assert p.tle.noradId == id;
        var r := FromRepository(s, p, percent, clients, attempt, env);
      } else {
        FreshestValid(s, id, ttl, env.now);
      }
    }
  }

  lemma FreshestValid(s: Store, id: string, ttl: int, now: int)
    requires Good(s)
    ensures var f := Freshest(FetchCache.Get(s.cache, id, Some(ttl), true, now), RepositoryGet(s, id));
            f.Some? ==> Valid(f.value.tle, id)
  {
  }

  lemma StaleKeepsGood(s: Store, id: string, ttl: int, freshest: Option<Entry>, offline: bool,
                       clients: seq<string>, attempt: Attempt, env: Env)
    ensures Good(s) && ValidAttempts(attempt, id) ==>
      var n := Network(clients, attempt, env.later, []);
      n.Ok? ==> Valid(n.value.tle, id) && Good(WriteThrough(s, n.value))
  {
    if Good(s) && ValidAttempts(attempt, id) {
      StaleWrite(s, id, clients, attempt, env);
    }
  }

  lemma StaleWrite(s: Store, id: string, clients: seq<string>, attempt: Attempt, env: Env)
    requires Good(s) && ValidAttempts(attempt, id)
    ensures var n := Network(clients, attempt, env.later, []);
      n.Ok? ==> Valid(n.value.tle, id) && Good(WriteThrough(s, n.value))
  {
    NetworkValid(clients, attempt, id, env.later, []);
    var n := Network(clients, attempt, env.later, []);
    if n.Ok? {
      GoodAfterWrite(s, n.value, id);
    }
  }

  lemma RecheckKeepsGood(s: Store, base: FetchResult, known: Entry, warning: string,
                         clients: seq<string>, attempt: Attempt, at: int, id: string)
    ensures Good(s) && Valid(base.tle, id) && ValidAttempts(attempt, id) ==>
      var r := Recheck(s, base, known, warning, clients, attempt, at);
      Good(r.store) && r.result.Ok? && Valid(r.result.value.tle, id)
  {
    if Good(s) && Valid(base.tle, id) && ValidAttempts(attempt, id) {
      RecheckGood(s, base, known, warning, clients, attempt, at, id);
    }
  }

  lemma RecheckGood(s: Store, base: FetchResult, known: Entry, warning: string,
                    clients: seq<string>, attempt: Attempt, at: int, id: string)
    requires Good(s) && Valid(base.tle, id) && ValidAttempts(attempt, id)
    ensures var r := Recheck(s, base, known, warning, clients, attempt, at);
            Good(r.store) && r.result.Ok? && Valid(r.result.value.tle, id)
  {
    NetworkValid(clients, attempt, id, at, []);
    var n := Network(clients, attempt, at, []);
    if n.Ok? {
      GoodAfterWrite(s, n.value, id);
    }
  }

  lemma NetworkValid(clients: seq<string>, attempt: Attempt, id: string, at: int, errors: seq<(string, string)>)
    requires ValidAttempts(attempt, id)
    ensures var n := Network(clients, attempt, at, errors);
            n.Ok? ==> Valid(n.value.tle, id)
  {
    var n := Network(clients, attempt, at, errors);
    if n.Ok? {
      var name := clients[FirstServing(clients, attempt)];
      assert attempt(name).Ok?;
    }
  }

  /** Writing an entry for `id` that passes the validator keeps the stores
      good. */
  lemma GoodAfterWrite(s: Store, e: Entry, id: string)
    requires Good(s) && Valid(e.tle, id)
    ensures Good(WriteThrough(s, e))
  {
    GoodSet(s.cache, e);
    if s.repository.Some? {
      GoodSet(s.repository.value, e);
    }
  }

  lemma GoodSet(c: FetchCache.Cache, e: Entry)
    requires GoodEntries(c) && TleText.WellFormedLines(Python, e.tle.line1, e.tle.line2)
    ensures GoodEntries(FetchCache.Set(c, e))
  {
    var c' := FetchCache.Set(c, e);
    forall k | k in c' ensures c'[k].tle.noradId == k && TleText.WellFormedLines(Python, c'[k].tle.line1, c'[k].tle.line2) {
      if k != e.tle.noradId {
        assert c'[k] == c[k];
      }
    }
  }

  lemma GoodAfterPromote(s: Store, p: Entry)
    ensures Good(s) && Valid(p.tle, p.tle.noradId) ==> Good(s.(cache := FetchCache.Set(s.cache, p)))
  {
    if Good(s) && Valid(p.tle, p.tle.noradId) {
      GoodSet(s.cache, p);
    }
  }

  // ----------------------------------------------------- branch by branch

  /** A fresh cache hit without a re-check answers from the cache, labelled
      `cache`, asks no source and changes nothing. */
  lemma FreshCacheHit(s: Store, id: string, ttl: int, percent: real, offline: bool,
                      clients: seq<string>, attempt: Attempt, env: Env)
    requires id in s.cache && !FetchCache.IsStale(s.cache[id], Some(ttl), env.now)
    requires !ShouldVerify(percent, env.draw)
    ensures var c := s.cache[id];
            FetchOne(s, id, ttl, percent, offline, clients, attempt, env)
              == Step(Ok(FetchResult(c.tle, "cache", c.fetchedAt, false, false, [])), s)
  {
  }

  /** A re-check of a fresh cache hit: a failed download leaves the answer
      unverified and the stores as they were; a successful one is written
      through and, when its element lines differ, replaces the answer with a
      warning. Offline mode does not prevent it. */
  lemma CacheRecheck(s: Store, id: string, ttl: int, percent: real, offline: bool,
                     clients: seq<string>, attempt: Attempt, env: Env)
    requires id in s.cache && !FetchCache.IsStale(s.cache[id], Some(ttl), env.now)
    requires ShouldVerify(percent, env.draw)
    ensures var c := s.cache[id];
            var r := FetchOne(s, id, ttl, percent, offline, clients, attempt, env);
            var n := Network(clients, attempt, env.later, []);
            && (n.Err? ==> r == Step(Ok(FetchResult(c.tle, "cache", c.fetchedAt, false, false, [])), s))
            && (n.Ok? ==> r.store == WriteThrough(s, n.value) && r.result.Ok? && r.result.value.verified)
            && (n.Ok? && (n.value.tle.line1, n.value.tle.line2) != (c.tle.line1, c.tle.line2) ==>
                  r.result.value == FetchResult(n.value.tle, n.value.source, env.later, false, true, [CacheReplaced]))
  {
  }

  /** A missing or stale cache entry with a fresh repository entry: the
      entry is copied into the cache and answered, without a source when
      there is no re-check. */
  lemma RepositoryPromoted(s: Store, id: string, ttl: int, percent: real, offline: bool,
                           clients: seq<string>, attempt: Attempt, env: Env)
    requires id !in s.cache || FetchCache.IsStale(s.cache[id], Some(ttl), env.now)
    requires s.repository.Some? && id in s.repository.value
    requires !FetchCache.IsStale(s.repository.value[id], Some(ttl), env.now)
    requires !ShouldVerify(percent, env.draw)
    ensures var p := s.repository.value[id];
            FetchOne(s, id, ttl, percent, offline, clients, attempt, env)
              == Step(Ok(FetchResult(p.tle, p.source, p.fetchedAt, false, false, [])),
                      s.(cache := FetchCache.Set(s.cache, p)))
  {
  }

  /** Nothing fresh in either store. */
  predicate NothingFresh(s: Store, id: string, ttl: int, now: int) {
    && (id !in s.cache || FetchCache.IsStale(s.cache[id], Some(ttl), now))
    && (RepositoryGet(s, id).None? || FetchCache.IsStale(RepositoryGet(s, id).value, Some(ttl), now))
  }

  /** The stored entry for `id` fetched last, the cache's on a tie. */
  function Stored(s: Store, id: string): Option<Entry> {
    Freshest(if id in s.cache then Some(s.cache[id]) else None, RepositoryGet(s, id))
  }

  /** Offline with nothing fresh: the most recently fetched stored record,
      marked stale, or an error when nothing is stored; no source is asked
      and nothing is written. */
  lemma OfflineAnswer(s: Store, id: string, ttl: int, percent: real,
                      clients: seq<string>, attempt: Attempt, env: Env)
    requires NothingFresh(s, id, ttl, env.now)
    ensures var r := FetchOne(s, id, ttl, percent, true, clients, attempt, env);
            var stored := Stored(s, id);
            && r.store == s
            && (stored.None? <==> r.result == Err(OfflineUnavailable))
            && (stored.Some? ==> r.result == Ok(FetchResult(stored.value.tle, stored.value.source,
                                                            stored.value.fetchedAt, true, false, [OfflineStale])))
  {
  }

  /** Online with nothing fresh: the first client that serves wins and is
      written through, with a warning when a stale record was replaced;
      when none serves, the error carries the collected failures and nothing
      is written. */
  lemma OnlineAnswer(s: Store, id: string, ttl: int, percent: real,
                     clients: seq<string>, attempt: Attempt, env: Env)
    requires NothingFresh(s, id, ttl, env.now)
    ensures var r := FetchOne(s, id, ttl, percent, false, clients, attempt, env);
            var k := FirstServing(clients, attempt);
            && (k == |clients| ==>
                  r == Step(Err(AllSourcesFailed(FailureMessage(id, Network(clients, attempt, env.later, []).error))), s))
            && (k < |clients| ==>
                  var e := FetchCache.CacheEntry(attempt(clients[k]).value, env.later, clients[k]);
                  r == Step(Ok(FetchResult(e.tle, clients[k], env.later, false, false,
                                           if Stored(s, id).Some? then [ReplacedStale] else [])),
                            WriteThrough(s, e)))
  {
    var fromCache := FetchCache.Get(s.cache, id, Some(ttl), true, env.now);
    assert Freshest(fromCache, RepositoryGet(s, id)) == Stored(s, id);
  }

  // --------------------------------------------------------- with a reply

  /** `fetch_one` with each source answering through `reply`. */
  function Lookup(s: Store, id: string, ttl: int, percent: real, offline: bool,
                  clients: seq<string>, reply: Reply, env: Env): (r: Step)
    ensures Good(s) ==> Good(r.store) && (r.result.Ok? ==> Valid(r.result.value.tle, id))
  {
    AttemptsValid(id, reply);
    FetchOneKeepsGoodIf(s, id, ttl, percent, offline, clients, Attempts(id, reply), env);
    FetchOne(s, id, ttl, percent, offline, clients, Attempts(id, reply), env)
  }

  lemma FetchOneKeepsGoodIf(s: Store, id: string, ttl: int, percent: real, offline: bool,
                            clients: seq<string>, attempt: Attempt, env: Env)
    ensures Good(s) && ValidAttempts(attempt, id) ==>
      var r := FetchOne(s, id, ttl, percent, offline, clients, attempt, env);
      Good(r.store) && (r.result.Ok? ==> Valid(r.result.value.tle, id))
  {
    if Good(s) && ValidAttempts(attempt, id) {
      FetchOneKeepsGood(s, id, ttl, percent, offline, clients, attempt, env);
    }
  }

  /** Every failure is a `SourceError` text or a parse error message, and
      the client that served a record labels it. */
  lemma TryClientMessages(name: string, id: string, reply: Reply)
    ensures var r := TryClient(name, id, reply);
            && (r.Err? && reply(name, id).Ok? ==>
                  r.error in {"empty TLE payload", "could not locate TLE line pair in response", "bad TLE prefixes",
                              "checksum failed", "catalog numbers differ between lines"})
            && (r.Ok? ==> r.value.source == name)
  {
  }

  // ----------------------------------------------------------- fetch_many

  /** The results of `fetch_many` and the stores after it. */
  datatype ManyStep = ManyStep(results: Result<seq<FetchResult>, ServiceError>, store: Store)

  /** One `fetch_one` call with the arguments `fetch_many` passes on. */
  type OneCall = (Store, string, Env) -> Step

  function Calls(ttl: int, percent: real, offline: bool, clients: seq<string>, reply: Reply): OneCall {
    (st, id, e) => Lookup(st, id, ttl, percent, offline, clients, reply, e)
  }

  /** `fetch_many(norad_ids, ...)`: `call` for each identifier in turn, the
      `i`-th reading the outside world `env(from + i)`; the first error ends
      the run (the stores keep what earlier lookups wrote). */
  function FetchMany(s: Store, ids: seq<string>, call: OneCall, env: nat -> Env, from: nat): (r: ManyStep)
    ensures r.results.Ok? ==> |r.results.value| == |ids|
    decreases |ids|
  {
    if ids == [] then ManyStep(Ok([]), s)
    else
      var one := call(s, ids[0], env(from));
      match one.result
      case Err(e) => ManyStep(Err(e), one.store)
      case Ok(first) =>
        var rest := FetchMany(one.store, ids[1..], call, env, from + 1);
        match rest.results
        case Err(e) => ManyStep(Err(e), rest.store)
        case Ok(more) => ManyStep(Ok([first] + more), rest.store)
  }

  /** A call that keeps the stores good and answers valid records. */
  ghost predicate KeepsGood(call: OneCall) {
    forall st, id, e :: Good(st) ==>
      Good(call(st, id, e).store) && (call(st, id, e).result.Ok? ==> Valid(call(st, id, e).result.value.tle, id))
  }

  lemma CallsKeepGood(ttl: int, percent: real, offline: bool, clients: seq<string>, reply: Reply)
    ensures KeepsGood(Calls(ttl, percent, offline, clients, reply))
  {
    var call := Calls(ttl, percent, offline, clients, reply);
    forall st, id, e | Good(st)
      ensures Good(call(st, id, e).store) && (call(st, id, e).result.Ok? ==> Valid(call(st, id, e).result.value.tle, id))
    {
      var r := Lookup(st, id, ttl, percent, offline, clients, reply, e);
    }
  }

  /** Over a whole list, the stores stay good. */
  lemma {:induction false} FetchManyKeepsGood(s: Store, ids: seq<string>, call: OneCall, env: nat -> Env, from: nat)
    requires Good(s) && KeepsGood(call)
    ensures Good(FetchMany(s, ids, call, env, from).store)
    decreases |ids|
  {
    if ids != [] {
      var one := call(s, ids[0], env(from));
      KeepsGoodAt(call, s, ids[0], env(from));
      if one.result.Ok? {
        FetchManyKeepsGood(one.store, ids[1..], call, env, from + 1);
      }
    }
  }

  /** Every answer is a valid record for its identifier. */
  lemma FetchManyAnswersValid(s: Store, ids: seq<string>, call: OneCall, env: nat -> Env, from: nat)
    requires Good(s) && KeepsGood(call)
    ensures var r := FetchMany(s, ids, call, env, from);
            r.results.Ok? ==> forall i :: 0 <= i < |ids| ==> Valid(r.results.value[i].tle, ids[i])
  {
    var r := FetchMany(s, ids, call, env, from);
    if r.results.Ok? {
      forall i | 0 <= i < |ids| ensures Valid(r.results.value[i].tle, ids[i]) {
        FetchManyAnswerHolds(s, ids, call, env, from, Good, Valid, i);
      }
    }
  }

  /** The same for any store invariant `inv` that each call keeps and any
      property `ok` of its answers. */
  lemma {:induction false} FetchManyAnswerHolds(s: Store, ids: seq<string>, call: OneCall, env: nat -> Env, from: nat,
                                                inv: Store -> bool, ok: (Tle, string) -> bool, i: nat)
    requires inv(s)
    requires forall st, id, e :: inv(st) ==>
      inv(call(st, id, e).store) && (call(st, id, e).result.Ok? ==> ok(call(st, id, e).result.value.tle, id))
    requires i < |ids| && FetchMany(s, ids, call, env, from).results.Ok?
    ensures ok(FetchMany(s, ids, call, env, from).results.value[i].tle, ids[i])
    decreases i
  {
    var one := call(s, ids[0], env(from));
    var rest := FetchMany(one.store, ids[1..], call, env, from + 1);
    assert FetchMany(s, ids, call, env, from).results.value == [one.result.value] + rest.results.value;
    if i > 0 {
      FetchManyAnswerHolds(one.store, ids[1..], call, env, from + 1, inv, ok, i - 1);
      assert ids[i] == ids[1..][i - 1];
    }
  }

  lemma KeepsGoodAt(call: OneCall, st: Store, id: string, e: Env)
    requires KeepsGood(call) && Good(st)
    ensures Good(call(st, id, e).store) && (call(st, id, e).result.Ok? ==> Valid(call(st, id, e).result.value.tle, id))
  {
  }

  /** The `i`-th result is the call for the `i`-th identifier, made on the
      stores the earlier calls left. */
  lemma {:induction false} FetchManyOneByOne(s: Store, ids: seq<string>, call: OneCall, env: nat -> Env, from: nat, i: nat)
    requires i < |ids|
    requires FetchMany(s, ids, call, env, from).results.Ok?
    ensures var before := FetchMany(s, ids[..i], call, env, from);
            var one := call(before.store, ids[i], env(from + i));
            && before.results.Ok? && one.result.Ok?
            && FetchMany(s, ids, call, env, from).results.value[i] == one.result.value
    decreases i
  {
    if i > 0 {
      var one := call(s, ids[0], env(from));
      assert ids[..i][0] == ids[0];
      assert ids[..i][1..] == ids[1..][..i - 1];
      FetchManyOneByOne(one.store, ids[1..], call, env, from + 1, i - 1);
    } else {
      assert ids[..0] == [];
    }
  }

  /** Looking up a list is looking up its two halves one after the other. */
  lemma {:induction false} FetchManyAppend(s: Store, a: seq<string>, b: seq<string>, call: OneCall, env: nat -> Env, from: nat)
    ensures var ra := FetchMany(s, a, call, env, from);
            var r := FetchMany(s, a + b, call, env, from);
            if ra.results.Err? then r == ra
            else
              var rb := FetchMany(ra.store, b, call, env, from + |a|);
              r == ManyStep(if rb.results.Err? then rb.results else Ok(ra.results.value + rb.results.value), rb.store)
    decreases |a|
  {
    if a == [] {
      assert a + b == b;
      var rb := FetchMany(s, b, call, env, from);
      if rb.results.Ok? {
        assert [] + rb.results.value == rb.results.value;
      }
    } else {
      assert (a + b)[0] == a[0] && (a + b)[1..] == a[1..] + b;
      var one := call(s, a[0], env(from));
      if one.result.Ok? {
        FetchManyAppend(one.store, a[1..], b, call, env, from + 1);
        var ra' := FetchMany(one.store, a[1..], call, env, from + 1);
        if ra'.results.Ok? {
          var rb := FetchMany(ra'.store, b, call, env, from + 1 + |a[1..]|);
          if rb.results.Ok? {
            CliCommon.ConcatAssociates([one.result.value], ra'.results.value, rb.results.value);
          }
        }
      }
    }
  }
}

=== FILE: fetch_sources.dfy ===
/** The HTTP source clients of `fetch/sources.py`: rate limiting, request
    construction, error wrapping of a fetch, the registry of known sources,
    client-list construction and source-order parsing. Monotonic clock
    readings and rate limits are whole microseconds; the opener (the HTTP
    exchange) is injected. */
module FetchSources {
  import opened Basics
  import opened Text
  import PyFormat
  import CliCommon

  const DefaultUserAgent: string := "TLE-Fetcher/3.0 (+https://example.local)"
  const AttributionHeader: string := "X-TLE-Attribution"
  /** `DEFAULT_TIMEOUT`, 10 seconds. */
  const DefaultTimeout: int := 10_000_000

  /** A `SourceDefinition` of the registry. */
  datatype SourceDefinition = SourceDefinition(
    name: string, urlTemplate: string, attribution: Option<string>,
    rateLimit: int, extraHeaders: map<string, string>, timeout: int)

  /** A `SourceClient` with its `_last_request` reading. */
  datatype SourceClient = SourceClient(
    name: string, urlTemplate: string, userAgent: string, attribution: Option<string>,
    rateLimit: int, timeout: int, extraHeaders: map<string, string>, lastRequest: int)

  // ------------------------------------------------------------ rate limit

  /** What `_enforce_rate_limit` did: the delay slept, if any, and the new
      `_last_request`. */
  datatype RateStep = RateStep(slept: Option<int>, lastRequest: int)

  /** `_enforce_rate_limit` with the clock reading `now` and, when it slept,
      the reading `afterSleep` taken after the sleep. */
  function EnforceRateLimit(rateLimit: int, lastRequest: int, now: int, afterSleep: int): (r: RateStep)
    ensures rateLimit <= 0 ==> r == RateStep(None, lastRequest)
    ensures rateLimit > 0 && now - lastRequest < rateLimit ==>
      r == RateStep(Some(rateLimit - (now - lastRequest)), afterSleep)
    ensures rateLimit > 0 && now - lastRequest >= rateLimit ==> r == RateStep(None, now)
    ensures r.slept.Some? ==> r.slept.value > 0
  {
    if rateLimit <= 0 then RateStep(None, lastRequest)
    else
      var delay := rateLimit - (now - lastRequest);
      if delay > 0 then RateStep(Some(delay), afterSleep) else RateStep(None, now)
  }

  /** When the clock runs on at least through every sleep, two requests
      through a rate-limited client are at least the limit apart. */
  lemma RequestsSpaced(rateLimit: int, lastRequest: int, now: int, afterSleep: int)
    requires rateLimit > 0 && lastRequest <= now
    requires afterSleep >= now + (rateLimit - (now - lastRequest))
    ensures EnforceRateLimit(rateLimit, lastRequest, now, afterSleep).lastRequest - lastRequest >= rateLimit
  {
  }

  // --------------------------------------------------------------- request

  /** A request: its URL and headers. */
  datatype Request = Request(url: string, headers: map<string, string>)

  /** The attribution header's value: the configured attribution, or the
      client's name when there is none (or it is empty). */
  function AttributionOf(c: SourceClient): (a: string)
    ensures c.attribution.Some? && c.attribution.value != [] ==> a == c.attribution.value
    ensures c.attribution.None? || c.attribution.value == [] ==> a == c.name
  {
    if c.attribution.Some? && c.attribution.value != [] then c.attribution.value else c.name
  }

  /** The headers of every request: user agent and attribution, then the
      extra headers, which may override either. */
  function Headers(c: SourceClient): (h: map<string, string>)
    ensures h.Keys == {"User-Agent", AttributionHeader} + c.extraHeaders.Keys
    ensures forall k :: k in c.extraHeaders ==> h[k] == c.extraHeaders[k]
    ensures "User-Agent" !in c.extraHeaders ==> h["User-Agent"] == c.userAgent
    ensures AttributionHeader !in c.extraHeaders ==> h[AttributionHeader] == AttributionOf(c)
  {
    map["User-Agent" := c.userAgent, AttributionHeader := AttributionOf(c)] + c.extraHeaders
  }

  /** `_build_request(norad_id)`: the template with `{id}` filled in, and
      the client's headers; `None` when the template cannot be filled. */
  function BuildRequest(c: SourceClient, id: string): (r: Option<Request>)
    ensures r.Some? <==> PyFormat.Format(c.urlTemplate, map["id" := id]).Some?
    ensures r.Some? ==> r.value == Request(PyFormat.Format(c.urlTemplate, map["id" := id]).value, Headers(c))
  {
    match PyFormat.Format(c.urlTemplate, map["id" := id])
    case None => None
    case Some(url) => Some(Request(url, Headers(c)))
  }

  // ----------------------------------------------------------------- fetch

  /** How an opener fails: `URLError` or anything else. */
  datatype OpenerFailure = UrlError(message: string) | OtherFailure(message: string)

  /** Why `fetch` fails: a `SourceError` with its message, or the template
      error `_build_request` raises unwrapped. */
  datatype FetchError = SourceError(message: string) | TemplateError

  /** `SourceClient.fetch(norad_id)`: the client after rate limiting and the
      payload (the opener's bytes, decoded) or the error. The opener's
      failures become `SourceError`s naming the client. */
  function Fetch(c: SourceClient, id: string, now: int, afterSleep: int,
                 opener: Request -> Result<string, OpenerFailure>): (r: (SourceClient, Result<string, FetchError>))
    ensures r.0 == c.(lastRequest := EnforceRateLimit(c.rateLimit, c.lastRequest, now, afterSleep).lastRequest)
    ensures BuildRequest(c, id).None? ==> r.1 == Err(TemplateError)
    ensures BuildRequest(c, id).Some? ==>
      match opener(BuildRequest(c, id).value)
      case Ok(payload) => r.1 == Ok(payload)
      case Err(UrlError(m)) => r.1 == Err(SourceError(c.name + " network error: " + m))
      case Err(OtherFailure(m)) => r.1 == Err(SourceError(c.name + " unexpected error: " + m))
  {
    var step := EnforceRateLimit(c.rateLimit, c.lastRequest, now, afterSleep);
    var c' := c.(lastRequest := step.lastRequest);
    match BuildRequest(c, id)
    case None => (c', Err(TemplateError))
    case Some(request) =>
      match opener(request)
      case Ok(payload) => (c', Ok(payload))
      case Err(UrlError(m)) => (c', Err(SourceError(c.name + " network error: " + m)))
      case Err(OtherFailure(m)) => (c', Err(SourceError(c.name + " unexpected error: " + m)))
  }

  /** Every opener failure of a client whose template fills is a
      `SourceError` starting with the client's name. */
  lemma FetchFailuresNamed(c: SourceClient, id: string, now: int, afterSleep: int,
                           opener: Request -> Result<string, OpenerFailure>)
    requires BuildRequest(c, id).Some?
    ensures var r := Fetch(c, id, now, afterSleep, opener).1;
            r.Err? ==> r.error.SourceError? && StartsWith(r.error.message, c.name)
  {
    var m := c.name + " network error: ";
    assert m[..|c.name|] == c.name;
    var m2 := c.name + " unexpected error: ";
    assert m2[..|c.name|] == c.name;
    match opener(BuildRequest(c, id).value)
    case Ok(_) =>
    case Err(UrlError(e)) =>
      assert (m + e)[..|c.name|] == c.name;
    case Err(OtherFailure(e)) =>
      assert (m2 + e)[..|c.name|] == c.name;
  }

  // -------------------------------------------------------------- registry

  /** `AVAILABLE_SOURCES`. */
  const Available: map<string, SourceDefinition> := map[
    "celestrak" := SourceDefinition("celestrak", "https://celestrak.org/NORAD/elements/gp.php?CATNR={id}&FORMAT=tle",
      Some("celestrak.org"), 1_000_000, map[], DefaultTimeout),
    "ivan" := SourceDefinition("ivan", "https://tle.ivanstanojevic.me/api/tle/{id}",
      Some("tle.ivanstanojevic.me"), 500_000, map[], DefaultTimeout),
    "spacetrack" := SourceDefinition("spacetrack",
      "https://www.space-track.org/basicspacedata/query/class/tle_latest/NORAD_CAT_ID/{id}/ORDINAL/1/format/tle",
      Some("space-track.org"), 2_000_000, map["Pragma" := "no-cache"], DefaultTimeout),
    "n2yo" := SourceDefinition("n2yo", "https://api.n2yo.com/rest/v1/satellite/tle/{id}?apiKey={id}",
      Some("n2yo.com"), 1_000_000, map[], DefaultTimeout)
  ]

  /** The client `build_clients` makes from a definition. */
  function ClientOf(d: SourceDefinition): (c: SourceClient)
    ensures c.name == d.name && c.lastRequest == 0 && c.userAgent == DefaultUserAgent
  {
    SourceClient(d.name, d.urlTemplate, DefaultUserAgent, d.attribution, d.rateLimit, d.timeout, d.extraHeaders, 0)
  }

  /** The known names of `order`, in order. */
  function KnownOnly(order: seq<string>): (r: seq<string>)
    ensures forall k :: 0 <= k < |r| ==> r[k] in Available && r[k] in order
    ensures forall n :: n in order && n in Available ==> n in r
  {
    if order == [] then []
    else (if order[0] in Available then [order[0]] else []) + KnownOnly(order[1..])
  }

  /** `build_clients(order)`: one client per known name, first occurrences
      only, in the order given. */
  method BuildClients(order: seq<string>) returns (clients: seq<SourceClient>)
    ensures |clients| == |Dedup(KnownOnly(order))|
    ensures forall k :: 0 <= k < |clients| ==> clients[k] == ClientOf(Available[Dedup(KnownOnly(order))[k]])
  {
    var seen: set<string> := {};
    var names: seq<string> := [];
    clients := [];
    var i := 0;
    while i < |order|
      invariant 0 <= i <= |order|
      invariant names + ClientNames(order[i..], seen) == ClientNames(order, {})
      invariant Built(names, clients)
    {
      var name := order[i];
      ClientNamesStep(order, i, seen);
      if name !in seen {
        seen := seen + {name};
        if name in Available {
          CliCommon.ConcatAssociates(names, [name], ClientNames(order[i + 1..], seen));
          BuiltSnoc(names, clients, name);
          names := names + [name];
          clients := clients + [ClientOf(Available[name])];
        }
      }
      i := i + 1;
    }
    assert order[i..] == [];
    ClientNamesAreKnownFirst(order, {});
  }

  /** `clients` holds one client per name of `names`, made from its definition. */
  predicate Built(names: seq<string>, clients: seq<SourceClient>) {
    |clients| == |names| && forall k :: 0 <= k < |names| ==> names[k] in Available && clients[k] == ClientOf(Available[names[k]])
  }

  lemma BuiltSnoc(names: seq<string>, clients: seq<SourceClient>, name: string)
    requires Built(names, clients) && name in Available
    ensures Built(names + [name], clients + [ClientOf(Available[name])])
  {
  }

  /** The names the loop of `build_clients` keeps after `seen`. */
  function ClientNames(order: seq<string>, seen: set<string>): seq<string> {
    if order == [] then []
    else if order[0] in seen then ClientNames(order[1..], seen)
    else if order[0] !in Available then ClientNames(order[1..], seen + {order[0]})
    else [order[0]] + ClientNames(order[1..], seen + {order[0]})
  }

  /** One step of the filter, at position `i`. */
  lemma ClientNamesStep(order: seq<string>, i: nat, seen: set<string>)
    requires i < |order|
    ensures ClientNames(order[i..], seen) ==
      if order[i] in seen then ClientNames(order[i + 1..], seen)
      else if order[i] !in Available then ClientNames(order[i + 1..], seen + {order[i]})
      else [order[i]] + ClientNames(order[i + 1..], seen + {order[i]})
  {
    assert order[i..][0] == order[i] && order[i..][1..] == order[i + 1..];
  }

  /** Skipping repeats and then unknown names is skipping unknown names and
      then repeats. */
  lemma {:induction false} ClientNamesAreKnownFirst(order: seq<string>, seen: set<string>)
    ensures ClientNames(order, seen) == DedupAfter(KnownOnly(order), seen)
  {
    if order != [] {
      var n := order[0];
      var rest := KnownOnly(order[1..]);
      if n in Available {
        assert KnownOnly(order) == [n] + rest;
        assert ([n] + rest)[0] == n && ([n] + rest)[1..] == rest;
        if n in seen {
          ClientNamesAreKnownFirst(order[1..], seen);
        } else {
          ClientNamesAreKnownFirst(order[1..], seen + {n});
        }
      } else {
        assert KnownOnly(order) == rest;
        if n in seen {
          ClientNamesAreKnownFirst(order[1..], seen);
        } else {
          ClientNamesAreKnownFirst(order[1..], seen + {n});
          DedupAfterIgnoresAbsent(rest, seen, n);
        }
      }
    }
  }

  /** Marking as seen a value the list does not hold changes nothing. */
  lemma {:induction false} DedupAfterIgnoresAbsent(xs: seq<string>, seen: set<string>, x: string)
    requires x !in xs
    ensures DedupAfter(xs, seen + {x}) == DedupAfter(xs, seen)
    decreases |xs|
  {
    if xs != [] {
      assert xs[0] != x && x !in xs[1..];
      if xs[0] in seen {
        DedupAfterIgnoresAbsent(xs[1..], seen, x);
      } else {
        assert seen + {x} + {xs[0]} == seen + {xs[0]} + {x};
        DedupAfterIgnoresAbsent(xs[1..], seen + {xs[0]}, x);
      }
    }
  }

  /** The clients have distinct names, all known, each from `order`, in the
      order of their first mention. */
  lemma ClientsDistinctKnown(order: seq<string>)
    ensures var names := Dedup(KnownOnly(order));
            && NoDuplicates(names)
            && (forall n :: n in names <==> n in order && n in Available)
            && (forall i, j :: 0 <= i < j < |names| ==> IndexOf(KnownOnly(order), names[i]) < IndexOf(KnownOnly(order), names[j]))
  {
  }

  // ---------------------------------------------------------- source order

  /** `parse_source_order(text, default)`: the default (or nothing) for an
      empty text, else the comma-separated parts stripped with blanks
      dropped — so a text of blanks gives an empty order, not the default. */
  function ParseSourceOrder(text: string, default: Option<seq<string>>): (r: seq<string>)
    ensures text == [] ==> r == default.GetOr([])
    ensures text != [] ==> forall k :: 0 <= k < |r| ==> r[k] != []
  {
    if text == [] then default.GetOr([]) else StripNonBlank(Python, SplitOn(text, ','))
  }

  /** A comma-separated list of clean names reads back as the list. */
  lemma ParseSourceOrderOfJoined(names: seq<string>, default: Option<seq<string>>)
    requires names != []
    requires forall k :: 0 <= k < |names| ==> Clean(names[k]) && ',' !in names[k]
    ensures ParseSourceOrder(Join(names, ","), default) == names
  {
    StripNonBlankOfSplitJoin(names, ',');
    assert Join(names, ",") != [] by {
      JoinStartsWithFirst(names);
    }
  }

  lemma JoinStartsWithFirst(names: seq<string>)
    requires names != [] && names[0] != []
    ensures Join(names, ",") != [] && Join(names, ",")[0] == names[0][0]
  {
  }

  /** A text of blanks and commas gives no sources, and not the default. */
  lemma BlankOrderIsEmpty(default: Option<seq<string>>)
    ensures ParseSourceOrder(" , ", default) == []
  {
    var parts := [" ", " "];
    assert Join(parts, [',']) == " , ";
    SplitOnJoin(parts, ',');
    assert Trim(Python, " ") == [];
    assert parts[1..] == [" "] && parts[1..][1..] == [];
  }
}

=== FILE: json.dfy ===
/** JSON values as the parsers see them after `json.loads` (Python) or
    `serde_json::from_str` (Rust), and the payload a source hands to a parser:
    its text together with what the JSON library makes of that text. */
module Json {
  import opened Basics
  import opened Text

  /** Numbers are integers; objects keep their members in document order,
      duplicates included. */
  datatype Json =
    | JNull
    | JBool(b: bool)
    | JNum(n: int)
    | JStr(s: string)
    | JArr(items: seq<Json>)
    | JObj(fields: seq<(string, Json)>)

  /** A downloaded body: `json` is `None` when the JSON decoder rejects `text`. */
  datatype Payload = Payload(text: string, json: Option<Json>)

  /** A body that is not JSON at all. */
  function PlainPayload(text: string): Payload {
    Payload(text, None)
  }

  /** The value of member `key`; with duplicate keys the last one wins, as both
      `json.loads` and `serde_json` keep the last. */
  function Get(fields: seq<(string, Json)>, key: string): (r: Option<Json>)
    ensures r.None? <==> forall i :: 0 <= i < |fields| ==> fields[i].0 != key
    ensures r.Some? ==> exists i :: 0 <= i < |fields| && fields[i] == (key, r.value) &&
                                    (forall j :: i < j < |fields| ==> fields[j].0 != key)
  {
    if fields == [] then None
    else
      var last := fields[|fields| - 1];
      if last.0 == key then Some(last.1) else Get(fields[..|fields| - 1], key)
  }

  lemma GetLast(fields: seq<(string, Json)>, key: string, v: Json)
    ensures Get(fields + [(key, v)], key) == Some(v)
  {
  }

  lemma GetBefore(fields: seq<(string, Json)>, last: (string, Json), key: string)
    requires last.0 != key
    ensures Get(fields + [last], key) == Get(fields, key)
  {
    assert (fields + [last])[..|fields|] == fields;
  }

  /** `key in data` for a decoded JSON object. */
  predicate HasKey(fields: seq<(string, Json)>, key: string) {
    Get(fields, key).Some?
  }

  /** The member `key` of an object, `None` for anything else or a missing key. */
  function Member(j: Json, key: string): Option<Json> {
    if j.JObj? then Get(j.fields, key) else None
  }

  /** Python truthiness of a decoded value. */
  predicate Truthy(j: Json) {
    match j
    case JNull => false
    case JBool(b) => b
    case JNum(n) => n != 0
    case JStr(s) => s != []
    case JArr(items) => items != []
    case JObj(fields) => fields != []
  }

  /** Python `str(value)` of a decoded value. Containers render as their
      `repr`, which always starts with `[` or `{`; the model keeps only that
      first character, which is all any caller inspects. */
  function PyStr(j: Json): (r: string)
    ensures j.JStr? ==> r == j.s
    ensures j.JArr? || j.JObj? ==> r != [] && (r[0] == '[' || r[0] == '{')
  {
    match j
    case JNull => "None"
    case JBool(b) => if b then "True" else "False"
    case JNum(n) => if n < 0 then "-" + DecimalText(-n) else DecimalText(n)
    case JStr(s) => s
    case JArr(_) => "[...]"
    case JObj(_) => "{...}"
  }

  /** Only a JSON string can be coerced into text that starts like a TLE
      line: `str()` of null, a boolean, a number or a container never begins
      with "1 " or "2 ". */
  lemma PyStrOfNonString(j: Json)
    requires !j.JStr?
    ensures !StartsWith(PyStr(j), "1 ") && !StartsWith(PyStr(j), "2 ")
  {
    var r := PyStr(j);
    if j.JNum? && j.n >= 0 {
      assert IsDigits(r);
      if |r| >= 2 {
        assert IsDigit(r[1]);
        StartsWithSecond(r, "1 ");
        StartsWithSecond(r, "2 ");
      }
    } else {
      assert r[0] in "NTF[{-";
      StartsWithFirst(r, "1 ");
      StartsWithFirst(r, "2 ");
    }
  }

  /** Rust `value.as_str().unwrap_or_default()`. */
  function AsStrOrEmpty(j: Json): (r: string)
    ensures j.JStr? ==> r == j.s
    ensures !j.JStr? ==> r == []
  {
    if j.JStr? then j.s else []
  }

  // ------------------------------------------------------------- writing

  /** Printable ASCII, the only characters `json.dumps` writes with its
      default `ensure_ascii=True`. */
  predicate Ascii(s: string) {
    forall i :: 0 <= i < |s| ==> ' ' <= s[i] <= '~'
  }

  /** A lower-case hexadecimal digit, as `\uXXXX` escapes are written. */
  function LowerHex(d: nat): (c: char)
    requires d < 16
    ensures ' ' <= c <= '~' && IsHex(c) && HexValue(c) == d
  {
    if d < 10 then ('0' as int + d) as char else ('a' as int + d - 10) as char
  }

  /** `\u` and four lower-case hexadecimal digits. */
  function UnicodeEscape(n: nat): (r: string)
    requires n < 0x10000
    ensures |r| == 6 && Ascii(r)
  {
    ['\\', 'u', LowerHex(n / 16 / 16 / 16), LowerHex(n / 16 / 16 % 16), LowerHex(n / 16 % 16), LowerHex(n % 16)]
  }

  /** The two-character escapes `json.dumps` uses. */
  predicate HasShortEscape(c: char) {
    c == '"' || c == '\\' || c == '\n' || c == '\r' || c == '\t' || c as int == 8 || c as int == 12
  }

  /** One character inside a string literal: the short escapes for the quote,
      the backslash and five control characters, printable ASCII as it is,
      and everything else as `\uXXXX`, a surrogate pair above U+FFFF. */
  function EscapeChar(c: char): (r: string)
    ensures Ascii(r) && r != []
    ensures HasShortEscape(c) ==> |r| == 2 && r[0] == '\\' && ShortEscape(r[1]) == Some(c)
    ensures !HasShortEscape(c) && ' ' <= c <= '~' ==> r == [c]
    ensures !HasShortEscape(c) && !(' ' <= c <= '~') && c as int < 0x10000 ==> r == UnicodeEscape(c as int)
    ensures c as int >= 0x10000 ==> r == SurrogateEscapes(c as int)
  {
    var n := c as int;
    if c == '"' then "\\\""
    else if c == '\\' then "\\\\"
    else if c == '\n' then "\\n"
    else if c == '\r' then "\\r"
    else if c == '\t' then "\\t"
    else if n == 8 then "\\b"
    else if n == 12 then "\\f"
    else if ' ' <= c <= '~' then [c]
    else if n < 0x10000 then UnicodeEscape(n)
    else SurrogateEscapes(n)
  }

  /** A character above U+FFFF as the escapes of its UTF-16 surrogate pair. */
  function SurrogateEscapes(n: int): (r: string)
    requires 0x10000 <= n < 0x110000
    ensures |r| == 12 && Ascii(r)
  {
    UnicodeEscape(HighSurrogate(n)) + UnicodeEscape(LowSurrogate(n))
  }

  function HighSurrogate(n: int): (h: nat)
    requires 0x10000 <= n < 0x110000
    ensures 0xD800 <= h < 0xDC00
  {
    0xD800 + (n - 0x10000) / 1024
  }

  function LowSurrogate(n: int): (l: nat)
    requires 0x10000 <= n < 0x110000
    ensures 0xDC00 <= l < 0xE000
  {
    0xDC00 + (n - 0x10000) % 1024
  }

  /** The pair puts the character back together. */
  lemma SurrogatesCombine(n: int)
    requires 0x10000 <= n < 0x110000
    ensures 0x10000 + (HighSurrogate(n) - 0xD800) * 1024 + (LowSurrogate(n) - 0xDC00) == n
  {
  }

  function EscapeAll(s: string): (r: string)
    ensures Ascii(r)
  {
    if s == [] then [] else EscapeChar(s[0]) + EscapeAll(s[1..])
  }

  /** A string literal as `json.dumps` writes it. */
  function Quote(s: string): (r: string)
    ensures Ascii(r) && |r| >= 2 && r[0] == '"' && r[|r| - 1] == '"'
  {
    "\"" + EscapeAll(s) + "\""
  }

  /** `json.dumps(value)` with the default `ensure_ascii=True` and
      separators `", "` and `": "`; members keep their order. */
  function Dumps(j: Json): (r: string)
    ensures Ascii(r) && r != []
    ensures j.JObj? ==> r[0] == '{' && r[|r| - 1] == '}'
    decreases j, 1
  {
    match j
    case JNull => "null"
    case JBool(b) => if b then "true" else "false"
    case JNum(n) => if n < 0 then "-" + DecimalText(-n) else DecimalText(n)
    case JStr(s) => Quote(s)
    case JArr(items) => "[" + DumpItems(j, items) + "]"
    case JObj(fields) => "{" + DumpFields(j, fields) + "}"
  }

  function DumpItems(parent: Json, items: seq<Json>): (r: string)
    requires forall k :: 0 <= k < |items| ==> items[k] < parent
    ensures Ascii(r)
    decreases parent, 0, |items|
  {
    if items == [] then []
    else
      var head := Dumps(items[0]);
      if |items| == 1 then head else head + ", " + DumpItems(parent, items[1..])
  }

  function DumpFields(parent: Json, fields: seq<(string, Json)>): (r: string)
    requires forall k :: 0 <= k < |fields| ==> fields[k].1 < parent
    ensures Ascii(r)
    decreases parent, 0, |fields|
  {
    if fields == [] then []
    else
      var head := Quote(fields[0].0) + ": " + Dumps(fields[0].1);
      if |fields| == 1 then head else head + ", " + DumpFields(parent, fields[1..])
  }

  /** An object's text is one clean line: `str.splitlines` finds a single
      line in it and `str.strip` leaves it as it is. */
  lemma DumpsClean(j: Json)
    requires j.JObj?
    ensures Clean(Dumps(j))
    ensures CleanLines(Dumps(j)) == [Dumps(j)]
  {
    var r := Dumps(j);
    assert forall i :: 0 <= i < |r| ==> !IsLineBreak(r[i]);
    CleanLinesOfJoin([r]);
    assert Join([r], "\n") == r;
  }

  // ------------------------------------------------------------- reading

  /** The value of four hexadecimal digits. */
  function Hex4Value(s: string): (n: nat)
    requires |s| == 4 && forall i :: 0 <= i < 4 ==> IsHex(s[i])
    ensures n < 0x10000
  {
    HexValue(s[0]) * 4096 + HexValue(s[1]) * 256 + HexValue(s[2]) * 16 + HexValue(s[3])
  }

  predicate HexAt(t: string, i: nat) {
    i + 4 <= |t| && forall k :: i <= k < i + 4 ==> IsHex(t[k])
  }

  function Cons(c: char, rest: Option<string>): Option<string> {
    match rest
    case None => None
    case Some(s) => Some([c] + s)
  }

  /** The character a two-character escape stands for. */
  function ShortEscape(c: char): Option<char> {
    if c == '"' || c == '\\' || c == '/' then Some(c)
    else if c == 'b' then Some(8 as char)
    else if c == 'f' then Some(12 as char)
    else if c == 'n' then Some('\n')
    else if c == 'r' then Some('\r')
    else if c == 't' then Some('\t')
    else None
  }

  /** The characters of a string literal's body, as `json.loads` reads them
      (its strict mode: no raw quote or control character). `None` for a
      malformed escape, and for an unpaired surrogate escape, which Python
      reads as a lone surrogate that has no place among Unicode scalar
      values. */
  function Unescape(t: string): (r: Option<string>)
    decreases |t|
  {
    if t == [] then Some([])
    else if t[0] == '\\' then
      if |t| < 2 then None
      else if ShortEscape(t[1]).Some? then Cons(ShortEscape(t[1]).value, Unescape(t[2..]))
      else if t[1] == 'u' && HexAt(t, 2) then
        var u := Hex4Value(t[2..6]);
        if 0xD800 <= u < 0xDC00 && |t| >= 12 && t[6] == '\\' && t[7] == 'u' && HexAt(t, 8)
           && 0xDC00 <= Hex4Value(t[8..12]) < 0xE000 then
          var w := 0x10000 + (u - 0xD800) * 1024 + (Hex4Value(t[8..12]) - 0xDC00);
          Cons(w as char, Unescape(t[12..]))
        else if 0xD800 <= u < 0xE000 then None
        else Cons(u as char, Unescape(t[6..]))
      else None
    else if t[0] == '"' || t[0] < ' ' then None
    else Cons(t[0], Unescape(t[1..]))
  }

  /** Every text survives `json.dumps` followed by `json.loads`. */
  lemma {:induction false} UnescapeEscapeAll(s: string)
    ensures Unescape(EscapeAll(s)) == Some(s)
  {
    if s != [] {
      UnescapeEscapeAll(s[1..]);
      UnescapeChar(s[0], EscapeAll(s[1..]));
      assert s == [s[0]] + s[1..];
    }
  }

  /** A whole string literal as `json.loads` reads it: its body between
      the quotes, which holds no unescaped quote. */
  function ReadLiteral(t: string): Option<string> {
    if |t| >= 2 && t[0] == '"' && t[|t| - 1] == '"' then Unescape(t[1..|t| - 1]) else None
  }

  /** A string written by `json.dumps` reads back as itself. */
  lemma QuoteRoundTrip(s: string)
    ensures ReadLiteral(Quote(s)) == Some(s)
  {
    var q := Quote(s);
    assert q[1..|q| - 1] == EscapeAll(s);
    UnescapeEscapeAll(s);
  }

  lemma UnescapeChar(c: char, rest: string)
    ensures Unescape(EscapeChar(c) + rest) == Cons(c, Unescape(rest))
  {
    var n := c as int;
    var e := EscapeChar(c);
    var t := e + rest;
    if HasShortEscape(c) {
      assert t[0] == e[0] && t[1] == e[1] && t[2..] == rest;
    } else if ' ' <= c <= '~' {
      assert t[0] == c && t[1..] == rest;
    } else if n < 0x10000 {
      UnicodeEscapeRead(n, rest);
    } else {
      UnescapeAstral(c, rest);
    }
  }

  lemma UnescapeAstral(c: char, rest: string)
    requires c as int >= 0x10000
    ensures Unescape(EscapeChar(c) + rest) == Cons(c, Unescape(rest))
  {
    var n := c as int;
    var hi, lo := HighSurrogate(n), LowSurrogate(n);
    var e1, e2 := UnicodeEscape(hi), UnicodeEscape(lo);
    var tail := e2 + rest;
    var t := e1 + tail;
    assert EscapeChar(c) + rest == t by {
      assert EscapeChar(c) == e1 + e2;
      AppendAssoc(e1, e2, rest);
    }
    UnicodeEscapeRead(hi, tail);
    UnicodeEscapeRead(lo, rest);
    ReadPair(t, hi, lo, tail, rest);
    SurrogatesCombine(n);
  }

  lemma AppendAssoc(a: string, b: string, c: string)
    ensures (a + b) + c == a + (b + c)
  {
  }

  /** A high and a low surrogate escape read as one character. */
  lemma ReadPair(t: string, hi: nat, lo: nat, tail: string, rest: string)
    requires 0xD800 <= hi < 0xDC00 && 0xDC00 <= lo < 0xE000
    requires HexAt(t, 2) && t[0] == '\\' && t[1] == 'u' && Hex4Value(t[2..6]) == hi && t[6..] == tail
    requires HexAt(tail, 2) && tail[0] == '\\' && tail[1] == 'u' && Hex4Value(tail[2..6]) == lo && tail[6..] == rest
    ensures Unescape(t) == Cons((0x10000 + (hi - 0xD800) * 1024 + (lo - 0xDC00)) as char, Unescape(rest))
  {
    assert t[6] == tail[0] && t[7] == tail[1];
    assert t[8..12] == tail[2..6];
    assert t[12..] == rest;
  }

  /** Where a `\uXXXX` escape sits and what its digits say. */
  lemma UnicodeEscapeRead(n: nat, rest: string)
    requires n < 0x10000
    ensures var t := UnicodeEscape(n) + rest;
      t[0] == '\\' && t[1] == 'u' && HexAt(t, 2) && Hex4Value(t[2..6]) == n && t[6..] == rest
  {
    var e := UnicodeEscape(n);
    var t := e + rest;
    assert t[..6] == e;
    var h := t[2..6];
    assert h == e[2..6];
    assert HexValue(h[0]) == n / 16 / 16 / 16;
    assert HexValue(h[1]) == n / 16 / 16 % 16;
    assert HexValue(h[2]) == n / 16 % 16;
    assert HexValue(h[3]) == n % 16;
    Hex4Digits(n);
  }

  lemma Hex4Digits(n: nat)
    requires n < 0x10000
    ensures n / 16 / 16 / 16 * 4096 + n / 16 / 16 % 16 * 256 + n / 16 % 16 * 16 + n % 16 == n
  {
    var q1 := n / 16;
    var q2 := q1 / 16;
    var q3 := q2 / 16;
    assert n == q1 * 16 + n % 16;
    assert q1 == q2 * 16 + q1 % 16;
    assert q2 == q3 * 16 + q2 % 16;
  }
}

=== FILE: legacy_cli.dfy ===
/** The command-line driver of `tle_fetcher/cli.py` around its fetch loop:
    the identifier list (command line plus an identifiers file), the
    interactive prompt when no identifier is given, the source order, the
    output-path template and the exit code. Fetching itself is
    `LegacyFallback`; here it is an injected success-or-failure per
    identifier. */
module LegacyCli {
  import opened Basics
  import opened Text
  import opened TleTypes
  import CliCommon
  import PyFormat
  import Epoch

  // ---------------------------------------------------------- identifiers

  /** `list(dict.fromkeys([*ns.ids, *_load_ids_from_file(p)]))`, or the
      command-line identifiers alone without a file; `None` when the file
      does not exist. Identifiers from the command line are not stripped. */
  function RequestedIds(cliIds: seq<string>, file: CliCommon.IdsFile): (r: Option<seq<string>>)
    ensures r.None? <==> file.Missing?
    ensures file.NotGiven? ==> r == Some(cliIds)
  {
    match file
    case NotGiven => Some(cliIds)
    case Missing => None
    case Present(text) => Some(Dedup(cliIds + CliCommon.IdLines(text)))
  }

  /** With a file, the list has no repeats, holds exactly the command-line
      and file identifiers, and starts with the command-line ones (without
      their repeats). */
  lemma RequestedIdsMerge(cliIds: seq<string>, text: string)
    ensures var r := RequestedIds(cliIds, CliCommon.Present(text)).value;
            && NoDuplicates(r)
            && (forall v :: v in r <==> v in cliIds || v in CliCommon.IdLines(text))
            && |Dedup(cliIds)| <= |r|
            && r[..|Dedup(cliIds)|] == Dedup(cliIds)
  {
    CliCommon.DedupPrefix(cliIds, CliCommon.IdLines(text));
  }

  // ------------------------------------------------------------ the prompt

  /** What the interactive prompt settles on. `Exhausted` is the
      `EOFError` of `input()` once the answers run out. */
  datatype PromptOutcome = Quit | Chosen(id: string) | Exhausted

  predicate QuitWord(s: string) {
    Lower(s) in {"q", "quit", "exit"}
  }

  /** What one stripped answer means to the prompt. */
  datatype Answer = QuitAnswer | IdAnswer(id: string) | OtherAnswer

  function Classify(answer: string): (c: Answer)
    ensures c.QuitAnswer? <==> QuitWord(Strip(answer))
    ensures c.IdAnswer? <==> !QuitWord(Strip(answer)) && IsDigits(Strip(answer))
    ensures c.IdAnswer? ==> c.id == Strip(answer)
  {
    var a := Strip(answer);
    if QuitWord(a) then QuitAnswer else if IsDigits(a) then IdAnswer(a) else OtherAnswer
  }

  /** An answer that ends the prompt: a quit word or a number. */
  predicate Decisive(answer: string) {
    !Classify(answer).OtherAnswer?
  }

  /** Index of the first element satisfying `p`, or the length. */
  function FirstWhere<T>(xs: seq<T>, p: T -> bool): (k: nat)
    ensures k <= |xs|
    ensures k < |xs| ==> p(xs[k])
    ensures forall j :: 0 <= j < k ==> !p(xs[j])
  {
    if xs == [] || p(xs[0]) then 0 else 1 + FirstWhere(xs[1..], p)
  }

  /** Index of the first decisive answer, or the number of answers. */
  function FirstAnswer(answers: seq<string>): (k: nat)
    ensures k <= |answers|
    ensures k < |answers| ==> Decisive(answers[k])
    ensures forall j :: 0 <= j < k ==> !Decisive(answers[j])
  {
    FirstWhere(answers, Decisive)
  }

  /** The prompt loop over the successive answers typed: each is stripped;
      a quit word ends the program, a number is the identifier, anything
      else asks again. */
  function Prompt(answers: seq<string>): (r: PromptOutcome)
    ensures r.Exhausted? <==> FirstAnswer(answers) == |answers|
    ensures r.Quit? <==> FirstAnswer(answers) < |answers| && QuitWord(Strip(answers[FirstAnswer(answers)]))
    ensures r.Chosen? ==> IsDigits(r.id) && r.id == Strip(answers[FirstAnswer(answers)])
  {
    if answers == [] then Exhausted
    else
      match Classify(answers[0])
      case QuitAnswer => Quit
      case IdAnswer(id) => Chosen(id)
      case OtherAnswer => Prompt(answers[1..])
  }

  /** A quit word is never a number, so the two decisive answers do not
      overlap. */
  lemma QuitIsNotNumber(s: string)
    requires QuitWord(s)
    ensures !IsDigits(s)
  {
    assert Lower(s) in {"q", "quit", "exit"};
    assert s != [] && !IsDigit(s[0]) by {
      assert |Lower(s)| > 0 && Lower(s)[0] in "qe";
    }
  }

  // -------------------------------------------------------- source order

  const DefaultOrder: seq<string> := ["spacetrack", "celestrak", "ivan", "n2yo"]

  /** `[s.strip().lower() for s in text.split(",") if s.strip()]`, or the
      four-source default when that is empty. */
  function SourceOrder(text: string): (r: seq<string>)
    ensures r != []
    ensures forall k :: 0 <= k < |r| ==> r[k] != [] && Lower(r[k]) == r[k]
    ensures StripNonBlank(Python, SplitOn(text, ',')) == [] ==> r == DefaultOrder
    ensures StripNonBlank(Python, SplitOn(text, ',')) != [] ==> |r| == |StripNonBlank(Python, SplitOn(text, ','))|
  {
    var lowered := LowerAll(StripNonBlank(Python, SplitOn(text, ',')));
    if lowered == [] then
      DefaultOrderIsLower();
      DefaultOrder
    else lowered
  }

  lemma DefaultOrderIsLower()
    ensures forall k :: 0 <= k < |DefaultOrder| ==> DefaultOrder[k] != [] && Lower(DefaultOrder[k]) == DefaultOrder[k]
  {
    forall k | 0 <= k < |DefaultOrder| ensures Lower(DefaultOrder[k]) == DefaultOrder[k] {
      LowerOfLetters(DefaultOrder[k]);
    }
  }

  /** Lower-case letters and digits are left as they are. */
  lemma LowerOfLetters(s: string)
    requires forall i :: 0 <= i < |s| ==> 'a' <= s[i] <= 'z' || '0' <= s[i] <= '9'
    ensures Lower(s) == s
  {
  }

  /** Every name lower-cased. */
  function LowerAll(names: seq<string>): (r: seq<string>)
    ensures |r| == |names|
    ensures forall k :: 0 <= k < |r| ==> r[k] == Lower(names[k]) && Lower(r[k]) == r[k]
    ensures forall k :: 0 <= k < |r| ==> names[k] != [] ==> r[k] != []
  {
    if names == [] then []
    else
      LowerIdempotent(names[0]);
      [Lower(names[0])] + LowerAll(names[1..])
  }

  lemma {:induction false} LowerAllOfLower(names: seq<string>)
    requires forall k :: 0 <= k < |names| ==> Lower(names[k]) == names[k]
    ensures LowerAll(names) == names
  {
    if names != [] {
      LowerAllOfLower(names[1..]);
      assert names == [names[0]] + names[1..];
    }
  }

  /** A name as a source list holds it: clean, lower-case, without a comma. */
  predicate SourceName(s: string) {
    Clean(s) && Lower(s) == s && ',' !in s
  }

  /** Writing a list of lower-case, comma-free names and reading it back
      gives the list. */
  lemma SourceOrderOfList(names: seq<string>)
    requires names != []
    requires forall k :: 0 <= k < |names| ==> SourceName(names[k])
    ensures SourceOrder(Join(names, ",")) == names
  {
    NamesListed(names);
    SourceOrderOfPieces(Join(names, ","), names);
  }

  lemma NamesListed(names: seq<string>)
    requires names != []
    requires forall k :: 0 <= k < |names| ==> SourceName(names[k])
    ensures StripNonBlank(Python, SplitOn(Join(names, ","), ',')) == names && LowerAll(names) == names
  {
    assert forall k :: 0 <= k < |names| ==> Clean(names[k]) && ',' !in names[k];
    StripNonBlankOfSplitJoin(names, ',');
    LowerAllOfLower(names);
  }

  lemma SourceOrderOfPieces(text: string, names: seq<string>)
    requires names != [] && StripNonBlank(Python, SplitOn(text, ',')) == names && LowerAll(names) == names
    ensures SourceOrder(text) == names
  {
  }

  /** A single name without a comma or surrounding blanks is read as its
      lower-cased form. */
  lemma SourceOrderOfOne(name: string)
    requires name != [] && ',' !in name
    requires !IsSpace(Python, name[0]) && !IsSpace(Python, name[|name| - 1])
    ensures SourceOrder(name) == [Lower(name)]
  {
    assert IndexOfChar(name, ',') == |name|;
    assert SplitOn(name, ',') == [name];
    TrimOfTrimmed(Python, name);
    assert [name][1..] == [];
    assert StripNonBlank(Python, [name]) == [name];
    assert LowerAll([name]) == [Lower(name)];
  }

  /** Names are lower-cased as Python does, Kelvin sign included:
      "CELESTRA\u212A" asks for celestrak. */
  lemma KelvinSourceName(text: string)
    requires text == "CELESTRA\U{212A}"
    ensures SourceOrder(text) == ["celestrak"]
  {
    assert ',' !in text && !IsSpace(Python, text[0]) && !IsSpace(Python, text[|text| - 1]);
    SourceOrderOfOne(text);
    KelvinLowered(text);
  }

  lemma KelvinLowered(text: string)
    requires text == "CELESTRA\U{212A}"
    ensures Lower(text) == "celestrak"
  {
    var lowered := Lower(text);
    forall k | 0 <= k < 9 ensures lowered[k] == "celestrak"[k] {
      assert lowered[k] == LowerChar(text[k]);
    }
  }

  // ---------------------------------------------------------- output path

  /** `(tle.name or "").replace("/", "-").replace(" ", "_")`. */
  function OutputName(name: Option<string>): (r: string)
    ensures '/' !in r && ' ' !in r
    ensures |r| == |name.GetOr([])|
    ensures forall i :: 0 <= i < |r| ==>
      r[i] == match name.GetOr([])[i] { case '/' => '-' case ' ' => '_' case c => c }
  {
    ReplaceChar(ReplaceChar(name.GetOr([]), '/', '-'), ' ', '_')
  }

  /** A name already made safe stays as it is. */
  lemma OutputNameIdempotent(name: Option<string>)
    ensures OutputName(Some(OutputName(name))) == OutputName(name)
  {
  }

  /** The values a template can use. */
  function TemplateValues(t: Tle, epochText: string): map<string, string> {
    map["id" := t.noradId, "name" := OutputName(t.name), "epoch" := epochText]
  }

  /** `format_output_path(pattern, tle)`: `-` stays `-`; otherwise the
      template filled with the record's identifier, safe name and epoch, or
      the pattern itself when anything fails — the epoch (`epochText` is
      `None` when it cannot be read, else its text), the template grammar or
      a field name. */
  function FormatOutputPath(pattern: string, t: Tle, epochText: Option<string>): (r: string)
    ensures pattern == "-" ==> r == "-"
    ensures epochText.None? ==> r == pattern
    ensures PyFormat.ParseTemplate(pattern).None? ==> r == pattern
  {
    if pattern == "-" then "-"
    else if epochText.None? then pattern
    else PyFormat.Format(pattern, TemplateValues(t, epochText.value)).GetOr(pattern)
  }

  /** The epoch text `format_output_path` fills in: `epoch(line1)` of the core
      package, the Rust reader when its extension is built (`native`) and the
      Python one otherwise, shown by `show`, which stands for `str()` of the
      `datetime`; `None` when the reader raises. */
  function EpochText(line1: string, native: bool, show: int -> string): (r: Option<string>)
    ensures var read := if native then Epoch.RustEpoch(line1) else Epoch.PyEpoch(line1);
            (r.None? <==> read.Err?) && (r.Some? ==> r.value == show(read.value))
  {
    var read := if native then Epoch.RustEpoch(line1) else Epoch.PyEpoch(line1);
    if read.Ok? then Some(show(read.value)) else None
  }

  /** The path `format_output_path` gives a record: the pattern itself when its
      line 1 has no readable epoch, else the template filled with the shown
      epoch. */
  function OutputPathOf(pattern: string, t: Tle, native: bool, show: int -> string): (r: string)
    ensures pattern == "-" ==> r == "-"
    ensures pattern != "-" && !native && Epoch.PyEpoch(t.line1).Err? ==> r == pattern
    ensures pattern != "-" && native && Epoch.RustEpoch(t.line1).Err? ==> r == pattern
    ensures !native && Epoch.PyEpoch(t.line1).Ok? ==>
      r == FormatOutputPath(pattern, t, Some(show(Epoch.PyEpoch(t.line1).value)))
    ensures native && Epoch.RustEpoch(t.line1).Ok? ==>
      r == FormatOutputPath(pattern, t, Some(show(Epoch.RustEpoch(t.line1).value)))
  {
    FormatOutputPath(pattern, t, EpochText(t.line1, native, show))
  }

  /** A line 1 cut short of 32 characters keeps the pattern under the Rust
      back end, while the Python one still fills it: the back ends disagree on
      the path. */
  lemma ShortLinePathsDiffer(pieces: seq<PyFormat.Piece>, t: Tle, show: int -> string)
    requires PyFormat.NamesOk(pieces) && PyFormat.NamesIn(pieces, {"id", "name", "epoch"})
    requires PyFormat.Unparse(pieces) != "-"
    requires |t.line1| < 32 && Epoch.PyEpoch(t.line1).Ok?
    ensures OutputPathOf(PyFormat.Unparse(pieces), t, true, show) == PyFormat.Unparse(pieces)
    ensures OutputPathOf(PyFormat.Unparse(pieces), t, false, show)
         == PyFormat.Fill(pieces, TemplateValues(t, show(Epoch.PyEpoch(t.line1).value)))
  {
    FormatOutputPathOfTemplate(pieces, t, show(Epoch.PyEpoch(t.line1).value));
  }

  /** A template whose fields are all `id`, `name` or `epoch` gives the path
      with each field replaced; the pattern text is the template's own
      spelling. */
  lemma FormatOutputPathOfTemplate(pieces: seq<PyFormat.Piece>, t: Tle, epochText: string)
    requires PyFormat.NamesOk(pieces) && PyFormat.NamesIn(pieces, {"id", "name", "epoch"})
    requires PyFormat.Unparse(pieces) != "-"
    ensures FormatOutputPath(PyFormat.Unparse(pieces), t, Some(epochText)) == PyFormat.Fill(pieces, TemplateValues(t, epochText))
  {
    PyFormat.FormatOfTemplate(pieces, TemplateValues(t, epochText));
  }

  /** A pattern without braces names a fixed path. */
  lemma PlainPattern(pattern: string, t: Tle, epochText: string)
    requires '{' !in pattern && '}' !in pattern
    ensures FormatOutputPath(pattern, t, Some(epochText)) == pattern
  {
    PyFormat.PlainFormat(pattern, TemplateValues(t, epochText));
  }

  // ---------------------------------------------------------------- run

  /** How `run_cli` ends: with an exit code after attempting the listed
      identifiers, or by the prompt's `EOFError`. */
  datatype CliRun = Finished(code: int, attempted: seq<string>) | EndOfInput

  /** `run_cli`. `fetched(id, sources)` says whether fetching, printing and
      saving the record of `id` went through without an exception. */
  method RunCli(cliIds: seq<string>, file: CliCommon.IdsFile, answers: seq<string>, orderText: string,
                fetched: (string, seq<string>) -> bool)
    returns (r: CliRun)
    ensures file.Missing? ==> r == Finished(2, [])
    ensures r.EndOfInput? <==> RequestedIds(cliIds, file) == Some([]) && Prompt(answers).Exhausted?
    ensures r.Finished? && !file.Missing? ==>
      (r.code == 0 <==> forall k :: 0 <= k < |r.attempted| ==> fetched(r.attempted[k], SourceOrder(orderText)))
    ensures r.Finished? ==> r.code == 0 || r.code == 2
    ensures RequestedIds(cliIds, file).Some? && RequestedIds(cliIds, file).value != [] ==>
      r == Finished(r.code, RequestedIds(cliIds, file).value)
    ensures RequestedIds(cliIds, file) == Some([]) && Prompt(answers).Chosen? ==>
      r == Finished(r.code, [Prompt(answers).id])
    ensures RequestedIds(cliIds, file) == Some([]) && Prompt(answers).Quit? ==> r == Finished(0, [])
  {
    var requested := RequestedIds(cliIds, file);
    if requested.None? {
      return Finished(2, []);
    }
    var ids := requested.value;
    if ids == [] {
      match Prompt(answers)
      case Quit => return Finished(0, []);
      case Exhausted => return EndOfInput;
      case Chosen(id) => ids := [id];
    }
    var code := FetchEach(ids, SourceOrder(orderText), fetched);
    r := Finished(code, ids);
  }

  /** The fetch loop of `run_cli`: every identifier is fetched in turn; a
      failure sets the exit code to 2 and the loop carries on. */
  method FetchEach(ids: seq<string>, sources: seq<string>, fetched: (string, seq<string>) -> bool) returns (code: int)
    ensures code == 0 || code == 2
    ensures code == 0 <==> forall k :: 0 <= k < |ids| ==> fetched(ids[k], sources)
  {
    code := 0;
    var i := 0;
    while i < |ids|
      invariant 0 <= i <= |ids|
      invariant code == 0 || code == 2
      invariant code == 0 <==> forall k :: 0 <= k < i ==> fetched(ids[k], sources)
    {
      if !fetched(ids[i], sources) {
        code := 2;
      }
      i := i + 1;
    }
  }
}

=== FILE: legacy_fallback.dfy ===
/** `fetch_with_fallback`, the source loop of the legacy command line. It is
    written twice, in `tle_fetcher/core.py` and `tle_fetcher/cli.py`, with one
    textual difference: during verification `core.py` looks an unknown source
    up with `SOURCE_FUNCS[other]` and swallows the `KeyError`, while `cli.py`
    skips it with `continue`. Neither calls anything for it, so one model
    serves both.

    Sources are injected: the `k`-th source call of a run, made to source
    `name`, answers `reply(name, k)` — a record, or the text of the exception
    it raised. The file cache is reduced to the record it yields, if any. */
module LegacyFallback {
  import opened Basics
  import opened Text
  import opened TleTypes
  import Epoch

  /** The keys of `SOURCE_FUNCS`. */
  predicate Known(name: string) {
    name in {"spacetrack", "celestrak", "ivan", "n2yo"}
  }

  /** The names of `sources` that `SOURCE_FUNCS` knows, in order. */
  function KnownOnly(sources: seq<string>): (r: seq<string>)
    ensures forall k :: 0 <= k < |r| ==> Known(r[k])
    ensures |r| <= |sources|
  {
    if sources == [] then []
    else if Known(sources[0]) then [sources[0]] + KnownOnly(sources[1..])
    else KnownOnly(sources[1..])
  }

  /** `[s for s in sources if s != src]`. */
  function Others(sources: seq<string>, src: string): (r: seq<string>)
    ensures forall k :: 0 <= k < |r| ==> r[k] != src && r[k] in sources
  {
    if sources == [] then []
    else if sources[0] != src then [sources[0]] + Others(sources[1..], src)
    else Others(sources[1..], src)
  }

  type Reply = (string, nat) -> Result<Tle, string>

  /** The state of the source loop: the records gathered, the `errors` dict
      (source to message of its last failure) and every source call made. The
      dict's insertion order is that of the first failure of each source, so
      it is recovered from `calls` when the message is written. */
  datatype Run = Run(got: seq<Tle>, errors: map<string, string>, calls: seq<string>)

  /** Every call from position `from` on got an error. */
  predicate FailedFrom(calls: seq<string>, from: nat, reply: Reply) {
    forall k :: from <= k < |calls| ==> reply(calls[k], k).Err?
  }

  /** Every entry of the errors dict is the answer of a call to that source. */
  predicate Recorded(errors: map<string, string>, calls: seq<string>, reply: Reply) {
    forall s :: s in errors ==> FailedWith(calls, reply, s, errors[s])
  }

  predicate FailedWith(calls: seq<string>, reply: Reply, s: string, msg: string) {
    exists k :: 0 <= k < |calls| && calls[k] == s && reply(s, k) == Err(msg)
  }

  /** Some call from position `from` on answered `t`. */
  predicate Answered(calls: seq<string>, from: nat, reply: Reply, t: Tle) {
    exists k :: from <= k < |calls| && reply(calls[k], k) == Ok(t)
  }

  /** The verification loop: ask the other sources, in order, until `1 +
      verifyWith` records are gathered; failures and unknown names are passed over. */
  function Verify(others: seq<string>, got: seq<Tle>, calls: seq<string>, verifyWith: int, reply: Reply): (r: (seq<Tle>, seq<string>))
    ensures |got| <= |r.0| && r.0[..|got|] == got
    ensures |r.0| <= |got| || |r.0| <= 1 + verifyWith
    ensures |calls| <= |r.1| && r.1[..|calls|] == calls
    ensures forall k :: |calls| <= k < |r.1| ==> Known(r.1[k]) && r.1[k] in others
    ensures |r.0| - |got| <= |r.1| - |calls|
    ensures forall i :: |got| <= i < |r.0| ==> Answered(r.1, |calls|, reply, r.0[i])
    decreases |others|
  {
    if others == [] || |got| >= 1 + verifyWith then (got, calls)
    else
      var other := others[0];
      if !Known(other) then
        Verify(others[1..], got, calls, verifyWith, reply)
      else
        var k := |calls|;
        var got' := if reply(other, k).Ok? then got + [reply(other, k).value] else got;
        var r := Verify(others[1..], got', calls + [other], verifyWith, reply);
        assert r.0[..|got|] == got by { assert r.0[..|got'|][..|got|] == got'[..|got|]; }
        assert r.1[..|calls|] == calls by { assert r.1[..|calls| + 1][..|calls|] == (calls + [other])[..|calls|]; }
        assert r.0[..|got'|] == got' && r.1[..k + 1] == calls + [other];
        assert r.1[k] == other;
        r
  }

  /** The main loop over the `rest` of `sources`: skip unknown names, record
      each failure, and on the first success run the verification loop over
      the other names and stop. */
  function TrySources(sources: seq<string>, rest: seq<string>, verifyWith: int, reply: Reply, errors: map<string, string>, calls: seq<string>): (r: Run)
    ensures |calls| <= |r.calls| && r.calls[..|calls|] == calls
    ensures r.got != [] ==> |r.got| <= 1 + (if verifyWith > 0 then verifyWith else 0)
    decreases |rest|
  {
    if rest == [] then Run([], errors, calls)
    else
      var src := rest[0];
      if !Known(src) then TrySources(sources, rest[1..], verifyWith, reply, errors, calls)
      else
        var k := |calls|;
        match reply(src, k)
        case Ok(t) =>
          if verifyWith > 0 then
            var v := Verify(Others(sources, src), [t], calls + [src], verifyWith, reply);
            assert v.1[..k] == calls by { assert v.1[..k + 1][..k] == (calls + [src])[..k]; }
            Run(v.0, errors, v.1)
          else Run([t], errors, calls + [src])
        case Err(msg) =>
          var r := TrySources(sources, rest[1..], verifyWith, reply, errors[src := msg], calls + [src]);
          assert r.calls[..k] == calls by { assert r.calls[..k + 1][..k] == (calls + [src])[..k]; }
          r
  }

  /** When no source answers, every known name was asked once, in order, and
      the errors dict holds exactly the sources asked, each with the message of
      one of its failures. */
  lemma {:induction false} NoneAnswered(sources: seq<string>, rest: seq<string>, verifyWith: int, reply: Reply, errors: map<string, string>, calls: seq<string>)
    requires FailedFrom(calls, 0, reply) && Recorded(errors, calls, reply)
    requires forall s :: s in errors <==> s in calls
    ensures var r := TrySources(sources, rest, verifyWith, reply, errors, calls);
            r.got == [] ==>
              r.calls == calls + KnownOnly(rest) && FailedFrom(r.calls, 0, reply) &&
              Recorded(r.errors, r.calls, reply) && (forall s :: s in r.errors <==> s in r.calls)
    decreases |rest|
  {
    if rest != [] {
      var src := rest[0];
      assert rest == [src] + rest[1..];
      if !Known(src) {
        NoneAnswered(sources, rest[1..], verifyWith, reply, errors, calls);
      } else if reply(src, |calls|).Err? {
        var msg := reply(src, |calls|).error;
        var calls' := calls + [src];
        var errors' := errors[src := msg];
        assert FailedFrom(calls', 0, reply);
        assert Recorded(errors', calls', reply) by {
          forall s | s in errors' ensures FailedWith(calls', reply, s, errors'[s]) {
            if s == src {
              assert calls'[|calls|] == src;
            } else {
              var k :| 0 <= k < |calls| && calls[k] == s && reply(s, k) == Err(errors[s]);
              assert calls'[k] == s;
            }
          }
        }
        NoneAnswered(sources, rest[1..], verifyWith, reply, errors', calls');
        assert calls' + KnownOnly(rest[1..]) == calls + KnownOnly(rest);
      }
    }
  }

  /** The first source that answers, at call `m`: every earlier call failed,
      the calls up to it follow the known names of `order`, and after it only
      other sources are asked — none at all without verification. */
  predicate WonAt(r: Run, m: nat, order: seq<string>, reply: Reply, verifyWith: int) {
    && m < |r.calls| && r.got != []
    && r.calls[..m + 1] <= order
    && FailedFrom(r.calls[..m], 0, reply)
    && reply(r.calls[m], m) == Ok(r.got[0])
    && (forall k :: m < k < |r.calls| ==> Known(r.calls[k]) && r.calls[k] != r.calls[m])
    && (verifyWith <= 0 ==> |r.calls| == m + 1 && |r.got| == 1)
    && |r.got| <= 1 + (if verifyWith > 0 then verifyWith else 0)
    && (forall i :: 1 <= i < |r.got| ==> Answered(r.calls, m + 1, reply, r.got[i]))
  }

  /** When some source answers, the loop stopped at the first one. */
  lemma {:induction false} FirstWins(sources: seq<string>, rest: seq<string>, verifyWith: int, reply: Reply, errors: map<string, string>, calls: seq<string>)
    requires FailedFrom(calls, 0, reply)
    ensures var r := TrySources(sources, rest, verifyWith, reply, errors, calls);
            r.got != [] ==> exists m: nat :: WonAt(r, m, calls + KnownOnly(rest), reply, verifyWith)
    decreases |rest|
  {
    var r := TrySources(sources, rest, verifyWith, reply, errors, calls);
    if rest != [] {
      var src := rest[0];
      assert rest == [src] + rest[1..];
      var order := calls + KnownOnly(rest);
      if !Known(src) {
        assert KnownOnly(rest) == KnownOnly(rest[1..]);
        assert r == TrySources(sources, rest[1..], verifyWith, reply, errors, calls);
        FirstWins(sources, rest[1..], verifyWith, reply, errors, calls);
      } else if reply(src, |calls|).Err? {
        var errors' := errors[src := reply(src, |calls|).error];
        assert r == TrySources(sources, rest[1..], verifyWith, reply, errors', calls + [src]);
        FirstWins(sources, rest[1..], verifyWith, reply, errors', calls + [src]);
        assert KnownOnly(rest) == [src] + KnownOnly(rest[1..]);
        assert calls + [src] + KnownOnly(rest[1..]) == order;
      } else {
        WinsHere(sources, rest, verifyWith, reply, errors, calls);
      }
    }
  }

  /** A known first name that answers wins at the current position. */
  lemma WinsHere(sources: seq<string>, rest: seq<string>, verifyWith: int, reply: Reply, errors: map<string, string>, calls: seq<string>)
    requires FailedFrom(calls, 0, reply)
    requires rest != [] && Known(rest[0]) && reply(rest[0], |calls|).Ok?
    ensures WonAt(TrySources(sources, rest, verifyWith, reply, errors, calls), |calls|, calls + KnownOnly(rest), reply, verifyWith)
  {
    var r := TrySources(sources, rest, verifyWith, reply, errors, calls);
    var src, m := rest[0], |calls|;
    assert rest == [src] + rest[1..];
    assert KnownOnly(rest) == [src] + KnownOnly(rest[1..]);
    assert r.calls[..m + 1] == calls + [src];
    assert r.calls[m] == src;
    assert r.calls[..m] == calls;
  }

  // ---------------------------------------------------------------- outcome

  /** The sort key `tle_epoch(t.line1)`. */
  function Key(t: Tle): Result<int, Epoch.EpochError> {
    Epoch.PyEpoch(t.line1)
  }

  type KeyOf = Tle -> Result<int, Epoch.EpochError>

  /** Record `i` is the first of `got` with the greatest key. */
  predicate FirstMax(got: seq<Tle>, key: KeyOf, i: nat) {
    && i < |got| && key(got[i]).Ok?
    && (forall j :: 0 <= j < |got| ==> key(got[j]).Ok? && key(got[j]).value <= key(got[i]).value)
    && (forall j :: 0 <= j < i ==> key(got[j]).value < key(got[i]).value)
  }

  /** Record `i` is the first of `got` whose key cannot be computed. */
  predicate FirstUnreadable(got: seq<Tle>, key: KeyOf, i: nat) {
    i < |got| && key(got[i]).Err? && forall j :: 0 <= j < i ==> key(got[j]).Ok?
  }

  /** `max(got, key=key)`: the first record with the greatest key, or the
      error of the first key that cannot be computed (`max` evaluates the keys
      in order and lets the exception through). */
  function Latest(got: seq<Tle>, key: KeyOf): (r: Result<Tle, Epoch.EpochError>)
    requires got != []
    ensures r.Ok? ==> exists i: nat :: FirstMax(got, key, i) && r.value == got[i]
    ensures r.Err? ==> exists i: nat :: FirstUnreadable(got, key, i) && key(got[i]) == Err(r.error)
  {
    match key(got[0])
    case Err(e) =>
      assert FirstUnreadable(got, key, 0);
      Err(e)
    case Ok(k0) =>
      if |got| == 1 then
        assert FirstMax(got, key, 0);
        Ok(got[0])
      else
        match Latest(got[1..], key)
        case Err(e) =>
          var i: nat :| FirstUnreadable(got[1..], key, i) && key(got[1..][i]) == Err(e);
          assert FirstUnreadable(got, key, i + 1);
          Err(e)
        case Ok(t) =>
          var i: nat :| FirstMax(got[1..], key, i) && t == got[1..][i];
          if key(t).value > k0 then
            assert FirstMax(got, key, i + 1);
            Ok(t)
          else
            assert FirstMax(got, key, 0);
            Ok(got[0])
  }

  /** Either one record is the first maximum or one is the first unreadable
      record — and never both, so `Latest` is determined by its contract. */
  lemma LatestUnique(got: seq<Tle>, key: KeyOf, i: nat, j: nat)
    ensures FirstMax(got, key, i) && FirstMax(got, key, j) ==> i == j
    ensures !(FirstMax(got, key, i) && FirstUnreadable(got, key, j))
    ensures FirstUnreadable(got, key, i) && FirstUnreadable(got, key, j) ==> i == j
  {
  }

  /** The text after `All sources failed: `: `k -> v` for each entry of the
      errors dict, in the order of the first failure of each source, joined by
      ` | `, or `no sources attempted` when the dict is empty. */
  function FailureMessage(errors: map<string, string>, calls: seq<string>): (m: string)
  {
    var parts := Entries(errors, Dedup(calls));
    var msgs := Join(parts, " | ");
    "All sources failed: " + (if msgs == [] then "no sources attempted" else msgs)
  }

  /** `k -> errors[k]` for each key of `keys` in the dict. */
  function Entries(errors: map<string, string>, keys: seq<string>): (r: seq<string>)
    ensures |r| <= |keys|
    ensures (forall k :: 0 <= k < |keys| ==> keys[k] in errors) ==>
      |r| == |keys| && forall k :: 0 <= k < |r| ==> r[k] == keys[k] + " -> " + errors[keys[k]]
  {
    if keys == [] then []
    else if keys[0] in errors then [keys[0] + " -> " + errors[keys[0]]] + Entries(errors, keys[1..])
    else Entries(errors, keys[1..])
  }

  datatype FetchError = AllSourcesFailed(message: string) | EpochUnreadable(error: Epoch.EpochError)

  /** What one call of `fetch_with_fallback` does: its result, the records
      it gathered, the source calls it made and the record it wrote to the
      cache, if any. */
  datatype Outcome = Outcome(result: Result<Tle, FetchError>, gathered: seq<Tle>, calls: seq<string>, written: Option<Tle>)

  /** `fetch_with_fallback(norad_id, sources, ..., verify_with)`, with
      `cached` the record `read_cache` returns. */
  function FetchWithFallback(cached: Option<Tle>, sources: seq<string>, verifyWith: int, reply: Reply): (o: Outcome)
    ensures cached.Some? ==> o == Outcome(Ok(cached.value), [], [], None)
    ensures o.written.Some? <==> o.result.Ok? && o.gathered != []
    ensures o.written.Some? ==> o.result == Ok(o.written.value)
    ensures o.result.Ok? && cached.None? ==> o.result.value in o.gathered
  {
    if cached.Some? then Outcome(Ok(cached.value), [], [], None)
    else
      var r := TrySources(sources, sources, verifyWith, reply, map[], []);
      if r.got == [] then Outcome(Err(AllSourcesFailed(FailureMessage(r.errors, r.calls))), [], r.calls, None)
      else
        match Latest(r.got, Key)
        case Err(e) => Outcome(Err(EpochUnreadable(e)), r.got, r.calls, None)
        case Ok(t) => Outcome(Ok(t), r.got, r.calls, Some(t))
  }

  /** Without a cached record: when no source answers, each known name of
      `sources` was asked once in order, all failed, and the message is built
      from an errors dict holding exactly the sources asked, each with the
      message of one of its failures. */
  lemma FetchAllFailed(sources: seq<string>, verifyWith: int, reply: Reply)
    ensures var o := FetchWithFallback(None, sources, verifyWith, reply);
            o.result.Err? && o.result.error.AllSourcesFailed? ==>
              && o.calls == KnownOnly(sources) && FailedFrom(o.calls, 0, reply)
              && o.gathered == [] && o.written == None
              && exists errors :: ErrorsOf(errors, o.calls, reply) && o.result.error.message == FailureMessage(errors, o.calls)
  {
    var r := TrySources(sources, sources, verifyWith, reply, map[], []);
    NoneAnswered(sources, sources, verifyWith, reply, map[], []);
    if r.got == [] {
      assert [] + KnownOnly(sources) == KnownOnly(sources);
      assert ErrorsOf(r.errors, r.calls, reply);
    }
  }

  /** `errors` is the dict the loop builds from `calls`, all of which failed. */
  ghost predicate ErrorsOf(errors: map<string, string>, calls: seq<string>, reply: Reply) {
    Recorded(errors, calls, reply) && forall s :: s in errors <==> s in calls
  }

  /** The message names every source asked, once each, in the order of first
      asking; it reads `no sources attempted` when there was none. */
  lemma MessageLists(errors: map<string, string>, calls: seq<string>)
    requires forall s :: s in errors <==> s in calls
    ensures calls == [] ==> FailureMessage(errors, calls) == "All sources failed: no sources attempted"
    ensures calls != [] ==>
      var keys := Dedup(calls);
      var parts := Entries(errors, keys);
      && |parts| == |keys| && keys != []
      && FailureMessage(errors, calls) == "All sources failed: " + Join(parts, " | ")
  {
    var keys := Dedup(calls);
    var parts := Entries(errors, keys);
    if calls != [] {
      assert calls[0] in keys;
      JoinNonEmpty(parts, " | ");
    }
  }

  lemma JoinNonEmpty(parts: seq<string>, sep: string)
    requires parts != [] && parts[0] != []
    ensures Join(parts, sep) != []
  {
  }

  /** Without a cached record: when some source answers, the result comes
      from the first source that answers, the later calls only verify it,
      and at most `1 + verify_with` records are gathered. */
  lemma FetchFirstWins(sources: seq<string>, verifyWith: int, reply: Reply)
    ensures var o := FetchWithFallback(None, sources, verifyWith, reply);
            o.gathered != [] ==>
              exists m: nat :: WonAt(Run(o.gathered, map[], o.calls), m, KnownOnly(sources), reply, verifyWith)
  {
    var o := FetchWithFallback(None, sources, verifyWith, reply);
    var r := TrySources(sources, sources, verifyWith, reply, map[], []);
    FirstWins(sources, sources, verifyWith, reply, map[], []);
    assert [] + KnownOnly(sources) == KnownOnly(sources);
    if o.gathered != [] {
      assert r.got != [] && o.gathered == r.got && o.calls == r.calls;
      var m :| WonAt(r, m, KnownOnly(sources), reply, verifyWith);
      WonAtIgnoresErrors(r, m, KnownOnly(sources), reply, verifyWith);
    }
  }

  /** Whether a run won at `m` does not depend on its errors dict. */
  lemma WonAtIgnoresErrors(r: Run, m: nat, order: seq<string>, reply: Reply, verifyWith: int)
    requires WonAt(r, m, order, reply, verifyWith)
    ensures WonAt(Run(r.got, map[], r.calls), m, order, reply, verifyWith)
  {
  }

  /** The record returned and written is the first of the gathered ones with
      the latest epoch; the fetch fails instead when an epoch cannot be read. */
  lemma FetchPicksLatest(sources: seq<string>, verifyWith: int, reply: Reply)
    ensures var o := FetchWithFallback(None, sources, verifyWith, reply);
            && (o.result.Ok? ==> exists i: nat :: FirstMax(o.gathered, Key, i) && o.result.value == o.gathered[i])
            && (o.gathered != [] && o.result.Err? ==>
                  exists i: nat :: FirstUnreadable(o.gathered, Key, i) && o.result.error == EpochUnreadable(Key(o.gathered[i]).error))
  {
  }
}

=== FILE: log_redact.dfy ===
/** The redaction the JSON log formatter applies to a record's context and
    extras before writing them: any value filed under a key that contains a
    sensitive word (in any case) becomes a fixed marker, mappings and
    sequences are walked recursively, and byte strings are decoded. */
module LogRedact {
  import opened Basics
  import opened Text

  /** The words that mark a key as sensitive. */
  const SensitiveKeys: seq<string> := [
    "password", "pass", "passwd", "secret", "token", "api_key", "api-key",
    "apikey", "authorization", "auth", "spacetrack_pass", "spacetrack_user",
    "n2yo_api_key"
  ]

  const Marker := "***REDACTED***"

  /** A value handed to the logger: a mapping (keys already turned into
      text), a list, tuple or set (in iteration order), a text, a byte
      string, or any other scalar by its representation. */
  datatype Value =
    | Mapping(entries: seq<Entry>)
    | Items(items: seq<Value>)
    | Str(s: string)
    | Bytes(bytes: seq<int>)
    | Scalar(repr: string)
  {
    predicate IsLeaf() { !Mapping? && !Items? }
  }

  datatype Entry = Entry(key: string, value: Value)

  /** `_should_redact`: a present, non-empty key whose lower-cased form
      contains one of the sensitive words. */
  function ShouldRedact(key: Option<string>): (r: bool)
    ensures key.Some? && Lower(key.value) in SensitiveKeys ==> r
    ensures r ==> key.Some? && |key.value| >= 4
  {
    SensitiveLength(key);
    key.Some? && key.value != [] && Sensitive(Lower(key.value))
  }

  /** Every sensitive word is a whole sensitive key of itself, and a key
      holding one is at least as long as the shortest, `pass` or `auth`. */
  lemma SensitiveLength(key: Option<string>)
    ensures key.Some? && Lower(key.value) in SensitiveKeys ==> Sensitive(Lower(key.value)) && key.value != []
    ensures key.Some? && Sensitive(Lower(key.value)) ==> |key.value| >= 4
  {
    if key.Some? {
      var k := Lower(key.value);
      if k in SensitiveKeys {
        var i :| 0 <= i < |SensitiveKeys| && SensitiveKeys[i] == k;
        assert StartsWith(k, k);
      }
      if Sensitive(k) {
        var i :| 0 <= i < |SensitiveKeys| && Contains(k, SensitiveKeys[i]);
        ContainsLength(k, SensitiveKeys[i]);
      }
    }
  }

  lemma {:induction false} ContainsLength(s: string, sub: string)
    requires Contains(s, sub)
    ensures |sub| <= |s|
    decreases |s|
  {
    if !StartsWith(s, sub) {
      ContainsLength(s[1..], sub);
    }
  }

  predicate Sensitive(k: string) {
    exists i :: 0 <= i < |SensitiveKeys| && Contains(k, SensitiveKeys[i])
  }

  /** `_redact`: mappings keep their keys and redact each value under its
      own key; sequences become lists whose items are redacted under the
      enclosing key; a leaf under a sensitive key is the marker; bytes are
      decoded (`decode` stands for UTF-8 decoding with replacement); any
      other leaf is kept. */
  function Redact(v: Value, hint: Option<string>, decode: seq<int> -> string): (r: Value)
    ensures v.Mapping? <==> r.Mapping?
    ensures v.Items? <==> r.Items?
    ensures v.Mapping? ==> |r.entries| == |v.entries|
    ensures v.Items? ==> |r.items| == |v.items|
    ensures v.IsLeaf() && ShouldRedact(hint) ==> r == Str(Marker)
    ensures v.IsLeaf() ==> !r.Bytes?
    decreases v
  {
    match v
    case Mapping(es) =>
      Mapping(seq(|es|, i requires 0 <= i < |es| => Entry(es[i].key, Redact(es[i].value, Some(es[i].key), decode))))
    case Items(xs) =>
      Items(seq(|xs|, i requires 0 <= i < |xs| => Redact(xs[i], hint, decode)))
    case Bytes(bs) => if ShouldRedact(hint) then Str(Marker) else Str(decode(bs))
    case _ => if ShouldRedact(hint) then Str(Marker) else v
  }

  // ------------------------------------------------------------ key matching

  /** Key matching ignores case. */
  lemma ShouldRedactIgnoresCase(k: string)
    ensures ShouldRedact(Some(k)) == ShouldRedact(Some(Lower(k)))
  {
    LowerIdempotent(k);
  }

  lemma LowerConcat(a: string, b: string)
    ensures Lower(a + b) == Lower(a) + Lower(b)
  {
  }

  /** A key that contains a sensitive key is itself sensitive:
      `X-Authorization-Header` is redacted because `Authorization` is. */
  lemma ShouldRedactWiderKey(pre: string, k: string, post: string)
    requires ShouldRedact(Some(k))
    ensures ShouldRedact(Some(pre + k + post))
  {
    var lk := Lower(k);
    var i :| 0 <= i < |SensitiveKeys| && Contains(lk, SensitiveKeys[i]);
    var w := SensitiveKeys[i];
    ContainsSpec(lk, w);
    var j: nat :| OccursAt(lk, w, j);
    LowerConcat(pre, k);
    LowerConcat(pre + k, post);
    var whole := Lower(pre + k + post);
    assert whole == Lower(pre) + lk + Lower(post);
    assert whole[|pre| + j..|pre| + j + |w|] == lk[j..j + |w|];
    assert OccursAt(whole, w, |pre| + j);
    ContainsSpec(whole, w);
  }

  /** The keys of the logging tests: `api_key`, `token` and
      `Authorization` are sensitive. */
  lemma SensitiveExamples()
    ensures ShouldRedact(Some("api_key"))
    ensures ShouldRedact(Some("token"))
    ensures ShouldRedact(Some("Authorization"))
  {
    assert Lower("api_key") == "api_key";
    assert StartsWith("api_key", SensitiveKeys[5]);
    assert Lower("token") == "token";
    assert StartsWith("token", SensitiveKeys[4]);
    assert Lower("Authorization") == "authorization";
    assert StartsWith("authorization", SensitiveKeys[8]);
  }

  /** `lower()` folds the Kelvin sign U+212A to 'k', so "TO\u212AEN" names a
      token and its value is redacted. */
  lemma KelvinKeySensitive(v: Value, decode: seq<int> -> string)
    requires v.IsLeaf()
    ensures ShouldRedact(Some("TO\U{212A}EN"))
    ensures Redact(v, Some("TO\U{212A}EN"), decode) == Str(Marker)
  {
    assert Lower("TO\U{212A}EN") == "token";
    assert StartsWith("token", SensitiveKeys[4]);
  }

  /** An absent or empty key never redacts. */
  lemma NoKeyNoRedaction(v: Value, decode: seq<int> -> string)
    requires v.Str? || v.Scalar?
    ensures Redact(v, None, decode) == v && Redact(v, Some(""), decode) == v
  {
  }

  // ------------------------------------------------------------- structure

  /** Two values with the same mappings (same keys, in order) and the same
      sequence lengths at every level; leaves may differ. */
  predicate SameShape(a: Value, b: Value)
    decreases a
  {
    match a
    case Mapping(es) =>
      b.Mapping? && |b.entries| == |es|
      && forall i :: 0 <= i < |es| ==> b.entries[i].key == es[i].key && SameShape(es[i].value, b.entries[i].value)
    case Items(xs) =>
      b.Items? && |b.items| == |xs|
      && forall i :: 0 <= i < |xs| ==> SameShape(xs[i], b.items[i])
    case _ => b.IsLeaf()
  }

  /** Redaction keeps every key and every sequence length: only leaves
      change. */
  lemma {:induction false} RedactKeepsShape(v: Value, hint: Option<string>, decode: seq<int> -> string)
    ensures SameShape(v, Redact(v, hint, decode))
    decreases v
  {
    match v
    case Mapping(es) =>
      forall i | 0 <= i < |es| ensures SameShape(es[i].value, Redact(v, hint, decode).entries[i].value) {
        RedactKeepsShape(es[i].value, Some(es[i].key), decode);
      }
    case Items(xs) =>
      forall i | 0 <= i < |xs| ensures SameShape(xs[i], Redact(v, hint, decode).items[i]) {
        RedactKeepsShape(xs[i], hint, decode);
      }
    case _ =>
  }

  /** Nothing filed under a sensitive key survives, at any depth, and no
      byte string is left undecoded. */
  predicate Clean(r: Value, hint: Option<string>)
    decreases r
  {
    match r
    case Mapping(es) => forall i :: 0 <= i < |es| ==> Clean(es[i].value, Some(es[i].key))
    case Items(xs) => forall i :: 0 <= i < |xs| ==> Clean(xs[i], hint)
    case _ => !r.Bytes? && (ShouldRedact(hint) ==> r == Str(Marker))
  }

  lemma {:induction false} RedactIsClean(v: Value, hint: Option<string>, decode: seq<int> -> string)
    ensures Clean(Redact(v, hint, decode), hint)
    decreases v
  {
    match v
    case Mapping(es) =>
      forall i | 0 <= i < |es| ensures Clean(Redact(v, hint, decode).entries[i].value, Some(es[i].key)) {
        RedactIsClean(es[i].value, Some(es[i].key), decode);
      }
    case Items(xs) =>
      forall i | 0 <= i < |xs| ensures Clean(Redact(v, hint, decode).items[i], hint) {
        RedactIsClean(xs[i], hint, decode);
      }
    case _ =>
  }

  /** Text and other scalars filed under keys that are not sensitive reach
      the log unchanged. */
  predicate KeepsVisible(v: Value, r: Value, hint: Option<string>)
    decreases v
  {
    match v
    case Mapping(es) =>
      r.Mapping? && |r.entries| == |es|
      && forall i :: 0 <= i < |es| ==> KeepsVisible(es[i].value, r.entries[i].value, Some(es[i].key))
    case Items(xs) =>
      r.Items? && |r.items| == |xs|
      && forall i :: 0 <= i < |xs| ==> KeepsVisible(xs[i], r.items[i], hint)
    case Bytes(_) => true
    case _ => !ShouldRedact(hint) ==> r == v
  }

  lemma {:induction false} RedactKeepsVisible(v: Value, hint: Option<string>, decode: seq<int> -> string)
    ensures KeepsVisible(v, Redact(v, hint, decode), hint)
    decreases v
  {
    match v
    case Mapping(es) =>
      forall i | 0 <= i < |es| ensures KeepsVisible(es[i].value, Redact(v, hint, decode).entries[i].value, Some(es[i].key)) {
        RedactKeepsVisible(es[i].value, Some(es[i].key), decode);
      }
    case Items(xs) =>
      forall i | 0 <= i < |xs| ensures KeepsVisible(xs[i], Redact(v, hint, decode).items[i], hint) {
        RedactKeepsVisible(xs[i], hint, decode);
      }
    case _ =>
  }

  /** Redacting twice is redacting once: the marker and decoded text are
      left as they are. */
  lemma {:induction false} RedactIdempotent(v: Value, hint: Option<string>, decode: seq<int> -> string)
    ensures Redact(Redact(v, hint, decode), hint, decode) == Redact(v, hint, decode)
    decreases v
  {
    var r := Redact(v, hint, decode);
    match v
    case Mapping(es) =>
      forall i | 0 <= i < |es| ensures Redact(r.entries[i].value, Some(es[i].key), decode) == r.entries[i].value {
        RedactIdempotent(es[i].value, Some(es[i].key), decode);
      }
      assert Redact(r, hint, decode).entries == r.entries;
    case Items(xs) =>
      forall i | 0 <= i < |xs| ensures Redact(r.items[i], hint, decode) == r.items[i] {
        RedactIdempotent(xs[i], hint, decode);
      }
      assert Redact(r, hint, decode).items == r.items;
    case _ =>
  }

  /** The shape of the logging test: beside a sensitive key, a key that is
      not sensitive keeps its text. */
  lemma RedactPair(k: string, a: string, o: string, b: string, hint: Option<string>, decode: seq<int> -> string)
    requires ShouldRedact(Some(k)) && !ShouldRedact(Some(o))
    ensures Redact(Mapping([Entry(k, Str(a)), Entry(o, Str(b))]), hint, decode)
      == Mapping([Entry(k, Str(Marker)), Entry(o, Str(b))])
  {
    var r := Redact(Mapping([Entry(k, Str(a)), Entry(o, Str(b))]), hint, decode);
    assert Redact(Str(a), Some(k), decode) == Str(Marker);
    assert Redact(Str(b), Some(o), decode) == Str(b);
    assert r.entries[0] == Entry(k, Str(Marker));
    assert r.entries[1] == Entry(o, Str(b));
    assert |r.entries| == 2;
    assert r.entries == [Entry(k, Str(Marker)), Entry(o, Str(b))];
  }
}

=== FILE: pipeline.dfy ===
/** The discovery pipeline of `ingest/pipeline.py`: a run fetches a feed,
    keeps the entries newer than the cursor, stores those not seen before and
    logs the run with the new cursor. The SQLite database is a value: the
    stored rows in insertion order, the run log, and the response cache. */
module Pipeline {
  import opened Basics
  import opened Json
  import opened CatalogSources
  import CatalogFeeds

  // ---------------------------------------------------------------- rows

  /** A row of `catalog_entries`. The epoch is the naive UTC reading whose
      `isoformat()` text the table holds, kept here as microseconds; the
      text order `MAX(epoch)` uses is taken to be the order of time. */
  datatype Row = Row(source: string, noradId: string, name: Option<string>, line1: string, line2: string, epoch: int)

  type Key = (string, string, string, string)

  /** The primary key `(source, norad_id, line1, line2)`. */
  function KeyOf(r: Row): Key {
    (r.source, r.noradId, r.line1, r.line2)
  }

  function KeyList(rows: seq<Row>): (ks: seq<Key>)
    ensures |ks| == |rows| && forall i :: 0 <= i < |rows| ==> ks[i] == KeyOf(rows[i])
  {
    seq(|rows|, i requires 0 <= i < |rows| => KeyOf(rows[i]))
  }

  function KeySet(rows: seq<Row>): set<Key> {
    set i | 0 <= i < |rows| :: KeyOf(rows[i])
  }

  lemma KeySetAppend(rows: seq<Row>, r: Row)
    ensures KeySet(rows + [r]) == KeySet(rows) + {KeyOf(r)}
  {
    var both := rows + [r];
    assert both[|rows|] == r;
    assert forall i :: 0 <= i < |rows| ==> both[i] == rows[i];
  }

  lemma KeySetGrows(rows: seq<Row>, more: seq<Row>)
    ensures KeySet(rows) <= KeySet(rows + more)
  {
    var both := rows + more;
    assert forall i :: 0 <= i < |rows| ==> both[i] == rows[i];
  }

  /** The row `_store_entries` inserts for an entry: its epoch with the
      zone dropped. */
  function RowOf(e: CatalogEntry): (r: Row)
    ensures KeyOf(r) == IdentityOf(e)
  {
    Row(e.source, e.noradId, e.name, e.line1, e.line2, e.epoch.wall)
  }

  function RowsOf(es: seq<CatalogEntry>): (rs: seq<Row>)
    ensures |rs| == |es| && forall k :: 0 <= k < |es| ==> rs[k] == RowOf(es[k])
  {
    seq(|es|, k requires 0 <= k < |es| => RowOf(es[k]))
  }

  function Identities(es: seq<CatalogEntry>): (ks: seq<Key>)
    ensures |ks| == |es| && forall k :: 0 <= k < |es| ==> ks[k] == IdentityOf(es[k])
  {
    seq(|es|, k requires 0 <= k < |es| => IdentityOf(es[k]))
  }

  // ------------------------------------------------------------- the runs

  /** A row of `runs`. `started_at` and `finished_at` are clock readings and
      are left out; `finished` says whether the row was sealed. */
  datatype RunRow = RunRow(source: string, since: Option<int>, offline: bool, usedCache: bool,
                           newEntries: nat, cursor: Option<int>, error: Option<CatalogError>, finished: bool)

  /** `_log_run_start`: nothing used from the cache, nothing new, no cursor yet. */
  function Start(source: string, since: Option<int>, offline: bool): (r: RunRow)
    ensures r.source == source && r.since == since && r.offline == offline
    ensures !r.usedCache && r.newEntries == 0 && r.cursor.None? && r.error.None? && !r.finished
  {
    RunRow(source, since, offline, false, 0, None, None, false)
  }

  /** `_log_run_finish`: seals the row with the cursor, the cache flag and
      the count; what the row was opened with stays. */
  function Finish(r: RunRow, cursor: Option<int>, usedCache: bool, count: nat): (f: RunRow)
    ensures f.source == r.source && f.since == r.since && f.offline == r.offline && f.error == r.error
    ensures f.cursor == cursor && f.usedCache == usedCache && f.newEntries == count && f.finished
  {
    r.(cursor := cursor, usedCache := usedCache, newEntries := count, finished := true)
  }

  /** `_log_run_error`: seals the row with the error and touches nothing
      else, so a failed run keeps the empty cursor it opened with. */
  function Fail(r: RunRow, e: CatalogError): (f: RunRow)
    ensures f.source == r.source && f.since == r.since && f.offline == r.offline
    ensures f.cursor == r.cursor && f.usedCache == r.usedCache && f.newEntries == r.newEntries
    ensures f.error == Some(e) && f.finished
  {
    r.(error := Some(e), finished := true)
  }

  /** `latest_cursor(source)`: the cursor of the most recent run of the
      source that has one. */
  function LatestCursor(runs: seq<RunRow>, source: string): (c: Option<int>)
    ensures c.None? <==> forall i :: 0 <= i < |runs| ==> !(runs[i].source == source && runs[i].cursor.Some?)
    ensures c.Some? ==> exists i :: (0 <= i < |runs| && runs[i].source == source && runs[i].cursor == c
      && forall j :: i < j < |runs| ==> !(runs[j].source == source && runs[j].cursor.Some?))
  {
    if runs == [] then None
    else
      var last := runs[|runs| - 1];
      if last.source == source && last.cursor.Some? then last.cursor
      else LatestCursor(runs[..|runs| - 1], source)
  }

  /** Logging a run: a run of this source with a cursor becomes the latest;
      any other run leaves the latest cursor where it was. */
  lemma LatestCursorAppend(runs: seq<RunRow>, r: RunRow, source: string)
    ensures LatestCursor(runs + [r], source)
         == if r.source == source && r.cursor.Some? then r.cursor else LatestCursor(runs, source)
  {
    assert (runs + [r])[..|runs|] == runs;
  }

  /** `_max_epoch(source)`: the latest epoch stored for the source. */
  function MaxEpoch(rows: seq<Row>, source: string): (m: Option<int>)
    ensures m.None? <==> forall i :: 0 <= i < |rows| ==> rows[i].source != source
    ensures m.Some? ==> exists i :: 0 <= i < |rows| && rows[i].source == source && rows[i].epoch == m.value
    ensures m.Some? ==> forall i :: 0 <= i < |rows| && rows[i].source == source ==> rows[i].epoch <= m.value
  {
    if rows == [] then None
    else
      var last := rows[|rows| - 1];
      var rest := MaxEpoch(rows[..|rows| - 1], source);
      assert forall i :: 0 <= i < |rows| - 1 ==> rows[..|rows| - 1][i] == rows[i];
      if last.source != source then rest
      else if rest.Some? && rest.value >= last.epoch then rest
      else Some(last.epoch)
  }

  /** Adding rows never lowers the maximum. */
  lemma {:induction false} MaxEpochGrows(rows: seq<Row>, more: seq<Row>, source: string)
    ensures MaxEpoch(rows, source).Some? ==>
      MaxEpoch(rows + more, source).Some? && MaxEpoch(rows, source).value <= MaxEpoch(rows + more, source).value
    decreases |more|
  {
    if more == [] {
      assert rows + more == rows;
    } else {
      var init := more[..|more| - 1];
      MaxEpochGrows(rows, init, source);
      assert rows + more == (rows + init) + [more[|more| - 1]];
      MaxEpochSnoc(rows + init, more[|more| - 1], source);
    }
  }

  /** Rows of other sources do not change the maximum. */
  lemma {:induction false} MaxEpochOthers(rows: seq<Row>, more: seq<Row>, source: string)
    requires forall k :: 0 <= k < |more| ==> more[k].source != source
    ensures MaxEpoch(rows + more, source) == MaxEpoch(rows, source)
    decreases |more|
  {
    if more == [] {
      assert rows + more == rows;
    } else {
      var init, last := more[..|more| - 1], more[|more| - 1];
      assert more == init + [last];
      assert rows + more == (rows + init) + [last];
      MaxEpochSkip(rows + init, last, source);
      assert forall k :: 0 <= k < |init| ==> init[k] == more[k];
      MaxEpochOthers(rows, init, source);
    }
  }

  lemma MaxEpochSkip(rows: seq<Row>, r: Row, source: string)
    requires r.source != source
    ensures MaxEpoch(rows + [r], source) == MaxEpoch(rows, source)
  {
    MaxEpochSnoc(rows, r, source);
  }

  /** One more row: it raises the maximum of its own source when it is later. */
  lemma MaxEpochSnoc(rows: seq<Row>, r: Row, source: string)
    ensures MaxEpoch(rows + [r], source) ==
      if r.source != source then MaxEpoch(rows, source)
      else if MaxEpoch(rows, source).Some? && MaxEpoch(rows, source).value >= r.epoch then MaxEpoch(rows, source)
      else Some(r.epoch)
  {
    assert (rows + [r])[..|rows|] == rows;
  }

  // ------------------------------------------------------------ filtering

  /** `_normalise`: a naive value is already UTC; an aware one is moved to
      UTC and made naive. */
  function Normalise(s: Stamp): (n: Stamp)
    ensures n.offset.None? && Utc(n) == Utc(s)
    ensures s.offset.None? ==> n == s
  {
    Stamp(Utc(s), None)
  }

  /** An entry passes the boundary when there is none or it is strictly later. */
  predicate After(e: CatalogEntry, boundary: Option<int>) {
    boundary.None? || Utc(e.epoch) > boundary.value
  }

  function Normalised(e: CatalogEntry): (n: CatalogEntry)
    ensures IdentityOf(n) == IdentityOf(e) && n.source == e.source
  {
    e.(epoch := Normalise(e.epoch))
  }

  /** The loop of `run` that keeps the entries after the boundary, each with
      its epoch normalised, in the order fetched. */
  function Filter(es: seq<CatalogEntry>, boundary: Option<int>): (r: seq<CatalogEntry>)
    ensures |r| <= |es|
    ensures boundary.None? ==> |r| == |es|
    ensures forall k :: 0 <= k < |r| ==> r[k].epoch.offset.None? && After(r[k], boundary)
  {
    if es == [] then [] else (if After(es[0], boundary) then [Normalised(es[0])] else []) + Filter(es[1..], boundary)
  }

  /** Every kept entry is a fetched entry after the boundary, normalised,
      and every fetched entry after the boundary is kept. */
  lemma FilterKeeps(es: seq<CatalogEntry>, boundary: Option<int>)
    ensures forall x :: x in Filter(es, boundary) <==>
      exists i :: 0 <= i < |es| && After(es[i], boundary) && x == Normalised(es[i])
  {
    forall x | x in Filter(es, boundary)
      ensures exists i :: 0 <= i < |es| && After(es[i], boundary) && x == Normalised(es[i])
    {
      var i := FilterSource(es, boundary, IndexOf(Filter(es, boundary), x));
    }
    forall i | 0 <= i < |es| && After(es[i], boundary) ensures Normalised(es[i]) in Filter(es, boundary) {
      FilterHas(es, boundary, i);
    }
  }

  /** The fetched entry the `k`-th kept entry comes from. */
  lemma {:induction false} FilterSource(es: seq<CatalogEntry>, boundary: Option<int>, k: nat) returns (i: nat)
    requires k < |Filter(es, boundary)|
    ensures i < |es| && After(es[i], boundary) && Filter(es, boundary)[k] == Normalised(es[i])
    decreases |es|
  {
    var rest := Filter(es[1..], boundary);
    if After(es[0], boundary) {
      assert Filter(es, boundary) == [Normalised(es[0])] + rest;
      if k == 0 {
        i := 0;
      } else {
        var j := FilterSource(es[1..], boundary, k - 1);
        i := j + 1;
        assert es[i] == es[1..][j];
      }
    } else {
      assert Filter(es, boundary) == rest;
      var j := FilterSource(es[1..], boundary, k);
      i := j + 1;
      assert es[i] == es[1..][j];
    }
  }

  /** A fetched entry after the boundary is kept. */
  lemma {:induction false} FilterHas(es: seq<CatalogEntry>, boundary: Option<int>, i: nat)
    requires i < |es| && After(es[i], boundary)
    ensures Normalised(es[i]) in Filter(es, boundary)
    decreases i
  {
    var rest := Filter(es[1..], boundary);
    var head := if After(es[0], boundary) then [Normalised(es[0])] else [];
    assert Filter(es, boundary) == head + rest;
    if i > 0 {
      assert es[1..][i - 1] == es[i];
      FilterHas(es[1..], boundary, i - 1);
      assert Normalised(es[i]) in head + rest;
    }
  }

  /** Without a boundary every fetched entry is kept, normalised. */
  lemma {:induction false} FilterAll(es: seq<CatalogEntry>)
    ensures Filter(es, None) == seq(|es|, k requires 0 <= k < |es| => Normalised(es[k]))
  {
    if es != [] {
      FilterAll(es[1..]);
    }
  }

  // -------------------------------------------------------------- storing

  /** `_store_entries`: `INSERT OR IGNORE` of each entry in turn; the
      entries actually inserted are returned, in order. Yields the rows
      afterwards and the inserted entries. */
  function StoreEntries(rows: seq<Row>, es: seq<CatalogEntry>): (r: (seq<Row>, seq<CatalogEntry>))
    ensures r.0 == rows + RowsOf(r.1)
    ensures forall k :: 0 <= k < |r.1| ==> r.1[k] in es && IdentityOf(r.1[k]) !in KeySet(rows)
    ensures NoDuplicates(Identities(r.1))
    ensures forall i :: 0 <= i < |es| ==> IdentityOf(es[i]) in KeySet(r.0)
    decreases |es|
  {
    if es == [] then (rows, [])
    else
      var e := es[0];
      assert forall i :: 1 <= i < |es| ==> es[i] == es[1..][i - 1];
      if IdentityOf(e) in KeySet(rows) then
        var r := StoreEntries(rows, es[1..]);
        KeySetGrows(rows, RowsOf(r.1));
        r
      else
        var grown := rows + [RowOf(e)];
        KeySetAppend(rows, RowOf(e));
        var (after, inserted) := StoreEntries(grown, es[1..]);
        KeySetGrows(grown, RowsOf(inserted));
        StoreStep(rows, e, after, inserted);
        (after, [e] + inserted)
  }

  lemma StoreStep(rows: seq<Row>, e: CatalogEntry, after: seq<Row>, inserted: seq<CatalogEntry>)
    requires after == rows + [RowOf(e)] + RowsOf(inserted)
    requires NoDuplicates(Identities(inserted))
    requires forall k :: 0 <= k < |inserted| ==> IdentityOf(inserted[k]) !in KeySet(rows + [RowOf(e)])
    ensures after == rows + RowsOf([e] + inserted)
    ensures NoDuplicates(Identities([e] + inserted))
  {
    KeySetAppend(rows, RowOf(e));
    assert RowsOf([e] + inserted) == [RowOf(e)] + RowsOf(inserted);
    var ids := Identities([e] + inserted);
    assert ids == [IdentityOf(e)] + Identities(inserted);
  }

  /** The identities inserted are exactly the fetched identities not stored
      before, each at its first occurrence: `_store_entries` is the
      de-duplication of the batch against the table. */
  lemma {:induction false} StoreIsDedup(rows: seq<Row>, es: seq<CatalogEntry>)
    ensures Identities(StoreEntries(rows, es).1) == DedupAfter(Identities(es), KeySet(rows))
    decreases |es|
  {
    if es != [] {
      var e := es[0];
      var ids := Identities(es);
      assert ids[0] == IdentityOf(e) && ids[1..] == Identities(es[1..]);
      if IdentityOf(e) in KeySet(rows) {
        StoreIsDedup(rows, es[1..]);
        assert StoreEntries(rows, es).1 == StoreEntries(rows, es[1..]).1;
      } else {
        KeySetAppend(rows, RowOf(e));
        StoreIsDedup(rows + [RowOf(e)], es[1..]);
        StoreInsertStep(rows, es);
      }
    }
  }

  /** One inserted entry: the identities inserted are its own, then those the
      rest of the batch inserts on the grown table. */
  lemma StoreInsertStep(rows: seq<Row>, es: seq<CatalogEntry>)
    requires es != [] && IdentityOf(es[0]) !in KeySet(rows)
    ensures Identities(StoreEntries(rows, es).1)
         == [IdentityOf(es[0])] + Identities(StoreEntries(rows + [RowOf(es[0])], es[1..]).1)
  {
    var inserted := StoreEntries(rows + [RowOf(es[0])], es[1..]).1;
    assert StoreEntries(rows, es).1 == [es[0]] + inserted;
    IdentitiesCons(es[0], inserted);
  }

  lemma IdentitiesCons(e: CatalogEntry, es: seq<CatalogEntry>)
    ensures Identities([e] + es) == [IdentityOf(e)] + Identities(es)
  {
  }

  /** Storing entries that are all stored already changes nothing: a second
      `_store_entries` of the same batch inserts nothing. */
  lemma {:induction false} StoreStored(rows: seq<Row>, es: seq<CatalogEntry>)
    requires forall i :: 0 <= i < |es| ==> IdentityOf(es[i]) in KeySet(rows)
    ensures StoreEntries(rows, es) == (rows, [])
    decreases |es|
  {
    if es != [] {
      assert forall i :: 1 <= i < |es| ==> es[i] == es[1..][i - 1];
      StoreStored(rows, es[1..]);
    }
  }

  lemma StoreTwice(rows: seq<Row>, es: seq<CatalogEntry>)
    ensures var after := StoreEntries(rows, es).0; StoreEntries(after, es) == (after, [])
  {
    StoreStored(StoreEntries(rows, es).0, es);
  }

  /** The primary key stays a key: a table without repeated keys keeps
      none after storing. */
  lemma StoreKeepsKeys(rows: seq<Row>, es: seq<CatalogEntry>)
    requires NoDuplicates(KeyList(rows))
    ensures NoDuplicates(KeyList(StoreEntries(rows, es).0))
  {
    AppendFresh(rows, StoreEntries(rows, es).1);
  }

  /** Appending entries with distinct keys, none already present, keeps the
      key unique. */
  lemma AppendFresh(rows: seq<Row>, es: seq<CatalogEntry>)
    requires NoDuplicates(KeyList(rows)) && NoDuplicates(Identities(es))
    requires forall k :: 0 <= k < |es| ==> IdentityOf(es[k]) !in KeySet(rows)
    ensures NoDuplicates(KeyList(rows + RowsOf(es)))
  {
    var after := rows + RowsOf(es);
    var ks := KeyList(after);
    forall i, j | 0 <= i < j < |ks| ensures ks[i] != ks[j] {
      if j >= |rows| {
        assert after[j] == RowOf(es[j - |rows|]);
        assert ks[j] == IdentityOf(es[j - |rows|]);
        if i < |rows| {
          assert after[i] == rows[i];
          assert ks[i] in KeySet(rows);
        } else {
          assert after[i] == RowOf(es[i - |rows|]);
          assert Identities(es)[i - |rows|] == ks[i];
          assert Identities(es)[j - |rows|] == ks[j];
        }
      } else {
        assert after[i] == rows[i] && after[j] == rows[j];
        assert KeyList(rows)[i] == ks[i] && KeyList(rows)[j] == ks[j];
      }
    }
  }

  // ----------------------------------------------------------------- runs

  /** The pipeline's database: stored rows, the run log (run `k + 1` is
      `runs[k]`, as `AUTOINCREMENT` numbers them) and the response cache. */
  datatype Db = Db(rows: seq<Row>, runs: seq<RunRow>, cache: ResponseCache)

  /** `RunResult`: the run's number, the entries it inserted, whether the
      body came from the cache, the cursor it recorded and the boundary it
      used. */
  datatype RunResult = RunResult(runId: nat, source: string, entries: seq<CatalogEntry>, usedCache: bool,
                                 cursor: Option<int>, effectiveSince: Option<int>)

  /** The `KeyError` of an unregistered source, raised before anything is
      written, and any failure of the fetch, re-raised after it is logged
      under the run's number. */
  datatype RunError = UnknownSource(source: string) | RunFailed(runId: nat, error: CatalogError)

  /** `since or latest_cursor(source)`, normalised. */
  function EffectiveSince(db: Db, source: string, since: Option<Stamp>): (r: Option<int>)
    ensures since.Some? ==> r.Some?
    ensures since.None? && (forall i :: 0 <= i < |db.runs| ==> db.runs[i].source != source) ==> r.None?
    ensures since.None? && r.Some? ==> exists i :: 0 <= i < |db.runs| && db.runs[i].source == source && db.runs[i].cursor == r
  {
    if since.Some? then Some(Utc(since.value)) else LatestCursor(db.runs, source)
  }

  /** What happens once the fetch is done: on success the kept entries are
      stored and the run row sealed with the new cursor, on failure the row
      is sealed with the error and no row is stored. */
  function Settle(db: Db, source: string, boundary: Option<int>, offline: bool,
                  fetched: Result<CatalogFeeds.Fetched, CatalogError>, cache: ResponseCache)
    : (r: (Result<RunResult, RunError>, Db))
    ensures r.1.cache == cache
    ensures |r.1.runs| == |db.runs| + 1 && r.1.runs[..|db.runs|] == db.runs
    ensures var row := r.1.runs[|db.runs|];
      row.source == source && row.since == boundary && row.offline == offline && row.finished
    ensures fetched.Err? ==> (r.0 == Err(RunFailed(|db.runs| + 1, fetched.error)) && r.1.rows == db.rows
      && r.1.runs[|db.runs|].cursor.None? && r.1.runs[|db.runs|].error == Some(fetched.error))
    ensures fetched.Ok? ==> (r.0.Ok? && r.0.value.runId == |db.runs| + 1 && r.0.value.effectiveSince == boundary
      && r.0.value.usedCache == fetched.value.usedCache
      && r.1.rows == db.rows + RowsOf(r.0.value.entries)
      && r.0.value.cursor == MaxEpoch(r.1.rows, source)
      && r.1.runs[|db.runs|].cursor == r.0.value.cursor
      && r.1.runs[|db.runs|].newEntries == |r.0.value.entries|
      && r.1.runs[|db.runs|].error.None?)
  {
    var start := Start(source, boundary, offline);
    match fetched
    case Err(e) =>
      (Err(RunFailed(|db.runs| + 1, e)), Db(db.rows, db.runs + [Fail(start, e)], cache))
    case Ok(f) =>
      var (rows, inserted) := StoreEntries(db.rows, Filter(f.entries, boundary));
      var cursor := MaxEpoch(rows, source);
      (Ok(RunResult(|db.runs| + 1, source, inserted, f.usedCache, cursor, boundary)),
       Db(rows, db.runs + [Finish(start, cursor, f.usedCache, |inserted|)], cache))
  }

  /** The `isoformat()` text of the boundary, which keys the cached response. */
  function SinceText(boundary: Option<int>, isoformat: int -> string): Option<string> {
    if boundary.Some? then Some(isoformat(boundary.value)) else None
  }

  /** `DiscoveryPipeline.run(source, since=..., offline=..., loader=...)`.
      The loader, `datetime.fromisoformat` (for the Ivan feed's timestamps)
      and `isoformat()` of a naive UTC reading are parameters. An unknown
      source changes nothing; otherwise exactly one run row is logged. A
      failed run stores no row and keeps the cache; a successful one returns
      the entries it inserted, all of the source, strictly after the
      boundary and new to the table, and records the table's latest epoch
      as its cursor. */
  function Run(db: Db, source: string, since: Option<Stamp>, offline: bool,
               loader: string -> Result<Payload, string>, iso: string -> Option<Stamp>, isoformat: int -> string)
    : (r: (Result<RunResult, RunError>, Db))
    ensures source !in CatalogFeeds.Registry ==> r == (Err(UnknownSource(source)), db)
    ensures source in CatalogFeeds.Registry ==>
      |r.1.runs| == |db.runs| + 1 && r.1.runs[..|db.runs|] == db.runs
      && r.1.runs[|db.runs|].source == source && r.1.runs[|db.runs|].since == EffectiveSince(db, source, since)
      && r.1.runs[|db.runs|].offline == offline && r.1.runs[|db.runs|].finished
    ensures offline ==> r.1.cache == db.cache
    ensures source in CatalogFeeds.Registry && r.0.Err? ==>
      r.0.error.RunFailed? && r.0.error.runId == |db.runs| + 1 && r.1.rows == db.rows && r.1.cache == db.cache
      && r.1.runs[|db.runs|].cursor.None? && r.1.runs[|db.runs|].error == Some(r.0.error.error)
    ensures r.0.Ok? ==>
      var res := r.0.value;
      && res.runId == |db.runs| + 1 && res.usedCache == offline
      && res.effectiveSince == EffectiveSince(db, source, since)
      && r.1.rows == db.rows + RowsOf(res.entries)
      && res.cursor == MaxEpoch(r.1.rows, source) && r.1.runs[|db.runs|].cursor == res.cursor
      && r.1.runs[|db.runs|].newEntries == |res.entries|
      && NoDuplicates(Identities(res.entries))
      && forall k :: 0 <= k < |res.entries| ==>
           res.entries[k].source == source && After(res.entries[k], res.effectiveSince)
           && IdentityOf(res.entries[k]) !in KeySet(db.rows)
  {
    if source !in CatalogFeeds.Registry then (Err(UnknownSource(source)), db)
    else
      var boundary := EffectiveSince(db, source, since);
      var f := CatalogFeeds.Registry[source];
      CatalogFeeds.RegistryNames(source);
      var (fetched, cache) := CatalogFeeds.FetchFeed(f, SinceText(boundary, isoformat), offline, db.cache, loader, iso);
      if fetched.Ok? then
        FilterKeeps(fetched.value.entries, boundary);
        Settle(db, source, boundary, offline, fetched, cache)
      else Settle(db, source, boundary, offline, fetched, cache)
  }

  /** A known source's run is its feed's fetch, settled. */
  lemma RunIsSettle(db: Db, source: string, since: Option<Stamp>, offline: bool,
                    loader: string -> Result<Payload, string>, iso: string -> Option<Stamp>, isoformat: int -> string)
    requires source in CatalogFeeds.Registry
    ensures var boundary := EffectiveSince(db, source, since);
      var fetch := CatalogFeeds.FetchFeed(CatalogFeeds.Registry[source], SinceText(boundary, isoformat), offline, db.cache, loader, iso);
      Run(db, source, since, offline, loader, iso, isoformat) == Settle(db, source, boundary, offline, fetch.0, fetch.1)
  {
  }

  /** A settled fetch stores the kept entries and returns those inserted. */
  lemma SettleStores(db: Db, source: string, boundary: Option<int>, offline: bool,
                     fetched: Result<CatalogFeeds.Fetched, CatalogError>, cache: ResponseCache)
    requires fetched.Ok?
    ensures var stored := StoreEntries(db.rows, Filter(fetched.value.entries, boundary));
      var r := Settle(db, source, boundary, offline, fetched, cache);
      r.1.rows == stored.0 && r.0.value.entries == stored.1
  {
  }

  // ----------------------------------------------------------- invariants

  /** What holds between runs: the primary key is a key, and for every
      source the latest logged cursor is the latest stored epoch. */
  ghost predicate Inv(db: Db) {
    NoDuplicates(KeyList(db.rows)) && forall s :: LatestCursor(db.runs, s) == MaxEpoch(db.rows, s)
  }

  /** Every run, whatever its outcome, keeps the invariant. */
  lemma RunKeepsInv(db: Db, source: string, since: Option<Stamp>, offline: bool,
                    loader: string -> Result<Payload, string>, iso: string -> Option<Stamp>, isoformat: int -> string)
    requires Inv(db)
    ensures Inv(Run(db, source, since, offline, loader, iso, isoformat).1)
  {
    var r := Run(db, source, since, offline, loader, iso, isoformat);
    if source in CatalogFeeds.Registry {
      var row := r.1.runs[|db.runs|];
      assert r.1.runs == db.runs + [row];
      if r.0.Err? {
        FailedRunKeepsInv(db, r.1, row);
      } else {
        StoredRunKeepsInv(db, r.1, row, source, r.0.value.entries);
      }
    }
  }

  /** A failed run logs a row without a cursor and stores nothing. */
  lemma FailedRunKeepsInv(db: Db, after: Db, row: RunRow)
    requires Inv(db)
    requires after.runs == db.runs + [row] && row.cursor.None? && after.rows == db.rows
    ensures Inv(after)
  {
    forall s ensures LatestCursor(after.runs, s) == MaxEpoch(after.rows, s) {
      LatestCursorAppend(db.runs, row, s);
    }
  }

  /** A successful run of a source appends fresh rows of that source and
      logs the source's new latest epoch as its cursor. */
  lemma StoredRunKeepsInv(db: Db, after: Db, row: RunRow, source: string, es: seq<CatalogEntry>)
    requires Inv(db)
    requires after.runs == db.runs + [row] && row.source == source
    requires after.rows == db.rows + RowsOf(es) && row.cursor == MaxEpoch(after.rows, source)
    requires NoDuplicates(Identities(es))
    requires forall k :: 0 <= k < |es| ==> es[k].source == source && IdentityOf(es[k]) !in KeySet(db.rows)
    ensures Inv(after)
  {
    AppendFresh(db.rows, es);
    forall s ensures LatestCursor(after.runs, s) == MaxEpoch(after.rows, s) {
      LatestCursorAppend(db.runs, row, s);
      if s != source {
        assert forall k :: 0 <= k < |RowsOf(es)| ==> RowsOf(es)[k].source != s;
        MaxEpochOthers(db.rows, RowsOf(es), s);
      } else {
        MaxEpochGrows(db.rows, RowsOf(es), s);
      }
    }
  }

  /** A run keeps every entry the boundary lets through, so a later boundary
      keeps a part of what an earlier one kept. */
  lemma FilterLater(es: seq<CatalogEntry>, early: Option<int>, late: Option<int>)
    requires early.None? || (late.Some? && early.value <= late.value)
    ensures forall x :: x in Filter(es, late) ==> x in Filter(es, early)
  {
    FilterKeeps(es, late);
    FilterKeeps(es, early);
    forall x | x in Filter(es, late) ensures x in Filter(es, early) {
      var i :| 0 <= i < |es| && After(es[i], late) && x == Normalised(es[i]);
      assert After(es[i], early);
    }
  }

  /** Running a source again online with the same downloader stores
      nothing new: either both runs use the same explicit date, or the
      second starts from the cursor the first recorded, which is no earlier
      than where the first started. */
  lemma RerunAddsNothing(db: Db, source: string, since: Option<Stamp>,
                         loader: string -> Result<Payload, string>, iso: string -> Option<Stamp>, isoformat: int -> string)
    requires Inv(db)
    requires Run(db, source, since, false, loader, iso, isoformat).0.Ok?
    ensures var first := Run(db, source, since, false, loader, iso, isoformat);
      var second := Run(first.1, source, since, false, loader, iso, isoformat);
      second.0.Ok? && second.0.value.entries == [] && second.1.rows == first.1.rows
  {
    var first := Run(db, source, since, false, loader, iso, isoformat);
    var db1 := first.1;
    var f := CatalogFeeds.Registry[source];
    var b1, b2 := EffectiveSince(db, source, since), EffectiveSince(db1, source, since);
    var fetch1 := CatalogFeeds.FetchFeed(f, SinceText(b1, isoformat), false, db.cache, loader, iso);
    var fetch2 := CatalogFeeds.FetchFeed(f, SinceText(b2, isoformat), false, db1.cache, loader, iso);
    CatalogFeeds.OnlineIgnoresCache(f, SinceText(b1, isoformat), SinceText(b2, isoformat), db.cache, db1.cache, loader, iso);
    RunIsSettle(db, source, since, false, loader, iso, isoformat);
    RunIsSettle(db1, source, since, false, loader, iso, isoformat);
    var es := fetch1.0.value.entries;
    SettleStores(db, source, b1, false, fetch1.0, fetch1.1);
    SettleStores(db1, source, b2, false, fetch2.0, fetch2.1);
    RunKeepsInv(db, source, since, false, loader, iso, isoformat);
    Later(db, db1, source, since, first.0.value.entries);
    FilterLater(es, b1, b2);
    StoreSubsetAgain(db.rows, Filter(es, b1), Filter(es, b2));
  }

  /** Storing again a batch drawn from one already stored inserts nothing. */
  lemma StoreSubsetAgain(rows: seq<Row>, first: seq<CatalogEntry>, second: seq<CatalogEntry>)
    requires forall x :: x in second ==> x in first
    ensures var after := StoreEntries(rows, first).0; StoreEntries(after, second) == (after, [])
  {
    var after := StoreEntries(rows, first).0;
    forall k | 0 <= k < |second| ensures IdentityOf(second[k]) in KeySet(after) {
      var j := IndexOf(first, second[k]);
      assert IdentityOf(first[j]) in KeySet(after);
    }
    StoreStored(after, second);
  }

  /** The boundary of a later run is no earlier: an explicit date stays
      the same, and a cursor, being the latest stored epoch, only grows. */
  lemma Later(db: Db, db1: Db, source: string, since: Option<Stamp>, es: seq<CatalogEntry>)
    requires Inv(db) && Inv(db1) && db1.rows == db.rows + RowsOf(es)
    ensures var b1, b2 := EffectiveSince(db, source, since), EffectiveSince(db1, source, since);
      b1.None? || (b2.Some? && b1.value <= b2.value)
  {
    MaxEpochGrows(db.rows, RowsOf(es), source);
  }

  /** After an online run that found nothing new, an offline run with no
      explicit date, whatever its downloader, starts from the same cursor,
      finds the response that run stored, and again stores nothing. */
  lemma OfflineReplaysQuietRun(db: Db, source: string, loader: string -> Result<Payload, string>,
                               other: string -> Result<Payload, string>,
                               iso: string -> Option<Stamp>, isoformat: int -> string)
    requires Inv(db)
    requires var first := Run(db, source, None, false, loader, iso, isoformat);
      first.0.Ok? && first.0.value.entries == []
    ensures var first := Run(db, source, None, false, loader, iso, isoformat);
      var again := Run(first.1, source, None, true, other, iso, isoformat);
      again.0.Ok? && again.0.value.usedCache && again.0.value.entries == [] && again.1.rows == first.1.rows
  {
    var first := Run(db, source, None, false, loader, iso, isoformat);
    var db1 := first.1;
    var f := CatalogFeeds.Registry[source];
    assert db1.rows == db.rows;
    RunKeepsInv(db, source, None, false, loader, iso, isoformat);
    var b := EffectiveSince(db, source, None);
    assert EffectiveSince(db1, source, None) == b;
    var fetch1 := CatalogFeeds.FetchFeed(f, SinceText(b, isoformat), false, db.cache, loader, iso);
    RunIsSettle(db, source, None, false, loader, iso, isoformat);
    RunIsSettle(db1, source, None, true, other, iso, isoformat);
    CatalogFeeds.FeedReplaysOnline(f, SinceText(b, isoformat), db.cache, loader, other, iso);
    var fetch2 := CatalogFeeds.FetchFeed(f, SinceText(b, isoformat), true, db1.cache, other, iso);
    assert fetch2.0 == Ok(CatalogFeeds.Fetched(fetch1.0.value.entries, true));
    SettleStores(db, source, b, false, fetch1.0, fetch1.1);
    SettleStores(db1, source, b, true, fetch2.0, fetch2.1);
  }

  /** A fresh database satisfies the invariant. */
  lemma FreshInv()
    ensures Inv(Db([], [], map[]))
  {
  }

  /** The life of a feed from a fresh database or any database the
      pipeline has run on: a second online run adds nothing, and an
      offline run after it replays the stored response and adds nothing. */
  lemma OnlineTwiceThenOffline(db: Db, source: string, loader: string -> Result<Payload, string>,
                               other: string -> Result<Payload, string>,
                               iso: string -> Option<Stamp>, isoformat: int -> string)
    requires Inv(db)
    requires Run(db, source, None, false, loader, iso, isoformat).0.Ok?
    ensures var first := Run(db, source, None, false, loader, iso, isoformat);
      var second := Run(first.1, source, None, false, loader, iso, isoformat);
      var third := Run(second.1, source, None, true, other, iso, isoformat);
      && second.0.Ok? && second.0.value.entries == [] && !second.0.value.usedCache
      && third.0.Ok? && third.0.value.entries == [] && third.0.value.usedCache
  {
    var first := Run(db, source, None, false, loader, iso, isoformat);
    RerunAddsNothing(db, source, None, loader, iso, isoformat);
    RunKeepsInv(db, source, None, false, loader, iso, isoformat);
    OfflineReplaysQuietRun(first.1, source, loader, other, iso, isoformat);
  }
}

=== FILE: py_format.dfy ===
/** Python's `str.format` with keyword values only, as the output-path
    pattern of `tle_fetcher/cli.py` and the URL templates of
    `fetch/sources.py` use it: `{{` and `}}` stand for braces and `{name}`
    is replaced by the value called `name`. */
module PyFormat {
  import opened Basics
  import opened Text

  /** A piece of a template: one literal character or a replacement field
      with its name. */
  datatype Piece = Literal(c: char) | Field(name: string)

  /** The template grammar: a lone `}`, an unclosed `{` and a `{` inside a
      field name are errors (`ValueError`). */
  function ParseTemplate(p: string): (r: Option<seq<Piece>>)
    decreases |p|
  {
    if p == [] then Some([])
    else if p[0] == '{' then
      if |p| > 1 && p[1] == '{' then Prepend(Literal('{'), ParseTemplate(p[2..]))
      else
        var k := IndexOfChar(p[1..], '}');
        if k == |p| - 1 then None
        else
          var name := p[1..k + 1];
          if '{' in name then None else Prepend(Field(name), ParseTemplate(p[k + 2..]))
    else if p[0] == '}' then
      if |p| > 1 && p[1] == '}' then Prepend(Literal('}'), ParseTemplate(p[2..])) else None
    else Prepend(Literal(p[0]), ParseTemplate(p[1..]))
  }

  function Prepend(x: Piece, rest: Option<seq<Piece>>): Option<seq<Piece>> {
    match rest
    case None => None
    case Some(xs) => Some([x] + xs)
  }

  /** The template text of a list of pieces, braces doubled. */
  function Unparse(pieces: seq<Piece>): string {
    if pieces == [] then []
    else
      var head := match pieces[0]
        case Literal(c) => if c == '{' || c == '}' then [c, c] else [c]
        case Field(name) => "{" + name + "}";
      head + Unparse(pieces[1..])
  }

  predicate FieldNameOk(name: string) {
    '{' !in name && '}' !in name
  }

  predicate NamesOk(pieces: seq<Piece>) {
    forall k :: 0 <= k < |pieces| ==> pieces[k].Field? ==> FieldNameOk(pieces[k].name)
  }

  /** Every field of the template names one of `names`. */
  predicate NamesIn(pieces: seq<Piece>, names: set<string>) {
    forall k :: 0 <= k < |pieces| ==> pieces[k].Field? ==> pieces[k].name in names
  }

  /** Every template with brace-free field names reads back as written. */
  lemma {:induction false} ParseUnparse(pieces: seq<Piece>)
    requires NamesOk(pieces)
    ensures ParseTemplate(Unparse(pieces)) == Some(pieces)
  {
    if pieces != [] {
      var rest := Unparse(pieces[1..]);
      assert NamesOk(pieces[1..]) by {
        forall k | 0 <= k < |pieces[1..]| && pieces[1..][k].Field?
          ensures FieldNameOk(pieces[1..][k].name)
        {
          assert pieces[1..][k] == pieces[k + 1];
        }
      }
      ParseUnparse(pieces[1..]);
      match pieces[0]
      case Literal(c) =>
        if c == '{' || c == '}' {
          assert Unparse(pieces) == [c, c] + rest;
          assert ([c, c] + rest)[2..] == rest;
        } else {
          assert Unparse(pieces) == [c] + rest;
          assert ([c] + rest)[1..] == rest;
        }
      case Field(name) =>
        var p := "{" + name + "}" + rest;
        assert Unparse(pieces) == p;
        assert FieldNameOk(name);
        FieldEnd(name, rest);
        assert p[|name| + 2..] == rest;
    }
    assert pieces == [] || pieces == [pieces[0]] + pieces[1..];
  }

  lemma FieldEnd(name: string, rest: string)
    requires FieldNameOk(name)
    ensures var p := "{" + name + "}" + rest;
            IndexOfChar(p[1..], '}') == |name| && p[1..|name| + 1] == name && p[0] == '{'
  {
    var p := "{" + name + "}" + rest;
    assert p[1..] == name + "}" + rest;
    assert forall i :: 0 <= i < |name| ==> p[1..][i] == name[i];
    assert p[1..][|name|] == '}';
  }

  /** The filled-in template: every field replaced by its value, `None`
      when a field names no value (Python's `KeyError`, or `IndexError` for
      an empty or numbered field). */
  function Substitute(pieces: seq<Piece>, values: map<string, string>): (r: Option<string>)
    ensures r.Some? <==> NamesIn(pieces, values.Keys)
  {
    if pieces == [] then Some([])
    else
      var head: Option<string> := match pieces[0]
        case Literal(c) => Some([c])
        case Field(name) => if name in values then Some(values[name]) else None;
      var tail := Substitute(pieces[1..], values);
      assert forall k :: 1 <= k < |pieces| ==> pieces[1..][k - 1] == pieces[k];
      if head.None? || tail.None? then None else Some(head.value + tail.value)
  }

  /** `template.format(**values)`; `None` for any error. */
  function Format(template: string, values: map<string, string>): (r: Option<string>)
    ensures ParseTemplate(template).None? ==> r.None?
    ensures ParseTemplate(template).Some? ==> (r.Some? <==> NamesIn(ParseTemplate(template).value, values.Keys))
  {
    match ParseTemplate(template)
    case None => None
    case Some(pieces) => Substitute(pieces, values)
  }

  /** The text of a template with every field's value in its place. */
  function Fill(pieces: seq<Piece>, values: map<string, string>): string
    requires NamesIn(pieces, values.Keys)
  {
    if pieces == [] then []
    else
      assert forall k :: 1 <= k < |pieces| ==> pieces[1..][k - 1] == pieces[k];
      var head := match pieces[0]
        case Literal(c) => [c]
        case Field(name) => values[name];
      head + Fill(pieces[1..], values)
  }

  /** Formatting a template written out from its pieces fills each field
      with its value. */
  lemma FormatOfTemplate(pieces: seq<Piece>, values: map<string, string>)
    requires NamesOk(pieces) && NamesIn(pieces, values.Keys)
    ensures Format(Unparse(pieces), values) == Some(Fill(pieces, values))
  {
    ParseUnparse(pieces);
    SubstituteIsFill(pieces, values);
  }

  lemma {:induction false} SubstituteIsFill(pieces: seq<Piece>, values: map<string, string>)
    requires NamesIn(pieces, values.Keys)
    ensures Substitute(pieces, values) == Some(Fill(pieces, values))
  {
    if pieces != [] {
      assert forall k :: 0 <= k < |pieces[1..]| ==> pieces[1..][k] == pieces[k + 1];
      SubstituteIsFill(pieces[1..], values);
    }
  }

  /** The pieces of a brace-free text: its characters. */
  function PlainPieces(s: string): (r: seq<Piece>)
    ensures |r| == |s| && forall i :: 0 <= i < |s| ==> r[i] == Literal(s[i])
  {
    if s == [] then [] else [Literal(s[0])] + PlainPieces(s[1..])
  }

  /** A text without braces formats to itself, whatever the values. */
  lemma PlainFormat(s: string, values: map<string, string>)
    requires '{' !in s && '}' !in s
    ensures Format(s, values) == Some(s)
  {
    PlainUnparse(s);
    PlainFill(s, values);
    FormatOfTemplate(PlainPieces(s), values);
  }

  lemma {:induction false} PlainUnparse(s: string)
    requires '{' !in s && '}' !in s
    ensures Unparse(PlainPieces(s)) == s
  {
    if s != [] {
      PlainUnparse(s[1..]);
      assert s == [s[0]] + s[1..];
    }
  }

  lemma {:induction false} PlainFill(s: string, values: map<string, string>)
    ensures Fill(PlainPieces(s), values) == s
  {
    if s != [] {
      PlainFill(s[1..], values);
      assert s == [s[0]] + s[1..];
    }
  }
}

=== FILE: python_impl.dfy ===
/** `tle_fetcher/core/python_impl.py`, the pure-Python core behind
    `tle_fetcher.core.parse`. It finds the line pair as `tle_fetcher/tle.py`
    does, but refuses empty JSON lines, checks the requested identifier
    against the catalog field, fills in a missing identifier and source, and
    does not refuse a payload with no non-blank line outright (the JSON
    fallback then finds nothing). */
module PythonImpl {
  import opened Basics
  import opened Text
  import opened Json
  import opened TleTypes
  import TleText

  /** `_ensure_source`: an empty source name becomes `unknown`. */
  function EnsureSource(source: string): (r: string)
    ensures r != []
    ensures source != [] ==> r == source
  {
    if source == [] then "unknown" else source
  }

  /** A source name once filled in stays as it is. */
  lemma EnsureSourceIdempotent(source: string)
    ensures EnsureSource(EnsureSource(source)) == EnsureSource(source)
  {
  }

  /** `cat1.replace(" ", "")`. */
  function CatDigits(cat1: string): (r: string)
    ensures ' ' !in r
  {
    RemoveWhere(cat1, c => c == ' ')
  }

  /** The identity check: a requested identifier of digits and a catalog
      field of digits (once spaces are removed) name different numbers.
      Leading zeros do not matter and a catalog field with letters — an
      Alpha-5 number — is never compared. */
  predicate IdentityClash(noradId: string, cat1: string) {
    IsDigits(noradId) && IsDigits(CatDigits(cat1)) && DecimalValue(CatDigits(cat1)) != DecimalValue(noradId)
  }

  /** `norad_id or cat1.strip()`. */
  function ResolvedId(noradId: string, cat1: string): (r: string)
    ensures noradId != [] ==> r == noradId
    ensures noradId == [] ==> r == Strip(cat1)
  {
    if noradId != [] then noradId else Strip(cat1)
  }

  /** The checks after the pair is located, in the order `parse` makes them. */
  function Validate(pair: TleText.Pair, noradId: string, source: string): (r: Result<Tle, ParseError>)
    ensures r == Err(EmptyLine) <==> pair.line1 == [] || pair.line2 == []
    ensures r.Ok? <==>
      pair.line1 != [] && pair.line2 != [] && TleText.WellFormedLines(Python, pair.line1, pair.line2) &&
      !IdentityClash(noradId, TleText.Catnum(Python, pair.line1))
    ensures r.Ok? ==> r.value == Tle(ResolvedId(noradId, TleText.Catnum(Python, pair.line1)), pair.name, pair.line1, pair.line2, EnsureSource(source))
    ensures r == Err(IdentityMismatch) <==>
      pair.line1 != [] && pair.line2 != [] && TleText.WellFormedLines(Python, pair.line1, pair.line2) &&
      IdentityClash(noradId, TleText.Catnum(Python, pair.line1))
  {
    if pair.line1 == [] || pair.line2 == [] then Err(EmptyLine)
    else
      match TleText.FirstDefect(Python, pair.line1, pair.line2)
      case Some(e) => Err(e)
      case None =>
        var cat1 := TleText.Catnum(Python, pair.line1);
        if IdentityClash(noradId, cat1) then Err(IdentityMismatch)
        else Ok(Tle(ResolvedId(noradId, cat1), pair.name, pair.line1, pair.line2, EnsureSource(source)))
  }

  /** `parse(text, norad_id=..., source=...)`. */
  function Parse(payload: Payload, noradId: string, source: string): (r: Result<Tle, ParseError>)
    ensures r.Ok? ==> TleText.WellFormedLines(Python, r.value.line1, r.value.line2)
    ensures r.Ok? ==> r.value.source != [] && (source != [] ==> r.value.source == source)
    ensures r.Ok? ==> r.value.noradId == ResolvedId(noradId, TleText.Catnum(Python, r.value.line1))
    ensures r.Ok? ==> !IdentityClash(noradId, TleText.Catnum(Python, r.value.line1))
    ensures r.Err? ==> r.error in {NoLinePair, EmptyLine, BadPrefix, ChecksumFailed, CatalogMismatch, IdentityMismatch}
    ensures r == Err(EmptyLine) ==> TleText.FindPair(CleanLines(payload.text)).None?
  {
    var pair :- TleText.LocatePair(CleanLines(payload.text), payload.json);
    Validate(pair, noradId, source)
  }

  /** With a requested identifier and a source name, this parser agrees with
      the one of `tle_fetcher/tle.py` except where it is stricter: it refuses
      empty JSON lines (which the other refuses for their prefix) and
      identifiers that do not match the catalog field. */
  lemma AgreesWithTleModule(payload: Payload, noradId: string, source: string)
    requires noradId != [] && source != [] && CleanLines(payload.text) != []
    ensures var r := Parse(payload, noradId, source);
            var t := TleText.ParseTleText(noradId, payload, source);
            r == t || r == Err(IdentityMismatch) || (r == Err(EmptyLine) && t == Err(BadPrefix))
  {
    var r := Parse(payload, noradId, source);
    var t := TleText.ParseTleText(noradId, payload, source);
    var located := TleText.LocatePair(CleanLines(payload.text), payload.json);
    if located.Err? {
      assert r == Err(located.error) == t;
    } else {
      var pair := located.value;
      assert r == Validate(pair, noradId, source);
      var defect := TleText.FirstDefect(Python, pair.line1, pair.line2);
      assert t == if defect.Some? then Err(defect.value) else Ok(Tle(noradId, pair.name, pair.line1, pair.line2, source));
      if pair.line1 == [] || pair.line2 == [] {
        assert defect == Some(BadPrefix);
      } else if defect.Some? {
        assert r == Err(defect.value);
      } else if !IdentityClash(noradId, TleText.Catnum(Python, pair.line1)) {
        assert ResolvedId(noradId, TleText.Catnum(Python, pair.line1)) == noradId;
      }
    }
  }

  /** The identity check only ever turns a result into `IdentityMismatch`:
      asked for a number, the parser gives what it gives without one, with the
      requested identifier in place of the catalog field's. */
  lemma IdentityOnlyNarrows(payload: Payload, noradId: string, source: string)
    requires noradId != []
    ensures var r := Parse(payload, noradId, source);
            var r0 := Parse(payload, [], source);
            r == Err(IdentityMismatch) ||
            (r.Ok? && r0.Ok? && r.value == r0.value.(noradId := noradId)) ||
            (r.Err? && r == r0)
  {
  }

  /** The catalog field `00005` answers a request for `5`: numbers are
      compared, not texts. */
  lemma LeadingZerosMatch()
    ensures !IdentityClash("5", "00005")
  {
    CatDigitsOfSolid("00005");
    ZeroPaddedFive();
    assert DecimalValue("5") == 5 by {
      assert "5"[..0] == [];
    }
  }

  lemma ZeroPaddedFive()
    ensures DecimalValue("00005") == 5
  {
    assert "00005"[..4] == "0000" && "0000"[..3] == "000" && "000"[..2] == "00" && "00"[..1] == "0";
  }

  /** A field without spaces loses nothing. */
  lemma {:induction false} CatDigitsOfSolid(s: string)
    requires ' ' !in s
    ensures CatDigits(s) == s
  {
    if s != [] {
      assert s[0] != ' ';
      CatDigitsOfSolid(s[1..]);
      assert CatDigits(s) == [s[0]] + CatDigits(s[1..]);
    }
  }

  /** An Alpha-5 catalog field such as `A0001` is never compared with the
      requested identifier. */
  lemma AlphaFiveSkipped(noradId: string)
    ensures !IdentityClash(noradId, "A0001")
  {
    assert 'A' in "A0001";
    assert 'A' in CatDigits("A0001");
  }

  /** Parsing what `as_text` wrote under a requested identifier that the
      catalog field does not contradict gives the record back, with the
      identifier and source the parser settles on; without the title line
      the name is lost. */
  lemma ParseAsTextUnder(t: Tle, threeLine: bool, json: Option<Json>, noradId: string, source: string)
    requires TleText.Printable(t)
    requires !IdentityClash(noradId, TleText.Catnum(Python, t.line1))
    ensures Parse(Payload(AsText(t, threeLine), json), noradId, source)
         == Ok(t.(noradId := ResolvedId(noradId, TleText.Catnum(Python, t.line1)),
                  name := if threeLine then t.name else None,
                  source := EnsureSource(source)))
  {
    var shown := ShownLines(t, threeLine);
    TleText.AsTextIsTerminated(t, threeLine);
    TleText.ShownLinesClean(t, threeLine);
    CleanLinesOfTerminated(shown);
    TleText.FindPairOfShown(t, threeLine);
    var p := TleText.Pair(if threeLine then t.name else None, t.line1, t.line2);
    ParseLocated(Payload(AsText(t, threeLine), json), noradId, source, p);
  }

  lemma ParseLocated(payload: Payload, noradId: string, source: string, p: TleText.Pair)
    requires TleText.FindPair(CleanLines(payload.text)) == Some(p)
    ensures Parse(payload, noradId, source) == Validate(p, noradId, source)
  {
  }

  /** The same for the record's own identifier and source name. */
  lemma ParseAsText(t: Tle, threeLine: bool, json: Option<Json>)
    requires TleText.Printable(t) && t.noradId != [] && t.source != []
    requires !IdentityClash(t.noradId, TleText.Catnum(Python, t.line1))
    ensures Parse(Payload(AsText(t, threeLine), json), t.noradId, t.source) == Ok(if threeLine then t else t.(name := None))
  {
    ParseAsTextUnder(t, threeLine, json, t.noradId, t.source);
  }

  /** The pair found among clean lines is made of clean lines, with a title
      that does not look like an element line. */
  lemma FoundPairClean(lines: seq<string>)
    requires forall i :: 0 <= i < |lines| ==> Clean(lines[i])
    requires TleText.FindPair(lines).Some?
    ensures var p := TleText.FindPair(lines).value;
            TleText.CleanFields(Tle([], p.name, p.line1, p.line2, []))
  {
    var p := TleText.FindPair(lines).value;
    var i: nat :| TleText.PairAt(lines, i) && (forall j: nat :: j < i ==> !TleText.PairAt(lines, j)) &&
                  p == TleText.Pair(TleText.NameBefore(lines, i), lines[i], lines[i + 1]);
  }

  /** A record parsed from a line pair found in the text reads back from its
      own `as_text` with the same lines, title and identifier, under any
      source name — the round trip of the repository's parsing test. */
  lemma ReparseFromText(payload: Payload, noradId: string, source: string, threeLine: bool, json: Option<Json>, source2: string)
    requires TleText.FindPair(CleanLines(payload.text)).Some?
    requires Parse(payload, noradId, source).Ok?
    ensures var t := Parse(payload, noradId, source).value;
            Parse(Payload(AsText(t, threeLine), json), noradId, source2)
              == Ok(t.(name := if threeLine then t.name else None, source := EnsureSource(source2)))
  {
    var lines := CleanLines(payload.text);
    var p := TleText.FindPair(lines).value;
    var t := Parse(payload, noradId, source).value;
    assert t.name == p.name && t.line1 == p.line1 && t.line2 == p.line2;
    FoundPairClean(lines);
    ParseAsTextUnder(t, threeLine, json, noradId, source2);
  }
}

=== FILE: rust_core.dfy ===
/** The parser of the Rust core, `core-rs/tle_core/src/lib.rs`, exposed to
    Python as `tle_fetcher.core` when the extension is built. It follows the
    pure-Python core with Rust's string semantics: `str::lines` and `trim`
    for the line scan, `as_str().unwrap_or_default()` for JSON members, no
    separate test for empty lines, and an identity check that removes every
    whitespace character and compares 64-bit integers. The checksum and
    catalog field are the Rust flavors of `TleText`, the epoch reader is
    `Epoch.RustEpoch`. */
module RustCore {
  import opened Basics
  import opened Text
  import opened Json
  import opened TleTypes
  import TleText
  import PythonImpl
  import UrlEncode

  /** The largest `i64`. */
  const I64Max: int := 9_223_372_036_854_775_807

  /** `s.parse::<i64>()` of a string of ASCII digits: refused when empty or
      too large. */
  function ParseI64(s: string): (r: Option<int>)
    requires AllDigits(s)
    ensures r.Some? <==> s != [] && DecimalValue(s) <= I64Max
    ensures r.Some? ==> r.value == DecimalValue(s)
  {
    if s != [] && DecimalValue(s) <= I64Max then Some(DecimalValue(s)) else None
  }

  /** `cat1.chars().filter(|c| !c.is_whitespace())`. */
  function CatDigits(cat1: string): (r: string)
    ensures forall k :: 0 <= k < |r| ==> !IsSpace(Rust, r[k])
  {
    var r := RemoveWhere(cat1, c => IsSpace(Rust, c));
    assert forall k :: 0 <= k < |r| ==> r[k] in r;
    r
  }

  /** The identity check: a requested identifier of ASCII digits and a
      catalog field of ASCII digits (once whitespace is removed) that both
      parse as `i64` and differ. An empty or oversized number is not
      compared. */
  predicate IdentityClash(noradId: string, cat1: string) {
    var digits := CatDigits(cat1);
    && IsDigits(noradId) && AllDigits(digits)
    && ParseI64(noradId).Some? && ParseI64(digits).Some?
    && ParseI64(noradId).value != ParseI64(digits).value
  }

  /** The title of a JSON object: absent or null means none; any other
      non-string value becomes the empty title. */
  function JsonName(name: Option<Json>): (r: Option<string>)
    ensures r.None? <==> name.None? || name == Some(JNull)
    ensures r.Some? && name.value.JStr? ==> r.value == name.value.s
    ensures r.Some? && !name.value.JStr? ==> r.value == []
  {
    match name
    case None => None
    case Some(JNull) => None
    case Some(v) => Some(AsStrOrEmpty(v))
  }

  /** The JSON fallback: an object with `line1` and `line2` members, each
      read as a string or else as the empty string. */
  function JsonPair(json: Option<Json>): (r: Result<TleText.Pair, ParseError>)
    ensures r.Err? ==> r.error == NoLinePair
    ensures r.Ok? <==> json.Some? && json.value.JObj? && HasKey(json.value.fields, "line1") && HasKey(json.value.fields, "line2")
    ensures r.Ok? ==> (r.value.line1 == AsStrOrEmpty(Get(json.value.fields, "line1").value) &&
                       r.value.line2 == AsStrOrEmpty(Get(json.value.fields, "line2").value))
  {
    match json
    case None => Err(NoLinePair)
    case Some(data) =>
      if data.JObj? && HasKey(data.fields, "line1") && HasKey(data.fields, "line2") then
        Ok(TleText.Pair(JsonName(Get(data.fields, "name")),
                        AsStrOrEmpty(Get(data.fields, "line1").value),
                        AsStrOrEmpty(Get(data.fields, "line2").value)))
      else Err(NoLinePair)
  }

  /** `if norad_id.is_empty() { cat1.trim() } else { norad_id }`. */
  function ResolvedId(noradId: string, cat1: string): (r: string)
    ensures noradId != [] ==> r == noradId
    ensures noradId == [] ==> r == Trim(Rust, cat1)
  {
    if noradId == [] then Trim(Rust, cat1) else noradId
  }

  /** The checks after the pair is located, in the order `parse` makes them.
      An empty line fails the prefix test. */
  function Validate(pair: TleText.Pair, noradId: string, source: string): (r: Result<Tle, ParseError>)
    ensures r.Ok? <==>
      TleText.WellFormedLines(Rust, pair.line1, pair.line2) && !IdentityClash(noradId, TleText.Catnum(Rust, pair.line1))
    ensures r.Ok? ==> r.value == Tle(ResolvedId(noradId, TleText.Catnum(Rust, pair.line1)), pair.name, pair.line1, pair.line2, PythonImpl.EnsureSource(source))
    ensures r == Err(BadPrefix) <==> !(StartsWith(pair.line1, "1 ") && StartsWith(pair.line2, "2 "))
    ensures r == Err(IdentityMismatch) <==>
      TleText.WellFormedLines(Rust, pair.line1, pair.line2) && IdentityClash(noradId, TleText.Catnum(Rust, pair.line1))
  {
    match TleText.FirstDefect(Rust, pair.line1, pair.line2)
    case Some(e) => Err(e)
    case None =>
      var cat1 := TleText.Catnum(Rust, pair.line1);
      if IdentityClash(noradId, cat1) then Err(IdentityMismatch)
      else Ok(Tle(ResolvedId(noradId, cat1), pair.name, pair.line1, pair.line2, PythonImpl.EnsureSource(source)))
  }

  /** `parse(text, norad_id, source)`. The line scan keeps `lines[idx - 1].trim()`
      as the title, which is the line itself since every line is trimmed. */
  function Parse(payload: Payload, noradId: string, source: string): (r: Result<Tle, ParseError>)
    ensures r.Ok? ==> TleText.WellFormedLines(Rust, r.value.line1, r.value.line2)
    ensures r.Ok? ==> r.value.source != [] && (source != [] ==> r.value.source == source)
    ensures r.Ok? ==> r.value.noradId == ResolvedId(noradId, TleText.Catnum(Rust, r.value.line1))
    ensures r.Ok? ==> !IdentityClash(noradId, TleText.Catnum(Rust, r.value.line1))
    ensures r.Err? ==> r.error in {NoLinePair, BadPrefix, ChecksumFailed, CatalogMismatch, IdentityMismatch}
    ensures TleText.FindPair(RustCleanLines(payload.text)).None? && payload.json.Some? && payload.json.value.JObj? ==>
      var fields := payload.json.value.fields;
      (HasKey(fields, "line1") && HasKey(fields, "line2") &&
       (!Get(fields, "line1").value.JStr? || !Get(fields, "line2").value.JStr?)) ==> r == Err(BadPrefix)
  {
    var pair :- match TleText.FindPair(RustCleanLines(payload.text))
                case Some(p) => Ok(p)
                case None => JsonPair(payload.json);
    Validate(pair, noradId, source)
  }

  /** Within `i64`, a record accepted under a requested number carries that
      number in its catalog field, leading zeros aside. */
  lemma IdentityHolds(payload: Payload, noradId: string, source: string)
    requires Parse(payload, noradId, source).Ok?
    requires IsDigits(noradId) && DecimalValue(noradId) <= I64Max
    ensures var digits := CatDigits(TleText.Catnum(Rust, Parse(payload, noradId, source).value.line1));
            IsDigits(digits) && DecimalValue(digits) <= I64Max ==> DecimalValue(digits) == DecimalValue(noradId)
  {
  }

  /** A requested number beyond `i64` is never compared, so any catalog
      field answers it — where the pure-Python core compares the numbers. */
  lemma OversizedIdNotCompared(noradId: string, cat1: string)
    requires IsDigits(noradId) && DecimalValue(noradId) > I64Max
    ensures !IdentityClash(noradId, cat1)
    ensures IsDigits(PythonImpl.CatDigits(cat1)) ==>
      (PythonImpl.IdentityClash(noradId, cat1) <==> DecimalValue(PythonImpl.CatDigits(cat1)) != DecimalValue(noradId))
  {
  }

  /** Parsing what `as_text` wrote gives the record back, with the identifier
      and source the parser settles on, when its lines pass the Rust checks and
      the requested identifier does not contradict the catalog field. */
  lemma ParseAsTextUnder(t: Tle, threeLine: bool, json: Option<Json>, noradId: string, source: string)
    requires TleText.CleanFields(t) && TleText.WellFormedLines(Rust, t.line1, t.line2)
    requires !IdentityClash(noradId, TleText.Catnum(Rust, t.line1))
    ensures Parse(Payload(AsText(t, threeLine), json), noradId, source)
         == Ok(t.(noradId := ResolvedId(noradId, TleText.Catnum(Rust, t.line1)),
                  name := if threeLine then t.name else None,
                  source := PythonImpl.EnsureSource(source)))
  {
    var shown := ShownLines(t, threeLine);
    TleText.AsTextIsTerminated(t, threeLine);
    TleText.ShownLinesClean(t, threeLine);
    RustCleanLinesOfTerminated(shown);
    TleText.FindPairOfShown(t, threeLine);
    var p := TleText.Pair(if threeLine then t.name else None, t.line1, t.line2);
    ParseLocated(Payload(AsText(t, threeLine), json), noradId, source, p);
  }

  lemma ParseLocated(payload: Payload, noradId: string, source: string, p: TleText.Pair)
    requires TleText.FindPair(RustCleanLines(payload.text)) == Some(p)
    ensures Parse(payload, noradId, source) == Validate(p, noradId, source)
  {
  }

  /** Lines as the repository writes them — clean, ASCII in their first seven
      columns, no U+001C..U+001F in the catalog field — pass the Rust checks
      exactly when they pass the Python ones, with the same catalog field. */
  lemma FlavorsAgreeOnLines(line1: string, line2: string)
    requires Clean(line1) && Clean(line2) && UrlEncode.AsciiUpTo(line1, 7) && UrlEncode.AsciiUpTo(line2, 7)
    requires forall k :: 2 <= k < 7 ==> !('\U{1c}' <= line1[k] <= '\U{1f}') && !('\U{1c}' <= line2[k] <= '\U{1f}')
    ensures TleText.WellFormedLines(Rust, line1, line2) <==> TleText.WellFormedLines(Python, line1, line2)
    ensures TleText.Catnum(Rust, line1) == TleText.Catnum(Python, line1)
  {
    ChecksumFlavorsAgree(line1);
    ChecksumFlavorsAgree(line2);
    CatnumFlavorsAgree(line1);
    CatnumFlavorsAgree(line2);
  }

  lemma ChecksumFlavorsAgree(line: string)
    requires Clean(line)
    ensures TleText.ChecksumOk(Rust, line) == TleText.ChecksumOk(Python, line)
  {
    if IsSpace(Rust, line[|line| - 1]) {
      RustSpaceIsPythonSpace(line[|line| - 1]);
    }
    assert TrimEnd(Rust, line) == line;
  }

  /** Over ASCII columns the byte slice of the Rust field is the character
      slice of the Python one, and the two trims agree without
      U+001C..U+001F. */
  lemma CatnumFlavorsAgree(line: string)
    requires UrlEncode.AsciiUpTo(line, 7)
    requires forall k :: 2 <= k < 7 ==> !('\U{1c}' <= line[k] <= '\U{1f}')
    ensures TleText.Catnum(Rust, line) == TleText.Catnum(Python, line)
  {
    var field := Slice(line, 2, 7);
    assert field == line[2..7];
    TleText.AsciiField(Rust, line);
    TrimFlavorsAgree(field);
  }

  /** A character of three UTF-8 bytes, such as the euro sign. */
  predicate ThreeByteChar(c: char) {
    0x800 <= c as int < 0x10000
  }

  /** A character of several bytes in the catalog columns parts the flavors.
      A three-byte character in column 5 ends Rust's bytes 2..7 right after
      it, so two lines that agree up to it and differ in columns 6-7 share
      their Rust catalog field and not their Python one: the pair passes the
      Rust checks and fails the Python catalog comparison. "1 12€453" and
      "2 12€465" are such a pair (`EuroLinesPassChecksums`). */
  lemma CatalogBytesPartFlavors(line1: string, line2: string)
    requires UrlEncode.AsciiUpTo(line1, 4) && UrlEncode.AsciiUpTo(line2, 4) && |line1| >= 7 && |line2| >= 7
    requires ThreeByteChar(line1[4]) && line1[2..5] == line2[2..5] && (line1[5] != line2[5] || line1[6] != line2[6])
    requires forall k :: 2 <= k < 7 ==> !IsSpace(Python, line1[k]) && !IsSpace(Python, line2[k])
    requires StartsWith(line1, "1 ") && StartsWith(line2, "2 ")
    requires TleText.ChecksumOk(Rust, line1) && TleText.ChecksumOk(Rust, line2)
    requires TleText.ChecksumOk(Python, line1) && TleText.ChecksumOk(Python, line2)
    ensures TleText.Catnum(Rust, line1) == TleText.Catnum(Rust, line2) == line1[2..5]
    ensures TleText.Catnum(Python, line1) == line1[2..7] != line2[2..7] == TleText.Catnum(Python, line2)
    ensures TleText.WellFormedLines(Rust, line1, line2)
    ensures TleText.FirstDefect(Python, line1, line2) == Some(CatalogMismatch)
  {
    assert line2[4] == line2[2..5][2] == line1[2..5][2] == line1[4];
    ThreeByteCatnum(line1);
    ThreeByteCatnum(line2);
    PythonFieldsDiffer(line1, line2);
  }

  /** Python reads columns 3-7 whole, so lines differing in column 6 or 7 differ there. */
  lemma PythonFieldsDiffer(line1: string, line2: string)
    requires |line1| >= 7 && |line2| >= 7 && (line1[5] != line2[5] || line1[6] != line2[6])
    requires forall k :: 2 <= k < 7 ==> !IsSpace(Python, line1[k]) && !IsSpace(Python, line2[k])
    ensures TleText.Catnum(Python, line1) == line1[2..7] != line2[2..7] == TleText.Catnum(Python, line2)
  {
    if line1[5] != line2[5] {
      assert line1[2..7][3] != line2[2..7][3];
    } else {
      assert line1[2..7][4] != line2[2..7][4];
    }
  }

  /** The Rust catalog field of a line with a three-byte character in column 5. */
  lemma ThreeByteCatnum(line: string)
    requires UrlEncode.AsciiUpTo(line, 4) && |line| >= 5 && ThreeByteChar(line[4])
    requires forall k :: 2 <= k < 5 ==> !IsSpace(Python, line[k])
    ensures TleText.Catnum(Rust, line) == line[2..5]
  {
    ThreeByteEndsField(line);
    var field := line[2..5];
    forall k | 0 <= k < 3 ensures !IsSpace(Rust, field[k]) {
      assert field[k] == line[k + 2];
      if IsSpace(Rust, field[k]) {
        RustSpaceIsPythonSpace(field[k]);
      }
    }
    TrimOfSolid(Rust, field);
  }

  /** A character of several bytes in column 7 straddles byte 7, which empties
      the Rust catalog field while Python keeps all five columns. */
  lemma StraddleEmptiesCatnum(line: string)
    requires UrlEncode.AsciiUpTo(line, 6) && |line| >= 7 && line[6] as int >= 0x80
    requires forall k :: 2 <= k < 7 ==> !IsSpace(Python, line[k])
    ensures TleText.Catnum(Rust, line) == [] && TleText.Catnum(Python, line) == line[2..7]
  {
    StraddlesField(line);
    assert Trim(Rust, []) == [];
  }

  /** A three-byte character right after four ASCII columns ends at byte 7. */
  lemma ThreeByteEndsField(line: string)
    requires UrlEncode.AsciiUpTo(line, 4) && |line| >= 5 && ThreeByteChar(line[4])
    ensures UrlEncode.ByteSlice(line, 2, 7) == Some(line[2..5])
  {
    UrlEncode.AsciiPrefixByteSlice(line, 2, 7);
    var t := line[2..];
    assert UrlEncode.AsciiUpTo(t, 2) by {
      assert t[0] == line[2] && t[1] == line[3];
    }
    var w := t[2..];
    assert w[0] == line[4] && UrlEncode.Width(w[0]) == 3;
    UrlEncode.FirstCharTake(w);
    UrlEncode.AsciiPrefixTakeSome(t, 2, 5, [w[0]]);
    assert t[..2] + [w[0]] == line[2..5];
  }

  /** A character of several bytes right after six ASCII columns straddles byte 7. */
  lemma StraddlesField(line: string)
    requires UrlEncode.AsciiUpTo(line, 6) && |line| >= 7 && line[6] as int >= 0x80
    ensures UrlEncode.ByteSlice(line, 2, 7) == None
  {
    UrlEncode.AsciiPrefixByteSlice(line, 2, 7);
    var t := line[2..];
    assert UrlEncode.AsciiUpTo(t, 4) by {
      forall k | 0 <= k < 4 ensures t[k] as int < 0x80 {
        assert t[k] == line[k + 2];
      }
    }
    var w := t[4..];
    assert w[0] == line[6] && UrlEncode.Width(w[0]) > 1;
    assert UrlEncode.ByteTake(w, 1) == None;
    UrlEncode.AsciiPrefixTakeNone(t, 4, 5);
  }

  /** The checksum total of seven characters, one weight each. */
  lemma DigitSumOfSeven(s: string)
    requires |s| == 7
    ensures TleText.DigitSum(s) == TleText.Weight(s[0]) + TleText.Weight(s[1]) + TleText.Weight(s[2])
      + TleText.Weight(s[3]) + TleText.Weight(s[4]) + TleText.Weight(s[5]) + TleText.Weight(s[6])
  {
    assert TleText.DigitSum(s) == TleText.DigitSum(s[..6]) + TleText.Weight(s[6]);
    assert TleText.DigitSum(s[..6]) == TleText.DigitSum(s[..5]) + TleText.Weight(s[5]) by {
      assert s[..6][..5] == s[..5] && s[..6][5] == s[5];
    }
    assert TleText.DigitSum(s[..5]) == TleText.DigitSum(s[..4]) + TleText.Weight(s[4]) by {
      assert s[..5][..4] == s[..4] && s[..5][4] == s[4];
    }
    assert TleText.DigitSum(s[..4]) == TleText.DigitSum(s[..3]) + TleText.Weight(s[3]) by {
      assert s[..4][..3] == s[..3] && s[..4][3] == s[3];
    }
    assert TleText.DigitSum(s[..3]) == TleText.DigitSum(s[..2]) + TleText.Weight(s[2]) by {
      assert s[..3][..2] == s[..2] && s[..3][2] == s[2];
    }
    assert TleText.DigitSum(s[..2]) == TleText.DigitSum(s[..1]) + TleText.Weight(s[1]) by {
      assert s[..2][..1] == s[..1] && s[..2][1] == s[1];
    }
    assert TleText.DigitSum(s[..1]) == TleText.Weight(s[0]) by {
      assert s[..1][..0] == [] && s[..1][0] == s[0];
    }
  }

  /** A line of eight characters whose last is the check digit of the seven before. */
  lemma EightCharChecksum(f: Flavor, line: string)
    requires |line| == 8 && IsDigit(line[7])
    requires TleText.DigitSum(line[..7]) % 10 == DigitValue(line[7])
    ensures TleText.ChecksumOk(f, line)
  {
    assert TrimEnd(f, line) == line;
    assert line[..|line| - 1] == line[..7];
  }

  /** "1 12€453" and "2 12€465" carry correct check digits in both flavors. */
  lemma EuroLinesPassChecksums(line1: string, line2: string)
    requires line1 == "1 12\U{20AC}453" && line2 == "2 12\U{20AC}465"
    ensures TleText.ChecksumOk(Rust, line1) && TleText.ChecksumOk(Python, line1)
    ensures TleText.ChecksumOk(Rust, line2) && TleText.ChecksumOk(Python, line2)
  {
    DigitSumOfSeven(line1[..7]);
    DigitSumOfSeven(line2[..7]);
    EightCharChecksum(Rust, line1);
    EightCharChecksum(Python, line1);
    EightCharChecksum(Rust, line2);
    EightCharChecksum(Python, line2);
  }

  /** The records the repository writes and reads back — clean lines of
      ordinary characters whose catalog field is a plain number matching the
      requested one — come out of the Rust core and the pure-Python core
      alike. */
  lemma AgreesWithPythonOnWritten(t: Tle, threeLine: bool, json: Option<Json>, source: string)
    requires TleText.Printable(t) && UrlEncode.AsciiUpTo(t.line1, 7) && UrlEncode.AsciiUpTo(t.line2, 7)
    requires forall k :: 2 <= k < 7 ==> !('\U{1c}' <= t.line1[k] <= '\U{1f}') && !('\U{1c}' <= t.line2[k] <= '\U{1f}')
    requires t.noradId != [] && !IdentityClash(t.noradId, TleText.Catnum(Rust, t.line1))
    requires !PythonImpl.IdentityClash(t.noradId, TleText.Catnum(Python, t.line1))
    ensures Parse(Payload(AsText(t, threeLine), json), t.noradId, source)
         == PythonImpl.Parse(Payload(AsText(t, threeLine), json), t.noradId, source)
  {
    FlavorsAgreeOnLines(t.line1, t.line2);
    ParseAsTextUnder(t, threeLine, json, t.noradId, source);
    PythonImpl.ParseAsTextUnder(t, threeLine, json, t.noradId, source);
  }
}

=== FILE: text.dfy ===
/** The string operations the repository leans on, with the semantics of the
    language that calls them: Python's `str.strip`, `str.splitlines`,
    `str.split` and `str.isdigit`, and Rust's `str::trim`, `str::lines` and
    `char::is_whitespace`. Strings are sequences of Unicode code points. */
module Text {

  // ---------------------------------------------------------------- characters

  predicate IsDigit(c: char) { '0' <= c <= '9' }

  function DigitValue(c: char): (d: nat)
    requires IsDigit(c)
    ensures d < 10
  {
    (c as int) - ('0' as int)
  }

  function DigitChar(d: nat): (c: char)
    requires d < 10
    ensures IsDigit(c) && DigitValue(c) == d
  {
    (('0' as int) + d) as char
  }

  /** A hexadecimal digit of either case. */
  predicate IsHex(c: char) {
    ('0' <= c <= '9') || ('A' <= c <= 'F') || ('a' <= c <= 'f')
  }

  function HexValue(c: char): (d: int)
    requires IsHex(c)
    ensures 0 <= d < 16
  {
    if '0' <= c <= '9' then c as int - '0' as int
    else if 'A' <= c <= 'F' then c as int - 'A' as int + 10
    else c as int - 'a' as int + 10
  }

  /** Which language's notion of whitespace a trim uses. */
  datatype Flavor = Python | Rust

  /** Python's `str.isspace` (the set `str.strip()` removes) and Rust's
      Unicode `White_Space` property; they differ only on U+001C..U+001F,
      which Python treats as whitespace and Rust does not. */
  predicate IsSpace(f: Flavor, c: char) {
    if c <= ' ' then
      c == ' ' || ('\t' <= c <= '\r') || (f == Python && '\U{1c}' <= c <= '\U{1f}')
    else if c < '\U{85}' then false
    else
      || c == '\U{85}' || c == '\U{a0}' || c == '\U{1680}'
      || ('\U{2000}' <= c <= '\U{200a}')
      || c == '\U{2028}' || c == '\U{2029}' || c == '\U{202f}' || c == '\U{205f}' || c == '\U{3000}'
  }

  /** The line boundaries of Python's `str.splitlines`. */
  predicate IsLineBreak(c: char) {
    if c <= ' ' then ('\n' <= c <= '\r') || ('\U{1c}' <= c <= '\U{1e}')
    else c == '\U{85}' || c == '\U{2028}' || c == '\U{2029}'
  }

  lemma LineBreakIsSpace(c: char)
    requires IsLineBreak(c)
    ensures IsSpace(Python, c)
  {
  }

  lemma RustSpaceIsPythonSpace(c: char)
    requires IsSpace(Rust, c)
    ensures IsSpace(Python, c)
  {
  }

  // ------------------------------------------------------------------ trimming

  function TrimEnd(f: Flavor, s: string): (r: string)
    ensures r <= s
    ensures r == [] || !IsSpace(f, r[|r| - 1])
    ensures forall i :: |r| <= i < |s| ==> IsSpace(f, s[i])
  {
    if s == [] || !IsSpace(f, s[|s| - 1]) then s else TrimEnd(f, s[..|s| - 1])
  }

  function TrimStart(f: Flavor, s: string): (r: string)
    ensures |r| <= |s| && r == s[|s| - |r|..]
    ensures r == [] || !IsSpace(f, r[0])
    ensures forall i :: 0 <= i < |s| - |r| ==> IsSpace(f, s[i])
  {
    if s == [] || !IsSpace(f, s[0]) then s else TrimStart(f, s[1..])
  }

  /** Python `s.strip()` (flavor Python) or Rust `s.trim()` (flavor Rust). */
  function Trim(f: Flavor, s: string): (r: string)
    ensures r == [] || (!IsSpace(f, r[0]) && !IsSpace(f, r[|r| - 1]))
  {
    TrimStart(f, TrimEnd(f, s))
  }

  function Strip(s: string): string { Trim(Python, s) }

  function RStrip(s: string): string { TrimEnd(Python, s) }

  /** A string neither starting nor ending with whitespace is its own trim. */
  lemma TrimOfTrimmed(f: Flavor, s: string)
    requires s == [] || (!IsSpace(f, s[0]) && !IsSpace(f, s[|s| - 1]))
    ensures Trim(f, s) == s
  {
  }

  /** A string without any whitespace is its own trim. */
  lemma TrimOfSolid(f: Flavor, s: string)
    ensures (forall k :: 0 <= k < |s| ==> !IsSpace(f, s[k])) ==> Trim(f, s) == s
  {
    if s != [] && forall k :: 0 <= k < |s| ==> !IsSpace(f, s[k]) {
      assert !IsSpace(f, s[0]) && !IsSpace(f, s[|s| - 1]);
      TrimOfTrimmed(f, s);
    }
  }

  lemma TrimIdempotent(f: Flavor, s: string)
    ensures Trim(f, Trim(f, s)) == Trim(f, s)
  {
    TrimOfTrimmed(f, Trim(f, s));
  }

  /** What Python's `strip` leaves is left alone by Rust's `trim`. */
  lemma RustTrimOfPythonStripped(s: string)
    requires s == [] || (!IsSpace(Python, s[0]) && !IsSpace(Python, s[|s| - 1]))
    ensures Trim(Rust, s) == s
  {
    if s != [] {
      if IsSpace(Rust, s[0]) { RustSpaceIsPythonSpace(s[0]); }
      if IsSpace(Rust, s[|s| - 1]) { RustSpaceIsPythonSpace(s[|s| - 1]); }
    }
    TrimOfTrimmed(Rust, s);
  }

  /** Without U+001C..U+001F the two notions of whitespace trim alike. */
  lemma TrimFlavorsAgree(s: string)
    requires forall k :: 0 <= k < |s| ==> !('\U{1c}' <= s[k] <= '\U{1f}')
    ensures Trim(Python, s) == Trim(Rust, s)
  {
    TrimEndFlavorsAgree(s);
    TrimStartFlavorsAgree(TrimEnd(Python, s));
  }

  lemma {:induction false} TrimEndFlavorsAgree(s: string)
    requires forall k :: 0 <= k < |s| ==> !('\U{1c}' <= s[k] <= '\U{1f}')
    ensures TrimEnd(Python, s) == TrimEnd(Rust, s)
  {
    if s != [] {
      assert IsSpace(Python, s[|s| - 1]) == IsSpace(Rust, s[|s| - 1]);
      if IsSpace(Python, s[|s| - 1]) {
        TrimEndFlavorsAgree(s[..|s| - 1]);
      }
    }
  }

  lemma {:induction false} TrimStartFlavorsAgree(s: string)
    requires forall k :: 0 <= k < |s| ==> !('\U{1c}' <= s[k] <= '\U{1f}')
    ensures TrimStart(Python, s) == TrimStart(Rust, s)
  {
    if s != [] {
      assert IsSpace(Python, s[0]) == IsSpace(Rust, s[0]);
      if IsSpace(Python, s[0]) {
        assert forall k :: 0 <= k < |s[1..]| ==> s[1..][k] == s[k + 1];
        TrimStartFlavorsAgree(s[1..]);
      }
    }
  }

  // -------------------------------------------------------- prefixes and slices

  predicate StartsWith(s: string, p: string) {
    |p| <= |s| && s[..|p|] == p
  }

  lemma StartsWithFirst(s: string, p: string)
    requires p != []
    ensures StartsWith(s, p) ==> s[0] == p[0]
  {
    if StartsWith(s, p) {
      assert s[..|p|][0] == s[0];
    }
  }

  lemma StartsWithSecond(s: string, p: string)
    requires |p| >= 2
    ensures StartsWith(s, p) ==> s[1] == p[1]
  {
    if StartsWith(s, p) {
      assert s[..|p|][1] == s[1];
    }
  }

  /** Python's `s[i:j]` for non-negative bounds: out-of-range bounds are clamped. */
  function Slice(s: string, i: nat, j: nat): (r: string)
    ensures |r| <= j - i || (j < i && r == [])
    ensures i <= j <= |s| ==> r == s[i..j]
  {
    var lo := if i < |s| then i else |s|;
    var hi := if j < |s| then j else |s|;
    if lo <= hi then s[lo..hi] else []
  }

  /** `sub` occurs in `s` as a contiguous piece (Python `sub in s`). */
  predicate Contains(s: string, sub: string)
    decreases |s|
  {
    StartsWith(s, sub) || (s != [] && Contains(s[1..], sub))
  }

  predicate OccursAt(s: string, sub: string, i: nat) {
    i + |sub| <= |s| && s[i..i + |sub|] == sub
  }

  lemma {:induction false} ContainsSpec(s: string, sub: string)
    ensures Contains(s, sub) <==> exists i: nat :: OccursAt(s, sub, i)
    decreases |s|
  {
    if s == [] {
      if sub == [] {
        assert OccursAt(s, sub, 0);
      }
      if exists i: nat :: OccursAt(s, sub, i) {
        var i: nat :| OccursAt(s, sub, i);
        assert StartsWith(s, sub);
      }
    } else {
      ContainsSpec(s[1..], sub);
      if Contains(s[1..], sub) {
        var i: nat :| OccursAt(s[1..], sub, i);
        assert OccursAt(s, sub, i + 1);
      }
      if StartsWith(s, sub) {
        assert OccursAt(s, sub, 0);
      }
      if exists i: nat :: OccursAt(s, sub, i) {
        var i: nat :| OccursAt(s, sub, i);
        if i > 0 {
          assert s[1..][i - 1..i - 1 + |sub|] == s[i..i + |sub|];
          assert OccursAt(s[1..], sub, i - 1);
        }
      }
    }
  }

  /** Python `str.lower` as far as any comparison with ASCII text can tell:
      A-Z become a-z and the Kelvin sign U+212A becomes 'k'. */
  function Lower(s: string): (r: string)
    ensures |r| == |s|
    ensures forall i :: 0 <= i < |s| ==> r[i] == LowerChar(s[i])
  {
    seq(|s|, i requires 0 <= i < |s| => LowerChar(s[i]))
  }

  lemma LowerIdempotent(s: string)
    ensures Lower(Lower(s)) == Lower(s)
  {
  }

  function LowerChar(c: char): char {
    if 'A' <= c <= 'Z' then ((c as int) + 32) as char
    else if c == '\U{212A}' then 'k'
    else c
  }

  /** Every occurrence of character `a` replaced by `b` (`str.replace` with one-character arguments). */
  function ReplaceChar(s: string, a: char, b: char): (r: string)
    ensures |r| == |s|
    ensures forall i :: 0 <= i < |s| ==> r[i] == (if s[i] == a then b else s[i])
  {
    seq(|s|, i requires 0 <= i < |s| => if s[i] == a then b else s[i])
  }

  /** `s.replace(c, sub)` for a one-character pattern. */
  function ReplaceWith(s: string, c: char, sub: string): (r: string)
    ensures c !in sub ==> c !in r
    ensures c !in s ==> r == s
  {
    if s == [] then []
    else
      var rest := ReplaceWith(s[1..], c, sub);
      assert c !in s ==> s == [s[0]] + s[1..];
      (if s[0] == c then sub else [s[0]]) + rest
  }

  /** Every character removed for which `drop` is true (`str.replace(" ", "")` and friends). */
  function RemoveWhere(s: string, drop: char -> bool): (r: string)
    ensures forall c :: c in r <==> c in s && !drop(c)
    ensures |r| <= |s|
  {
    if s == [] then []
    else (if drop(s[0]) then [] else [s[0]]) + RemoveWhere(s[1..], drop)
  }

  // --------------------------------------------------------------- splitting

  /** Index of the first occurrence of `c` in `s`, or |s|. */
  function IndexOfChar(s: string, c: char): (k: nat)
    ensures k <= |s|
    ensures k < |s| ==> s[k] == c
    ensures forall i :: 0 <= i < k ==> s[i] != c
  {
    if s == [] || s[0] == c then 0 else 1 + IndexOfChar(s[1..], c)
  }

  /** Index of the first Python line break in `s`, or |s|. */
  function BreakIndex(s: string): (k: nat)
    ensures k <= |s|
    ensures k < |s| ==> IsLineBreak(s[k])
    ensures forall i :: 0 <= i < k ==> !IsLineBreak(s[i])
  {
    if s == [] || IsLineBreak(s[0]) then 0 else 1 + BreakIndex(s[1..])
  }

  /** Python `s.splitlines()`: pieces between line boundaries (`\r\n` is one
      boundary), without a final empty piece. */
  function Lines(s: string): (r: seq<string>)
    ensures forall i :: 0 <= i < |r| ==> NoBreak(r[i])
    decreases |s|
  {
    if s == [] then []
    else
      var k := BreakIndex(s);
      if k == |s| then [s]
      else
        var next := if s[k] == '\r' && k + 1 < |s| && s[k + 1] == '\n' then k + 2 else k + 1;
        [s[..k]] + Lines(s[next..])
  }

  predicate NoBreak(s: string) {
    forall i :: 0 <= i < |s| ==> !IsLineBreak(s[i])
  }

  /** Rust `s.lines()`: pieces between `\n`, each losing one trailing `\r`, without a final empty piece. */
  function RustLines(s: string): seq<string>
    decreases |s|
  {
    if s == [] then []
    else
      var k := IndexOfChar(s, '\n');
      if k == |s| then [s]
      else [DropCarriageReturn(s[..k])] + RustLines(s[k + 1..])
  }

  function DropCarriageReturn(s: string): string {
    if s != [] && s[|s| - 1] == '\r' then s[..|s| - 1] else s
  }

  /** Python `s.split(c)`: always at least one piece; pieces never contain `c`. */
  function SplitOn(s: string, c: char): (r: seq<string>)
    ensures |r| >= 1
    ensures forall i :: 0 <= i < |r| ==> c !in r[i]
    decreases |s|
  {
    var k := IndexOfChar(s, c);
    if k == |s| then [s] else [s[..k]] + SplitOn(s[k + 1..], c)
  }

  /** Python `s.split(c, 1)[0]`: the text before the first `c`. */
  function Before(s: string, c: char): (r: string)
    ensures r <= s && c !in r
    ensures |r| < |s| ==> s[|r|] == c
  {
    s[..IndexOfChar(s, c)]
  }

  /** Python `s.split()`: maximal runs of non-whitespace. */
  function SplitWhitespace(s: string): seq<string>
    decreases |s|
  {
    if s == [] then []
    else if IsSpace(Python, s[0]) then SplitWhitespace(s[1..])
    else
      var k := SpaceIndex(s);
      [s[..k]] + SplitWhitespace(s[k..])
  }

  /** Every piece of a split is a word. */
  lemma SplitWhitespaceWords(s: string)
    ensures forall i :: 0 <= i < |SplitWhitespace(s)| ==> Word(SplitWhitespace(s)[i])
  {
    forall i | 0 <= i < |SplitWhitespace(s)| ensures Word(SplitWhitespace(s)[i]) {
      SplitWhitespaceWord(s, i);
    }
  }

  lemma {:induction false} SplitWhitespaceWord(s: string, i: nat)
    requires i < |SplitWhitespace(s)|
    ensures Word(SplitWhitespace(s)[i])
    decreases |s|
  {
    if IsSpace(Python, s[0]) {
      SplitWhitespaceWord(s[1..], i);
    } else if i > 0 {
      SplitWhitespaceWord(s[SpaceIndex(s)..], i - 1);
    }
  }

  /** A non-empty run of non-whitespace characters. */
  predicate Word(s: string) {
    s != [] && forall j :: 0 <= j < |s| ==> !IsSpace(Python, s[j])
  }

  function SpaceIndex(s: string): (k: nat)
    ensures k <= |s|
    ensures k < |s| ==> IsSpace(Python, s[k])
    ensures forall i :: 0 <= i < k ==> !IsSpace(Python, s[i])
  {
    if s == [] || IsSpace(Python, s[0]) then 0 else 1 + SpaceIndex(s[1..])
  }

  /** `"sep".join(parts)`. */
  function Join(parts: seq<string>, sep: string): string {
    if parts == [] then []
    else if |parts| == 1 then parts[0]
    else parts[0] + sep + Join(parts[1..], sep)
  }

  /** Splitting a join on its separator gives the pieces back, when no
      piece holds the separator. */
  lemma {:induction false} SplitOnJoin(parts: seq<string>, c: char)
    requires parts != []
    requires forall k :: 0 <= k < |parts| ==> c !in parts[k]
    ensures SplitOn(Join(parts, [c]), c) == parts
    decreases |parts|
  {
    if |parts| == 1 {
      assert IndexOfChar(parts[0], c) == |parts[0]|;
    } else {
      var s := Join(parts, [c]);
      var rest := Join(parts[1..], [c]);
      assert s == parts[0] + [c] + rest;
      assert forall i :: 0 <= i < |parts[0]| ==> s[i] == parts[0][i];
      assert s[|parts[0]|] == c;
      assert IndexOfChar(s, c) == |parts[0]|;
      assert s[..|parts[0]|] == parts[0];
      assert s[|parts[0]| + 1..] == rest;
      SplitOnJoin(parts[1..], c);
    }
  }

  /** Splitting a join of clean pieces and dropping blanks gives the
      pieces back. */
  lemma StripNonBlankOfSplitJoin(parts: seq<string>, c: char)
    requires parts != []
    requires forall k :: 0 <= k < |parts| ==> Clean(parts[k]) && c !in parts[k]
    ensures StripNonBlank(Python, SplitOn(Join(parts, [c]), c)) == parts
  {
    SplitOnJoin(parts, c);
    StripNonBlankOfClean(parts);
  }

  /** Every piece followed by a newline: `"".join(p + "\n" for p in parts)`. */
  function Terminated(parts: seq<string>): string {
    if parts == [] then [] else parts[0] + "\n" + Terminated(parts[1..])
  }

  lemma JoinThenNewline(parts: seq<string>)
    requires parts != []
    ensures Join(parts, "\n") + "\n" == Terminated(parts)
  {
    if |parts| > 1 {
      JoinThenNewline(parts[1..]);
    }
  }

  // ---------------------------------------------------- the cleaned line view

  /** Python `[ln.strip() for ln in text.splitlines() if ln.strip()]`. */
  function CleanLines(text: string): (r: seq<string>)
    ensures forall i :: 0 <= i < |r| ==> Clean(r[i])
  {
    StripNonBlankClean(Lines(text));
    StripNonBlank(Python, Lines(text))
  }

  /** Rust `text.lines().map(str::trim).filter(|l| !l.is_empty())`. */
  function RustCleanLines(text: string): seq<string> {
    StripNonBlank(Rust, RustLines(text))
  }

  function StripNonBlank(f: Flavor, pieces: seq<string>): (r: seq<string>)
    ensures forall i :: 0 <= i < |r| ==> r[i] != []
  {
    if pieces == [] then []
    else
      var t := Trim(f, pieces[0]);
      if t == [] then StripNonBlank(f, pieces[1..]) else [t] + StripNonBlank(f, pieces[1..])
  }

  lemma {:induction false} StripNonBlankClean(pieces: seq<string>)
    requires forall i :: 0 <= i < |pieces| ==> NoBreak(pieces[i])
    ensures forall i :: 0 <= i < |StripNonBlank(Python, pieces)| ==> Clean(StripNonBlank(Python, pieces)[i])
  {
    if pieces != [] {
      var t := Trim(Python, pieces[0]);
      assert NoBreak(t) by {
        forall j | 0 <= j < |t| ensures !IsLineBreak(t[j]) {
          assert t[j] in pieces[0];
        }
      }
      StripNonBlankClean(pieces[1..]);
    }
  }

  /** A line as the cleaned view produces it: non-empty, no line break, no surrounding whitespace. */
  predicate Clean(s: string) {
    s != [] && NoBreak(s) && !IsSpace(Python, s[0]) && !IsSpace(Python, s[|s| - 1])
  }

  lemma CleanIsStripped(s: string)
    requires Clean(s)
    ensures Strip(s) == s
  {
    TrimOfTrimmed(Python, s);
  }

  /** Writing break-free lines one per line and splitting again gives them back
      (empty lines included). */
  lemma {:induction false} LinesOfTerminated(ls: seq<string>)
    requires forall i :: 0 <= i < |ls| ==> NoBreak(ls[i])
    ensures Lines(Terminated(ls)) == ls
  {
    if ls != [] {
      LinesCons(ls[0], Terminated(ls[1..]));
      LinesOfTerminated(ls[1..]);
    }
  }

  lemma {:induction false} LinesOfJoin(ls: seq<string>)
    requires forall i :: 0 <= i < |ls| ==> Clean(ls[i])
    ensures Lines(Join(ls, "\n")) == ls
  {
    if |ls| == 1 {
      LinesOfOne(ls[0]);
    } else if |ls| > 1 {
      LinesCons(ls[0], Join(ls[1..], "\n"));
      LinesOfJoin(ls[1..]);
    }
  }

  lemma LinesOfOne(l: string)
    requires l != [] && NoBreak(l)
    ensures Lines(l) == [l]
  {
    BreakIndexOfPrefixed(l, []);
    assert l + [] == l;
  }

  /** A break-free line followed by a newline is the first piece. */
  lemma LinesCons(l: string, rest: string)
    requires NoBreak(l)
    ensures Lines(l + "\n" + rest) == [l] + Lines(rest)
  {
    var s := l + "\n" + rest;
    BreakIndexOfPrefixed(l, "\n" + rest);
    assert s == l + ("\n" + rest);
    assert s[|l|] == '\n';
    assert s[..|l|] == l;
    assert s[|l| + 1..] == rest;
  }

  lemma BreakIndexOfPrefixed(l: string, rest: string)
    requires NoBreak(l)
    requires rest == [] || IsLineBreak(rest[0])
    ensures BreakIndex(l + rest) == |l|
    decreases |l|
  {
    if l != [] {
      assert (l + rest)[1..] == l[1..] + rest;
      BreakIndexOfPrefixed(l[1..], rest);
    }
  }

  /** Stripping and dropping blanks leaves a list of clean lines unchanged. */
  lemma StripNonBlankOfClean(ls: seq<string>)
    requires forall i :: 0 <= i < |ls| ==> Clean(ls[i])
    ensures StripNonBlank(Python, ls) == ls
  {
    forall i | 0 <= i < |ls|
      ensures Stripped(Python, ls[i])
    {
      TrimOfTrimmed(Python, ls[i]);
    }
    StripNonBlankOfFixed(Python, ls);
  }

  /** A piece that stripping leaves as it is and does not drop. */
  predicate Stripped(f: Flavor, s: string) {
    s != [] && Trim(f, s) == s
  }

  lemma {:induction false} StripNonBlankOfFixed(f: Flavor, ls: seq<string>)
    requires forall i :: 0 <= i < |ls| ==> Stripped(f, ls[i])
    ensures StripNonBlank(f, ls) == ls
  {
    if ls != [] {
      var head, tail := ls[0], ls[1..];
      assert Stripped(f, head);
      forall i | 0 <= i < |tail|
        ensures Stripped(f, tail[i])
      {
        assert tail[i] == ls[i + 1];
      }
      StripNonBlankOfFixed(f, tail);
      StripNonBlankKeeps(f, ls);
      assert ls == [head] + tail;
    }
  }

  lemma StripNonBlankKeeps(f: Flavor, ls: seq<string>)
    requires ls != [] && Trim(f, ls[0]) != []
    ensures StripNonBlank(f, ls) == [Trim(f, ls[0])] + StripNonBlank(f, ls[1..])
  {
  }

  /** The cleaned view of clean lines written one per line is those lines. */
  lemma CleanLinesOfTerminated(ls: seq<string>)
    requires forall i :: 0 <= i < |ls| ==> Clean(ls[i])
    ensures CleanLines(Terminated(ls)) == ls
  {
    LinesOfTerminated(ls);
    StripNonBlankOfClean(ls);
  }

  lemma CleanLinesOfJoin(ls: seq<string>)
    requires forall i :: 0 <= i < |ls| ==> Clean(ls[i])
    ensures CleanLines(Join(ls, "\n")) == ls
  {
    LinesOfJoin(ls);
    StripNonBlankOfClean(ls);
  }

  /** The same for Rust's line splitting and trimming. */
  lemma {:induction false} RustCleanLinesOfTerminated(ls: seq<string>)
    requires forall i :: 0 <= i < |ls| ==> Clean(ls[i])
    ensures RustCleanLines(Terminated(ls)) == ls
  {
    if ls != [] {
      var l := ls[0];
      var s := Terminated(ls);
      assert s == l + "\n" + Terminated(ls[1..]);
      IndexOfNewlineInPrefixed(l, Terminated(ls[1..]));
      assert s[..|l|] == l;
      assert s[|l| + 1..] == Terminated(ls[1..]);
      assert DropCarriageReturn(l) == l;
      RustTrimOfPythonStripped(l);
      RustCleanLinesOfTerminated(ls[1..]);
      assert RustLines(s) == [l] + RustLines(Terminated(ls[1..]));
    }
  }

  lemma IndexOfNewlineInPrefixed(l: string, rest: string)
    requires NoBreak(l)
    ensures IndexOfChar(l + "\n" + rest, '\n') == |l|
    decreases |l|
  {
    if l != [] {
      assert (l + "\n" + rest)[1..] == l[1..] + "\n" + rest;
      IndexOfNewlineInPrefixed(l[1..], rest);
    }
  }

  // ------------------------------------------------------------------ numbers

  /** Python `s.isdigit()` restricted to ASCII digits: non-empty and all digits. */
  predicate IsDigits(s: string) {
    s != [] && AllDigits(s)
  }

  /** Rust `s.chars().all(|c| c.is_ascii_digit())`: true of the empty string. */
  predicate AllDigits(s: string) {
    forall i :: 0 <= i < |s| ==> IsDigit(s[i])
  }

  /** The value of a string of decimal digits (Python `int(s)`; leading zeros allowed). */
  function DecimalValue(s: string): (v: nat)
    requires AllDigits(s)
    ensures s == [] ==> v == 0
  {
    if s == [] then 0 else 10 * DecimalValue(s[..|s| - 1]) + DigitValue(s[|s| - 1])
  }

  /** `n` written in decimal without leading zeros (Python `str(n)` for n >= 0). */
  function DecimalText(n: nat): (r: string)
    ensures IsDigits(r)
    ensures DecimalValue(r) == n
  {
    if n < 10 then [DigitChar(n)]
    else
      var r := DecimalText(n / 10) + [DigitChar(n % 10)];
      assert r[..|r| - 1] == DecimalText(n / 10);
      r
  }

  /** `n` zero-padded on the left to at least `width` digits (Python `f"{n:0{width}d}"`). */
  function Padded(n: nat, width: nat): (r: string)
    ensures IsDigits(r)
    ensures DecimalValue(r) == n
    ensures |r| >= width
    ensures 1 <= width && n < Pow10(width) ==> |r| == width
  {
    if 1 <= width && n < Pow10(width) then
      DecimalTextLength(n, width);
      PadZeros(DecimalText(n), width)
    else PadZeros(DecimalText(n), width)
  }

  lemma {:induction false} DecimalTextLength(n: nat, w: nat)
    requires 1 <= w && n < Pow10(w)
    ensures |DecimalText(n)| <= w
    decreases w
  {
    if n >= 10 {
      assert Pow10(1) == 10;
      assert w >= 2;
      assert n / 10 < Pow10(w - 1);
      DecimalTextLength(n / 10, w - 1);
    }
  }

  /** In digits followed by `c` and more, the first `c` sits right after the digits. */
  lemma IndexOfCharAfterDigits(digits: string, c: char, rest: string)
    requires AllDigits(digits) && !IsDigit(c)
    ensures IndexOfChar(digits + [c] + rest, c) == |digits|
    decreases |digits|
  {
    if digits != [] {
      assert (digits + [c] + rest)[1..] == digits[1..] + [c] + rest;
      IndexOfCharAfterDigits(digits[1..], c, rest);
    }
  }

  function PadZeros(s: string, width: nat): (r: string)
    requires IsDigits(s)
    ensures IsDigits(r) && DecimalValue(r) == DecimalValue(s)
    ensures |r| == if |s| >= width then |s| else width
    decreases width - |s|
  {
    if |s| >= width then s
    else
      LeadingZero(s);
      PadZeros("0" + s, width)
  }

  lemma {:induction false} LeadingZero(s: string)
    requires AllDigits(s)
    ensures AllDigits("0" + s) && DecimalValue("0" + s) == DecimalValue(s)
    decreases |s|
  {
    if s != [] {
      var z := "0" + s;
      assert z[..|z| - 1] == "0" + s[..|s| - 1];
      LeadingZero(s[..|s| - 1]);
    }
  }

  lemma {:induction false} DecimalValueAppend(a: string, b: string)
    requires AllDigits(a) && AllDigits(b)
    ensures AllDigits(a + b)
    ensures DecimalValue(a + b) == DecimalValue(a) * Pow10(|b|) + DecimalValue(b)
    decreases |b|
  {
    if b == [] {
      assert a + b == a;
    } else {
      var ab := a + b;
      var b' := b[..|b| - 1];
      var d := DigitValue(b[|b| - 1]);
      assert ab[..|ab| - 1] == a + b';
      assert ab[|ab| - 1] == b[|b| - 1];
      DecimalValueAppend(a, b');
      var va, p, vb' := DecimalValue(a), Pow10(|b'|), DecimalValue(b');
      assert DecimalValue(b) == 10 * vb' + d;
      assert Pow10(|b|) == 10 * p;
      assert DecimalValue(ab) == 10 * (va * p + vb') + d;
      MulTen(va, p);
    }
  }

  lemma MulTen(x: int, y: int)
    ensures 10 * (x * y) == x * (10 * y)
  {
  }

  /** At most two digits make a number below one hundred. */
  lemma TwoDigitsBelowHundred(s: string)
    requires AllDigits(s) && |s| <= 2
    ensures DecimalValue(s) < 100
  {
    DecimalValueBound(s);
    assert Pow10(2) == 100 && Pow10(1) == 10 && Pow10(0) == 1;
  }

  lemma DecimalValueBound(s: string)
    requires AllDigits(s)
    ensures DecimalValue(s) < Pow10(|s|)
  {
    if s != [] {
      DecimalValueBound(s[..|s| - 1]);
    }
  }

  function Pow10(k: nat): (p: nat)
    ensures p >= 1
  {
    if k == 0 then 1 else 10 * Pow10(k - 1)
  }
}

=== FILE: tle_text.dfy ===
/** `tle_fetcher/tle.py`: the NORAD checksum, the catalog-number field, the
    search for the element-line pair in a payload and the first TLE parser.
    The checksum, catalog-number and pair-search rules are written once here;
    the other parsers (`tle_fetcher/core.py`, `tle_fetcher/core/python_impl.py`
    and the Rust core) repeat them and import these definitions. */
module TleText {
  import opened Basics
  import opened Text
  import opened Json
  import opened TleTypes
  import UrlEncode

  // ------------------------------------------------------------------ checksum

  /** What a character adds to the checksum: a digit its value, a minus sign one. */
  function Weight(c: char): (w: nat)
    ensures w < 10
    ensures !IsDigit(c) && c != '-' ==> w == 0
  {
    if IsDigit(c) then DigitValue(c) else if c == '-' then 1 else 0
  }

  /** The checksum total of `s`: the weights of its characters added up. */
  function DigitSum(s: string): nat {
    if s == [] then 0 else DigitSum(s[..|s| - 1]) + Weight(s[|s| - 1])
  }

  lemma {:induction false} DigitSumAppend(a: string, b: string)
    ensures DigitSum(a + b) == DigitSum(a) + DigitSum(b)
    decreases |b|
  {
    if b == [] {
      assert a + b == a;
    } else {
      assert (a + b)[..|a + b| - 1] == a + b[..|b| - 1];
      DigitSumAppend(a, b[..|b| - 1]);
    }
  }

  /** One more character adds its weight. */
  lemma DigitSumSnoc(s: string, c: char)
    ensures DigitSum(s + [c]) == DigitSum(s) + Weight(c)
  {
    assert (s + [c])[..|s|] == s;
  }

  /** The checksum rule: after dropping trailing whitespace the line ends in a
      digit, and that digit is the total of the characters before it modulo 10.
      Python's `rstrip` and Rust's `trim_end` differ only in which characters
      count as whitespace. */
  predicate ChecksumOk(f: Flavor, line: string) {
    var t := TrimEnd(f, line);
    t != [] && IsDigit(t[|t| - 1]) && DigitSum(t[..|t| - 1]) % 10 == DigitValue(t[|t| - 1])
  }

  /** `tle_checksum_ok` / `checksum_inner`: drops trailing whitespace, then adds up the
      weights of every character before the last in one pass. */
  method Checksum(f: Flavor, line: string) returns (ok: bool)
    ensures ok == ChecksumOk(f, line)
  {
    var n := |line|;
    assert line[..n] == line;
    while n > 0 && IsSpace(f, line[n - 1])
      invariant 0 <= n <= |line|
      invariant TrimEnd(f, line[..n]) == TrimEnd(f, line)
    {
      assert line[..n][..n - 1] == line[..n - 1];
      n := n - 1;
    }
    ghost var t := line[..n];
    assert TrimEnd(f, line) == t;
    if n == 0 || !IsDigit(line[n - 1]) {
      return false;
    }
    var total := 0;
    var i := 0;
    while i < n - 1
      invariant 0 <= i <= n - 1
      invariant total == DigitSum(line[..i])
    {
      assert line[..i + 1][..i] == line[..i];
      total := total + Weight(line[i]);
      i := i + 1;
    }
    assert t[..n - 1] == line[..n - 1] && t[n - 1] == line[n - 1];
    ok := total % 10 == DigitValue(line[n - 1]);
  }

  /** Appending the check digit of a body makes a line that passes the checksum. */
  lemma CheckDigitCompletes(f: Flavor, body: string)
    ensures ChecksumOk(f, body + [DigitChar(DigitSum(body) % 10)])
  {
    var line := body + [DigitChar(DigitSum(body) % 10)];
    assert line[..|line| - 1] == body;
  }

  /** Replacing the check digit of a line that passes the checksum with any
      other digit makes it fail. */
  lemma CheckDigitChangeDetected(f: Flavor, line: string, c: char)
    requires ChecksumOk(f, line)
    requires IsDigit(c) && c != line[|TrimEnd(f, line)| - 1]
    ensures !ChecksumOk(f, line[|TrimEnd(f, line)| - 1 := c])
  {
    var t := TrimEnd(f, line);
    var i := |t| - 1;
    TrimEndUpdate(f, line, i, c);
    var t' := TrimEnd(f, line[i := c]);
    assert t' == t[i := c];
    assert t'[..i] == t[..i];
    assert t'[i] == c;
  }

  /** Changing a single digit before the check digit to a different digit
      always breaks the checksum. */
  lemma DigitChangeDetected(f: Flavor, line: string, i: nat, c: char)
    requires ChecksumOk(f, line)
    requires i < |TrimEnd(f, line)| - 1
    requires IsDigit(line[i]) && IsDigit(c) && c != line[i]
    ensures !ChecksumOk(f, line[i := c])
  {
    var t := TrimEnd(f, line);
    TrimEndUpdate(f, line, i, c);
    var t' := TrimEnd(f, line[i := c]);
    var body := t[..|t| - 1];
    assert t'[..|t'| - 1] == body[i := c];
    assert t'[|t'| - 1] == t[|t| - 1];
    DigitSumUpdate(body, i, c);
    assert body[i] == line[i];
    ModMoves(DigitSum(body), DigitValue(c) - DigitValue(line[i]));
  }

  /** Adding a non-zero amount under ten in size changes a total modulo 10. */
  lemma ModMoves(total: int, delta: int)
    requires -10 < delta < 10 && delta != 0
    ensures (total + delta) % 10 != total % 10
  {
  }

  lemma DigitSumUpdate(s: string, i: nat, c: char)
    requires i < |s|
    ensures DigitSum(s[i := c]) == DigitSum(s) - Weight(s[i]) + Weight(c)
  {
    var pre := s[..i];
    var post := s[i + 1..];
    assert s == pre + [s[i]] + post;
    assert s[i := c] == pre + [c] + post;
    DigitSumAppend(pre + [s[i]], post);
    DigitSumAppend(pre, [s[i]]);
    DigitSumAppend(pre + [c], post);
    DigitSumAppend(pre, [c]);
    assert [s[i]][..0] == [] == [c][..0];
  }

  /** Overwriting a character before the last non-blank one with a non-blank
      character commutes with trimming. */
  lemma {:induction false} TrimEndUpdate(f: Flavor, s: string, i: nat, c: char)
    requires i < |TrimEnd(f, s)|
    requires !IsSpace(f, c)
    ensures TrimEnd(f, s[i := c]) == TrimEnd(f, s)[i := c]
    decreases |s|
  {
    if s != [] && IsSpace(f, s[|s| - 1]) {
      assert s[i := c][..|s| - 1] == s[..|s| - 1][i := c];
      TrimEndUpdate(f, s[..|s| - 1], i, c);
    }
  }

  // ------------------------------------------------------- catalog number

  /** The catalog-number field, columns 3-7 of a line with surrounding blanks
      removed: Python `line[2:7].strip()` counts code points and clamps short
      lines; Rust `line.get(2..7).unwrap_or("").trim()` counts UTF-8 bytes and
      gives the empty field when the line is shorter or byte 2 or 7 falls
      inside a character. */
  function Catnum(f: Flavor, line: string): (r: string)
    ensures |r| <= 5
    ensures ((f == Python || UrlEncode.AsciiUpTo(line, 7)) && |line| >= 7
             && (forall k :: 2 <= k < 7 ==> !IsSpace(f, line[k]))) ==> r == line[2..7]
  {
    var field := if f == Python then Slice(line, 2, 7) else UrlEncode.ByteSlice(line, 2, 7).GetOr([]);
    AsciiField(f, line);
    TrimOfSolid(f, field);
    Trim(f, field)
  }

  lemma AsciiField(f: Flavor, line: string)
    ensures f == Rust && UrlEncode.AsciiUpTo(line, 7) ==> UrlEncode.ByteSlice(line, 2, 7) == Some(line[2..7])
  {
    if f == Rust && UrlEncode.AsciiUpTo(line, 7) {
      UrlEncode.AsciiByteSlice(line, 2, 7);
    }
  }

  // ------------------------------------------------------------ pair search

  /** The title and the two element lines a parser settles on. */
  datatype Pair = Pair(name: Option<string>, line1: string, line2: string)

  predicate LooksLikeLine(s: string) {
    StartsWith(s, "1 ") || StartsWith(s, "2 ")
  }

  /** Line `i` starts with "1 " and the next one with "2 ". */
  predicate PairAt(lines: seq<string>, i: nat) {
    i + 1 < |lines| && StartsWith(lines[i], "1 ") && StartsWith(lines[i + 1], "2 ")
  }

  /** The line before `i` is the title unless it is missing or looks like an element line itself. */
  function NameBefore(lines: seq<string>, i: nat): Option<string>
    requires i < |lines|
  {
    if i > 0 && !LooksLikeLine(lines[i - 1]) then Some(lines[i - 1]) else None
  }

  function FirstPairFrom(lines: seq<string>, from: nat): (k: nat)
    requires from <= |lines|
    ensures from <= k <= |lines|
    ensures k < |lines| ==> PairAt(lines, k)
    ensures forall j: nat :: from <= j < k ==> !PairAt(lines, j)
    decreases |lines| - from
  {
    if from == |lines| || PairAt(lines, from) then from else FirstPairFrom(lines, from + 1)
  }

  /** The scan every parser starts with: the first position holding a "1 "
      line directly followed by a "2 " line, with the title before it. */
  function FindPair(lines: seq<string>): (r: Option<Pair>)
    ensures r.None? <==> forall i: nat :: !PairAt(lines, i)
    ensures r.Some? ==> exists i: nat :: PairAt(lines, i) && (forall j: nat :: j < i ==> !PairAt(lines, j)) &&
                                         r.value == Pair(NameBefore(lines, i), lines[i], lines[i + 1])
  {
    var k := FirstPairFrom(lines, 0);
    if k == |lines| then
      assert forall i: nat :: !PairAt(lines, i) by {
        forall i: nat ensures !PairAt(lines, i) {
          if i < |lines| {
            assert 0 <= i < k;
          }
        }
      }
      None
    else Some(Pair(NameBefore(lines, k), lines[k], lines[k + 1]))
  }

  // ---------------------------------------------------------------- validity

  /** Both element lines carry their prefixes, pass the checksum and name the
      same catalog number. */
  predicate WellFormedLines(f: Flavor, line1: string, line2: string) {
    StartsWith(line1, "1 ") && StartsWith(line2, "2 ")
    && ChecksumOk(f, line1) && ChecksumOk(f, line2)
    && Catnum(f, line1) == Catnum(f, line2)
  }

  /** The first of the three line checks that fails, in the order every parser makes them. */
  function FirstDefect(f: Flavor, line1: string, line2: string): (r: Option<ParseError>)
    ensures r.None? <==> WellFormedLines(f, line1, line2)
    ensures r == Some(BadPrefix) <==> !(StartsWith(line1, "1 ") && StartsWith(line2, "2 "))
    ensures r == Some(ChecksumFailed) ==> StartsWith(line1, "1 ") && StartsWith(line2, "2 ")
    ensures r == Some(CatalogMismatch) ==> ChecksumOk(f, line1) && ChecksumOk(f, line2)
    ensures r.Some? ==> r.value in {BadPrefix, ChecksumFailed, CatalogMismatch}
  {
    if !(StartsWith(line1, "1 ") && StartsWith(line2, "2 ")) then Some(BadPrefix)
    else if !ChecksumOk(f, line1) || !ChecksumOk(f, line2) then Some(ChecksumFailed)
    else if Catnum(f, line1) != Catnum(f, line2) then Some(CatalogMismatch)
    else None
  }

  // --------------------------------------------------------------- parsing

  /** The title a decoded JSON object supplies (`data.get("name")`): absent or
      null means none; other non-string values are kept as their `str()` text. */
  function JsonName(name: Option<Json>): (r: Option<string>)
    ensures name.None? || name == Some(JNull) <==> r.None?
    ensures name.Some? && name.value.JStr? ==> r == Some(name.value.s)
  {
    match name
    case None => None
    case Some(JNull) => None
    case Some(v) => Some(PyStr(v))
  }

  /** The fallback of `parse_tle_text`: a JSON object with `line1` and `line2`
      members, each coerced with `str()`. */
  function JsonPair(json: Option<Json>): (r: Result<Pair, ParseError>)
    ensures r.Err? ==> r.error == NoLinePair
    ensures r.Ok? <==> json.Some? && json.value.JObj? && HasKey(json.value.fields, "line1") && HasKey(json.value.fields, "line2")
    ensures r.Ok? ==> (r.value.line1 == PyStr(Get(json.value.fields, "line1").value) &&
                       r.value.line2 == PyStr(Get(json.value.fields, "line2").value))
  {
    match json
    case None => Err(NoLinePair)
    case Some(data) =>
      if data.JObj? && HasKey(data.fields, "line1") && HasKey(data.fields, "line2") then
        Ok(Pair(JsonName(Get(data.fields, "name")),
                PyStr(Get(data.fields, "line1").value),
                PyStr(Get(data.fields, "line2").value)))
      else Err(NoLinePair)
  }

  /** The pair found in the cleaned lines, else the JSON members. */
  function LocatePair(lines: seq<string>, json: Option<Json>): Result<Pair, ParseError> {
    match FindPair(lines)
    case Some(p) => Ok(p)
    case None => JsonPair(json)
  }

  /** `parse_tle_text(norad_id, text, source)`. The requested identifier is
      copied into the record unchecked: the comparison with the catalog
      number raises inside a `try` whose handler swallows it. */
  function ParseTleText(noradId: string, payload: Payload, source: string): (r: Result<Tle, ParseError>)
    ensures r == Err(EmptyPayload) <==> CleanLines(payload.text) == []
    ensures r.Ok? ==> WellFormedLines(Python, r.value.line1, r.value.line2)
    ensures r.Ok? ==> r.value.noradId == noradId && r.value.source == source
    ensures r.Err? ==> r.error in {EmptyPayload, NoLinePair, BadPrefix, ChecksumFailed, CatalogMismatch}
    ensures FindPair(CleanLines(payload.text)).Some? ==>
      var p := FindPair(CleanLines(payload.text)).value;
      (r.Ok? <==> WellFormedLines(Python, p.line1, p.line2)) &&
      (r.Ok? ==> r.value == Tle(noradId, p.name, p.line1, p.line2, source))
  {
    var lines := CleanLines(payload.text);
    if lines == [] then Err(EmptyPayload)
    else
      var pair :- LocatePair(lines, payload.json);
      match FirstDefect(Python, pair.line1, pair.line2)
      case Some(e) => Err(e)
      case None => Ok(Tle(noradId, pair.name, pair.line1, pair.line2, source))
  }

  /** `TLE.as_text` of this module: `"\n".join(lines) + "\n"`. It writes the
      same text as the record class of `tle_fetcher/core/types.py`. */
  function AsTextJoined(t: Tle, includeName: bool): (r: string)
    ensures r == AsText(t, includeName)
  {
    var shown := ShownLines(t, includeName);
    JoinThenNewline(shown);
    AsTextIsTerminated(t, includeName);
    Join(shown, "\n") + "\n"
  }

  lemma AsTextIsTerminated(t: Tle, threeLine: bool)
    ensures AsText(t, threeLine) == Terminated(ShownLines(t, threeLine))
  {
    var shown := ShownLines(t, threeLine);
    if |shown| == 3 {
      assert Terminated(shown[2..]) == shown[2] + "\n";
      assert Terminated(shown[1..]) == shown[1] + "\n" + shown[2] + "\n";
    } else {
      assert Terminated(shown[1..]) == shown[1] + "\n";
    }
  }

  // ------------------------------------------------------------- round trip

  /** A record `as_text` can write and a parser can read back unchanged: clean
      well-formed lines and a clean title that does not look like an element line. */
  predicate Printable(t: Tle) {
    CleanFields(t) && WellFormedLines(Python, t.line1, t.line2)
  }

  /** Every line of the record is clean and the title does not look like an element line. */
  predicate CleanFields(t: Tle) {
    Clean(t.line1) && Clean(t.line2) && (t.name.None? || (Clean(t.name.value) && !LooksLikeLine(t.name.value)))
  }

  /** What the pair search makes of the lines `as_text` writes. */
  lemma FindPairOfShown(t: Tle, threeLine: bool)
    requires CleanFields(t) && StartsWith(t.line1, "1 ") && StartsWith(t.line2, "2 ")
    ensures FindPair(ShownLines(t, threeLine)) == Some(Pair(if threeLine then t.name else None, t.line1, t.line2))
  {
    var shown := ShownLines(t, threeLine);
    if |shown| == 3 {
      assert !PairAt(shown, 0) by {
        StartsWithFirst(t.line1, "2 ");
      }
      assert PairAt(shown, 1);
      var p := FindPair(shown).value;
      var i: nat :| PairAt(shown, i) && (forall j: nat :: j < i ==> !PairAt(shown, j)) &&
                    p == Pair(NameBefore(shown, i), shown[i], shown[i + 1]);
      assert i == 1;
    } else {
      assert PairAt(shown, 0);
      var p := FindPair(shown).value;
      var i: nat :| PairAt(shown, i) && (forall j: nat :: j < i ==> !PairAt(shown, j)) &&
                    p == Pair(NameBefore(shown, i), shown[i], shown[i + 1]);
      assert i == 0;
    }
  }

  /** Parsing what `as_text` wrote gives the record back, whatever the JSON
      decoder makes of the text; without the title line the name is lost. */
  lemma ParseAsText(t: Tle, threeLine: bool, json: Option<Json>)
    requires Printable(t)
    ensures ParseTleText(t.noradId, Payload(AsText(t, threeLine), json), t.source)
         == Ok(if threeLine then t else t.(name := None))
  {
    var shown := ShownLines(t, threeLine);
    var text := AsText(t, threeLine);
    var p := Pair(if threeLine then t.name else None, t.line1, t.line2);
    AsTextIsTerminated(t, threeLine);
    ShownLinesClean(t, threeLine);
    CleanLinesOfTerminated(shown);
    assert CleanLines(text) == shown;
    FindPairOfShown(t, threeLine);
    ParseFound(t.noradId, Payload(text, json), t.source, p);
    assert Tle(t.noradId, p.name, p.line1, p.line2, t.source) == if threeLine then t else t.(name := None);
  }

  lemma ShownLinesClean(t: Tle, threeLine: bool)
    requires CleanFields(t)
    ensures forall i :: 0 <= i < |ShownLines(t, threeLine)| ==> Clean(ShownLines(t, threeLine)[i])
  {
  }

  lemma ParseFound(noradId: string, payload: Payload, source: string, p: Pair)
    requires FindPair(CleanLines(payload.text)) == Some(p)
    requires WellFormedLines(Python, p.line1, p.line2)
    ensures ParseTleText(noradId, payload, source) == Ok(Tle(noradId, p.name, p.line1, p.line2, source))
  {
  }

  /** The JSON view of a payload is consulted only when its text holds no line pair. */
  lemma TextPairWins(noradId: string, text: string, j1: Option<Json>, j2: Option<Json>, source: string)
    requires FindPair(CleanLines(text)).Some?
    ensures ParseTleText(noradId, Payload(text, j1), source) == ParseTleText(noradId, Payload(text, j2), source)
  {
  }
}

=== FILE: tle_types.dfy ===
/** The parsed record shared by every parser (`tle_fetcher/core/types.py`,
    and the identical class of `tle_fetcher/core.py`) and the ways parsing can
    fail. */
module TleTypes {
  import opened Basics
  import opened Text

  /** A two-line element set. `name` is the optional title line; `source`
      names the provider the record came from. */
  datatype Tle = Tle(noradId: string, name: Option<string>, line1: string, line2: string, source: string)

  /** Why a payload was rejected. `NotAString` is the `AttributeError` the
      legacy parser raises when a JSON line is not a string. */
  datatype ParseError =
    | EmptyPayload
    | NoLinePair
    | EmptyLine
    | BadPrefix
    | ChecksumFailed
    | CatalogMismatch
    | IdentityMismatch
    | NotAString

  /** The lines `as_text` writes: the title when asked for and non-empty, then both element lines. */
  function ShownLines(t: Tle, threeLine: bool): (r: seq<string>)
    ensures 2 <= |r| <= 3
    ensures r[|r| - 2] == t.line1 && r[|r| - 1] == t.line2
    ensures |r| == 3 <==> threeLine && t.name.Some? && t.name.value != []
    ensures |r| == 3 ==> r[0] == t.name.value
  {
    if threeLine && t.name.Some? && t.name.value != [] then [t.name.value, t.line1, t.line2]
    else [t.line1, t.line2]
  }

  /** `TLE.as_text`: the shown lines, each terminated by a newline. */
  function AsText(t: Tle, threeLine: bool): (r: string)
    ensures r != [] && r[|r| - 1] == '\n'
    ensures !threeLine || t.name.None? ==> r == t.line1 + "\n" + t.line2 + "\n"
  {
    if threeLine && t.name.Some? && t.name.value != [] then t.name.value + "\n" + t.line1 + "\n" + t.line2 + "\n"
    else t.line1 + "\n" + t.line2 + "\n"
  }

  /** Splitting `as_text` at line boundaries gives back exactly the shown lines,
      provided none of them contains a line break itself. */
  lemma AsTextLines(t: Tle, threeLine: bool)
    requires forall i :: 0 <= i < |ShownLines(t, threeLine)| ==> NoBreak(ShownLines(t, threeLine)[i])
    ensures Lines(AsText(t, threeLine)) == ShownLines(t, threeLine)
  {
    var shown := ShownLines(t, threeLine);
    assert AsText(t, threeLine) == Terminated(shown) by {
      if |shown| == 3 {
        assert Terminated(shown[2..]) == shown[2] + "\n";
        assert Terminated(shown[1..]) == shown[1] + "\n" + shown[2] + "\n";
      } else {
        assert Terminated(shown[1..]) == shown[1] + "\n";
      }
    }
    LinesOfTerminated(shown);
  }
}

=== FILE: url_encode.dfy ===
/** The piece of `urllib.parse` the CelesTrak feed uses to build its query
    string: `quote_plus` and `urlencode`, and `unquote_to_bytes` after
    `+` is read back as a space, the inverse a server applies. Bytes are
    integers in 0..255. */
module UrlEncode {
  import opened Basics
  import opened Text

  /** The characters `quote_plus` never escapes. */
  predicate Unreserved(c: char) {
    ('A' <= c <= 'Z') || ('a' <= c <= 'z') || ('0' <= c <= '9') || c == '_' || c == '.' || c == '-' || c == '~'
  }

  predicate IsByte(b: int) { 0 <= b < 256 }

  /** The UTF-8 encoding of one character. */
  function Utf8(c: char): (bs: seq<int>)
    ensures 1 <= |bs| <= 4
    ensures forall i :: 0 <= i < |bs| ==> IsByte(bs[i])
    ensures c as int < 0x80 <==> |bs| == 1
    ensures c as int < 0x80 ==> bs == [c as int]
  {
    var n := c as int;
    if n < 0x80 then [n]
    else if n < 0x800 then [0xC0 + n / 64, 0x80 + n % 64]
    else if n < 0x10000 then [0xE0 + n / 4096, 0x80 + n / 64 % 64, 0x80 + n % 64]
    else [0xF0 + n / 262144, 0x80 + n / 4096 % 64, 0x80 + n / 64 % 64, 0x80 + n % 64]
  }

  /** The number of UTF-8 bytes of `c`, decided by comparisons alone. */
  function Width(c: char): nat {
    if c as int < 0x80 then 1 else if c as int < 0x800 then 2 else if c as int < 0x10000 then 3 else 4
  }

  lemma WidthIsLength(c: char)
    ensures |Utf8(c)| == Width(c)
  {
  }

  /** `s.encode("utf-8")`. */
  function Utf8Of(s: string): seq<int> {
    if s == [] then [] else Utf8(s[0]) + Utf8Of(s[1..])
  }

  // ------------------------------------------------ Rust byte-offset slices

  /** The first `n` characters of `s` are ASCII, so each is one byte. */
  predicate AsciiUpTo(s: string, n: nat) {
    n <= |s| && forall k :: 0 <= k < n ==> s[k] as int < 0x80
  }

  /** Rust `s.get(lo..hi)`, whose offsets count the UTF-8 bytes of `s`: the
      characters whose encoding is exactly bytes `lo` to `hi`, or none when
      `hi` is past the end or either offset falls inside a character
      (`ByteSliceBytes`). */
  function ByteSlice(s: string, lo: nat, hi: nat): (r: Option<string>)
    requires lo <= hi
    ensures r.Some? ==> |r.value| <= hi - lo
    decreases |s|
  {
    if lo == 0 then ByteTake(s, hi)
    else if s == [] || Width(s[0]) > lo then None
    else ByteSlice(s[1..], lo - Width(s[0]), hi - Width(s[0]))
  }

  /** The characters whose encoding is exactly the first `n` bytes of `s`. */
  function ByteTake(s: string, n: nat): (r: Option<string>)
    ensures r.Some? ==> |r.value| <= n
    decreases |s|
  {
    if n == 0 then Some([])
    else if s == [] || Width(s[0]) > n then None
    else
      match ByteTake(s[1..], n - Width(s[0]))
      case None => None
      case Some(t) => Some([s[0]] + t)
  }

  /** The bytes of the first character alone are that character. */
  lemma FirstCharTake(s: string)
    requires s != []
    ensures ByteTake(s, Width(s[0])) == Some([s[0]])
  {
    assert ByteTake(s[1..], 0) == Some([]);
    assert [s[0]] + [] == [s[0]];
  }

  /** What a byte slice yields encodes to exactly the bytes `lo` to `hi`. */
  lemma {:induction false} ByteSliceBytes(s: string, lo: nat, hi: nat)
    requires lo <= hi
    ensures ByteSlice(s, lo, hi).Some? ==>
      hi <= |Utf8Of(s)| && Utf8Of(ByteSlice(s, lo, hi).value) == Utf8Of(s)[lo..hi]
    decreases |s|
  {
    if lo == 0 {
      ByteTakeBytes(s, hi);
    } else if s != [] && Width(s[0]) <= lo {
      var w := Width(s[0]);
      WidthIsLength(s[0]);
      ByteSliceBytes(s[1..], lo - w, hi - w);
      assert Utf8Of(s) == Utf8(s[0]) + Utf8Of(s[1..]);
      if ByteSlice(s, lo, hi).Some? {
        assert Utf8Of(s)[lo..hi] == Utf8Of(s[1..])[lo - w..hi - w];
      }
    }
  }

  /** What a byte prefix yields encodes to exactly the first `n` bytes. */
  lemma {:induction false} ByteTakeBytes(s: string, n: nat)
    ensures ByteTake(s, n).Some? ==> n <= |Utf8Of(s)| && Utf8Of(ByteTake(s, n).value) == Utf8Of(s)[..n]
    decreases |s|
  {
    if n > 0 && s != [] && Width(s[0]) <= n {
      var w := Width(s[0]);
      WidthIsLength(s[0]);
      ByteTakeBytes(s[1..], n - w);
      match ByteTake(s[1..], n - w)
      case None =>
      case Some(t) =>
        assert Utf8Of(s) == Utf8(s[0]) + Utf8Of(s[1..]);
        assert ([s[0]] + t)[0] == s[0] && ([s[0]] + t)[1..] == t;
        assert Utf8Of([s[0]] + t) == Utf8(s[0]) + Utf8Of(t);
        assert Utf8Of(s)[..n] == Utf8(s[0]) + Utf8Of(s[1..])[..n - w];
    }
  }

  /** Over ASCII text bytes and characters coincide: the byte slice is the
      character slice. */
  lemma AsciiByteSlice(s: string, lo: nat, hi: nat)
    requires lo <= hi && AsciiUpTo(s, hi)
    ensures ByteSlice(s, lo, hi) == Some(s[lo..hi])
  {
    AsciiPrefixByteSlice(s, lo, hi);
    assert AsciiUpTo(s[lo..], hi - lo) by {
      forall k | 0 <= k < hi - lo ensures s[lo..][k] as int < 0x80 {
        assert s[lo..][k] == s[lo + k];
      }
    }
    AsciiByteTake(s[lo..], hi - lo);
    assert s[lo..][..hi - lo] == s[lo..hi];
  }

  lemma {:induction false} AsciiByteTake(s: string, n: nat)
    requires AsciiUpTo(s, n)
    ensures ByteTake(s, n) == Some(s[..n])
    decreases n
  {
    if n > 0 {
      assert Width(s[0]) == 1;
      assert AsciiUpTo(s[1..], n - 1) by {
        forall k | 0 <= k < n - 1 ensures s[1..][k] as int < 0x80 {
          assert s[1..][k] == s[k + 1];
        }
      }
      AsciiByteTake(s[1..], n - 1);
      assert [s[0]] + s[1..][..n - 1] == s[..n];
    }
  }

  /** Past an ASCII prefix a byte slice starts where the characters do. */
  lemma {:induction false} AsciiPrefixByteSlice(s: string, lo: nat, hi: nat)
    requires lo <= hi && AsciiUpTo(s, lo)
    ensures ByteSlice(s, lo, hi) == ByteTake(s[lo..], hi - lo)
    decreases lo
  {
    if lo > 0 {
      assert Width(s[0]) == 1;
      assert AsciiUpTo(s[1..], lo - 1) by {
        forall k | 0 <= k < lo - 1 ensures s[1..][k] as int < 0x80 {
          assert s[1..][k] == s[k + 1];
        }
      }
      AsciiPrefixByteSlice(s[1..], lo - 1, hi - 1);
      assert s[1..][lo - 1..] == s[lo..];
    }
  }

  /** Taking bytes across an ASCII prefix keeps the prefix and takes the rest
      from what follows it ... */
  lemma AsciiPrefixTakeSome(s: string, k: nat, n: nat, rest: string)
    requires k <= n && AsciiUpTo(s, k) && ByteTake(s[k..], n - k) == Some(rest)
    ensures ByteTake(s, n) == Some(s[..k] + rest)
  {
    assert s == s[..k] + s[k..];
    AsciiConsTake(s[..k], s[k..], n - k, rest);
  }

  lemma {:induction false} AsciiConsTake(p: string, q: string, m: nat, rest: string)
    requires forall j :: 0 <= j < |p| ==> p[j] as int < 0x80
    requires ByteTake(q, m) == Some(rest)
    ensures ByteTake(p + q, |p| + m) == Some(p + rest)
    decreases |p|
  {
    if p == [] {
      assert p + q == q && p + rest == rest;
    } else {
      forall j | 0 <= j < |p| - 1 ensures p[1..][j] as int < 0x80 {
        assert p[1..][j] == p[j + 1];
      }
      AsciiConsTake(p[1..], q, m, rest);
      ConsTakeStep(p, q, |p| + m, rest);
    }
  }

  lemma ConsTakeStep(p: string, q: string, n: nat, rest: string)
    requires p != [] && p[0] as int < 0x80 && n >= 1
    requires ByteTake(p[1..] + q, n - 1) == Some(p[1..] + rest)
    ensures ByteTake(p + q, n) == Some(p + rest)
  {
    assert (p + q)[0] == p[0] && (p + q)[1..] == p[1..] + q;
    OneByteTake(p + q, n, p[1..] + rest);
    assert p + rest == [p[0]] + (p[1..] + rest);
  }

  /** A one-byte first character is taken by itself. */
  lemma OneByteTake(s: string, n: nat, t: string)
    requires s != [] && s[0] as int < 0x80 && n >= 1 && ByteTake(s[1..], n - 1) == Some(t)
    ensures ByteTake(s, n) == Some([s[0]] + t)
  {
    assert Width(s[0]) == 1;
  }

  /** ... and fails when what follows the prefix does not end on `n`. */
  lemma {:induction false} AsciiPrefixTakeNone(s: string, k: nat, n: nat)
    requires k <= n && AsciiUpTo(s, k) && ByteTake(s[k..], n - k) == None
    ensures ByteTake(s, n) == None
    decreases k
  {
    if k == 0 {
      assert s[k..] == s;
    } else {
      var tail := s[1..];
      AsciiTail(s, k);
      assert tail[k - 1..] == s[k..];
      AsciiPrefixTakeNone(tail, k - 1, n - 1);
      assert Width(s[0]) == 1;
    }
  }

  lemma AsciiTail(s: string, k: nat)
    requires k > 0 && AsciiUpTo(s, k)
    ensures AsciiUpTo(s[1..], k - 1)
  {
    forall j | 0 <= j < k - 1 ensures s[1..][j] as int < 0x80 {
      assert s[1..][j] == s[j + 1];
    }
  }

  /** An upper-case hexadecimal digit, as `%XX` escapes are written. */
  function HexDigit(d: int): (c: char)
    requires 0 <= d < 16
    ensures IsHex(c) && HexValue(c) == d
  {
    if d < 10 then ('0' as int + d) as char else ('A' as int + d - 10) as char
  }

  /** Every byte as `%XX`. */
  function Percents(bs: seq<int>): (r: string)
    requires forall i :: 0 <= i < |bs| ==> IsByte(bs[i])
    ensures |r| == 3 * |bs|
    ensures forall i :: 0 <= i < |r| ==> r[i] == '%' || (IsHex(r[i]) && 'a' > r[i])
  {
    if bs == [] then []
    else
      var b := bs[0];
      assert IsByte(b);
      ByteDigits(b);
      ['%', HexDigit(b / 16), HexDigit(b % 16)] + Percents(bs[1..])
  }

  lemma ByteDigits(b: int)
    requires IsByte(b)
    ensures 0 <= b / 16 < 16 && 0 <= b % 16 < 16 && (b / 16) * 16 + b % 16 == b
  {
  }

  /** The characters `quote_plus` can write. */
  predicate Quoted(c: char) {
    Unreserved(c) || c == '+' || c == '%'
  }

  /** `quote_plus` of one character: unreserved characters stay, a space
      becomes `+`, anything else is its UTF-8 bytes as `%XX` escapes. */
  function QuoteChar(c: char): (r: string)
    ensures r != []
    ensures forall i :: 0 <= i < |r| ==> Quoted(r[i])
    ensures Unreserved(c) ==> r == [c]
  {
    if Unreserved(c) then [c]
    else if c == ' ' then "+"
    else Percents(Utf8(c))
  }

  /** `urllib.parse.quote_plus(s)`. */
  function QuotePlus(s: string): (r: string)
    ensures forall i :: 0 <= i < |r| ==> Quoted(r[i])
  {
    if s == [] then [] else QuoteChar(s[0]) + QuotePlus(s[1..])
  }

  /** `urllib.parse.unquote_to_bytes(s.replace("+", " "))`: what a server
      reads back from a query value. */
  function UnquotePlusBytes(s: string): seq<int>
    decreases |s|
  {
    if s == [] then []
    else if s[0] == '+' then [0x20] + UnquotePlusBytes(s[1..])
    else if s[0] == '%' && |s| >= 3 && IsHex(s[1]) && IsHex(s[2]) then
      [HexValue(s[1]) * 16 + HexValue(s[2])] + UnquotePlusBytes(s[3..])
    else Utf8(s[0]) + UnquotePlusBytes(s[1..])
  }

  /** A text made only of unreserved characters is written as it is. */
  lemma {:induction false} QuotePlusUnreserved(s: string)
    requires forall i :: 0 <= i < |s| ==> Unreserved(s[i])
    ensures QuotePlus(s) == s
  {
    if s != [] {
      QuotePlusUnreserved(s[1..]);
      assert s == [s[0]] + s[1..];
    }
  }

  /** Reading a quoted text back gives exactly the UTF-8 bytes of the
      original: `quote_plus` loses nothing. */
  lemma {:induction false} UnquoteQuotePlus(s: string)
    ensures UnquotePlusBytes(QuotePlus(s)) == Utf8Of(s)
  {
    if s != [] {
      UnquoteQuotePlus(s[1..]);
      UnquoteChar(s[0], QuotePlus(s[1..]));
    }
  }

  lemma UnquoteChar(c: char, rest: string)
    ensures UnquotePlusBytes(QuoteChar(c) + rest) == Utf8(c) + UnquotePlusBytes(rest)
  {
    var q := QuoteChar(c);
    if Unreserved(c) {
      assert (q + rest)[0] == c && (q + rest)[1..] == rest;
    } else if c == ' ' {
      assert (q + rest)[0] == '+' && (q + rest)[1..] == rest;
    } else {
      UnquotePercents(Utf8(c), rest);
    }
  }

  lemma {:induction false} UnquotePercents(bs: seq<int>, rest: string)
    requires forall i :: 0 <= i < |bs| ==> IsByte(bs[i])
    ensures UnquotePlusBytes(Percents(bs) + rest) == bs + UnquotePlusBytes(rest)
  {
    if bs != [] {
      var b := bs[0];
      assert IsByte(b);
      ByteDigits(b);
      var s := Percents(bs) + rest;
      var tail := Percents(bs[1..]) + rest;
      var hi, lo := HexDigit(b / 16), HexDigit(b % 16);
      assert s == ['%', hi, lo] + tail;
      assert s[0] == '%' && s[1] == hi && s[2] == lo && s[3..] == tail;
      assert HexValue(hi) * 16 + HexValue(lo) == b;
      assert UnquotePlusBytes(s) == [b] + UnquotePlusBytes(tail);
      UnquotePercents(bs[1..], rest);
      var u := UnquotePlusBytes(rest);
      ConsAppend(bs, u);
    } else {
      assert Percents(bs) + rest == rest;
    }
  }

  lemma ConsAppend(bs: seq<int>, u: seq<int>)
    requires bs != []
    ensures [bs[0]] + (bs[1..] + u) == bs + u
  {
    assert bs == [bs[0]] + bs[1..];
  }

  /** `urllib.parse.urlencode(params)` for text keys and values, in the
      order given. */
  function UrlEncode(params: seq<(string, string)>): (r: string)
    ensures r == [] <==> params == []
    ensures params != [] ==> QuotePlus(params[0].0) + "=" <= r
  {
    if params == [] then []
    else
      var first := QuotePlus(params[0].0) + "=" + QuotePlus(params[0].1);
      if |params| == 1 then first else first + "&" + UrlEncode(params[1..])
  }

  /** The `key=value` pieces `urlencode` joins with `&`. */
  function Pieces(params: seq<(string, string)>): (r: seq<string>)
    ensures |r| == |params|
    ensures forall k :: 0 <= k < |r| ==> r[k] == QuotePlus(params[k].0) + "=" + QuotePlus(params[k].1)
  {
    seq(|params|, k requires 0 <= k < |params| => QuotePlus(params[k].0) + "=" + QuotePlus(params[k].1))
  }

  lemma {:induction false} UrlEncodeIsJoin(params: seq<(string, string)>)
    ensures UrlEncode(params) == Join(Pieces(params), "&")
  {
    if |params| > 1 {
      UrlEncodeIsJoin(params[1..]);
      assert Pieces(params)[1..] == Pieces(params[1..]);
    }
  }

  /** A query as a server reads it back: split at `&`, each piece split at
      its first `=`, both halves unquoted to bytes. */
  function ParseQuery(q: string): (r: seq<(seq<int>, seq<int>)>)
  {
    var pieces := SplitOn(q, '&');
    seq(|pieces|, k requires 0 <= k < |pieces| => ParsePair(pieces[k]))
  }

  function ParsePair(p: string): (seq<int>, seq<int>) {
    var i := IndexOfChar(p, '=');
    if i == |p| then (UnquotePlusBytes(p), []) else (UnquotePlusBytes(p[..i]), UnquotePlusBytes(p[i + 1..]))
  }

  /** `urlencode` loses nothing: every key and value reads back, in order,
      as its UTF-8 bytes. */
  lemma ParseUrlEncode(params: seq<(string, string)>)
    requires params != []
    ensures |ParseQuery(UrlEncode(params))| == |params|
    ensures forall k :: 0 <= k < |params| ==>
      ParseQuery(UrlEncode(params))[k] == (Utf8Of(params[k].0), Utf8Of(params[k].1))
  {
    var ps := Pieces(params);
    UrlEncodeIsJoin(params);
    forall k | 0 <= k < |ps| ensures '&' !in ps[k] && ParsePair(ps[k]) == (Utf8Of(params[k].0), Utf8Of(params[k].1)) {
      PairReadBack(params[k].0, params[k].1);
    }
    SplitOnJoin(ps, '&');
  }

  /** Two parameters read back as the two pairs, in order. */
  lemma ParseUrlEncodeTwo(k1: string, v1: string, k2: string, v2: string)
    ensures ParseQuery(UrlEncode([(k1, v1), (k2, v2)])) == [(Utf8Of(k1), Utf8Of(v1)), (Utf8Of(k2), Utf8Of(v2))]
  {
    var ps := [(k1, v1), (k2, v2)];
    ParseUrlEncode(ps);
    var r := ParseQuery(UrlEncode(ps));
    assert r[0] == (Utf8Of(ps[0].0), Utf8Of(ps[0].1));
    assert r[1] == (Utf8Of(ps[1].0), Utf8Of(ps[1].1));
    assert |r| == 2;
    SeqOfTwo(r);
  }

  lemma SeqOfTwo<T>(r: seq<T>)
    requires |r| == 2
    ensures r == [r[0], r[1]]
  {
  }

  lemma PairReadBack(key: string, value: string)
    ensures var p := QuotePlus(key) + "=" + QuotePlus(value);
      '&' !in p && ParsePair(p) == (Utf8Of(key), Utf8Of(value))
  {
    var qk, qv := QuotePlus(key), QuotePlus(value);
    var p := qk + "=" + qv;
    QuotedSeparators(key);
    QuotedSeparators(value);
    assert forall i :: 0 <= i < |qk| ==> p[i] == qk[i];
    assert p[|qk|] == '=';
    assert IndexOfChar(p, '=') == |qk|;
    assert p[..|qk|] == qk && p[|qk| + 1..] == qv;
  }

  /** No value written by `urlencode` holds the `&` that separates the
      parameters or the `=` that ends a key, so the query splits back into
      its pairs and each value reads back as written. */
  lemma QuotedSeparators(s: string)
    ensures '&' !in QuotePlus(s) && '=' !in QuotePlus(s)
    ensures UnquotePlusBytes(QuotePlus(s)) == Utf8Of(s)
  {
    UnquoteQuotePlus(s);
  }
}
